=== FILE: README.md ===
# Orgainizer calendar assistant — a Dafny model

Orgainizer is a calendar assistant. An Express back end lists, creates,
updates and deletes Google Calendar events on behalf of a signed-in user. It
asks a Gemini model two things: which date ranges a question needs, and a
streamed reply that may carry calendar actions. It also turns text into WAV
speech. A React front end shows the calendar and its create and edit forms. A
chat panel reads the assistant's event stream and runs the actions it
contains.

This project models that core as pure functions over immutable values, one
module per source file:

- `Middleware` (api/middleware.ts): the token check in front of the calendar
  routes, with its expiry cache.
- `CalendarApi` (api/calendar.ts): the four calendar handlers, which pick
  the listing window and build the request bodies.
- `Ranges` (api/assistant/utils/ranges.ts): `parseDateISO`, `normalizeRange`
  and the keyword heuristic `buildHeuristicRanges`.
- `RangeHandler` (api/assistant/range.ts): the range handler, which
  validates, sorts and clamps the ranges the model proposes.
- `Actions` and `Sanitizer` (api/assistant/utils/actions.ts): extracting
  action objects from the model's text, and removing them from the text
  shown to the user.
- `Stream` (api/assistant/stream.ts): the assistant's server-sent event
  stream.
- `Wav` and `Speech` (api/assistant/tts.ts): the WAV header writer, and the
  plain and streaming speech handlers.
- `ChatReader` and `Executor` (src/components/ChatAssistant.tsx): the
  client's line-buffered stream reader, and its action runner.
- `CalendarView` (src/components/Calendar.tsx): the calendar page. It covers
  the time check, the attendee parsing, the mapping of Google events to
  entries, the list updates after fetch, create, edit and delete, and the
  one-shot undo.

Four shared modules carry the JavaScript semantics the code relies on:

- `Wrappers`: `Option`, plus `Eval` for a value or a thrown error.
- `Text`: `trim`, `split`, `join`, `parseInt` and `indexOf`.
- `Json`: JSON values, `?.` chains, `||`, `===`, `JSON.stringify`, and the
  messages of the TypeErrors thrown by reading a property of `null` or
  `undefined`.
- `Dates`: the proleptic Gregorian calendar, with the month and day carry of
  `new Date(y, m, d)` and its two-digit-year rule.

The model never calls anything external. The Gemini model, Google Calendar,
the token-info endpoint, `JSON.parse`, `new Date(string)`, base64 and the
clock are parameters of the functions that use them.

Regular expressions are modelled as scanners. Each scanner states where each
match starts and ends: the leftmost match, with greedy or lazy repetition as
the pattern says.

Three places hold a defect listed under "## Findings" below: the calendar
window, the clamp of the model's ranges, and the client's target lookup.
Each handler there takes a `Variant`. With `AsWritten` it runs the code as
written, and that is what the "## Model" rows describe. With `Corrected` it
runs the fixed definition:

- `CalendarApi.CappedWindow` clamps `months` to 1..11 instead of 1..12.
- `RangeHandler.ParsedReply` finishes through `FinishAiFixed` instead of `FinishAi`.
- `Executor.RunOne` looks targets up in the listing's `events` instead of the listing.

A fourth defect, the calendar page's fetch, has no `Variant`: `CalendarView.Fetch` is the code as written and `CalendarView.FetchListed` the corrected fetch, which maps the listing's `events`.

## Model

| member | source | states |
|---|---|---|
| Middleware.InvalidReply | api/middleware.ts:27-29 | the catch answers 401 with `error` "Invalid or expired token" and the thrown message as `detail` |
| Middleware.ExpiryOf | api/middleware.ts:18-23 | a numeric `expires_in` gives now + seconds·1000; otherwise a truthy `exp` gives exp·1000 (NaN when `Number` fails); otherwise now + 5 minutes; a `null` info throws reading `expires_in` |
| Middleware.Admit | api/middleware.ts:24-26 | an expiry at or before now answers 401 "Token expired" and leaves the cache; any other expiry, NaN included, is cached with `checkedAt = now` and passes |
| Middleware.Check | api/middleware.ts:10-29 | a missing or empty token is 401 "Missing token header"; a token cached with more than 30 s left passes without a lookup; every denial is 401 and keeps the cache; a changed cache means the request passed, and only that token's entry changed, stamped with now |
| Middleware.CheckKeepsCacheSound | api/middleware.ts:24-25 | the cache never holds an entry whose finite expiry is at or before its check time |
| Middleware.FreshSkipsLookup | api/middleware.ts:12-16 | with a fresh cache entry the outcome does not depend on the token-info service |
| Middleware.LookupFailureDenies | api/middleware.ts:17-29 | a rejected lookup denies with its message and leaves the cache unchanged |
| Middleware.LookupDecides | api/middleware.ts:17-26 | after a lookup the request is denied exactly when the expiry is at or before now; admitting adds this token's entry and keeps every other entry |
| Middleware.AdmittedIsCached | api/middleware.ts:14-25 | a token admitted with `expires_in` seconds is served from the cache by any later request more than 30 s before it expires, whatever the lookup would say |
| Middleware.NaNExpiryAdmits | api/middleware.ts:21-25 | an `exp` that converts to NaN admits the token, yet its entry is never fresh, so every later request looks it up again |
| CalendarApi.ParseDate | api/calendar.ts:16-20 | a missing or empty value gives nothing; otherwise the engine's parse of it |
| CalendarApi.IntOr | api/calendar.ts:36 | `parseInt(s, 10) \|\| d`: `d` when the parse is NaN or zero, else the parsed integer; the same form reads `maxResults` at line 51 |
| CalendarApi.MonthsParam | api/calendar.ts:36 | the months parameter is clamped to 1..12: values in range are kept, larger ones become 12, and smaller ones (zero and negatives) become 1 |
| CalendarApi.Window | api/calendar.ts:25-43 | the chosen window is ordered; it is refused exactly when both dates parse and the end precedes the start or more than 18 months separate them, with the matching 400 |
| CalendarApi.CappedWindow | api/calendar.ts:28-48 | an accepted window is the one chosen, no longer than 31·24 days; an over-long window is refused with "Date span exceeds 24 months hard cap"; the explicit-range errors pass through; as written, a `months` value is accepted exactly when it reads as at most 11, so `months` ≥ 12 is always refused with the hard-cap 400; corrected, the hard cap never refuses |
| CalendarApi.CapInDays | api/calendar.ts:46 | the hard cap admits every span of up to 743 whole days, and refuses one of 744 days or more when the end's time of day is later than the start's |
| CalendarApi.MonthWindowShape | api/calendar.ts:37-38 | the months window runs from the first of month now−m at midnight to the last millisecond of the last day of month now+m |
| CalendarApi.MonthWindowDays | api/calendar.ts:37-38 | the window's day count is the length of the months now−m through now+m, less one |
| CalendarApi.MonthsWithinCap | api/calendar.ts:36-46 | eleven months or fewer either side always fits under the hard cap |
| CalendarApi.TwelveMonthsOverCap | api/calendar.ts:37-46 | twelve months either side (at least 757 days) always exceeds the hard cap |
| CalendarApi.ExplicitWithinCap | api/calendar.ts:31-46 | an explicit range at most 18 calendar months apart is inside the hard cap |
| CalendarApi.ExplicitRangeExact | api/calendar.ts:28-34 | two parseable dates give exactly that window, refused only when the end precedes the start ("end must be after start") or more than 18 months separate them; the correction does not change this path |
| CalendarApi.MonthWindowOrdered | api/calendar.ts:37-38 | a months window of at least one month starts before it ends |
| CalendarApi.MonthsWindowAccepted | api/calendar.ts:35-48 | as written, unless both dates parse, a `months` value reading as at most 11 gives its months window, and one reading as 12 or more is refused with "Date span exceeds 24 months hard cap" |
| CalendarApi.MonthsWindowAcceptedFixed | api/calendar.ts:35-48 | corrected, every `months` value gives the window of its value clamped to 1..11, which the cap accepts; it agrees with the code as written whenever the value reads as at most 11 |
| CalendarApi.DefaultWindowAccepted | api/calendar.ts:39-48 | unless both dates parse, and with no `months`, the previous-to-next-month window is used and accepted |
| CalendarApi.MaxResults | api/calendar.ts:51 | the result cap is 500 by default and is clamped to 1..2500: values in range are kept, larger ones become 2500, and smaller ones (zero reads as 500, negatives) become 1 |
| CalendarApi.PickEvent | api/calendar.ts:61-71 | a listed event carries exactly the kept fields the Google event has, with their values |
| CalendarApi.ListingBody | api/calendar.ts:73-77 | the listing is an object, not an array, whose `count` is the length of its `events` |
| CalendarApi.ListEvents | api/calendar.ts:5-80 | no token gives 401; a refused window gives its 400; the reply is 200 exactly when the token is present, the window is accepted and Google's list succeeds, and then `count` matches `events` |
| CalendarApi.ListTwelveMonthsRefused | api/calendar.ts:35-48 | as written, `GET /calendar/events` with a token, no usable date pair and `months` reading as 12 or more answers 400 "Date span exceeds 24 months hard cap" |
| CalendarApi.Slot | api/calendar.ts:102-103 | the slot copies `dateTime` and `date`, and takes the given `timeZone` unless it is null or missing, when it is Africa/Johannesburg |
| CalendarApi.SlotOf | api/calendar.ts:102-103 | a missing `start`/`end` throws reading `dateTime` of undefined, a null one of null; otherwise the slot; the update handler builds its slots the same way at lines 146-147 |
| CalendarApi.HasRequired | api/calendar.ts:90 | the three required fields can only all be truthy on an object body |
| CalendarApi.CreateBody | api/calendar.ts:98-105 | the create body carries the slots built from `start` and `end`, and the request's summary |
| CalendarApi.EventBody | api/calendar.ts:98-105 | the body sent to Google carries the built `start` and `end` slots and the request's summary; the update body at lines 142-149 has the same layout |
| CalendarApi.CreateEvent | api/calendar.ts:83-111 | no token gives 401; a missing summary, start or end gives 400 "summary, start, and end are required"; 201 exactly when the fields are present and the insert succeeds, with Google's event as body |
| CalendarApi.UpdateEvent | api/calendar.ts:130-155 | no token gives 401; no id gives 400 "Missing event id"; a missing or null `start` gives the TypeError's 400; 200 exactly when both slots build and the patch succeeds |
| CalendarApi.DeleteEvent | api/calendar.ts:113-128 | no token gives 401; no id gives 400; 200 with `success: true` exactly when the delete does not throw |
| Ranges.ParseDateIso | api/assistant/utils/ranges.ts:4-10 | a date comes back exactly for a non-empty string the engine parses to within 3·366 days of now |
| Ranges.Reason | api/assistant/utils/ranges.ts:17 | the reason is at most 160 characters: empty without a truthy `reason`, else the first 160 of its string form |
| Ranges.NormalizeRange | api/assistant/utils/ranges.ts:11-18 | a range comes back exactly when the object is truthy, both ends parse and the end is not before the start; its dates are those ends' dates, in order |
| Ranges.InferredMonthWindow | api/assistant/utils/ranges.ts:19-22 | a named month without a year is placed next year exactly when it is more than one month before the current one, so it falls between last month and eleven months ahead |
| Ranges.MentionsIff | api/assistant/utils/ranges.ts:28-31 | month i yields a mention exactly when its name occurs at a word start |
| Ranges.Earliest | api/assistant/utils/ranges.ts:34 | the earliest mention by (year, month) is one of them and none is earlier |
| Ranges.Latest | api/assistant/utils/ranges.ts:35 | the latest mention by (year, month) is one of them and none is later |
| Ranges.MonthsBranch | api/assistant/utils/ranges.ts:33-38 | named months give the first of the earliest month through the last day of the latest one |
| Ranges.NextMonthsBranch | api/assistant/utils/ranges.ts:39-43 | "next N months" runs from today to the last day of month now + min(N, 12), labelled with that count |
| Ranges.NextYearBranch | api/assistant/utils/ranges.ts:44-47 | "next year" runs from today to the last day of this month next year |
| Ranges.ThisWeekBranch | api/assistant/utils/ranges.ts:48-52 | "this week" is the Sunday-to-Saturday week containing today: it starts `getDay()` days before today and ends six days after its start |
| Ranges.NextWeekBranch | api/assistant/utils/ranges.ts:58-62 | "next week" starts on the first Sunday after today, `7 - getDay()` days ahead, and ends six days after its start |
| Ranges.AroundBranch | api/assistant/utils/ranges.ts:63-71 | the planning and default windows start the given number of days back and end on `new Date(y, m + ahead, d)`, the same day of the month `ahead` months on, overflowing into the next month as the engine does; that end is after today |
| Ranges.BuildHeuristicRanges | api/assistant/utils/ranges.ts:23-73 | the heuristic returns exactly one range with valid dates, the union spanning it, and "heuristic" as strategy and source |
| Ranges.MonthMentionWins | api/assistant/utils/ranges.ts:33-39 | a month name at a word start selects the month branch whatever else the query says |
| Ranges.HeuristicRangeOrdered | api/assistant/utils/ranges.ts:23-73 | every heuristic range starts no later than it ends, unless a named year is one of the two-digit years `new Date` reads as 19xx |
| RangeHandler.ObjectMatchIff | api/assistant/range.ts:22-23 | `/\{[\s\S]*\}/` matches exactly when some `{` has a `}` after it |
| RangeHandler.SomesMembers | api/assistant/range.ts:28 | the filter keeps a range exactly when it was proposed |
| RangeHandler.KeptAreOrdered | api/assistant/range.ts:27-28 | every kept range is ordered |
| RangeHandler.KeptEmptyIff | api/assistant/range.ts:28-29 | nothing is kept exactly when no proposal normalised |
| RangeHandler.SortByStartSorts | api/assistant/range.ts:30 | the sort orders by start date and is a permutation of its input |
| RangeHandler.SortByStartStable | api/assistant/range.ts:30 | the sort is stable: ranges with the same start keep their order |
| RangeHandler.FinishAiSpec | api/assistant/range.ts:31-42 | as written, only the last range by start can change; within 18 months nothing changes and the strategy defaults to "ai"; beyond, that range's end becomes start + 18 months − 1 day and the strategy gains the clamp note |
| RangeHandler.ClampEndAfterStart | api/assistant/range.ts:35-37 | the clamp date lies after the first start |
| RangeHandler.ClampInvertsLastRange | api/assistant/range.ts:33-39 | as written, the clamp can give the last range an end before its start |
| RangeHandler.UnionMissesLongerRange | api/assistant/range.ts:32-41 | as written, a longer range that starts first is neither clamped nor covered by the union |
| RangeHandler.ClampAll | api/assistant/range.ts:34-40 | the corrected clamp keeps ordered ranges that all end by the clamp date, starting no earlier than the first |
| RangeHandler.ClampKeepsInside | api/assistant/range.ts:34-40 | the corrected clamp keeps unchanged every range that already ends by the clamp date |
| RangeHandler.FinishAiFixed | api/assistant/range.ts:31-42 | the corrected answer: every range is ordered and inside the union; the union ends at some range's end; the span is measured to the latest end, and a span over 18 months is cut at the clamp date |
| RangeHandler.Now | api/assistant/range.ts:11 | no `today` means the clock; a given one is the engine's parse |
| RangeHandler.AiRangesSpec | api/assistant/range.ts:26-30 | the model's ranges are used exactly when `ranges` is an array whose first ten items hold a valid range; they are then those valid ranges, sorted |
| RangeHandler.FinishAi | api/assistant/range.ts:31-42 | as written, the answer keeps one range per sorted range, has source "ai", and its union runs from its first range's start to its last range's end |
| RangeHandler.Finish | api/assistant/range.ts:31-42 | as written, the answer is FinishAi's, whose union ends at the last range's end; corrected, a covered answer; both start the union at the first range's start |
| RangeHandler.ParsedReply | api/assistant/range.ts:26-42 | a parsed object gives the heuristic exactly when it has no usable ranges; otherwise, as written, FinishAi's answer for the sorted ranges and the strategy, with as many ranges and the union from the first start to the last range's end; corrected, a covered answer |
| RangeHandler.ParsedReplyMissesLongerRange | api/assistant/range.ts:26-42 | as written, a reply whose longer range starts first gets a union that ends before that range does; the corrected reply covers it |
| RangeHandler.TextReply | api/assistant/range.ts:22-42 | text without a brace pair, or a match that `JSON.parse` rejects, means the heuristic; any other parse is `ParsedReply`'s reply; a `null` parse would be the TypeError's 400 from reading `ranges`, though a match that starts with `{` never parses to `null`; an answer has source "ai" and its union starts at its first range; as written the union ends at the last range's end, corrected every range is covered |
| RangeHandler.HandleRange | api/assistant/range.ts:8-14 | without a key, 500 "Gemini API key not configured"; a missing or blank query, 400 "Missing query"; the heuristic or an answer only when `context` is falsy, an array or a string, since any other `context` has no `slice` |
| RangeHandler.HandleRangeBadDate | api/assistant/range.ts:11-12 | an unparseable `today` fails `toISOString` and answers 400 "Invalid time value", through the catch at line 43 |
| RangeHandler.HandleRangeModelFailed | api/assistant/range.ts:14-21 | a truthy `context` that is neither an array nor a string answers 400 "(context \|\| []).slice is not a function" through the catch at line 43; otherwise a failed model call answers the heuristic for the query and time |
| RangeHandler.HandleRangeModelText | api/assistant/range.ts:14-44 | a truthy `context` without `slice` answers the 400 TypeError before the model is asked; otherwise a model answer is handled on its trimmed text alone: the heuristic, the null-object error, or an "ai" answer whose union starts at its first range and, as written, ends at its last range's end |
| RangeHandler.HeuristicBody | api/assistant/utils/ranges.ts:72 | a heuristic body has one range and the union equal to it |
| Actions.FenceAt | api/assistant/utils/actions.ts:4 | a fence match starts at a fence and its lazy body ends at the first closing fence |
| Actions.FenceSuppressesFallback | api/assistant/utils/actions.ts:4-11 | with any fence match the candidates are the fenced bodies; with none, the single brace-or-bracket match if there is one |
| Actions.ConsiderIsFold | api/assistant/utils/actions.ts:13-25 | the stateful `consider` is a fold of the seen-set insert over the value's emissions: arrays and `actions` wrappers are flattened, tagged objects emitted, bare events wrapped |
| Actions.ExtractActionsFromText | api/assistant/utils/actions.ts:2-28 | the result is the first-seen-by-serialisation list of the emissions of the parseable candidates |
| Actions.FirstSeenProperties | api/assistant/utils/actions.ts:18-23 | the first-seen list has no two items with the same serialisation, covers every emitted serialisation, and contains only emitted items |
| Actions.ExtractedActionsWellFormed | api/assistant/utils/actions.ts:2-28 | the extracted actions are distinct by serialisation and cover every emission; each is an object with a truthy `action` or `type` |
| Actions.SkippedCandidatesContributeNothing | api/assistant/utils/actions.ts:14-26 | an unparseable or falsy candidate changes nothing |
| Actions.BareEventIsWrapped | api/assistant/utils/actions.ts:20-23 | a bare event with a summary and a start or end becomes exactly one `create_event` action wrapping it |
| Actions.WrapperIsFlattened | api/assistant/utils/actions.ts:16-19 | an `{actions: [...]}` wrapper of distinct plain actions yields exactly those actions, in order, without the wrapper |
| Actions.RepeatedActionCollapses | api/assistant/utils/actions.ts:18-19 | the same action in two fences is returned once |
| Sanitizer.FilterLinesKeepsExactly | api/assistant/utils/actions.ts:36 | the line filter keeps exactly the lines that are not brackets, braces and commas between whitespace |
| Sanitizer.PunctOnlyIff | api/assistant/utils/actions.ts:36 | the filter's test agrees with the whitespace–punctuation–whitespace reading of its pattern |
| Sanitizer.ReplaceAllAtMatch | api/assistant/utils/actions.ts:32-37 | a global replace emits the replacement at a match and resumes after it |
| Sanitizer.ReplaceAllCopies | api/assistant/utils/actions.ts:32-37 | a global replace copies the text where no match starts |
| Sanitizer.NewlineRunMatchEnd | api/assistant/utils/actions.ts:37 | `\n{3,}` matches exactly at three newlines and takes the whole run |
| Sanitizer.StripEdges | api/assistant/utils/actions.ts:38 | the stripped text neither starts nor ends with a comma or whitespace |
| Sanitizer.Sanitize | api/assistant/utils/actions.ts:30-40 | the cleaned text has no comma or whitespace at either end, and every one of its lines holds a non-whitespace character |
| Sanitizer.FilteredStripHasText | api/assistant/utils/actions.ts:36-38 | after the line filter and the edge strip, no line is empty or whitespace only |
| Sanitizer.NewlineCollapseIsIdentity | api/assistant/utils/actions.ts:36-37 | after the line filter the newline-run collapse never fires |
| Sanitizer.PlainProseOnlyFiltered | api/assistant/utils/actions.ts:30-40 | prose without backticks or braces is only line-filtered and edge-stripped |
| Sanitizer.FencedJsonIsHidden | api/assistant/utils/actions.ts:32-38 | a one-line confirmation followed by a ```json fence comes out as the confirmation alone |
| Sanitizer.ActionObjectIsCut | api/assistant/utils/actions.ts:33 | a brace-free object naming `"action"` is removed with its braces, and the text before it is kept |
| Stream.SpaceBulletsNarrow | api/assistant/stream.ts:31 | after the bullet replace, no list marker at a line start is followed by two or more spaces |
| Stream.SpaceBulletsIdentity | api/assistant/stream.ts:31 | one line that does not open with a wide marker is unchanged |
| Stream.BreakColonStarsAt | api/assistant/stream.ts:32 | the only colon-star match in a text is replaced by colon, newline, star, space, and the rest is copied |
| Stream.BreakColonStarsIdentity | api/assistant/stream.ts:32 | a text without a colon is unchanged |
| Stream.Polish | api/assistant/stream.ts:30-33 | the polished text does not end in whitespace |
| Stream.ColonStarBreaksLine | api/assistant/stream.ts:32-33 | "a: * b" is broken into "a:" and "* b" |
| Stream.ColonStarCanWidenBullet | api/assistant/stream.ts:31-32 | the colon-star replace runs after the bullet replace and can leave a marker followed by two spaces at a line start |
| Stream.Deltas | api/assistant/stream.ts:34-38 | one delta per line, each carrying its line and a newline |
| Stream.DeltasJoin | api/assistant/stream.ts:34-38 | the deltas concatenate to the text plus one newline |
| Stream.HandleStream | api/assistant/stream.ts:8-50 | without a key, status 500 and one error frame; a failed model call gives an error frame and `[DONE]`; every keyed stream is 200 and ends with `[DONE]` |
| Stream.Layout | api/assistant/stream.ts:34-43 | one delta per line of the text, carrying the line and a newline; then the actions frame exactly when there are actions; then `[DONE]` and nothing else |
| Stream.LayoutShape | api/assistant/stream.ts:34-43 | the success stream is one delta per line, then the actions frame when there are actions, then `[DONE]` |
| Stream.SuccessFrameOrder | api/assistant/stream.ts:28-43 | the deltas spell the polished sanitised text, and the actions frame carries the actions extracted from the unsanitised text |
| Stream.SingleLineSingleDelta | api/assistant/stream.ts:34-42 | a text without newlines is one delta; with no actions, the stream is that delta and `[DONE]` |
| Stream.PayloadUnpadded | api/assistant/stream.ts:37-42 | a frame's payload has no whitespace at either end, so the client's trim keeps it whole |
| ChatReader.OnMessage | src/components/ChatAssistant.tsx:120-135 | handling a payload only appends to the shown text |
| ChatReader.OnChunk | src/components/ChatAssistant.tsx:109-119 | a chunk only appends to the shown text; the buffer keeps no newline, and is either emptied or the unterminated tail; a `[DONE]` line empties it |
| ChatReader.LineBufferConserves | src/components/ChatAssistant.tsx:109-111 | the complete lines and the kept tail, re-joined with newlines, are the old buffer plus the chunk |
| ChatReader.NoNewlineOnlyBuffers | src/components/ChatAssistant.tsx:109-111 | a chunk without a newline only grows the buffer |
| ChatReader.SkippedLineIgnored | src/components/ChatAssistant.tsx:113-135 | a line that is not `data:`, or whose payload does not parse, changes nothing |
| ChatReader.NonDataLinesIgnored | src/components/ChatAssistant.tsx:110-114 | a chunk with no `data:` lines changes nothing but the buffer |
| ChatReader.DoneSkipsRest | src/components/ChatAssistant.tsx:116-119 | `[DONE]` stops the chunk: the lines after it are not handled |
| ChatReader.FirstDoneEnds | src/components/ChatAssistant.tsx:116-119 | the first `[DONE]` ends the handling with what the lines before it did |
| ChatReader.DoneClearsBuffer | src/components/ChatAssistant.tsx:110-119 | after `[DONE]` the buffer is empty whatever tail the chunk left |
| ChatReader.ApplyDelta | src/components/ChatAssistant.tsx:122-124 | a delta frame read back appends its text |
| ChatReader.ApplyActions | src/components/ChatAssistant.tsx:125-128 | an actions frame read back shows the notice, runs the actions and appends their log |
| ChatReader.ReadWire | src/components/ChatAssistant.tsx:105-137 | reading the wire form of a sequence of frames in one chunk from an empty buffer is reading the frames themselves; the buffer ends empty |
| ChatReader.ClientShowsReply | src/components/ChatAssistant.tsx:105-137 | what the stream handler writes, read back by the client, appends the polished text and a newline, then the notice and log of the actions when there are any |
| Executor.FindTargetFirst | src/components/ChatAssistant.tsx:67-70 | `find` returns the first event matching the target's summary and start; it finds nothing exactly when no event matches and it meets no null event while the target has a summary (a null one throws) |
| Executor.Resolve | src/components/ChatAssistant.tsx:63-72 | a truthy target id is used as is; without one, a listing that is not an array throws |
| Executor.ListingObjectFailsLookup | src/components/ChatAssistant.tsx:66-67 | as written, the lookup throws on the listing object the server sends, whatever the target |
| Executor.ListedLookupFinds | src/components/ChatAssistant.tsx:66-71 | reading the listing's `events`, the lookup yields the id of the first matching event |
| Executor.ResolveFor | src/components/ChatAssistant.tsx:63-72 | a truthy target id is used as is; on an array listing both lookups are the code's |
| Executor.TargetlessActionFails | src/components/ChatAssistant.tsx:61-99 | as written, an update or delete without a target id, given the listing the server sends, logs "Action failed" with `events.find is not a function` and sends nothing; corrected, it is performed with the lookup in `events` |
| Executor.Spread | src/components/ChatAssistant.tsx:74 | `{...updates}` copies an object, gives an array's items and a string's characters under their decimal indices and no other keys, and gives `{}` for anything else |
| Executor.IndexedReadsBack | src/components/ChatAssistant.tsx:74 | an indexed copy reads back every item under its index and has no other key |
| Executor.Request | src/components/ChatAssistant.tsx:58-94 | a create with an event posts that event; an update with a resolved id puts the spread updates under the id's string form; a delete with a resolved id deletes it; anything else sends nothing |
| Executor.Perform | src/components/ChatAssistant.tsx:58-100 | a failed lookup is the "Action failed" line and no request; every request sent is the action's own; a request is the first effect; at most a request and a refresh |
| Executor.RunOne | src/components/ChatAssistant.tsx:56-101 | an iteration lets an exception escape exactly when the action is null, and an escaping iteration logs and sends nothing |
| Executor.RunAll | src/components/ChatAssistant.tsx:55-103 | the loop stops early exactly when some action is null |
| Executor.RunAllSequential | src/components/ChatAssistant.tsx:55-103 | without a null action the loop is each action run on its own, in order: a failed action does not stop the later ones |
| Executor.NullActionStops | src/components/ChatAssistant.tsx:57-58 | a null action ends the loop and the actions after it are not run; the exception escapes the per-action catch at lines 98-99 |
| Executor.RefreshIffNoThrow | src/components/ChatAssistant.tsx:96-100 | an action is followed by a calendar refresh exactly when it did not throw |
| Executor.UnresolvedMakesNoCall | src/components/ChatAssistant.tsx:76-94 | an update or delete whose target resolves to nothing logs the warning and sends no request |
| Executor.CreateNeedsEvent | src/components/ChatAssistant.tsx:58-60 | a create is posted only for a `create_event` action with an event, and the event is what is posted |
| Executor.CallsComeFromActions | src/components/ChatAssistant.tsx:55-103 | every request the loop sends is one that one of the actions makes on its own |
| Wav.ReadWritten | api/assistant/tts.ts:10-21 | reading back a little-endian field gives the number written |
| Wav.WriteRead | api/assistant/tts.ts:10-21 | writing back the number read gives the bytes |
| Wav.DefaultFitsIff | api/assistant/tts.ts:4-21 | with the default 24 kHz mono 16-bit format, only the data size can overflow a 32-bit field, exactly when 36 + size exceeds it |
| Wav.WavHeader | api/assistant/tts.ts:8-21 | the header is 44 bytes, carries the four tags, and describes the format fields |
| Wav.ToWav | api/assistant/tts.ts:4-24 | the WAV exists exactly when the fields fit; it is the 44-byte header followed by the PCM unchanged |
| Wav.ReadWavHeader | api/assistant/tts.ts:8-21 | a reader recovers every header the writer writes |
| Wav.WriteReadHeader | api/assistant/tts.ts:8-21 | the writer reproduces every tagged 44-byte header a reader reads |
| Wav.ParseToWav | api/assistant/tts.ts:4-22 | parsing the WAV gives back the fields and the PCM |
| Wav.ToWavOfParsed | api/assistant/tts.ts:4-22 | bytes whose header holds exactly the fields the writer would write are what it builds |
| Wav.StripHeader | api/assistant/tts.ts:91 | the stream drops 44 bytes exactly when the buffer decodes as `RIFF` and is longer than the header |
| Wav.StripToWav | api/assistant/tts.ts:4-22 | the stream recovers the PCM from a built WAV when there is any PCM; an empty PCM's WAV is kept whole, by the header test of line 91 |
| Wav.StripKeepsPlainPcm | api/assistant/tts.ts:91 | bytes that do not start with the tag, in any high-bit variant, are not stripped |
| Wav.HighBitTagStripped | api/assistant/tts.ts:91 | Node's ASCII decoding drops the high bit, so bytes spelling `RIFF` with the high bits set are stripped too |
| Wav.ChunkSizeIsTenthSecond | api/assistant/tts.ts:92-94 | the chunk size is a tenth of a second of the default format, 4800 bytes |
| Wav.Chunks | api/assistant/tts.ts:95-98 | the chunks join back to the buffer; each is non-empty and at most the chunk size, all but the last full; there are ⌈n / size⌉ of them |
| Wav.ChunksUnique | api/assistant/tts.ts:95-98 | any cutting with those properties is this one |
| Speech.HasTextIffNotBlank | api/assistant/tts.ts:31 | the text is accepted exactly when it is present and not all whitespace; the stream tests it the same way at line 67 |
| Speech.Voice | api/assistant/tts.ts:32 | a missing or empty voice name is Kore; any other is trimmed; the stream reads it the same way at line 76 |
| Speech.InlineAudio | api/assistant/tts.ts:38-42 | the data is found exactly when `inline.data` or `part.data` is truthy, the inline one winning; the MIME type is found exactly when one of the four fields is truthy, and is one of them |
| Speech.IsWavMime | api/assistant/tts.ts:46 | the MIME type counts as WAV exactly when it is truthy and its string holds "wav" in any mix of ASCII case |
| Speech.StreamData | api/assistant/tts.ts:84 | the stream finds data exactly when one of its three paths is truthy |
| Speech.HandlersReadDifferentData | api/assistant/tts.ts:40-41 | a part whose `inlineData` has only a MIME type and whose `inline_data` has the data is refused by the plain handler but streamed; the stream reads its three paths at line 84 |
| Speech.WrapPcm | api/assistant/tts.ts:4-24 | a decode error propagates; decoded PCM is wrapped exactly when 36 + its length fits 32 bits; the handler wraps at line 47 |
| Speech.WrapPcmParses | api/assistant/tts.ts:4-24 | the wrapped audio decodes to a default-format header describing the PCM, then the PCM |
| Speech.ReplyFor | api/assistant/tts.ts:43-51 | no data is 500 "No audio data returned" |
| Speech.Speak | api/assistant/tts.ts:26-56 | without a key, 500; a missing or blank text, 400 "Missing text"; 200 only with both |
| Speech.SpeakAnswered | api/assistant/tts.ts:33-51 | once the model answers, the reply is the one for the audio in its first part |
| Speech.WavPassesThrough | api/assistant/tts.ts:46-51 | audio reported as WAV is passed on unchanged under its own MIME type |
| Speech.PcmIsWrapped | api/assistant/tts.ts:44-51 | other audio is returned as `audio/wav` decoding to a WAV of the decoded data, with the original MIME type or null |
| Speech.DoneOnWire | api/assistant/tts.ts:87-104 | the done event written through the serialiser is the literal line the handler writes |
| Speech.ChunkEvents | api/assistant/tts.ts:95-98 | one chunk event per chunk, carrying that chunk's encoding |
| Speech.EventsFor | api/assistant/tts.ts:84-99 | the events end with exactly one done event; no data is the error and done |
| Speech.SpeakStream | api/assistant/tts.ts:58-109 | without a key, 500 with one error event; a missing text, 400 with one; otherwise 200, ending with a single done event |
| Speech.SpeakStreamAnswered | api/assistant/tts.ts:77-99 | once the model answers, the events are the ones for the data of its first part |
| Speech.ReceivedChunks | api/assistant/tts.ts:95-98 | decoding the chunk events gives the bytes the chunks join to |
| Speech.StreamCarriesAudio | api/assistant/tts.ts:90-99 | decodable data streams as init with the voice, ⌈n / size⌉ chunk events and done; the chunks carry the decoded bytes less a leading WAV header |
| Speech.HandlersAgree | api/assistant/tts.ts:44-51 | for the same raw PCM, the stream delivers exactly the PCM inside the WAV the plain handler returns; the stream cuts it at lines 90-98 |
| CalendarView.ClockMinutes | src/components/Calendar.tsx:166-167 | a parsed `HH:MM` is 60·hours + minutes, at most 24·60; every two-digit time with hours below 24 and minutes below 60 parses |
| CalendarView.ValidateTimes | src/components/Calendar.tsx:164-169 | an empty field passes; otherwise it passes exactly when the date parses, both times are valid and the end is strictly later |
| CalendarView.ClockOrderIsTextOrder | src/components/Calendar.tsx:166-168 | two valid times are in order exactly when their `HH:MM` texts are |
| CalendarView.SameTimeRejected | src/components/Calendar.tsx:168 | equal start and end times never pass once every field is filled in |
| CalendarView.NonEmpty | src/components/Calendar.tsx:318 | the filter keeps the non-empty strings, in order, and drops nothing else |
| CalendarView.NonEmptySplits | src/components/Calendar.tsx:318 | filtering a list cut in two filters each part |
| CalendarView.Emails | src/components/Calendar.tsx:318 | each address is non-empty and is the trim of some piece; the edit form parses the same way at line 405 |
| CalendarView.EmailsTrimmed | src/components/Calendar.tsx:318 | the addresses are already trimmed and, when the pieces had no commas, comma-free |
| CalendarView.ParseAttendees | src/components/Calendar.tsx:318 | one `{email}` object per address of the split, trimmed and non-empty field; the edit form parses the same way at line 405 |
| CalendarView.BlankInvitesNobody | src/components/Calendar.tsx:318 | a field of only commas and spaces invites nobody |
| CalendarView.SplitJoin | src/components/Calendar.tsx:159 | pieces joined by a separator they do not contain split back into themselves; the form joins at line 159 and splits at line 405 |
| CalendarView.EmailsRoundTrip | src/components/Calendar.tsx:159 | the addresses the edit form joins with `, ` come back from the split of line 405 unchanged, in order |
| CalendarView.AttendeesRoundTrip | src/components/Calendar.tsx:159 | submitting the edit form's attendees unchanged sends, at line 405, one `{email}` per address, in order |
| CalendarView.ToEntry | src/components/Calendar.tsx:323-336 | the entry keeps the event as `raw`; `allDay` holds exactly when there is no truthy `start.dateTime`; start is `dateTime` or else `date`; a missing description becomes "" |
| CalendarView.FetchedEntry | src/components/Calendar.tsx:57-70 | the fetch maps an event exactly when it is not null and its `start` and `end` can be read |
| CalendarView.FetchedAgrees | src/components/Calendar.tsx:57-70 | where both can read an event, the fetch builds the same entry as the updates at lines 105-118 and 323-336 |
| CalendarView.Fetch | src/components/Calendar.tsx:54-76 | a non-array response, or an event that cannot be read, leaves the list unchanged; otherwise the list is the mapped response |
| CalendarView.FetchIgnoresListing | src/components/Calendar.tsx:56-57 | as written, the `{window, count, events}` listing the server sends is not an array, so the fetch never changes the list |
| CalendarView.FetchListed | src/components/Calendar.tsx:56-57 | corrected: a body without `events`, or whose `events` is not an array, leaves the list unchanged |
| CalendarView.FetchListedLoads | src/components/Calendar.tsx:56-70 | corrected: every readable event of the listing becomes an entry, in order, replacing the old list |
| CalendarView.Delete | src/components/Calendar.tsx:84 | an entry is kept exactly when it was in the list and its id is not strictly equal to the deleted one |
| CalendarView.DeleteSplits | src/components/Calendar.tsx:84 | deleting from a list cut in two deletes from each part |
| CalendarView.DeleteAbsent | src/components/Calendar.tsx:84 | a list without the id is unchanged |
| CalendarView.Edited | src/components/Calendar.tsx:410-423 | entries whose id strictly equals the returned event's become its entry; the others are unchanged |
| CalendarView.EditTouchesOnlyItsId | src/components/Calendar.tsx:410-423 | entries with another id are left as they were, so an edit never touches what a delete of another id (line 84) would remove |
| CalendarView.EditIdempotent | src/components/Calendar.tsx:410-423 | applying the same edit twice is applying it once |
| CalendarView.Added | src/components/Calendar.tsx:104-118 | a created or restored event is appended after the existing entries, which are kept as they were; a `null` response body throws "Cannot read properties of null (reading 'id')" and appends nothing; create appends the same way at lines 322-336 |
| CalendarView.Press | src/components/Calendar.tsx:92-94 | a press posts exactly when the flag was not yet set, and sets it |
| CalendarView.RestoresAtMostOnce | src/components/Calendar.tsx:86-94 | however often Undo is pressed, the event is restored at most once |
| CalendarView.Submit | src/components/Calendar.tsx:306-321 | a missing required field does nothing; failed times warn "End time must be after start time"; the body is sent exactly when the fields are present, the date parses and the end is after the start; editing at lines 393-408 checks the same way |
| CalendarView.SentBody | src/components/Calendar.tsx:314-321 | a sent body carries the parsed attendees and the two converted times |
| Text.Trim | src/components/Calendar.tsx:318 | the trimmed text is the input less its longest whitespace prefix and then the longest whitespace suffix of the rest: what is dropped at either end is JavaScript whitespace, and the result neither starts nor ends with it |
| Text.TrimEmptyIffBlank | api/assistant/tts.ts:31 | a text trims to empty exactly when it is all whitespace |
| Text.JoinSplit | src/components/ChatAssistant.tsx:110-111 | splitting on a character and re-joining with it gives back the text |
| Text.SplitAppend | src/components/Calendar.tsx:318 | splitting `a + c + b` with `c` not in `a` splits off `a` and then splits `b` |
| Text.ParseIntJs | api/calendar.ts:36 | `parseInt` yields a number exactly when digits follow the leading whitespace and sign |
| Text.NatToString | api/assistant/utils/ranges.ts:43 | the decimal string of a count is non-empty, all digits and spells the count |
| Json.Get | api/middleware.ts:19-21 | a property is found exactly when the value is an object with a member of that name |
| Json.GetAppend | api/calendar.ts:98-105 | in a literal, a later member of the same name wins |
| Json.AnyOf | api/assistant/tts.ts:41-42 | a chain of `\|\|` is the first truthy alternative, or else the last one |
| Json.OrElse | api/assistant/range.ts:42 | `a \|\| b` is `a` when truthy, else `b` |
| Json.Serialize | api/assistant/stream.ts:37 | a serialised value never contains a raw newline, so each frame stays on its line |
| Dates.DayNumberOrder | api/assistant/range.ts:30 | day numbers order valid dates exactly as the calendar does |
| Dates.AddDays | api/assistant/utils/ranges.ts:25 | adding k days gives a valid date k day numbers later |
| Dates.WeekdayAfter | api/assistant/utils/ranges.ts:49-50 | moving k days moves `getDay()` by k modulo 7 |
| Dates.DayZeroIsLastDay | api/assistant/utils/ranges.ts:37-42 | day 0 of the following month is the last day of the month |
| Dates.JsYear | api/assistant/utils/ranges.ts:36 | `new Date(y, …)` reads the years 0..99 as 1900..1999 |
| Dates.MonthStartsApart | api/calendar.ts:37-46 | n consecutive months span between 28·n and 31·n days |
| Dates.TimeOrder | api/calendar.ts:29 | comparing instants is comparing dates, then times of day |

## Left out

- The Gemini model, Google Calendar, the token-info endpoint, HTTP and the browser are parameters. The model's answer, Google's replies and the token info are inputs. Prompts, model names and request headers are not modelled.
- Time zones: local time is taken as UTC throughout, so `getMonth()`, `new Date(y, m, d)` and `toISOString()` agree on the civil date.
- `new Date(string)`, `toISOString()` and `JSON.parse` are parameters (`parse`, `dateOk`, `iso`, `parseJson`), because the engine's date-string grammar and JSON grammar are outside the model. Base64 is a parameter assumed to be a bijection on byte strings (`Base64RoundTrips`).
- Speech.WrapPcm: a base64 string the engine would decode leniently is modelled by the `decode` parameter, which may fail. The fixed default format is the only one the handlers use.
- Server-sent event headers, `flushHeaders`, `res.end()` and errors thrown while writing a response are not modelled. A stream is its status and its frames.
- Request bodies and queries are typed: fields the code reads as strings are strings or absent, and the range request's `context` is any JSON value or absent. Express's parsing of query arrays is not modelled.
- Middleware.ToNumber: `Number()` on a string or other non-number is the `number` parameter. Numbers are integers, so a fractional `exp` or `expires_in` is not modelled.
- Middleware.Check: concurrent requests sharing the process-wide cache are not modelled. Each request threads the cache through.
- Ranges.HeuristicRangeOrdered: proved only when no named year is 0..99. For such a year, `new Date` places the start in 19xx while `inferYear` does not; that case is shown in the model but not claimed ordered.
- Ranges.Reason: strings are sequences of Unicode scalar values, so the 160-character cut counts scalar values where `slice(0, 160)` counts UTF-16 code units; the two differ only for text outside the Basic Multilingual Plane.
- Ranges.BuildHeuristicRanges: `toLowerCase()` is modelled on the ASCII letters only, so a query whose keywords use non-ASCII letters that lower-case to ASCII (such as U+212A KELVIN SIGN) is not matched as the engine would match it.
- Executor.Spread: a string's characters are spread one per scalar value, where JavaScript spreads one per UTF-16 code unit; the two differ only outside the Basic Multilingual Plane.
- Ranges.ParseDateIso: the 3·366-day distance is measured between whole instants; sub-millisecond precision does not arise.
- RangeHandler: only `text` of the model's result is read. Of `context`, only whether `(context || []).slice` exists is modelled: a truthy value that is neither an array nor a string throws and answers 400; the last six items it would give go into the prompt, which is not modelled. The sort compares dates, which orders ISO strings of four-digit years as `localeCompare` does.
- Stream.Polish: only its trailing-whitespace promise is in its contract. Its two replaces are described by SpaceBulletsNarrow, BreakColonStarsAt and their identity lemmas, not by one closed form.
- Sanitizer.Sanitize: idempotence is not claimed, and the wrapper and zoned-date-time patterns have no dedicated lemma beyond their scanners' contracts.
- Actions: only `JSON.parse` of each candidate is a parameter. Batching of actions into one request does not occur in the code and is not modelled.
- ChatReader: the React state updates of `handleSubmit` (adding the user message, the placeholder reply, the error message, `isLoading`) and the Markdown rendering are not modelled. `TextDecoder` is taken to deliver whole characters.
- Executor: `window.dispatchEvent` is recorded as a Refresh effect; the API calls are recorded as effects whose outcome is a parameter.
- Wav.AsciiDecode: models Node's `'ascii'` decoding as clearing the high bit of each byte.
- Wav.LittleEndian: a write that Node would reject as out of range is modelled as no WAV at all (`None`). Speech.WrapPcm turns that into the `RangeError`, whose received value Node prints with `_` digit grouping; Speech.OutOfRange prints it ungrouped.
- CalendarView: FullCalendar's drag and resize handlers, `handleCopy`, `openEdit`'s ISO slicing and the undo's restore request body are not modelled. Toasts, `formatDateRange` and the modal state are not modelled either. The request bodies use the `iso` parameter for `toISOString()`.
- CalendarView.ClockMinutes: `24:00` is accepted as the end of the day, as the date-time string format allows; other engine-specific leniencies of `new Date` are not modelled.
- CalendarView.Edited: a response body that is `null` (so that reading `ev.id` throws) is not modelled.

## Findings

| source | as written | input that shows it | evidently intended | confidence | as-written member | corrected member |
|---|---|---|---|---|---|---|
| api/assistant/range.ts:33-39 | the clamp date is counted from the first range's start and written into the last range by start, whatever that range's own start | ranges 2025-01-01..2025-01-02 and 2027-01-01..2027-01-05: the second becomes 2027-01-01..2026-06-30 | every returned range is ordered and ends by the clamp date | not executed; high | RangeHandler.ClampInvertsLastRange | RangeHandler.FinishAiFixed |
| api/assistant/range.ts:32-33,41 | the span and the union use the end of the range that sorts last by start, not the latest end | ranges 2025-01-01..2026-12-01 and 2025-02-01..2025-02-02: no clamp, union ends 2025-02-02 | the span and the union reach the latest end | not executed; high | RangeHandler.ParsedReplyMissesLongerRange | RangeHandler.FinishAiFixed |
| src/components/ChatAssistant.tsx:66-67 | the listing is used as an array, but api/calendar.ts:73-77 sends `{window, count, events}`, so `events.find` is not a function | an `update_event` with target `{summary: "Standup"}` and any listing from the server: the action fails | look the target up in the listing's `events` | not executed; medium (an older server returned a bare array) | Executor.TargetlessActionFails | Executor.ListedLookupFinds |
| api/calendar.ts:36,46 | `months` is clamped to 12, but twelve months either side always exceeds the 31·24-day hard cap | `GET /calendar/events?months=12` is always refused with 400 | every clamped `months` value is accepted | not executed; high | CalendarApi.ListTwelveMonthsRefused | CalendarApi.MonthsWindowAcceptedFixed |
| src/components/Calendar.tsx:56-57 | the fetch maps `response.data` as an array, but api/calendar.ts:73-77 sends `{window, count, events}`, so `map` is not a function and the catch only reports "Failed to load events" | any `GET /calendar/events` reply from the server | map the listing's `events` | not executed; medium (an older server returned a bare array) | CalendarView.FetchIgnoresListing | CalendarView.FetchListedLoads |

=== FILE: actions.dfy ===
/**
 * The action extractor of api/assistant/utils/actions.ts
 * (`extractActionsFromText`): it collects JSON candidates from the model's
 * reply (fenced code blocks, or else one greedy brace/bracket match), parses
 * each with an abstract `parse` (`JSON.parse`, `None` for a throw), and
 * normalises the parsed values into a flat, de-duplicated list of actions.
 */
module Actions {
  import opened Wrappers
  import opened Text
  import opened Json

  // ---------------------------------------------------------------------------
  // Candidate collection: /```(?:json)?\n([\s\S]*?)```/g, then the fallback
  // /(\{[\s\S]*\}|\[[\s\S]*\])/ when no fence matched.
  // ---------------------------------------------------------------------------

  const Fence: string := "```"

  /**
   * The fence match starting at `i`, as (body start, body end); the match
   * itself ends three characters after the body.  The optional `json` tag is
   * tried first; without a newline after it the match fails, because the
   * untagged alternative needs the newline right after the backticks.  The
   * lazy body stops at the first closing fence, so it contains none.
   */
  function FenceAt(s: string, i: nat): (r: Option<(nat, nat)>)
    ensures r.Some? ==> i < r.value.0 <= r.value.1 && OccursAt(s, r.value.1, Fence)
    ensures r.Some? ==> forall k :: r.value.0 <= k < r.value.1 ==> !OccursAt(s, k, Fence)
    ensures r.Some? ==> OccursAt(s, i, Fence)
  {
    var open := if OccursAt(s, i, "```json\n") then 8 else if OccursAt(s, i, "```\n") then 4 else 0;
    if open == 0 then None
    else
      assert OccursAt(s, i, Fence) by {
        assert s[i..i + 3] == s[i..i + open][..3];
      }
      match FindFrom(s, i + open, Fence)
      case None => None
      case Some(e) => Some((i + open, e))
  }

  /**
   * The candidates from every fence match at or after `from`, in order.  The
   * marker-stripping replace of the source leaves exactly the body, because
   * the body holds no fence; what is left is trimmed.
   */
  function FencedBodies(s: string, from: nat): seq<string>
    decreases |s| - from
  {
    if from >= |s| then []
    else
      match FenceAt(s, from)
      case Some((b, e)) => [Trim(s[b..e])] + FencedBodies(s, e + 3)
      case None => FencedBodies(s, from + 1)
  }

  function LastIndexOf(s: string, c: char): (r: int)
    ensures -1 <= r < |s|
    ensures r >= 0 ==> s[r] == c
    ensures forall k :: r < k < |s| ==> s[k] != c
  {
    if |s| == 0 then -1
    else if s[|s| - 1] == c then |s| - 1
    else LastIndexOf(s[..|s| - 1], c)
  }

  /** The leftmost greedy `{…}` or `[…]` match at or after `i`, reaching the last closer. */
  function BraceMatchFrom(s: string, i: nat): Option<string>
    decreases |s| - i
  {
    if i >= |s| then None
    else if s[i] == '{' && LastIndexOf(s, '}') > i then Some(s[i..LastIndexOf(s, '}') + 1])
    else if s[i] == '[' && LastIndexOf(s, ']') > i then Some(s[i..LastIndexOf(s, ']') + 1])
    else BraceMatchFrom(s, i + 1)
  }

  /** All JSON candidates of a reply. */
  function Candidates(text: string): seq<string> {
    var fenced := FencedBodies(text, 0);
    var fallback := BraceMatchFrom(text, 0);
    fenced + (if |fenced| == 0 && fallback.Some? then [fallback.value] else [])
  }

  lemma {:induction false} FencedBodiesNonEmpty(s: string, from: nat, i: nat)
    requires from <= i < |s| && FenceAt(s, i).Some?
    ensures |FencedBodies(s, from)| > 0
    decreases i - from
  {
    if FenceAt(s, from).None? {
      FencedBodiesNonEmpty(s, from + 1, i);
    }
  }

  lemma {:induction false} FencedBodiesEmpty(s: string, from: nat)
    requires forall i :: from <= i < |s| ==> FenceAt(s, i).None?
    ensures FencedBodies(s, from) == []
    decreases |s| - from
  {
    if from < |s| {
      FencedBodiesEmpty(s, from + 1);
    }
  }

  /**
   * A fenced block suppresses the brace fallback: with some fence match the
   * candidates are the fenced bodies alone, and with none they are the
   * fallback match, if any.
   */
  lemma FenceSuppressesFallback(text: string)
    ensures (exists i :: 0 <= i < |text| && FenceAt(text, i).Some?) ==>
      Candidates(text) == FencedBodies(text, 0) && |Candidates(text)| > 0
    ensures (forall i :: 0 <= i < |text| ==> FenceAt(text, i).None?) ==>
      Candidates(text) == (match BraceMatchFrom(text, 0) case Some(c) => [c] case None => [])
  {
    if i :| 0 <= i < |text| && FenceAt(text, i).Some? {
      FencedBodiesNonEmpty(text, 0, i);
    } else {
      FencedBodiesEmpty(text, 0);
    }
  }

  // ---------------------------------------------------------------------------
  // Normalisation: the recursive `consider` with its `seen` set.
  // ---------------------------------------------------------------------------

  /** The state `consider` threads: the output array and the set of serialisations seen. */
  datatype Acc = Acc(actions: seq<Json>, seen: set<string>)

  /** The implicit create built around a bare event-shaped object. */
  function Wrap(event: Json): Json {
    JObj([("action", JStr("create_event")), ("event", event)])
  }

  /** `parsed.action || parsed.type` is truthy. */
  predicate HasActionTag(j: Json) {
    Present(Get(j, "action")) || Present(Get(j, "type"))
  }

  /** `parsed.summary && (parsed.start || parsed.end)` is truthy. */
  predicate IsBareEvent(j: Json) {
    Present(Get(j, "summary")) && (Present(Get(j, "start")) || Present(Get(j, "end")))
  }

  function Add(acc: Acc, a: Json): Acc {
    if Serialize(a) in acc.seen then acc
    else Acc(acc.actions + [a], acc.seen + {Serialize(a)})
  }

  /** `consider(parsed)`. */
  function Consider(j: Json, acc: Acc): Acc
    decreases j, 1
  {
    if !Truthy(j) then acc
    else if j.JArr? then ConsiderAll(j.items, acc)
    else
      var inner := Get(j, "actions");
      var acc1 := if inner.Some? && inner.value.JArr? then ConsiderAll(inner.value.items, acc) else acc;
      if HasActionTag(j) then Add(acc1, j)
      else if IsBareEvent(j) then Add(acc1, Wrap(j))
      else acc1
  }

  /** `items.forEach(p => consider(p))`. */
  function ConsiderAll(items: seq<Json>, acc: Acc): Acc
    decreases items
  {
    if |items| == 0 then acc else ConsiderAll(items[1..], Consider(items[0], acc))
  }

  /** `candidates.forEach(c => { try { consider(JSON.parse(c)) } catch {} })`. */
  function ConsiderCandidates(cands: seq<string>, parse: string -> Option<Json>, acc: Acc): Acc
    decreases |cands|
  {
    if |cands| == 0 then acc
    else
      var next := match parse(cands[0]) case Some(j) => Consider(j, acc) case None => acc;
      ConsiderCandidates(cands[1..], parse, next)
  }

  // ---------------------------------------------------------------------------
  // The reference definition: the ordered emissions, then first-seen de-duplication.
  // ---------------------------------------------------------------------------

  /** Every action `consider` would push for `j` if nothing had been seen, in order. */
  function Emissions(j: Json): seq<Json>
    decreases j, 1
  {
    if !Truthy(j) then []
    else if j.JArr? then EmissionsAll(j.items)
    else
      var inner := Get(j, "actions");
      (if inner.Some? && inner.value.JArr? then EmissionsAll(inner.value.items) else [])
      + (if HasActionTag(j) then [j] else if IsBareEvent(j) then [Wrap(j)] else [])
  }

  function EmissionsAll(items: seq<Json>): seq<Json>
    decreases items
  {
    if |items| == 0 then [] else Emissions(items[0]) + EmissionsAll(items[1..])
  }

  function CandidateEmissions(cands: seq<string>, parse: string -> Option<Json>): seq<Json> {
    if |cands| == 0 then []
    else
      (match parse(cands[0]) case Some(j) => Emissions(j) case None => [])
      + CandidateEmissions(cands[1..], parse)
  }

  function Keys(xs: seq<Json>): set<string> {
    set i | 0 <= i < |xs| :: Serialize(xs[i])
  }

  /** Keeps each element whose serialisation did not occur earlier: first-seen order. */
  function FirstSeen(xs: seq<Json>): seq<Json> {
    if |xs| == 0 then []
    else
      var p := xs[..|xs| - 1];
      FirstSeen(p) + (if Serialize(xs[|xs| - 1]) in Keys(p) then [] else [xs[|xs| - 1]])
  }

  predicate NoDuplicateKeys(xs: seq<Json>) {
    forall i, k :: 0 <= i < k < |xs| ==> Serialize(xs[i]) != Serialize(xs[k])
  }

  function AddAll(acc: Acc, xs: seq<Json>): Acc
    decreases |xs|
  {
    if |xs| == 0 then acc else AddAll(Add(acc, xs[0]), xs[1..])
  }

  lemma {:induction false} AddAllAppend(acc: Acc, xs: seq<Json>, ys: seq<Json>)
    ensures AddAll(acc, xs + ys) == AddAll(AddAll(acc, xs), ys)
    decreases |xs|
  {
    if |xs| == 0 {
      assert xs + ys == ys;
    } else {
      assert (xs + ys)[1..] == xs[1..] + ys;
      AddAllAppend(Add(acc, xs[0]), xs[1..], ys);
    }
  }

  /** The stateful `consider` is the fold of `Add` over the emissions. */
  lemma {:induction false} ConsiderIsFold(j: Json, acc: Acc)
    ensures Consider(j, acc) == AddAll(acc, Emissions(j))
    decreases j, 1
  {
    if !Truthy(j) {
    } else if j.JArr? {
      ConsiderAllIsFold(j.items, acc);
    } else {
      var inner := Get(j, "actions");
      var pre := if inner.Some? && inner.value.JArr? then EmissionsAll(inner.value.items) else [];
      var own := if HasActionTag(j) then [j] else if IsBareEvent(j) then [Wrap(j)] else [];
      if inner.Some? && inner.value.JArr? {
        ConsiderAllIsFold(inner.value.items, acc);
      }
      AddAllAppend(acc, pre, own);
      if |own| == 1 {
        assert AddAll(AddAll(acc, pre), own) == Add(AddAll(acc, pre), own[0]);
      }
    }
  }

  lemma {:induction false} ConsiderAllIsFold(items: seq<Json>, acc: Acc)
    ensures ConsiderAll(items, acc) == AddAll(acc, EmissionsAll(items))
    decreases items
  {
    if |items| > 0 {
      ConsiderIsFold(items[0], acc);
      ConsiderAllIsFold(items[1..], Consider(items[0], acc));
      AddAllAppend(acc, Emissions(items[0]), EmissionsAll(items[1..]));
    }
  }

  lemma {:induction false} ConsiderCandidatesIsFold(cands: seq<string>, parse: string -> Option<Json>, acc: Acc)
    ensures ConsiderCandidates(cands, parse, acc) == AddAll(acc, CandidateEmissions(cands, parse))
    decreases |cands|
  {
    if |cands| > 0 {
      var first := match parse(cands[0]) case Some(j) => Emissions(j) case None => [];
      var next := match parse(cands[0]) case Some(j) => Consider(j, acc) case None => acc;
      if parse(cands[0]).Some? {
        ConsiderIsFold(parse(cands[0]).value, acc);
      }
      ConsiderCandidatesIsFold(cands[1..], parse, next);
      AddAllAppend(acc, first, CandidateEmissions(cands[1..], parse));
    }
  }

  lemma KeysSnoc(p: seq<Json>, x: Json)
    ensures Keys(p + [x]) == Keys(p) + {Serialize(x)}
  {
    var q := p + [x];
    forall k | k in Keys(q) ensures k in Keys(p) + {Serialize(x)} {
      var i :| 0 <= i < |q| && Serialize(q[i]) == k;
      if i < |p| {
        assert q[i] == p[i];
      }
    }
    forall k | k in Keys(p) ensures k in Keys(q) {
      var i :| 0 <= i < |p| && Serialize(p[i]) == k;
      assert q[i] == p[i];
    }
    assert Serialize(q[|p|]) in Keys(q);
  }

  /** Folding `Add` from the first-seen state of a prefix yields the first-seen state of the whole. */
  lemma {:induction false} AddAllFirstSeen(p: seq<Json>, xs: seq<Json>)
    ensures AddAll(Acc(FirstSeen(p), Keys(p)), xs) == Acc(FirstSeen(p + xs), Keys(p + xs))
    decreases |xs|
  {
    if |xs| == 0 {
      assert p + xs == p;
    } else {
      var q := p + [xs[0]];
      AddFirstSeen(p, xs[0]);
      AddAllFirstSeen(q, xs[1..]);
      assert q + xs[1..] == p + xs;
    }
  }

  /** One `Add` step extends the first-seen state of `p` to that of `p + [x]`. */
  lemma {:induction false} AddFirstSeen(p: seq<Json>, x: Json)
    ensures Add(Acc(FirstSeen(p), Keys(p)), x) == Acc(FirstSeen(p + [x]), Keys(p + [x]))
  {
    var q := p + [x];
    assert q[..|q| - 1] == p;
    assert q[|q| - 1] == x;
    KeysSnoc(p, x);
  }

  lemma ConsiderCandidatesFirstSeen(cands: seq<string>, parse: string -> Option<Json>)
    ensures ConsiderCandidates(cands, parse, Acc([], {})).actions == FirstSeen(CandidateEmissions(cands, parse))
  {
    var xs := CandidateEmissions(cands, parse);
    ConsiderCandidatesIsFold(cands, parse, Acc([], {}));
    assert Keys([]) == {};
    assert FirstSeen([]) == [];
    AddAllFirstSeen([], xs);
    assert [] + xs == xs;
  }

  /** The extractor over already-collected candidate strings. */
  function ExtractFromCandidates(cands: seq<string>, parse: string -> Option<Json>): (r: seq<Json>)
    ensures r == FirstSeen(CandidateEmissions(cands, parse))
  {
    ConsiderCandidatesFirstSeen(cands, parse);
    ConsiderCandidates(cands, parse, Acc([], {})).actions
  }

  /** `extractActionsFromText(text)`. */
  function ExtractActionsFromText(text: string, parse: string -> Option<Json>): (r: seq<Json>)
    ensures r == FirstSeen(CandidateEmissions(Candidates(text), parse))
  {
    ExtractFromCandidates(Candidates(text), parse)
  }

  // ---------------------------------------------------------------------------
  // Properties of the result.
  // ---------------------------------------------------------------------------

  lemma NoDuplicateKeysSnoc(r: seq<Json>, x: Json)
    requires NoDuplicateKeys(r) && Serialize(x) !in Keys(r)
    ensures NoDuplicateKeys(r + [x])
  {
    var q := r + [x];
    forall i, k | 0 <= i < k < |q| ensures Serialize(q[i]) != Serialize(q[k]) {
      assert q[i] == r[i];
      if k == |r| {
        assert Serialize(r[i]) in Keys(r);
      } else {
        assert q[k] == r[k];
      }
    }
  }

  lemma {:induction false} FirstSeenProperties(xs: seq<Json>)
    ensures NoDuplicateKeys(FirstSeen(xs))
    ensures Keys(FirstSeen(xs)) == Keys(xs)
    ensures forall a :: a in FirstSeen(xs) ==> a in xs
  {
    if |xs| > 0 {
      var p := xs[..|xs| - 1];
      var x := xs[|xs| - 1];
      FirstSeenProperties(p);
      assert xs == p + [x];
      KeysSnoc(p, x);
      assert forall a :: a in p ==> a in xs;
      if Serialize(x) in Keys(p) {
        assert FirstSeen(xs) == FirstSeen(p);
      } else {
        assert FirstSeen(xs) == FirstSeen(p) + [x];
        KeysSnoc(FirstSeen(p), x);
        NoDuplicateKeysSnoc(FirstSeen(p), x);
      }
    }
  }

  /** Every emitted value is an object whose `action` or `type` is truthy. */
  predicate IsAction(a: Json) {
    a.JObj? && HasActionTag(a)
  }

  lemma WrapIsAction(e: Json)
    ensures IsAction(Wrap(e))
    ensures Get(Wrap(e), "action") == Some(JStr("create_event"))
    ensures Get(Wrap(e), "event") == Some(e)
  {
    var ms := Wrap(e).members;
    assert LastIndexOfKey(ms[..1], "action") == 0;
    assert ms[..|ms| - 1] == ms[..1];
  }

  lemma {:induction false} EmissionsAreActions(j: Json)
    ensures forall a :: a in Emissions(j) ==> IsAction(a)
    decreases j, 1
  {
    if Truthy(j) {
      if j.JArr? {
        EmissionsAllAreActions(j.items);
      } else {
        var inner := Get(j, "actions");
        if inner.Some? && inner.value.JArr? {
          EmissionsAllAreActions(inner.value.items);
        }
        WrapIsAction(j);
      }
    }
  }

  lemma {:induction false} EmissionsAllAreActions(items: seq<Json>)
    ensures forall a :: a in EmissionsAll(items) ==> IsAction(a)
    decreases items
  {
    if |items| > 0 {
      EmissionsAreActions(items[0]);
      EmissionsAllAreActions(items[1..]);
    }
  }

  lemma {:induction false} CandidateEmissionsAreActions(cands: seq<string>, parse: string -> Option<Json>)
    ensures forall a :: a in CandidateEmissions(cands, parse) ==> IsAction(a)
    decreases |cands|
  {
    if |cands| > 0 {
      if parse(cands[0]).Some? {
        EmissionsAreActions(parse(cands[0]).value);
      }
      CandidateEmissionsAreActions(cands[1..], parse);
    }
  }

  /**
   * The extractor's promise: no two actions share a serialisation, every
   * emitted serialisation is represented, and each action is an object with
   * a truthy `action` or `type` (a bare event arrives wrapped as a create).
   */
  lemma ExtractedActionsWellFormed(text: string, parse: string -> Option<Json>)
    ensures NoDuplicateKeys(ExtractActionsFromText(text, parse))
    ensures Keys(ExtractActionsFromText(text, parse)) == Keys(CandidateEmissions(Candidates(text), parse))
    ensures forall a :: a in ExtractActionsFromText(text, parse) ==> IsAction(a)
  {
    var xs := CandidateEmissions(Candidates(text), parse);
    FirstSeenProperties(xs);
    CandidateEmissionsAreActions(Candidates(text), parse);
  }

  /** Unparseable or falsy candidates contribute nothing. */
  lemma SkippedCandidatesContributeNothing(cands: seq<string>, c: string, rest: seq<string>, parse: string -> Option<Json>)
    requires parse(c).None? || !Truthy(parse(c).value)
    ensures ExtractFromCandidates(cands + [c] + rest, parse) == ExtractFromCandidates(cands + rest, parse)
  {
    CandidateEmissionsAppend(cands, [c] + rest, parse);
    CandidateEmissionsAppend(cands, rest, parse);
    assert ([c] + rest)[1..] == rest;
    assert (match parse(c) case Some(j) => Emissions(j) case None => []) == [];
    assert CandidateEmissions([c] + rest, parse) == CandidateEmissions(rest, parse);
    assert cands + [c] + rest == cands + ([c] + rest);
  }

  lemma {:induction false} CandidateEmissionsAppend(a: seq<string>, b: seq<string>, parse: string -> Option<Json>)
    ensures CandidateEmissions(a + b, parse) == CandidateEmissions(a, parse) + CandidateEmissions(b, parse)
    decreases |a|
  {
    if |a| > 0 {
      assert (a + b)[1..] == a[1..] + b;
      CandidateEmissionsAppend(a[1..], b, parse);
    } else {
      assert a + b == b;
    }
  }

  /** A bare event-shaped object without `action`/`type` becomes exactly one implicit create. */
  lemma BareEventIsWrapped(c: string, parse: string -> Option<Json>)
    requires parse(c).Some? && parse(c).value.JObj?
    requires !HasActionTag(parse(c).value) && IsBareEvent(parse(c).value)
    requires !IsArray(Get(parse(c).value, "actions"))
    ensures ExtractFromCandidates([c], parse) == [JObj([("action", JStr("create_event")), ("event", parse(c).value)])]
  {
    var j := parse(c).value;
    assert Emissions(j) == [Wrap(j)] by {
      assert EmissionsAll([]) == [];
    }
    SingleCandidate(c, parse);
    assert FirstSeen([Wrap(j)]) == [Wrap(j)] by {
      assert [Wrap(j)][..0] == [];
      assert Keys([]) == {};
    }
  }

  /** One parseable candidate contributes exactly its own emissions. */
  lemma SingleCandidate(c: string, parse: string -> Option<Json>)
    requires parse(c).Some?
    ensures CandidateEmissions([c], parse) == Emissions(parse(c).value)
  {
    assert CandidateEmissions([c], parse) == Emissions(parse(c).value) + CandidateEmissions([], parse);
  }

  /**
   * An `{actions:[…]}` wrapper whose elements are plain, distinct actions
   * yields exactly those elements, flat and in order; the wrapper itself is
   * not kept unless it is tagged or event-shaped.
   */
  lemma WrapperIsFlattened(c: string, parse: string -> Option<Json>, xs: seq<Json>)
    requires parse(c).Some? && parse(c).value.JObj?
    requires Get(parse(c).value, "actions") == Some(JArr(xs))
    requires !HasActionTag(parse(c).value) && !IsBareEvent(parse(c).value)
    requires forall i :: 0 <= i < |xs| ==> IsAction(xs[i]) && !IsArray(Get(xs[i], "actions"))
    requires NoDuplicateKeys(xs)
    ensures ExtractFromCandidates([c], parse) == xs
  {
    var j := parse(c).value;
    SingleCandidate(c, parse);
    WrapperEmissions(j, xs);
    PlainActionsEmitThemselves(xs);
    FirstSeenOfDistinct(xs);
  }

  lemma WrapperEmissions(j: Json, xs: seq<Json>)
    requires j.JObj? && Get(j, "actions") == Some(JArr(xs))
    requires !HasActionTag(j) && !IsBareEvent(j)
    ensures Emissions(j) == EmissionsAll(xs)
  {
    assert Emissions(j) == EmissionsAll(xs) + [];
  }

  lemma {:induction false} PlainActionsEmitThemselves(xs: seq<Json>)
    requires forall i :: 0 <= i < |xs| ==> IsAction(xs[i]) && !IsArray(Get(xs[i], "actions"))
    ensures EmissionsAll(xs) == xs
    decreases xs
  {
    if |xs| > 0 {
      assert Emissions(xs[0]) == [xs[0]];
      PlainActionsEmitThemselves(xs[1..]);
      assert [xs[0]] + xs[1..] == xs;
    }
  }

  lemma {:induction false} FirstSeenOfDistinct(xs: seq<Json>)
    requires NoDuplicateKeys(xs)
    ensures FirstSeen(xs) == xs
  {
    if |xs| > 0 {
      var p := xs[..|xs| - 1];
      assert NoDuplicateKeys(p);
      FirstSeenOfDistinct(p);
      assert Serialize(xs[|xs| - 1]) !in Keys(p);
      assert p + [xs[|xs| - 1]] == xs;
    }
  }

  /** The same action repeated in two fences is returned once. */
  lemma RepeatedActionCollapses(c1: string, c2: string, parse: string -> Option<Json>)
    requires parse(c1).Some? && parse(c2).Some?
    requires parse(c1).value == parse(c2).value
    requires IsAction(parse(c1).value) && !IsArray(Get(parse(c1).value, "actions"))
    ensures ExtractFromCandidates([c1, c2], parse) == [parse(c1).value]
  {
    var a := parse(c1).value;
    assert CandidateEmissions([c1, c2], parse) == [a, a] by {
      assert Emissions(a) == [a];
      SingleCandidate(c2, parse);
      assert CandidateEmissions([c1, c2], parse) == [a] + CandidateEmissions([c2], parse);
    }
    FirstSeenRepeat(a);
  }

  lemma FirstSeenRepeat(a: Json)
    ensures FirstSeen([a, a]) == [a]
  {
    assert [a, a][..1] == [a];
    assert [a][..0] == [];
    assert FirstSeen([a]) == [a];
    assert Serialize(a) in Keys([a]) by { assert Serialize([a][0]) in Keys([a]); }
  }
}

=== FILE: calendar_api.dfy ===
/**
 * The calendar endpoints of api/calendar.ts: the event listing with its
 * query window, and the create, update and delete handlers.  Google's client
 * is a parameter per call (`Value` is the response's data, `Threw` the error
 * message); `new Date(string)` is the parameter `parse`; `toISOString` is the
 * parameter `iso`.
 */
module CalendarApi {
  import opened Wrappers
  import opened Text
  import opened Json
  import opened Dates

  const MissingToken: string := "Missing token header"

  /** The `token` header is present and not empty. */
  predicate HasToken(token: Option<string>) {
    token.Some? && token.value != ""
  }

  // ---------------------------------------------------------------------------
  // The listing window.
  // ---------------------------------------------------------------------------

  const EndBeforeStart: string := "end must be after start"
  const RangeTooLarge: string := "Range too large (max 18 months)"
  const SpanTooLarge: string := "Date span exceeds 24 months hard cap"

  /** Most calendar months between an explicit start and end. */
  const MaxMonthsApart: int := 18

  /** The hard cap on a window, in milliseconds: 31 × 24 days. */
  const HardCapMs: int := 1000 * 60 * 60 * 24 * 31 * 24

  /** The last millisecond of a day, `23:59:59.999`. */
  const EndOfDay: int := MsPerDay - 1

  /** The query parameters the listing reads; a missing one is `None`. */
  datatype Query = Query(start: Option<string>, end: Option<string>, months: Option<string>,
                         maxResults: Option<string>)

  /** A query value that is present and not empty. */
  predicate Given(v: Option<string>) {
    v.Some? && v.value != ""
  }

  /** The local `parseDate`: nothing for a missing or empty value, otherwise `new Date(value)` if valid. */
  function ParseDate(v: Option<string>, parse: string -> Option<Moment>): (r: Option<Moment>)
    ensures !Given(v) ==> r.None?
    ensures Given(v) ==> r == parse(v.value)
  {
    if Given(v) then parse(v.value) else None
  }

  /** `parseInt(s, 10) || d`: the parsed integer, or `d` when it is `NaN` or zero. */
  function IntOr(s: string, d: int): (r: int)
    ensures ParseIntJs(s).None? ==> r == d
    ensures ParseIntJs(s).Some? ==> r == if ParseIntJs(s).value == 0 then d else ParseIntJs(s).value
  {
    var n := ParseIntJs(s);
    if n.None? || n.value == 0 then d else n.value
  }

  /** `Math.min(Math.max(parseInt(months, 10) || 1, 1), 12)`. */
  function MonthsParam(months: string): (m: int)
    ensures 1 <= m <= 12
    ensures 1 <= IntOr(months, 1) <= 12 ==> m == IntOr(months, 1)
    ensures IntOr(months, 1) > 12 ==> m == 12
    ensures IntOr(months, 1) < 1 ==> m == 1
  {
    Clamp(IntOr(months, 1), 1, 12)
  }

  /** The months clamp with 11 as its top, so that every window it admits passes the hard cap. */
  function MonthsParamCapped(months: string): (m: int)
    ensures 1 <= m <= 11
    ensures 1 <= IntOr(months, 1) <= 11 ==> m == IntOr(months, 1)
    ensures IntOr(months, 1) > 11 ==> m == 11
    ensures IntOr(months, 1) < 1 ==> m == 1
  {
    Clamp(IntOr(months, 1), 1, 11)
  }

  /**
   * `m` months either side of now: from the first of the month `m` before
   * the current one, to the last millisecond of the month `m` after it.
   */
  function MonthWindow(now: Moment, m: int): (Instant, Instant) {
    (Instant(NewDate(now.date.year, now.date.month - m, 1), 0),
     Instant(NewDate(now.date.year, now.date.month + m + 1, 0), EndOfDay))
  }

  /** The default window: the month before now to the end of the month after it. */
  function DefaultWindow(now: Moment): (r: (Instant, Instant))
    ensures r == MonthWindow(now, 1)
  {
    (Instant(NewDate(now.date.year, now.date.month - 1, 1), 0),
     Instant(NewDate(now.date.year, now.date.month + 2, 0), EndOfDay))
  }

  /** The clamped `months` value the window uses: the source's 1..12, or the corrected 1..11. */
  function MonthsFor(v: Variant, months: string): (m: int)
    ensures v == AsWritten ==> m == MonthsParam(months)
    ensures v == Corrected ==> m == MonthsParamCapped(months)
  {
    if v == AsWritten then MonthsParam(months) else MonthsParamCapped(months)
  }

  /** An explicit start and end the listing accepts: in order, and at most 18 calendar months apart. */
  predicate ExplicitFits(s: Moment, e: Moment) {
    Time(s) <= Time(e) && MonthIndex(e.date) - MonthIndex(s.date) <= MaxMonthsApart
  }

  /**
   * The window chosen from the query: an explicit start and end when both
   * parse, else `months` either side of now, else the default.  Only the
   * explicit pair can be refused here, and every window it gives is in order.
   */
  function Window(q: Query, now: Moment, parse: string -> Option<Moment>, v: Variant): (r: Result<(Instant, Instant)>)
    ensures r.Ok? ==> ValidInstant(r.value.0) && ValidInstant(r.value.1)
    ensures r.Ok? ==> Time(r.value.0) <= Time(r.value.1)
    ensures r.Err? <==>
      ParseDate(q.start, parse).Some? && ParseDate(q.end, parse).Some?
      && !ExplicitFits(ParseDate(q.start, parse).value, ParseDate(q.end, parse).value)
    ensures r.Err? ==> r.status == 400 && (r.message == EndBeforeStart || r.message == RangeTooLarge)
  {
    var startDate := ParseDate(q.start, parse);
    var endDate := ParseDate(q.end, parse);
    if startDate.Some? && endDate.Some? then
      var s := startDate.value;
      var e := endDate.value;
      if Time(e) < Time(s) then Err(400, EndBeforeStart)
      else if MonthIndex(e.date) - MonthIndex(s.date) > MaxMonthsApart then Err(400, RangeTooLarge)
      else Ok((s, e))
    else if Given(q.months) then
      MonthWindowOrdered(now, MonthsFor(v, q.months.value));
      Ok(MonthWindow(now, MonthsFor(v, q.months.value)))
    else
      MonthWindowOrdered(now, 1);
      Ok(DefaultWindow(now))
  }

  /**
   * The chosen window, refused when it is longer than the hard cap.  As
   * written, a `months` window is accepted exactly when the clamped value is
   * at most 11, so `months` of 12 or more always gets the hard-cap error;
   * corrected, the hard cap never refuses a window.
   */
  function CappedWindow(q: Query, now: Moment, parse: string -> Option<Moment>, v: Variant): (r: Result<(Instant, Instant)>)
    ensures r.Ok? ==> Window(q, now, parse, v) == r
    ensures r.Ok? ==> Time(r.value.1) - Time(r.value.0) <= HardCapMs
    ensures r.Err? && Window(q, now, parse, v).Ok? ==> r == Err(400, SpanTooLarge)
    ensures r.Err? && Window(q, now, parse, v).Err? ==> r == Window(q, now, parse, v)
    ensures v == AsWritten && (ParseDate(q.start, parse).None? || ParseDate(q.end, parse).None?) && Given(q.months) ==>
      (r.Ok? <==> IntOr(q.months.value, 1) <= 11)
    ensures v == Corrected ==> r != Err(400, SpanTooLarge)
  {
    var w :- Window(q, now, parse, v);
    MonthsWindowDecided(q, now, parse, v);
    if Time(w.1) - Time(w.0) > HardCapMs then Err(400, SpanTooLarge) else Ok(w)
  }

  /** The window's span against the hard cap, decided per branch. */
  lemma MonthsWindowDecided(q: Query, now: Moment, parse: string -> Option<Moment>, v: Variant)
    requires Window(q, now, parse, v).Ok?
    ensures var w := Window(q, now, parse, v).value;
      (ParseDate(q.start, parse).None? || ParseDate(q.end, parse).None?) && Given(q.months) ==>
        (Time(w.1) - Time(w.0) <= HardCapMs <==> MonthsFor(v, q.months.value) <= 11)
    ensures var w := Window(q, now, parse, v).value;
      v == Corrected ==> Time(w.1) - Time(w.0) <= HardCapMs
  {
    var startDate, endDate := ParseDate(q.start, parse), ParseDate(q.end, parse);
    var w := Window(q, now, parse, v).value;
    if startDate.Some? && endDate.Some? {
      assert w == (startDate.value, endDate.value);
      ExplicitWithinCap(startDate.value, endDate.value);
    } else if Given(q.months) {
      var m := MonthsFor(v, q.months.value);
      assert w == MonthWindow(now, m);
      if m <= 11 {
        MonthsWithinCap(now, m);
      } else {
        assert m == 12;
        TwelveMonthsOverCap(now);
      }
    } else {
      assert w == MonthWindow(now, 1);
      MonthsWithinCap(now, 1);
    }
  }

  /** A months window with `m` ≥ 1 starts in an earlier month than it ends, so it ends after it starts. */
  lemma MonthWindowOrdered(now: Moment, m: int)
    requires m >= 1
    ensures var w := MonthWindow(now, m); Time(w.0) < Time(w.1)
  {
    var w := MonthWindow(now, m);
    MonthWindowShape(now, m);
    IndexBefore(w.0.date, w.1.date);
    TimeOrder(w.0, w.1);
  }

  /** Measured in days, the hard cap admits spans of up to 743 whole days and refuses those from 744 on. */
  lemma CapInDays(a: Moment, b: Moment)
    ensures DayNumber(b.date) - DayNumber(a.date) <= 743 ==> Time(b) - Time(a) <= HardCapMs
    ensures DayNumber(b.date) - DayNumber(a.date) >= 744 && a.ms < b.ms ==> Time(b) - Time(a) > HardCapMs
  {
    TimeSpan(a, b);
    var days := DayNumber(b.date) - DayNumber(a.date);
    if days <= 743 {
      assert days * MsPerDay <= 743 * MsPerDay;
    } else if days >= 744 {
      assert days * MsPerDay >= 744 * MsPerDay;
    }
  }

  /** The months window starts on the first of month now−m and ends at the last millisecond of month now+m. */
  lemma MonthWindowShape(now: Moment, m: int)
    ensures var w := MonthWindow(now, m);
      var index := JsYear(now.date.year) * 12 + now.date.month;
      && w.0.date.day == 1 && w.0.ms == 0 && MonthIndex(w.0.date) == index - m
      && w.1.date == LastDayOf(w.1.date.year, w.1.date.month) && w.1.ms == EndOfDay
      && MonthIndex(w.1.date) == index + m
  {
    var y, mo := JsYear(now.date.year), now.date.month;
    var first := MonthOf(y, mo - m);
    FirstOfMonth(first.0, first.1);
    assert MakeDate(y, mo - m, 1) == Date(first.0, first.1, 1);
    DayZeroIsLastDay(y, mo + m);
  }

  /** The months window covers the days of months now−m .. now+m, ending on the last of them. */
  lemma MonthWindowDays(now: Moment, m: int)
    ensures var w := MonthWindow(now, m);
      var y := JsYear(now.date.year);
      DayNumber(w.1.date) - DayNumber(w.0.date) == MonthStart(y, now.date.month + m + 1) - MonthStart(y, now.date.month - m) - 1
  {
    var first, last := NewDate(now.date.year, now.date.month - m, 1), NewDate(now.date.year, now.date.month + m + 1, 0);
    assert MonthWindow(now, m) == (Instant(first, 0), Instant(last, EndOfDay));
    NewDateFromStart(now.date.year, now.date.month - m, 1);
    NewDateFromStart(now.date.year, now.date.month + m + 1, 0);
  }

  /** Up to eleven months either side covers at most 23 months of 31 days. */
  lemma MonthsDays(now: Moment, m: int)
    requires 1 <= m <= 11
    ensures var w := MonthWindow(now, m); DayNumber(w.1.date) - DayNumber(w.0.date) < 31 * 23
  {
    var y, mo := JsYear(now.date.year), now.date.month;
    MonthWindowDays(now, m);
    MonthStartsAtMost(y, mo - m, 2 * m + 1);
    assert mo - m + (2 * m + 1) == mo + m + 1;
  }

  /** Up to eleven months either side is inside the hard cap. */
  lemma MonthsWithinCap(now: Moment, m: int)
    requires 1 <= m <= 11
    ensures var w := MonthWindow(now, m); Time(w.1) - Time(w.0) <= HardCapMs
  {
    MonthsDays(now, m);
    CapInDays(MonthWindow(now, m).0, MonthWindow(now, m).1);
  }

  /** Twelve months either side is 25 months, at least two years and a month. */
  lemma TwelveMonthsDays(now: Moment)
    ensures var w := MonthWindow(now, 12); DayNumber(w.1.date) - DayNumber(w.0.date) >= 757
  {
    var y, mo := JsYear(now.date.year), now.date.month;
    MonthWindowDays(now, 12);
    YearOfMonths(y, mo - 12);
    YearOfMonths(y, mo);
    MonthLength(y, mo + 12);
  }

  /** Twelve months either side is always over the hard cap. */
  lemma TwelveMonthsOverCap(now: Moment)
    ensures var w := MonthWindow(now, 12); Time(w.1) - Time(w.0) > HardCapMs
  {
    TwelveMonthsDays(now);
    CapInDays(MonthWindow(now, 12).0, MonthWindow(now, 12).1);
  }

  /** As written, a `months` of 12 or more clamps to 12, whose window the hard cap then refuses. */
  lemma ClampedMonthsOverCap(months: string, now: Moment)
    requires IntOr(months, 1) >= 12
    ensures MonthsParam(months) == 12
    ensures var w := MonthWindow(now, MonthsParam(months)); Time(w.1) - Time(w.0) > HardCapMs
  {
    TwelveMonthsOverCap(now);
  }

  /** The query `months=12` reaches the top of the clamp as written, and so the refused window. */
  lemma TwelveMonthsQuery(now: Moment)
    ensures MonthsParam("12") == 12
    ensures var w := MonthWindow(now, MonthsParam("12")); Time(w.1) - Time(w.0) > HardCapMs
  {
    var s := "12";
    assert TrimStart(s) == s by {
      assert !IsJsSpace(s[0]);
    }
    assert SignFree(s) == s;
    assert DigitPrefix(s) == s by {
      assert DigitPrefix(s[1..][1..]) == "";
      assert DigitPrefix(s[1..]) == s[1..];
    }
    assert DigitsValue(s) == 12 by {
      assert s[..1] == "1" && s[..1][..0] == "";
    }
    ClampedMonthsOverCap(s, now);
  }

  /** An explicit range at most 18 calendar months apart spans at most 19 × 31 days, inside the hard cap. */
  lemma ExplicitWithinCap(s: Moment, e: Moment)
    requires MonthIndex(e.date) - MonthIndex(s.date) <= MaxMonthsApart
    ensures Time(e) - Time(s) <= HardCapMs
  {
    var d := MonthIndex(e.date) - MonthIndex(s.date);
    var ys, ms := s.date.year, s.date.month;
    var first, next := MonthStart(ys, ms), MonthStart(ys, ms + d + 1);
    assert DayNumber(s.date) >= first by {
      WithinMonth(s.date);
    }
    assert DayNumber(e.date) < next by {
      WithinMonth(e.date);
      MonthStartByIndex(e.date.year, e.date.month + 1, ys, ms + d + 1);
    }
    assert next - first <= 19 * 31 by {
      MonthStartsAtMost(ys, ms, d + 1);
    }
    CapInDays(s, e);
  }

  /**
   * Two parseable dates give exactly that window, refused only when the end
   * is before the start or the range covers more than 18 calendar months;
   * the hard cap never refuses it, and the corrected months clamp changes
   * nothing here.
   */
  lemma ExplicitRangeExact(q: Query, now: Moment, parse: string -> Option<Moment>)
    requires ParseDate(q.start, parse).Some? && ParseDate(q.end, parse).Some?
    ensures var s, e := ParseDate(q.start, parse).value, ParseDate(q.end, parse).value;
      var r := CappedWindow(q, now, parse, AsWritten);
      && (r.Ok? <==> Time(s) <= Time(e) && MonthIndex(e.date) - MonthIndex(s.date) <= MaxMonthsApart)
      && (r.Ok? ==> r.value == (s, e))
      && (Time(e) < Time(s) ==> r == Err(400, EndBeforeStart))
      && (Time(s) <= Time(e) && MonthIndex(e.date) - MonthIndex(s.date) > MaxMonthsApart ==> r == Err(400, RangeTooLarge))
    ensures CappedWindow(q, now, parse, Corrected) == CappedWindow(q, now, parse, AsWritten)
  {
    var s, e := ParseDate(q.start, parse).value, ParseDate(q.end, parse).value;
    if MonthIndex(e.date) - MonthIndex(s.date) <= MaxMonthsApart {
      ExplicitWithinCap(s, e);
    }
  }

  /**
   * As written: unless both dates parse (one missing, empty or invalid is
   * ignored), a `months` value gives the months window, which the hard cap
   * accepts up to 11 months either side and refuses from 12 on.
   */
  lemma MonthsWindowAccepted(q: Query, now: Moment, parse: string -> Option<Moment>)
    requires ParseDate(q.start, parse).None? || ParseDate(q.end, parse).None?
    requires Given(q.months)
    ensures IntOr(q.months.value, 1) <= 11 ==>
      CappedWindow(q, now, parse, AsWritten) == Ok(MonthWindow(now, MonthsParam(q.months.value)))
    ensures IntOr(q.months.value, 1) >= 12 ==>
      CappedWindow(q, now, parse, AsWritten) == Err(400, SpanTooLarge)
  {
    MonthsWindowDecided(q, now, parse, AsWritten);
  }

  /** Corrected: the same query gets the months window with `months` clamped to 1..11, always accepted. */
  lemma MonthsWindowAcceptedFixed(q: Query, now: Moment, parse: string -> Option<Moment>)
    requires ParseDate(q.start, parse).None? || ParseDate(q.end, parse).None?
    requires Given(q.months)
    ensures CappedWindow(q, now, parse, Corrected) == Ok(MonthWindow(now, MonthsParamCapped(q.months.value)))
    ensures IntOr(q.months.value, 1) <= 11 ==>
      CappedWindow(q, now, parse, Corrected) == CappedWindow(q, now, parse, AsWritten)
  {
    MonthsWindowDecided(q, now, parse, Corrected);
    MonthsWindowDecided(q, now, parse, AsWritten);
  }

  /** Unless both dates parse, and without `months`, the default window is used and accepted. */
  lemma DefaultWindowAccepted(q: Query, now: Moment, parse: string -> Option<Moment>, v: Variant)
    requires ParseDate(q.start, parse).None? || ParseDate(q.end, parse).None?
    requires !Given(q.months)
    ensures CappedWindow(q, now, parse, v) == Ok(DefaultWindow(now))
  {
    MonthsWithinCap(now, 1);
  }

  /** `Math.min(Math.max(parseInt(maxResults || '0', 10) || 500, 1), 2500)`. */
  function MaxResults(v: Option<string>): (r: int)
    ensures 1 <= r <= 2500
    ensures !Given(v) ==> r == 500
    ensures Given(v) && 1 <= IntOr(v.value, 500) <= 2500 ==> r == IntOr(v.value, 500)
    ensures Given(v) && IntOr(v.value, 500) > 2500 ==> r == 2500
    ensures Given(v) && IntOr(v.value, 500) < 1 ==> r == 1
  {
    ParsesZero();
    Clamp(IntOr(if Given(v) then v.value else "0", 500), 1, 2500)
  }

  function Clamp(x: int, lo: int, hi: int): (r: int)
    requires lo <= hi
    ensures lo <= r <= hi
    ensures lo <= x <= hi ==> r == x
    ensures x < lo ==> r == lo
    ensures x > hi ==> r == hi
  {
    if x < lo then lo else if x > hi then hi else x
  }

  // ---------------------------------------------------------------------------
  // The listing.
  // ---------------------------------------------------------------------------

  /** The member `key: v` of an object literal, which JSON drops when `v` is `undefined`. */
  function Field(key: string, v: Option<Json>): (r: seq<(string, Json)>)
    ensures Get(JObj(r), key) == v
    ensures forall k :: k != key ==> Get(JObj(r), k).None?
  {
    if v.Some? then [(key, v.value)] else []
  }

  /** The members of an object literal whose value is not `undefined`. */
  function Defined(pairs: seq<(string, Option<Json>)>): (r: seq<(string, Json)>)
    ensures |r| <= |pairs|
    ensures forall i :: 0 <= i < |r| ==> (r[i].0, Some(r[i].1)) in pairs
    ensures forall i :: 0 <= i < |pairs| && pairs[i].1.Some? ==> (pairs[i].0, pairs[i].1.value) in r
  {
    if |pairs| == 0 then []
    else
      var rest := Defined(pairs[1..]);
      assert forall p :: p in pairs[1..] ==> p in pairs;
      Field(pairs[0].0, pairs[0].1) + rest
  }

  /** The fields the listing keeps from each Google event. */
  const EventFields: seq<string> :=
    ["id", "recurringEventId", "summary", "start", "end", "attendees", "organizer", "location", "description"]

  /** One listed event: the kept fields the Google event has, with its values, and nothing else. */
  function PickEvent(event: Json): (r: Json)
    ensures r.JObj?
    ensures forall m :: m in r.members ==> m.0 in EventFields && Get(event, m.0) == Some(m.1)
    ensures forall i :: 0 <= i < |EventFields| && Get(event, EventFields[i]).Some? ==>
      (EventFields[i], Get(event, EventFields[i]).value) in r.members
  {
    var pairs := seq(|EventFields|, i requires 0 <= i < |EventFields| => (EventFields[i], Get(event, EventFields[i])));
    PickedFromEvent(event, pairs);
    JObj(Defined(pairs))
  }

  lemma PickedFromEvent(event: Json, pairs: seq<(string, Option<Json>)>)
    requires |pairs| == |EventFields|
    requires forall i :: 0 <= i < |pairs| ==> pairs[i] == (EventFields[i], Get(event, EventFields[i]))
    ensures forall m :: m in Defined(pairs) ==> m.0 in EventFields && Get(event, m.0) == Some(m.1)
  {
    forall m | m in Defined(pairs)
      ensures m.0 in EventFields && Get(event, m.0) == Some(m.1)
    {
      var i :| 0 <= i < |Defined(pairs)| && Defined(pairs)[i] == m;
      var j :| 0 <= j < |pairs| && pairs[j] == (m.0, Some(m.1));
      assert m.0 == EventFields[j];
    }
  }

  function PickEvents(items: seq<Json>): (r: seq<Json>)
    ensures |r| == |items|
    ensures forall i :: 0 <= i < |items| ==> r[i] == PickEvent(items[i])
  {
    seq(|items|, i requires 0 <= i < |items| => PickEvent(items[i]))
  }

  /** The listing's body: the window as ISO strings, the count and the events. */
  function ListingBody(window: (Instant, Instant), events: seq<Json>, iso: Instant -> string): (r: Json)
    ensures Get(r, "events") == Some(JArr(events))
    ensures Get(r, "count") == Some(JNum(|events|))
    ensures !r.JArr?
  {
    var members := [("window", JObj([("start", JStr(iso(window.0))), ("end", JStr(iso(window.1)))])),
                    ("count", JNum(|events|)), ("events", JArr(events))];
    assert LastIndexOfKey(members, "events") == 2;
    assert LastIndexOfKey(members[..2], "count") == 1;
    assert LastIndexOfKey(members, "count") == 1;
    JObj(members)
  }

  /**
   * `getCalendarEvents`: the token, the window, Google's `events.list` with
   * the window and the result cap, then the body.  `list` answers the items
   * of the response (`None` when it has none) or throws.
   */
  function ListEvents(token: Option<string>, q: Query, now: Moment, parse: string -> Option<Moment>,
                      list: (Instant, Instant, int) -> Eval<Option<seq<Json>>>,
                      iso: Instant -> string, v: Variant): (r: Reply)
    ensures !HasToken(token) ==> r == ErrorReply(401, MissingToken)
    ensures HasToken(token) && CappedWindow(q, now, parse, v).Err? ==>
      r == ErrorReply(CappedWindow(q, now, parse, v).status, CappedWindow(q, now, parse, v).message)
    ensures r.status == 200 <==>
      (HasToken(token) && CappedWindow(q, now, parse, v).Ok? &&
       list(CappedWindow(q, now, parse, v).value.0, CappedWindow(q, now, parse, v).value.1, MaxResults(q.maxResults)).Value?)
    ensures r.status == 200 ==>
      (r.body.JObj? && IsArray(Get(r.body, "events")) &&
       Get(r.body, "count") == Some(JNum(|Get(r.body, "events").value.items|)))
  {
    if !HasToken(token) then ErrorReply(401, MissingToken)
    else
      match CappedWindow(q, now, parse, v)
      case Err(status, message) => ErrorReply(status, message)
      case Ok(w) =>
        match list(w.0, w.1, MaxResults(q.maxResults))
        case Threw(message) => ErrorReply(400, message)
        case Value(items) => Reply(200, ListingBody(w, PickEvents(items.GetOr([])), iso))
  }

  /**
   * As written, a signed-in listing with `months` of 12 or more and no
   * usable start and end is answered 400 with the hard-cap message, before
   * Google is asked.
   */
  lemma ListTwelveMonthsRefused(token: Option<string>, q: Query, now: Moment, parse: string -> Option<Moment>,
                                list: (Instant, Instant, int) -> Eval<Option<seq<Json>>>, iso: Instant -> string)
    requires HasToken(token)
    requires ParseDate(q.start, parse).None? || ParseDate(q.end, parse).None?
    requires Given(q.months) && IntOr(q.months.value, 1) >= 12
    ensures ListEvents(token, q, now, parse, list, iso, AsWritten) == ErrorReply(400, SpanTooLarge)
  {
    MonthsWindowAccepted(q, now, parse);
  }

  // ---------------------------------------------------------------------------
  // Create, update, delete.
  // ---------------------------------------------------------------------------

  const FieldsRequired: string := "summary, start, and end are required"
  const MissingId: string := "Missing event id"
  const DefaultZone: string := "Africa/Johannesburg"

  /** `const { … } = req.body` on a `null` body. */
  const DestructureNull: string := "Cannot destructure property 'summary' of 'req.body' as it is null."

  /** `a ?? b`: `b` when `a` is `null` or `undefined`. */
  function Coalesce(a: Option<Json>, b: Json): (r: Json)
    ensures a.Some? && !a.value.JNull? ==> r == a.value
    ensures a.None? || a.value.JNull? ==> r == b
  {
    if a.Some? && !a.value.JNull? then a.value else b
  }

  /** `{dateTime: v.dateTime, date: v.date, timeZone: v.timeZone ?? 'Africa/Johannesburg'}` for a non-null `v`. */
  function Slot(v: Json): (r: Json)
    ensures r.JObj?
    ensures Get(r, "dateTime") == Get(v, "dateTime") && Get(r, "date") == Get(v, "date")
    ensures Get(v, "timeZone").None? || Get(v, "timeZone") == Some(JNull) ==> Get(r, "timeZone") == Some(JStr(DefaultZone))
    ensures Get(v, "timeZone").Some? && !Get(v, "timeZone").value.JNull? ==> Get(r, "timeZone") == Get(v, "timeZone")
  {
    var members := Field("dateTime", Get(v, "dateTime")) + Field("date", Get(v, "date"))
                   + [("timeZone", Coalesce(Get(v, "timeZone"), JStr(DefaultZone)))];
    SlotReadBack(Get(v, "dateTime"), Get(v, "date"), Coalesce(Get(v, "timeZone"), JStr(DefaultZone)));
    JObj(members)
  }

  /** The members of a slot read back as given. */
  lemma SlotReadBack(dateTime: Option<Json>, date: Option<Json>, zone: Json)
    ensures var members := Field("dateTime", dateTime) + Field("date", date) + [("timeZone", zone)];
      Get(JObj(members), "dateTime") == dateTime && Get(JObj(members), "date") == date
      && Get(JObj(members), "timeZone") == Some(zone)
  {
    var front := Field("dateTime", dateTime) + Field("date", date);
    GetAppend(front, [("timeZone", zone)], "dateTime");
    GetAppend(front, [("timeZone", zone)], "date");
    GetAppend(front, [("timeZone", zone)], "timeZone");
    GetAppend(Field("dateTime", dateTime), Field("date", date), "dateTime");
    GetAppend(Field("dateTime", dateTime), Field("date", date), "date");
  }

  /** The slot built from a body's `start` or `end`, or the error reading `dateTime` of a missing one throws. */
  function SlotOf(v: Option<Json>): (r: Eval<Json>)
    ensures v.None? ==> r == Threw(ReadOfUndefined("dateTime"))
    ensures v.Some? && v.value.JNull? ==> r == Threw(ReadOfNull("dateTime"))
    ensures v.Some? && !v.value.JNull? ==> r == Value(Slot(v.value))
  {
    match v
    case None => Threw(ReadOfUndefined("dateTime"))
    case Some(j) => if j.JNull? then Threw(ReadOfNull("dateTime")) else Value(Slot(j))
  }

  /** The request body sent to Google for a create or an update, once both slots are built. */
  function EventBody(body: Json, start: Json, end: Json): (r: Json)
    ensures Get(r, "start") == Some(start) && Get(r, "end") == Some(end)
    ensures Get(r, "summary") == Get(body, "summary")
  {
    var members := Field("summary", Get(body, "summary"))
                   + Field("description", Get(body, "description")) + Field("location", Get(body, "location"))
                   + [("start", start), ("end", end)] + Field("attendees", Get(body, "attendees"));
    BodyReadBack(Get(body, "summary"), Get(body, "description"), Get(body, "location"), start, end, Get(body, "attendees"));
    JObj(members)
  }

  /** The summary and slots of a request body read back as given. */
  lemma BodyReadBack(summary: Option<Json>, description: Option<Json>, location: Option<Json>,
                     start: Json, end: Json, attendees: Option<Json>)
    ensures var members := Field("summary", summary) + Field("description", description) + Field("location", location)
                           + [("start", start), ("end", end)] + Field("attendees", attendees);
      Get(JObj(members), "start") == Some(start) && Get(JObj(members), "end") == Some(end)
      && Get(JObj(members), "summary") == summary
  {
    var a, b, c := Field("summary", summary), Field("description", description), Field("location", location);
    SlotsReadBack(a + b + c, start, end, Field("attendees", attendees));
    assert Get(JObj(a + b), "summary") == summary by {
      GetAppend(a, b, "summary");
    }
    assert Get(JObj(a + b + c), "summary") == summary by {
      GetAppend(a + b, c, "summary");
    }
  }

  /** The `start` and `end` members read back from a body, and a key before them is read through them. */
  lemma SlotsReadBack(front: seq<(string, Json)>, start: Json, end: Json, tail: seq<(string, Json)>)
    requires Get(JObj(tail), "start").None? && Get(JObj(tail), "end").None? && Get(JObj(tail), "summary").None?
    ensures var members := front + [("start", start), ("end", end)] + tail;
      Get(JObj(members), "start") == Some(start) && Get(JObj(members), "end") == Some(end)
      && Get(JObj(members), "summary") == Get(JObj(front), "summary")
  {
    var slots := [("start", start), ("end", end)];
    assert Get(JObj(slots), "start") == Some(start) by {
      assert slots[..1] == [("start", start)];
      assert LastIndexOfKey(slots[..1], "start") == 0;
      assert LastIndexOfKey(slots, "start") == 0;
    }
    assert Get(JObj(slots), "end") == Some(end) by {
      assert LastIndexOfKey(slots, "end") == 1;
    }
    assert Get(JObj(slots), "summary").None?;
    GetAppend(front + slots, tail, "start");
    GetAppend(front + slots, tail, "end");
    GetAppend(front + slots, tail, "summary");
    GetAppend(front, slots, "start");
    GetAppend(front, slots, "end");
    GetAppend(front, slots, "summary");
  }

  /** Both slots of a create: `start` and `end` are present. */
  function CreateBody(body: Json): (r: Json)
    requires Present(Get(body, "start")) && Present(Get(body, "end"))
    ensures Get(r, "start") == Some(Slot(Get(body, "start").value))
    ensures Get(r, "end") == Some(Slot(Get(body, "end").value))
    ensures Get(r, "summary") == Get(body, "summary")
  {
    EventBody(body, Slot(Get(body, "start").value), Slot(Get(body, "end").value))
  }

  /** All three of `summary`, `start` and `end` are truthy. */
  function HasRequired(body: Json): (b: bool)
    ensures b ==> body.JObj?
  {
    Present(Get(body, "summary")) && Present(Get(body, "start")) && Present(Get(body, "end"))
  }

  /** `createCalendarEvents`; `insert` is `calendar.events.insert`. */
  function CreateEvent(token: Option<string>, body: Json, insert: Json -> Eval<Json>): (r: Reply)
    ensures !HasToken(token) ==> r == ErrorReply(401, MissingToken)
    ensures HasToken(token) && !body.JNull? && !HasRequired(body) ==> r == ErrorReply(400, FieldsRequired)
    ensures r.status == 201 <==> HasToken(token) && HasRequired(body) && insert(CreateBody(body)).Value?
    ensures r.status == 201 ==> r.body == insert(CreateBody(body)).value
  {
    if !HasToken(token) then ErrorReply(401, MissingToken)
    else if body.JNull? then ErrorReply(400, DestructureNull)
    else if !HasRequired(body) then ErrorReply(400, FieldsRequired)
    else
      match insert(CreateBody(body))
      case Threw(message) => ErrorReply(400, message)
      case Value(data) => Reply(201, data)
  }

  /** `updateCalendarEvent`; `patch` is `calendar.events.patch` on the id. */
  function UpdateEvent(token: Option<string>, id: string, body: Json, patch: (string, Json) -> Eval<Json>): (r: Reply)
    ensures !HasToken(token) ==> r == ErrorReply(401, MissingToken)
    ensures HasToken(token) && !body.JNull? && id == "" ==> r == ErrorReply(400, MissingId)
    ensures HasToken(token) && !body.JNull? && id != "" && Get(body, "start").None? ==>
      r == ErrorReply(400, ReadOfUndefined("dateTime"))
    ensures HasToken(token) && !body.JNull? && id != "" && Get(body, "start") == Some(JNull) ==>
      r == ErrorReply(400, ReadOfNull("dateTime"))
    ensures r.status == 200 <==>
      (HasToken(token) && !body.JNull? && id != "" &&
       SlotOf(Get(body, "start")).Value? && SlotOf(Get(body, "end")).Value? &&
       patch(id, EventBody(body, SlotOf(Get(body, "start")).value, SlotOf(Get(body, "end")).value)).Value?)
  {
    if !HasToken(token) then ErrorReply(401, MissingToken)
    else if body.JNull? then ErrorReply(400, DestructureNull)
    else if id == "" then ErrorReply(400, MissingId)
    else
      match SlotOf(Get(body, "start"))
      case Threw(message) => ErrorReply(400, message)
      case Value(start) =>
        match SlotOf(Get(body, "end"))
        case Threw(message) => ErrorReply(400, message)
        case Value(end) =>
          match patch(id, EventBody(body, start, end))
          case Threw(message) => ErrorReply(400, message)
          case Value(data) => Reply(200, data)
  }

  /** `deleteCalendarEvent`; `remove` is `calendar.events.delete`, answering its error message if it throws. */
  function DeleteEvent(token: Option<string>, id: string, remove: string -> Option<string>): (r: Reply)
    ensures !HasToken(token) ==> r == ErrorReply(401, MissingToken)
    ensures HasToken(token) && id == "" ==> r == ErrorReply(400, MissingId)
    ensures r.status == 200 <==> HasToken(token) && id != "" && remove(id).None?
    ensures r.status == 200 ==> Get(r.body, "success") == Some(JBool(true))
  {
    if !HasToken(token) then ErrorReply(401, MissingToken)
    else if id == "" then ErrorReply(400, MissingId)
    else
      match remove(id)
      case Some(message) => ErrorReply(400, message)
      case None => Reply(200, JObj([("success", JBool(true))]))
  }

}

=== FILE: calendar_view.dfy ===
/**
 * The calendar panel: how Google events become calendar entries, how the
 * entry list changes on delete, edit and undo, and the checks the create
 * and edit forms make before they send anything.  Rendering, toasts and
 * the calendar widget are not modelled; the engine's date parsing and
 * `toISOString` are parameters.
 */
module CalendarView {
  import opened Wrappers
  import opened Text
  import opened Json
  import Dates
  import CalendarApi

  // ---------------------------------------------------------------------
  // Times on the form
  // ---------------------------------------------------------------------

  function TwoDigits(a: char, b: char): nat
    requires IsDigit(a) && IsDigit(b)
  {
    10 * DigitValue(a) + DigitValue(b)
  }

  /** A `HH:MM` field as the time part of a date-time string: its minute of the day. */
  predicate IsClock(t: string) {
    |t| == 5 && IsDigit(t[0]) && IsDigit(t[1]) && t[2] == ':' && IsDigit(t[3]) && IsDigit(t[4])
  }

  /**
   * The minute of the day `THH:MM:00` denotes, or `None` for an invalid
   * time; `24:00` is the end of the day, as the date-time string format
   * allows.
   */
  function ClockMinutes(t: string): (r: Option<nat>)
    ensures r.Some? ==> IsClock(t) && r.value <= 24 * 60
    ensures r.Some? ==> r.value == 60 * TwoDigits(t[0], t[1]) + TwoDigits(t[3], t[4])
    ensures IsClock(t) && TwoDigits(t[0], t[1]) < 24 && TwoDigits(t[3], t[4]) < 60 ==> r.Some?
  {
    if !IsClock(t) then None
    else
      var h := TwoDigits(t[0], t[1]);
      var m := TwoDigits(t[3], t[4]);
      if (h < 24 && m < 60) || (h == 24 && m == 0) then Some(60 * h + m) else None
  }

  /**
   * `validateTimes`: true when a field is still empty, otherwise true iff
   * the end is later than the start on the same day.  `dateOk` says whether
   * the engine accepts the date part; an invalid date or time gives `NaN`,
   * and a comparison with `NaN` is false.
   */
  function ValidateTimes(date: string, startTime: string, endTime: string, dateOk: string -> bool): (r: bool)
    ensures date == "" || startTime == "" || endTime == "" ==> r
    ensures date != "" && startTime != "" && endTime != "" ==> (r <==> (
      && dateOk(date) && ClockMinutes(startTime).Some? && ClockMinutes(endTime).Some?
      && ClockMinutes(startTime).value < ClockMinutes(endTime).value))
  {
    if date == "" || startTime == "" || endTime == "" then true
    else
      var s := ClockMinutes(startTime);
      var e := ClockMinutes(endTime);
      dateOk(date) && s.Some? && e.Some? && e.value > s.value
  }

  /** Lexicographic order of strings, as `<` compares them. */
  predicate StringLess(a: string, b: string) {
    exists k :: 0 <= k < |a| && k < |b| && a[..k] == b[..k] && a[k] < b[k]
  }

  lemma DigitOrder(a: char, b: char)
    requires IsDigit(a) && IsDigit(b)
    ensures a < b <==> DigitValue(a) < DigitValue(b)
  {
  }

  /**
   * Two valid times are in order exactly when their `HH:MM` texts are: the
   * check agrees with comparing the fields as strings.
   */
  lemma ClockOrderIsTextOrder(a: string, b: string)
    requires ClockMinutes(a).Some? && ClockMinutes(b).Some?
    ensures ClockMinutes(a).value < ClockMinutes(b).value <==> StringLess(a, b)
  {
    DigitOrder(a[0], b[0]);
    DigitOrder(a[1], b[1]);
    DigitOrder(a[3], b[3]);
    DigitOrder(a[4], b[4]);
    if ClockMinutes(a).value < ClockMinutes(b).value {
      var k := if a[0] != b[0] then 0 else if a[1] != b[1] then 1 else if a[3] != b[3] then 3 else 4;
      assert a[..k] == b[..k];
    }
    if StringLess(a, b) {
      var k :| 0 <= k < |a| && k < |b| && a[..k] == b[..k] && a[k] < b[k];
      assert k != 2;
      assert forall i :: 0 <= i < k ==> a[i] == a[..k][i] == b[..k][i] == b[i];
    }
  }

  /** A start and end at the same time never pass once every field is filled in. */
  lemma SameTimeRejected(date: string, time: string, dateOk: string -> bool)
    requires date != "" && time != ""
    ensures !ValidateTimes(date, time, time, dateOk)
  {
  }

  // ---------------------------------------------------------------------
  // Attendees
  // ---------------------------------------------------------------------

  /** `.map(a => a.trim())`. */
  function TrimAll(parts: seq<string>): (r: seq<string>)
    ensures |r| == |parts|
    ensures forall i :: 0 <= i < |r| ==> r[i] == Trim(parts[i])
  {
    seq(|parts|, i requires 0 <= i < |parts| => Trim(parts[i]))
  }

  /** `.filter(Boolean)` on strings: the non-empty ones, in order. */
  function NonEmpty(ts: seq<string>): (r: seq<string>)
    ensures |r| <= |ts|
    ensures forall i :: 0 <= i < |r| ==> r[i] != ""
    ensures forall x :: x in r ==> x in ts
    ensures (forall i :: 0 <= i < |ts| ==> ts[i] != "") ==> r == ts
    ensures (forall i :: 0 <= i < |ts| ==> ts[i] == "") ==> r == []
  {
    if |ts| == 0 then []
    else
      var rest := NonEmpty(ts[1..]);
      assert forall x :: x in ts[1..] ==> x in ts;
      assert forall i :: 1 <= i < |ts| ==> ts[1..][i - 1] == ts[i];
      if ts[0] == "" then rest
      else
        assert ts == [ts[0]] + ts[1..];
        [ts[0]] + rest
  }

  /** Filtering a list cut in two filters each part: the kept pieces keep their order. */
  lemma {:induction false} NonEmptySplits(a: seq<string>, b: seq<string>)
    ensures NonEmpty(a + b) == NonEmpty(a) + NonEmpty(b)
  {
    if |a| == 0 {
      assert a + b == b;
    } else {
      assert (a + b)[0] == a[0];
      assert (a + b)[1..] == a[1..] + b;
      NonEmptySplits(a[1..], b);
    }
  }

  /** The attendee addresses of the pieces of the field. */
  function Emails(parts: seq<string>): (r: seq<string>)
    ensures |r| <= |parts|
    ensures forall i :: 0 <= i < |r| ==> r[i] != ""
    ensures forall x :: x in r ==> exists k :: 0 <= k < |parts| && x == Trim(parts[k])
  {
    var ts := TrimAll(parts);
    var r := NonEmpty(ts);
    assert forall x :: x in r ==> x in ts;
    r
  }

  /** The addresses are already trimmed and, when the pieces had no commas, comma-free. */
  lemma EmailsTrimmed(parts: seq<string>)
    ensures forall x :: x in Emails(parts) ==> Trim(x) == x
    ensures (forall i :: 0 <= i < |parts| ==> ',' !in parts[i]) ==> forall x :: x in Emails(parts) ==> ',' !in x
  {
    forall k | 0 <= k < |parts|
      ensures Trim(Trim(parts[k])) == Trim(parts[k])
      ensures ',' !in parts[k] ==> ',' !in Trim(parts[k])
    {
      TrimTwice(parts[k]);
      TrimSubstring(parts[k]);
    }
  }

  lemma TrimTwice(s: string)
    ensures Trim(Trim(s)) == Trim(s)
  {
    TrimKeeps(Trim(s));
  }

  /** `Trim` keeps a contiguous piece of its input, so it adds no character. */
  lemma TrimSubstring(s: string)
    ensures forall c :: c in Trim(s) ==> c in s
  {
    var t := TrimStart(s);
    assert forall c :: c in TrimEnd(t) ==> c in t;
    assert forall c :: c in t ==> c in s;
  }

  /** `{ email }` */
  function Attendee(email: string): Json {
    JObj([("email", JStr(email))])
  }

  /** `attendees.split(',').map(a => a.trim()).filter(Boolean).map(email => ({ email }))`. */
  function ParseAttendees(s: string): (r: seq<Json>)
    ensures |r| == |Emails(Split(s, ','))|
    ensures forall i :: 0 <= i < |r| ==> r[i] == Attendee(Emails(Split(s, ','))[i])
    ensures forall i :: 0 <= i < |r| ==> Get(r[i], "email").Some? && Get(r[i], "email").value.JStr?
  {
    var es := Emails(Split(s, ','));
    seq(|es|, i requires 0 <= i < |es| => Attendee(es[i]))
  }

  /** A field with no commas, or only blanks between them, invites nobody. */
  lemma {:induction false} BlankInvitesNobody(s: string)
    requires forall c :: c in s ==> c == ',' || c == ' '
    ensures ParseAttendees(s) == []
  {
    BlankPieces(s);
  }

  lemma {:induction false} BlankPieces(s: string)
    requires forall c :: c in s ==> c == ',' || c == ' '
    ensures Emails(Split(s, ',')) == []
  {
    var parts := Split(s, ',');
    BlankSplit(s);
    forall i | 0 <= i < |parts|
      ensures TrimAll(parts)[i] == ""
    {
      TrimEmptyIffBlank(parts[i]);
    }
  }

  lemma {:induction false} BlankSplit(s: string)
    requires forall c :: c in s ==> c == ',' || c == ' '
    ensures forall i :: 0 <= i < |Split(s, ',')| ==> IsBlank(Split(s, ',')[i])
  {
    if |s| > 0 {
      assert forall c :: c in s[1..] ==> c in s;
      BlankSplit(s[1..]);
      var rest := Split(s[1..], ',');
      assert IsBlank(rest[0]);
      assert s[0] in s;
      if s[0] != ',' {
        assert IsJsSpace(s[0]);
        assert IsBlank([s[0]] + rest[0]);
      }
    }
  }

  /** `emails.join(', ')` spelled as the pieces a `,` split sees. */
  function Spaced(xs: seq<string>): (r: seq<string>)
    requires |xs| >= 1
    ensures |r| == |xs| && r[0] == xs[0]
    ensures forall i :: 1 <= i < |xs| ==> r[i] == " " + xs[i]
  {
    [xs[0]] + seq(|xs| - 1, i requires 0 <= i < |xs| - 1 => " " + xs[i + 1])
  }

  lemma {:induction false} JoinSpaced(xs: seq<string>)
    requires |xs| >= 1
    ensures Join(xs, ", ") == Join(Spaced(xs), ",")
  {
    if |xs| > 1 {
      SpacedTail(xs);
      JoinSpaced(xs[1..]);
      JoinSpacedStep(xs, Spaced(xs), Spaced(xs[1..]));
    }
  }

  lemma SpacedTail(xs: seq<string>)
    requires |xs| > 1
    ensures Spaced(xs)[1..] == [[' '] + Spaced(xs[1..])[0]] + Spaced(xs[1..])[1..]
  {
    var h := Spaced(xs)[1..];
    var t := Spaced(xs[1..]);
    var rhs := [[' '] + t[0]] + t[1..];
    assert |h| == |rhs|;
    forall i | 0 <= i < |h|
      ensures h[i] == rhs[i]
    {
      if i > 0 {
        assert rhs[i] == t[i] == " " + xs[1..][i];
      }
    }
  }

  lemma JoinSpacedStep(xs: seq<string>, head: seq<string>, tail: seq<string>)
    requires |xs| > 1 && |head| > 1 && |tail| >= 1 && head[0] == xs[0]
    requires head[1..] == [[' '] + tail[0]] + tail[1..]
    requires Join(xs[1..], ", ") == Join(tail, ",")
    ensures Join(xs, ", ") == Join(head, ",")
  {
    var j := Join(tail, ",");
    assert [tail[0]] + tail[1..] == tail;
    JoinHeadExtend(' ', tail[0], tail[1..], ",");
    assert Join(head[1..], ",") == [' '] + j;
    assert Join(head, ",") == xs[0] + "," + ([' '] + j);
    assert Join(xs, ", ") == xs[0] + ", " + j;
    CommaSpace(xs[0], j);
  }

  lemma CommaSpace(a: string, b: string)
    ensures a + ", " + b == a + "," + ([' '] + b)
  {
    assert ", " == "," + [' '];
  }

  /** Splitting pieces joined by a separator they do not contain gives the pieces back. */
  lemma {:induction false} SplitJoin(ys: seq<string>, c: char)
    requires |ys| >= 1
    requires forall i :: 0 <= i < |ys| ==> c !in ys[i]
    ensures Split(Join(ys, [c]), c) == ys
  {
    if |ys| == 1 {
      SplitNoSep(ys[0], c);
    } else {
      SplitJoin(ys[1..], c);
      SplitAppend(ys[0], c, Join(ys[1..], [c]));
      assert [ys[0]] + ys[1..] == ys;
    }
  }

  /** Trimmed, non-empty addresses keep their place through the split: the space after each comma is trimmed away. */
  lemma {:induction false} EmailsOfSpaced(xs: seq<string>)
    requires |xs| >= 1
    requires forall i :: 0 <= i < |xs| ==> xs[i] != "" && Trim(xs[i]) == xs[i]
    ensures Emails(Spaced(xs)) == xs
  {
    TrimAllSpaced(xs);
  }

  lemma TrimAllSpaced(xs: seq<string>)
    requires |xs| >= 1
    requires forall i :: 0 <= i < |xs| ==> Trim(xs[i]) == xs[i]
    ensures TrimAll(Spaced(xs)) == xs
  {
    var padded := Spaced(xs);
    var ts := TrimAll(padded);
    forall i | 0 <= i < |xs|
      ensures ts[i] == xs[i]
    {
      PaddedPieceTrims(xs[i], padded[i]);
    }
  }

  /** A trimmed piece, with or without the space the join puts before it, trims to itself. */
  lemma PaddedPieceTrims(t: string, p: string)
    requires Trim(t) == t
    requires p == t || p == " " + t
    ensures Trim(p) == t
  {
    assert t == [] || (!IsJsSpace(t[0]) && !IsJsSpace(t[|t| - 1]));
    if p != t {
      TrimDropsSpace(t);
    }
  }

  /** Spaced comma-free addresses are comma-free pieces. */
  lemma SpacedCommaFree(emails: seq<string>)
    requires |emails| >= 1
    requires forall i :: 0 <= i < |emails| ==> ',' !in emails[i]
    ensures forall i :: 0 <= i < |emails| ==> ',' !in Spaced(emails)[i]
  {
    var ys := Spaced(emails);
    forall i | 0 <= i < |emails|
      ensures ',' !in ys[i]
    {
      if i > 0 {
        assert ys[i] == [' '] + emails[i];
      }
    }
  }

  /**
   * The edit form shows the attendees joined by `, `; splitting that text
   * again gives back the same addresses, in the same order.
   */
  lemma {:induction false} EmailsRoundTrip(emails: seq<string>)
    requires |emails| >= 1
    requires forall i :: 0 <= i < |emails| ==> emails[i] != "" && Trim(emails[i]) == emails[i]
    requires forall i :: 0 <= i < |emails| ==> ',' !in emails[i]
    ensures Emails(Split(Join(emails, ", "), ',')) == emails
  {
    SplitSpaced(emails);
    EmailsOfSpaced(emails);
  }

  /** Comma-free addresses joined by `, ` split back into the spaced pieces. */
  lemma {:induction false} SplitSpaced(emails: seq<string>)
    requires |emails| >= 1
    requires forall i :: 0 <= i < |emails| ==> ',' !in emails[i]
    ensures Split(Join(emails, ", "), ',') == Spaced(emails)
  {
    JoinSpaced(emails);
    SpacedCommaFree(emails);
    SplitJoin(Spaced(emails), ',');
  }

  /** Submitting the edit form's attendees unchanged sends one `{ email }` per address, in order. */
  lemma {:induction false} AttendeesRoundTrip(emails: seq<string>)
    requires |emails| >= 1
    requires forall i :: 0 <= i < |emails| ==> emails[i] != "" && Trim(emails[i]) == emails[i]
    requires forall i :: 0 <= i < |emails| ==> ',' !in emails[i]
    ensures var r := ParseAttendees(Join(emails, ", "));
      |r| == |emails| && forall i :: 0 <= i < |r| ==> r[i] == Attendee(emails[i])
  {
    EmailsRoundTrip(emails);
  }

  // ---------------------------------------------------------------------
  // Calendar entries
  // ---------------------------------------------------------------------

  /**
   * An entry of the calendar's event list: `start`/`end` are the Google
   * `dateTime` when given, else the `date`; `allDay` marks a start without a
   * `dateTime`.  Missing values are `None`.
   */
  datatype Entry = Entry(
    id: Option<Json>, title: Option<Json>, start: Option<Json>, end: Option<Json>, allDay: bool,
    description: Json, location: Json, organizer: Json, attendees: Json, raw: Json)

  /** `x || fallback` where the fallback is always present. */
  function Or(x: Option<Json>, fallback: Json): (r: Json)
    ensures Present(x) ==> r == x.value
    ensures !Present(x) ==> r == fallback
  {
    OrElse(x, Some(fallback)).value
  }

  /** `t?.dateTime || t?.date` for the `start` or `end` of an event. */
  function When(ev: Json, field: string): (r: Option<Json>)
    ensures Present(Walk(Some(ev), [Key(field), Key("dateTime")])) ==> r == Walk(Some(ev), [Key(field), Key("dateTime")])
    ensures !Present(Walk(Some(ev), [Key(field), Key("dateTime")])) ==> r == Walk(Some(ev), [Key(field), Key("date")])
  {
    OrElse(Walk(Some(ev), [Key(field), Key("dateTime")]), Walk(Some(ev), [Key(field), Key("date")]))
  }

  /** The entry built from an event the server returned (create, edit and undo use `?.`). */
  function ToEntry(ev: Json): (r: Entry)
    ensures r.raw == ev && r.id == Get(ev, "id") && r.title == Get(ev, "summary")
    ensures r.allDay <==> !Present(Walk(Some(ev), [Key("start"), Key("dateTime")]))
    ensures r.allDay ==> r.start == Walk(Some(ev), [Key("start"), Key("date")])
    ensures !r.allDay ==> r.start == Walk(Some(ev), [Key("start"), Key("dateTime")])
    ensures Present(Get(ev, "description")) <==> r.description != JStr("") && Truthy(r.description)
  {
    Entry(
      Get(ev, "id"), Get(ev, "summary"), When(ev, "start"), When(ev, "end"),
      !Present(Walk(Some(ev), [Key("start"), Key("dateTime")])),
      Or(Get(ev, "description"), JStr("")), Or(Get(ev, "location"), JStr("")),
      Or(Get(ev, "organizer"), JNull), Or(Get(ev, "attendees"), JArr([])), ev)
  }

  /** `o.key` may be read further: it is neither `undefined` nor `null`. */
  predicate Readable(o: Option<Json>) {
    o.Some? && o.value != JNull
  }

  /** The `TypeError` of `o.key` on an unreadable `o`. */
  function ReadError(o: Option<Json>, key: string): string {
    if o.None? then ReadOfUndefined(key) else ReadOfNull(key)
  }

  /**
   * The entry built on a fetch, which reads `event.start.dateTime` and
   * `event.end.dateTime` without `?.` and so throws on an event without them.
   */
  function FetchedEntry(ev: Json): (r: Eval<Entry>)
    ensures r.Value? <==> ev != JNull && Readable(Get(ev, "start")) && Readable(Get(ev, "end"))
  {
    if ev == JNull then Threw(ReadOfNull("id"))
    else
      var start := Get(ev, "start");
      var end := Get(ev, "end");
      if !Readable(start) then Threw(ReadError(start, "dateTime"))
      else if !Readable(end) then Threw(ReadError(end, "dateTime"))
      else
        Value(Entry(
          Get(ev, "id"), Get(ev, "summary"),
          OrElse(Get(start.value, "dateTime"), Get(start.value, "date")),
          OrElse(Get(end.value, "dateTime"), Get(end.value, "date")),
          !Present(Get(start.value, "dateTime")),
          Or(Get(ev, "description"), JStr("")), Or(Get(ev, "location"), JStr("")),
          Or(Get(ev, "organizer"), JNull), Or(Get(ev, "attendees"), JArr([])), ev))
  }

  /** The fetch and the later updates build the same entry from an event both can read. */
  lemma FetchedAgrees(ev: Json)
    requires FetchedEntry(ev).Value?
    ensures FetchedEntry(ev).value == ToEntry(ev)
  {
    var start := Get(ev, "start");
    var end := Get(ev, "end");
    assert Walk(Some(ev), [Key("start")]) == start;
    assert Walk(Some(ev), [Key("start"), Key("dateTime")]) == Walk(start, [Key("dateTime")]) == Get(start.value, "dateTime");
    assert Walk(Some(ev), [Key("start"), Key("date")]) == Walk(start, [Key("date")]) == Get(start.value, "date");
    assert Walk(Some(ev), [Key("end"), Key("dateTime")]) == Walk(end, [Key("dateTime")]) == Get(end.value, "dateTime");
    assert Walk(Some(ev), [Key("end"), Key("date")]) == Walk(end, [Key("date")]) == Get(end.value, "date");
  }

  /**
   * `fetchEvents`: the list becomes the mapped response when it is an array
   * whose events all map; otherwise a toast is shown and the list stays.
   */
  function Fetch(entries: seq<Entry>, data: Json): (r: seq<Entry>)
    ensures !data.JArr? ==> r == entries
    ensures data.JArr? && AllFetch(data.items) ==>
      (|r| == |data.items| && forall i :: 0 <= i < |r| ==> r[i] == ToEntry(data.items[i]))
    ensures data.JArr? && !AllFetch(data.items) ==> r == entries
  {
    if !data.JArr? || !AllFetch(data.items) then entries
    else
      var items := data.items;
      AllFetchedAgree(items);
      seq(|items|, i requires 0 <= i < |items| => FetchedEntry(items[i]).value)
  }

  lemma AllFetchedAgree(items: seq<Json>)
    requires AllFetch(items)
    ensures forall i :: 0 <= i < |items| ==> FetchedEntry(items[i]).value == ToEntry(items[i])
  {
    forall i | 0 <= i < |items|
      ensures FetchedEntry(items[i]).value == ToEntry(items[i])
    {
      FetchedAgrees(items[i]);
    }
  }

  /** Every event of the response can be read without a `TypeError`. */
  predicate AllFetch(items: seq<Json>) {
    forall i :: 0 <= i < |items| ==> FetchedEntry(items[i]).Value?
  }

  /**
   * As written, the page maps the listing that `GET /calendar/events`
   * answers with as if it were the array of events.  The listing is an
   * object, so `map` throws into the catch and the list never loads.
   */
  lemma FetchIgnoresListing(entries: seq<Entry>, window: (Dates.Instant, Dates.Instant), events: seq<Json>,
                            iso: Dates.Instant -> string)
    ensures Fetch(entries, CalendarApi.ListingBody(window, events, iso)) == entries
  {
  }

  /** Corrected: the fetch maps the listing's `events`; without them, `map` of undefined throws. */
  function FetchListed(entries: seq<Entry>, data: Json): (r: seq<Entry>)
    ensures Get(data, "events").None? ==> r == entries
    ensures Get(data, "events").Some? && !Get(data, "events").value.JArr? ==> r == entries
  {
    match Get(data, "events")
    case None => entries
    case Some(events) => Fetch(entries, events)
  }

  /** Corrected, every readable event of the listing is loaded, in order, replacing the old list. */
  lemma FetchListedLoads(entries: seq<Entry>, window: (Dates.Instant, Dates.Instant), events: seq<Json>,
                         iso: Dates.Instant -> string)
    requires AllFetch(events)
    ensures var r := FetchListed(entries, CalendarApi.ListingBody(window, events, iso));
      |r| == |events| && forall i :: 0 <= i < |r| ==> r[i] == ToEntry(events[i])
  {
  }

  // ---------------------------------------------------------------------
  // List updates
  // ---------------------------------------------------------------------

  /** `prev.filter(e => e.id !== id)`. */
  function Delete(entries: seq<Entry>, id: Option<Json>): (r: seq<Entry>)
    ensures |r| <= |entries|
    ensures forall e :: e in r <==> e in entries && !StrictEquals(e.id, id)
  {
    if |entries| == 0 then []
    else
      var rest := Delete(entries[1..], id);
      assert forall e :: e in entries <==> e == entries[0] || e in entries[1..];
      if StrictEquals(entries[0].id, id) then rest else [entries[0]] + rest
  }

  /** Deleting from a list cut in two deletes from each part: the kept entries keep their order. */
  lemma {:induction false} DeleteSplits(a: seq<Entry>, b: seq<Entry>, id: Option<Json>)
    ensures Delete(a + b, id) == Delete(a, id) + Delete(b, id)
  {
    if |a| == 0 {
      assert a + b == b;
    } else {
      assert (a + b)[0] == a[0];
      assert (a + b)[1..] == a[1..] + b;
      DeleteSplits(a[1..], b, id);
    }
  }

  /** A list without the deleted id is left as it is. */
  lemma {:induction false} DeleteAbsent(entries: seq<Entry>, id: Option<Json>)
    requires forall i :: 0 <= i < |entries| ==> !StrictEquals(entries[i].id, id)
    ensures Delete(entries, id) == entries
  {
    if |entries| > 0 {
      DeleteAbsent(entries[1..], id);
      assert [entries[0]] + entries[1..] == entries;
    }
  }

  /** `prev.map(e => e.id === id ? entry : e)`. */
  function Replace(entries: seq<Entry>, id: Option<Json>, entry: Entry): (r: seq<Entry>)
    ensures |r| == |entries|
    ensures forall i :: 0 <= i < |r| ==> r[i] == if StrictEquals(entries[i].id, id) then entry else entries[i]
  {
    seq(|entries|, i requires 0 <= i < |entries| => if StrictEquals(entries[i].id, id) then entry else entries[i])
  }

  /** The edit's update: entries whose id matches the returned event's become its entry. */
  function Edited(entries: seq<Entry>, ev: Json): (r: seq<Entry>)
    ensures |r| == |entries|
    ensures forall i :: 0 <= i < |r| && StrictEquals(entries[i].id, Get(ev, "id")) ==> r[i] == ToEntry(ev)
    ensures forall i :: 0 <= i < |r| && !StrictEquals(entries[i].id, Get(ev, "id")) ==> r[i] == entries[i]
  {
    Replace(entries, Get(ev, "id"), ToEntry(ev))
  }

  /** Only the edited entries change, and a delete of any other id does not see the edit. */
  lemma EditTouchesOnlyItsId(entries: seq<Entry>, ev: Json, other: Option<Json>)
    requires !StrictEquals(Get(ev, "id"), other) && !StrictEquals(other, Get(ev, "id"))
    ensures forall i :: 0 <= i < |entries| && StrictEquals(entries[i].id, other) ==> Edited(entries, ev)[i] == entries[i]
  {
    forall i | 0 <= i < |entries| && StrictEquals(entries[i].id, other)
      ensures Edited(entries, ev)[i] == entries[i]
    {
      StrictEqualsTransitive(entries[i].id, other, Get(ev, "id"));
    }
  }

  lemma StrictEqualsTransitive(a: Option<Json>, b: Option<Json>, c: Option<Json>)
    requires StrictEquals(a, b) && !StrictEquals(b, c)
    ensures !StrictEquals(a, c)
  {
  }

  /** Applying the same edit twice is applying it once. */
  lemma EditIdempotent(entries: seq<Entry>, ev: Json)
    ensures Edited(Edited(entries, ev), ev) == Edited(entries, ev)
  {
    var once := Edited(entries, ev);
    var twice := Edited(once, ev);
    forall i | 0 <= i < |entries|
      ensures twice[i] == once[i]
    {
      if StrictEquals(once[i].id, Get(ev, "id")) && !StrictEquals(entries[i].id, Get(ev, "id")) {
        assert once[i] == entries[i];
      }
    }
  }

  /**
   * `[...prev, entry]`: a created or restored event joins the end of the
   * list.  A `null` response body throws reading `ev.id` instead.
   */
  function Added(entries: seq<Entry>, ev: Json): (r: Eval<seq<Entry>>)
    ensures ev.JNull? <==> r.Threw?
    ensures r.Threw? ==> r.message == ReadOfNull("id")
    ensures r.Value? ==>
      |r.value| == |entries| + 1 && r.value[..|entries|] == entries && r.value[|entries|] == ToEntry(ev)
  {
    if ev.JNull? then Threw(ReadOfNull("id")) else Value(entries + [ToEntry(ev)])
  }

  // ---------------------------------------------------------------------
  // Undo after delete
  // ---------------------------------------------------------------------

  /**
   * The toast's undo action: the `undone` flag is set before the restore is
   * sent, so only the first press posts, whether or not the restore works.
   */
  function Press(undone: bool): (r: (bool, bool))
    ensures r.0
    ensures r.1 <==> !undone
  {
    if undone then (true, false) else (true, true)
  }

  /** The number of restores `presses` presses send, starting from `undone`. */
  function Restores(undone: bool, presses: nat): (r: nat)
    decreases presses
  {
    if presses == 0 then 0
    else
      var (next, posted) := Press(undone);
      (if posted then 1 else 0) + Restores(next, presses - 1)
  }

  /** However often the action is pressed, the event is restored at most once. */
  lemma {:induction false} RestoresAtMostOnce(presses: nat)
    ensures Restores(false, presses) == if presses == 0 then 0 else 1
  {
    if presses > 0 {
      AlreadyUndone(presses - 1);
    }
  }

  lemma {:induction false} AlreadyUndone(presses: nat)
    ensures Restores(true, presses) == 0
  {
    if presses > 0 {
      AlreadyUndone(presses - 1);
    }
  }

  // ---------------------------------------------------------------------
  // Create and edit forms
  // ---------------------------------------------------------------------

  /** The fields of the create and edit forms. */
  datatype Form = Form(
    summary: string, date: string, startTime: string, endTime: string,
    location: string, description: string, attendees: string)

  const EndBeforeStart: string := "End time must be after start time"

  /** What a submit does: nothing, a warning, or a request with this body. */
  datatype Submitted = Ignored | Warned(message: string) | Sent(body: Json)

  /**
   * The body both forms send; `iso(date, time)` is
   * `new Date(`${date}T${time}:00`).toISOString()`.
   */
  function EventBody(f: Form, iso: (string, string) -> string): Json {
    JObj([
      ("summary", JStr(f.summary)), ("description", JStr(f.description)), ("location", JStr(f.location)),
      ("attendees", JArr(ParseAttendees(f.attendees))),
      ("start", JObj([("dateTime", JStr(iso(f.date, f.startTime)))])),
      ("end", JObj([("dateTime", JStr(iso(f.date, f.endTime)))]))])
  }

  /** The submit handler of the create form, and of the edit form. */
  function Submit(f: Form, dateOk: string -> bool, iso: (string, string) -> string): (r: Submitted)
    ensures r.Sent? <==> (
      && f.summary != "" && f.date != "" && f.startTime != "" && f.endTime != ""
      && dateOk(f.date) && ClockMinutes(f.startTime).Some? && ClockMinutes(f.endTime).Some?
      && ClockMinutes(f.startTime).value < ClockMinutes(f.endTime).value)
    ensures r.Warned? ==> r.message == EndBeforeStart
    ensures r.Sent? ==> r.body == EventBody(f, iso)
    ensures f.summary == "" || f.date == "" || f.startTime == "" || f.endTime == "" ==> r == Ignored
  {
    if f.summary == "" || f.date == "" || f.startTime == "" || f.endTime == "" then Ignored
    else if !ValidateTimes(f.date, f.startTime, f.endTime, dateOk) then Warned(EndBeforeStart)
    else Sent(EventBody(f, iso))
  }

  /** A sent body carries the attendees parsed from the field and the two times. */
  lemma SentBody(f: Form, dateOk: string -> bool, iso: (string, string) -> string)
    requires Submit(f, dateOk, iso).Sent?
    ensures var b := Submit(f, dateOk, iso).body;
      && Get(b, "attendees") == Some(JArr(ParseAttendees(f.attendees)))
      && Get(b, "summary") == Some(JStr(f.summary))
      && Walk(Some(b), [Key("start"), Key("dateTime")]) == Some(JStr(iso(f.date, f.startTime)))
      && Walk(Some(b), [Key("end"), Key("dateTime")]) == Some(JStr(iso(f.date, f.endTime)))
  {
    BodyLayout(EventBody(f, iso), JStr(f.summary), JStr(f.description), JStr(f.location),
      JArr(ParseAttendees(f.attendees)), JStr(iso(f.date, f.startTime)), JStr(iso(f.date, f.endTime)));
  }

  /** The members of an event body, read back by name. */
  lemma BodyLayout(b: Json, summary: Json, description: Json, location: Json, attendees: Json, start: Json, end: Json)
    requires b == JObj([
      ("summary", summary), ("description", description), ("location", location), ("attendees", attendees),
      ("start", JObj([("dateTime", start)])), ("end", JObj([("dateTime", end)]))])
    ensures Get(b, "attendees") == Some(attendees) && Get(b, "summary") == Some(summary)
    ensures Walk(Some(b), [Key("start"), Key("dateTime")]) == Some(start)
    ensures Walk(Some(b), [Key("end"), Key("dateTime")]) == Some(end)
  {
    var ms := b.members;
    LastIndexOfKeyAt(ms, "attendees", 3);
    LastIndexOfKeyAt(ms, "summary", 0);
    LastIndexOfKeyAt(ms, "start", 4);
    LastIndexOfKeyAt(ms, "end", 5);
    var st := JObj([("dateTime", start)]);
    var en := JObj([("dateTime", end)]);
    assert LastIndexOfKey(st.members, "dateTime") == 0;
    assert LastIndexOfKey(en.members, "dateTime") == 0;
    assert Walk(Some(b), [Key("start"), Key("dateTime")]) == Walk(Some(st), [Key("dateTime")]) == Walk(Some(start), []);
    assert Walk(Some(b), [Key("end"), Key("dateTime")]) == Walk(Some(en), [Key("dateTime")]) == Walk(Some(end), []);
  }
}

=== FILE: chat_reader.dfy ===
/**
 * The stream reader inside `handleSubmit` of src/components/ChatAssistant.tsx:
 * decoded chunks are appended to a line buffer, every complete line that
 * starts with `data:` is handled, and the unterminated tail is kept for the
 * next chunk.  `parse` is `JSON.parse` (`None` for a throw); `run` is the
 * `executeActions` closure, `Executor.RunAll` over the listing fetched before
 * the stream starts.
 */
module ChatReader {
  import opened Wrappers
  import opened Text
  import opened Json
  import opened Executor
  import Stream

  /** The reader's state between chunks: the buffered tail, the assistant's text, the effects so far. */
  datatype Reader = Reader(buffer: string, text: string, effects: seq<Effect>)

  predicate StartsWith(s: string, p: string) {
    |p| <= |s| && s[..|p|] == p
  }

  /** What one complete line asks for. */
  datatype LineKind = Skip | Finish | Message(json: Json)

  /** The `[DONE]` test and `JSON.parse` of a trimmed payload. */
  function PayloadKind(payload: string, parse: string -> Option<Json>): LineKind {
    if payload == "[DONE]" then Finish
    else
      match parse(payload)
      case None => Skip
      case Some(j) => Message(j)
  }

  /** `trimmed.startsWith('data:')`, then the payload after the prefix, trimmed. */
  function Classify(line: string, parse: string -> Option<Json>): LineKind {
    var trimmed := Trim(line);
    if !StartsWith(trimmed, "data:") then Skip else PayloadKind(Trim(trimmed[5..]), parse)
  }

  const ActionsNotice: string := "\n\nProcessing requested calendar actions..."

  /** The text and effects so far. */
  datatype Shown = Shown(text: string, effects: seq<Effect>)

  /**
   * The handling of one parsed payload inside its try/catch: a delta is
   * appended, an actions frame is announced and run, an error is shown.
   * Reading a property of `null` throws, and the catch ignores it.
   */
  function OnMessage(json: Json, s: Shown, run: seq<Json> -> Run): (r: Shown)
    ensures |s.text| <= |r.text| && r.text[..|s.text|] == s.text
  {
    if json.JNull? then s
    else if Present(Get(json, "delta")) then Shown(s.text + ToJsString(Get(json, "delta")), s.effects)
    else if StrictEquals(Get(json, "type"), Some(JStr("actions"))) && IsArray(Get(json, "actions")) then
      var done := run(Get(json, "actions").value.items);
      Shown(s.text + ActionsNotice + done.log, s.effects + done.effects)
    else if Present(Get(json, "error")) then Shown(s.text + "\n\nError: " + ToJsString(Get(json, "error")), s.effects)
    else s
  }

  /** Every line classified. */
  function Kinds(lines: seq<string>, parse: string -> Option<Json>): (r: seq<LineKind>)
    ensures |r| == |lines|
  {
    if |lines| == 0 then [] else [Classify(lines[0], parse)] + Kinds(lines[1..], parse)
  }

  lemma {:induction false} KindsAt(lines: seq<string>, parse: string -> Option<Json>)
    ensures forall i :: 0 <= i < |lines| ==> Kinds(lines, parse)[i] == Classify(lines[i], parse)
  {
    if |lines| > 0 {
      KindsAt(lines[1..], parse);
      assert forall i :: 1 <= i < |lines| ==> lines[1..][i - 1] == lines[i];
    }
  }

  lemma {:induction false} KindsAppend(a: seq<string>, b: seq<string>, parse: string -> Option<Json>)
    ensures Kinds(a + b, parse) == Kinds(a, parse) + Kinds(b, parse)
  {
    if |a| > 0 {
      assert (a + b)[1..] == a[1..] + b;
      KindsAppend(a[1..], b, parse);
    } else {
      assert a + b == b;
    }
  }

  /** The loop over a chunk's classified lines; the flag says whether `[DONE]` ended it. */
  function Handle(kinds: seq<LineKind>, s: Shown, run: seq<Json> -> Run): (r: (Shown, bool))
    ensures |s.text| <= |r.0.text| && r.0.text[..|s.text|] == s.text
    ensures r.1 <==> Finish in kinds
  {
    if |kinds| == 0 then (s, false)
    else
      match kinds[0]
      case Finish => (s, true)
      case Skip => assert kinds == [Skip] + kinds[1..]; Handle(kinds[1..], s, run)
      case Message(j) =>
        var next := OnMessage(j, s, run);
        var r := Handle(kinds[1..], next, run);
        assert kinds == [Message(j)] + kinds[1..];
        assert r.0.text[..|s.text|] == r.0.text[..|next.text|][..|s.text|];
        r
  }

  /** The complete lines of the buffered text: all pieces of the split but the last. */
  function CompleteLines(text: string): (r: seq<string>)
    ensures forall i :: 0 <= i < |r| ==> '\n' !in r[i]
  {
    var lines := Split(text, '\n');
    lines[..|lines| - 1]
  }

  /** `lines.pop() || ''`: the unterminated tail. */
  function Tail(text: string): (r: string)
    ensures '\n' !in r
  {
    var lines := Split(text, '\n');
    lines[|lines| - 1]
  }

  /** One `reader.read()` chunk; `[DONE]` empties the buffer. */
  function OnChunk(r: Reader, chunk: string, run: seq<Json> -> Run,
                   parse: string -> Option<Json>): (out: Reader)
    ensures |r.text| <= |out.text| && out.text[..|r.text|] == r.text
    ensures out.buffer == "" || out.buffer == Tail(r.buffer + chunk)
    ensures out.buffer == "" <== Finish in Kinds(CompleteLines(r.buffer + chunk), parse)
    ensures '\n' !in out.buffer
  {
    var full := r.buffer + chunk;
    var (shown, finished) := Handle(Kinds(CompleteLines(full), parse), Shown(r.text, r.effects), run);
    Reader(if finished then "" else Tail(full), shown.text, shown.effects)
  }

  // ---------------------------------------------------------------------------
  // The line buffer.
  // ---------------------------------------------------------------------------

  /** The complete lines and the tail, re-joined with newlines, are the old buffer plus the chunk. */
  lemma LineBufferConserves(buffer: string, chunk: string)
    ensures Join(CompleteLines(buffer + chunk) + [Tail(buffer + chunk)], "\n") == buffer + chunk
  {
    var lines := Split(buffer + chunk, '\n');
    assert CompleteLines(buffer + chunk) + [Tail(buffer + chunk)] == lines;
    JoinSplit(buffer + chunk, '\n');
  }

  /** A chunk without a newline only grows the buffer. */
  lemma NoNewlineOnlyBuffers(r: Reader, chunk: string, run: seq<Json> -> Run,
                             parse: string -> Option<Json>)
    requires '\n' !in r.buffer + chunk
    ensures OnChunk(r, chunk, run, parse) == Reader(r.buffer + chunk, r.text, r.effects)
  {
    SplitNoSep(r.buffer + chunk, '\n');
  }

  /** A skipped line (not `data:`, or an unparseable payload) changes nothing. */
  lemma {:induction false} SkippedLineIgnored(pre: seq<LineKind>, post: seq<LineKind>, s: Shown, run: seq<Json> -> Run)
    ensures Handle(pre + [Skip] + post, s, run) == Handle(pre + post, s, run)
  {
    if |pre| == 0 {
      assert (pre + [Skip] + post)[1..] == post;
      assert pre + post == post;
    } else {
      assert (pre + [Skip] + post)[1..] == pre[1..] + [Skip] + post;
      assert (pre + post)[1..] == pre[1..] + post;
      assert (pre + [Skip] + post)[0] == (pre + post)[0] == pre[0];
      match pre[0]
      case Finish =>
      case Skip => SkippedLineIgnored(pre[1..], post, s, run);
      case Message(j) => SkippedLineIgnored(pre[1..], post, OnMessage(j, s, run), run);
    }
  }

  lemma {:induction false} SkipsChangeNothing(kinds: seq<LineKind>, s: Shown, run: seq<Json> -> Run)
    requires forall i :: 0 <= i < |kinds| ==> kinds[i] == Skip
    ensures Handle(kinds, s, run) == (s, false)
  {
    if |kinds| > 0 {
      SkipsChangeNothing(kinds[1..], s, run);
    }
  }

  /** A chunk whose complete lines are none of them `data:` lines changes nothing but the buffer. */
  lemma NonDataLinesIgnored(r: Reader, chunk: string, run: seq<Json> -> Run, parse: string -> Option<Json>)
    requires forall i :: 0 <= i < |CompleteLines(r.buffer + chunk)| ==>
      !StartsWith(Trim(CompleteLines(r.buffer + chunk)[i]), "data:")
    ensures OnChunk(r, chunk, run, parse) == Reader(Tail(r.buffer + chunk), r.text, r.effects)
  {
    KindsAt(CompleteLines(r.buffer + chunk), parse);
    SkipsChangeNothing(Kinds(CompleteLines(r.buffer + chunk), parse), Shown(r.text, r.effects), run);
  }

  /** `[DONE]` stops the chunk: the lines after it are skipped. */
  lemma {:induction false} DoneSkipsRest(pre: seq<LineKind>, post: seq<LineKind>, s: Shown, run: seq<Json> -> Run)
    requires Finish !in pre
    ensures Handle(pre + [Finish] + post, s, run) == (Handle(pre, s, run).0, true)
  {
    if |pre| > 0 {
      assert (pre + [Finish] + post)[1..] == pre[1..] + [Finish] + post;
      assert (pre + [Finish] + post)[0] == pre[0];
      assert Finish !in pre[1..] by {
        assert forall x :: x in pre[1..] ==> x in pre;
      }
      match pre[0]
      case Skip => DoneSkipsRest(pre[1..], post, s, run);
      case Message(j) => DoneSkipsRest(pre[1..], post, OnMessage(j, s, run), run);
    }
  }

  /** The first `[DONE]` ends the handling with what the lines before it made. */
  lemma FirstDoneEnds(kinds: seq<LineKind>, k: nat, s: Shown, run: seq<Json> -> Run)
    requires k < |kinds| && kinds[k] == Finish
    requires forall i :: 0 <= i < k ==> kinds[i] != Finish
    ensures Handle(kinds, s, run) == (Handle(kinds[..k], s, run).0, true)
  {
    assert kinds == kinds[..k] + [Finish] + kinds[k + 1..];
    DoneSkipsRest(kinds[..k], kinds[k + 1..], s, run);
  }

  /** After `[DONE]` the buffer is empty, whatever tail the chunk left, and later lines are not handled. */
  lemma DoneClearsBuffer(r: Reader, chunk: string, run: seq<Json> -> Run, parse: string -> Option<Json>, k: nat)
    requires k < |CompleteLines(r.buffer + chunk)|
    requires Classify(CompleteLines(r.buffer + chunk)[k], parse) == Finish
    requires forall i :: 0 <= i < k ==> Classify(CompleteLines(r.buffer + chunk)[i], parse) != Finish
    ensures var kinds := Kinds(CompleteLines(r.buffer + chunk), parse);
      var shown := Handle(kinds[..k], Shown(r.text, r.effects), run).0;
      OnChunk(r, chunk, run, parse) == Reader("", shown.text, shown.effects)
  {
    var kinds := Kinds(CompleteLines(r.buffer + chunk), parse);
    KindsAt(CompleteLines(r.buffer + chunk), parse);
    FirstDoneEnds(kinds, k, Shown(r.text, r.effects), run);
  }

  // ---------------------------------------------------------------------------
  // Reading what the stream handler writes.
  // ---------------------------------------------------------------------------

  /** What a frame does to the text and effects when read back. */
  function Apply(f: Stream.Frame, s: Shown, run: seq<Json> -> Run): Shown
    requires !f.Done?
  {
    OnMessage(Stream.PayloadJson(f), s, run)
  }

  /** The frames read in order, up to `[DONE]`. */
  function ReadFrames(frames: seq<Stream.Frame>, s: Shown, run: seq<Json> -> Run): (Shown, bool) {
    if |frames| == 0 then (s, false)
    else if frames[0].Done? then (s, true)
    else ReadFrames(frames[1..], Apply(frames[0], s, run), run)
  }

  /** The lines `data: <payload>` and `` each frame puts on the wire. */
  function WireLines(frames: seq<Stream.Frame>): seq<string> {
    if |frames| == 0 then [] else ["data: " + Stream.Payload(frames[0]), ""] + WireLines(frames[1..])
  }

  /** A line ended by a blank line splits off as itself and an empty line. */
  lemma SplitFrame(line: string, rest: string)
    requires '\n' !in line
    ensures Split(line + "\n\n" + rest, '\n') == [line, ""] + Split(rest, '\n')
  {
    assert line + "\n\n" + rest == line + ['\n'] + ("" + ['\n'] + rest);
    SplitAppend(line, '\n', "" + ['\n'] + rest);
    SplitAppend("", '\n', rest);
  }

  lemma {:induction false} SplitWire(frames: seq<Stream.Frame>)
    ensures Split(Stream.WireAll(frames), '\n') == WireLines(frames) + [""]
  {
    if |frames| > 0 {
      var line := "data: " + Stream.Payload(frames[0]);
      SplitWire(frames[1..]);
      assert Stream.WireAll(frames) == line + "\n\n" + Stream.WireAll(frames[1..]);
      SplitFrame(line, Stream.WireAll(frames[1..]));
      assert WireLines(frames) + [""] == [line, ""] + (WireLines(frames[1..]) + [""]);
    }
  }

  /** The stream's parser gives back each payload object it is handed. */
  predicate ParsesPayloads(frames: seq<Stream.Frame>, parse: string -> Option<Json>) {
    forall i :: 0 <= i < |frames| && !frames[i].Done? ==>
      parse(Stream.Payload(frames[i])) == Some(Stream.PayloadJson(frames[i]))
  }

  lemma ParsesPayloadsTail(frames: seq<Stream.Frame>, parse: string -> Option<Json>)
    requires |frames| > 0 && ParsesPayloads(frames, parse)
    ensures ParsesPayloads(frames[1..], parse)
  {
    forall i | 0 <= i < |frames[1..]| && !frames[1..][i].Done?
      ensures parse(Stream.Payload(frames[1..][i])) == Some(Stream.PayloadJson(frames[1..][i]))
    {
      assert frames[1..][i] == frames[i + 1];
    }
  }

  /** What a frame's payload line classifies as. */
  function FrameKind(f: Stream.Frame): LineKind {
    if f.Done? then Finish else Message(Stream.PayloadJson(f))
  }

  /** A `data: ` line whose payload has no space at either end hands the payload over as it is. */
  lemma ClassifyDataLine(p: string, parse: string -> Option<Json>)
    requires |p| >= 1 && !IsJsSpace(p[0]) && !IsJsSpace(p[|p| - 1])
    ensures Classify("data: " + p, parse) == PayloadKind(p, parse)
  {
    var line := "data: " + p;
    assert Trim(line) == line by {
      TrimKeeps(line);
    }
    assert StartsWith(line, "data:") by {
      assert line[..5] == "data:";
    }
    assert line[5..] == " " + p;
    TrimDropsSpace(p);
  }

  lemma ClassifyWireLine(f: Stream.Frame, parse: string -> Option<Json>)
    requires !f.Done? ==> parse(Stream.Payload(f)) == Some(Stream.PayloadJson(f))
    ensures Classify("data: " + Stream.Payload(f), parse) == FrameKind(f)
  {
    Stream.PayloadUnpadded(f);
    ClassifyDataLine(Stream.Payload(f), parse);
    assert f.Done? <==> Stream.Payload(f) == "[DONE]";
  }

  /** The classified wire lines: the frame's kind, then a skipped blank line. */
  function WireKinds(frames: seq<Stream.Frame>): seq<LineKind> {
    if |frames| == 0 then [] else [FrameKind(frames[0]), Skip] + WireKinds(frames[1..])
  }

  lemma {:induction false} KindsOfWire(frames: seq<Stream.Frame>, parse: string -> Option<Json>)
    requires ParsesPayloads(frames, parse)
    ensures Kinds(WireLines(frames), parse) == WireKinds(frames)
  {
    if |frames| > 0 {
      ParsesPayloadsTail(frames, parse);
      KindsOfWire(frames[1..], parse);
      var line := "data: " + Stream.Payload(frames[0]);
      ClassifyWireLine(frames[0], parse);
      assert Kinds([line, ""], parse) == [FrameKind(frames[0]), Skip] by {
        assert Classify("", parse) == Skip;
      }
      KindsAppend([line, ""], WireLines(frames[1..]), parse);
    }
  }

  lemma {:induction false} HandleWire(frames: seq<Stream.Frame>, s: Shown, run: seq<Json> -> Run)
    ensures Handle(WireKinds(frames), s, run) == ReadFrames(frames, s, run)
  {
    if |frames| > 0 && !frames[0].Done? {
      var next := Apply(frames[0], s, run);
      var kinds := WireKinds(frames);
      assert kinds[1..] == [Skip] + WireKinds(frames[1..]);
      assert ([Skip] + WireKinds(frames[1..]))[1..] == WireKinds(frames[1..]);
      HandleWire(frames[1..], next, run);
    }
  }

  /**
   * Reading the wire form of a frame sequence in one chunk, from an empty
   * buffer, is reading the frames themselves; the buffer ends empty.
   */
  lemma ReadWire(frames: seq<Stream.Frame>, r: Reader, run: seq<Json> -> Run,
                 parse: string -> Option<Json>)
    requires r.buffer == "" && ParsesPayloads(frames, parse)
    ensures var shown := ReadFrames(frames, Shown(r.text, r.effects), run).0;
      OnChunk(r, Stream.WireAll(frames), run, parse) == Reader("", shown.text, shown.effects)
  {
    var full := Stream.WireAll(frames);
    var s0 := Shown(r.text, r.effects);
    assert CompleteLines(full) == WireLines(frames) && Tail(full) == "" by {
      SplitWire(frames);
    }
    assert Handle(Kinds(WireLines(frames), parse), s0, run) == ReadFrames(frames, s0, run) by {
      KindsOfWire(frames, parse);
      HandleWire(frames, s0, run);
    }
    OnChunkFromEmpty(r, full, run, parse);
  }

  /** From an empty buffer, a chunk ending in a newline leaves the buffer empty and handles all its lines. */
  lemma OnChunkFromEmpty(r: Reader, chunk: string, run: seq<Json> -> Run, parse: string -> Option<Json>)
    requires r.buffer == "" && Tail(chunk) == ""
    ensures var h := Handle(Kinds(CompleteLines(chunk), parse), Shown(r.text, r.effects), run);
      OnChunk(r, chunk, run, parse) == Reader("", h.0.text, h.0.effects)
  {
    assert r.buffer + chunk == chunk;
  }

  lemma ReadStep(f: Stream.Frame, rest: seq<Stream.Frame>, s: Shown, run: seq<Json> -> Run)
    requires !f.Done?
    ensures ReadFrames([f] + rest, s, run) == ReadFrames(rest, Apply(f, s, run), run)
  {
    assert ([f] + rest)[1..] == rest;
  }

  /** A delta frame read back appends its text. */
  lemma ApplyDelta(d: string, s: Shown, run: seq<Json> -> Run)
    ensures Apply(Stream.Delta(d), s, run) == Shown(s.text + d, s.effects)
  {
    var j := Stream.PayloadJson(Stream.Delta(d));
    assert Get(j, "delta") == Some(JStr(d));
  }

  /** An actions frame read back announces the actions, runs them and appends the log. */
  lemma ApplyActions(actions: seq<Json>, s: Shown, run: seq<Json> -> Run)
    ensures var done := run(actions);
      Apply(Stream.ActionsFrame(actions), s, run) == Shown(s.text + ActionsNotice + done.log, s.effects + done.effects)
  {
    var j := Stream.PayloadJson(Stream.ActionsFrame(actions));
    assert j.members[..1] == [("type", JStr("actions"))];
    assert Get(j, "delta") == None;
    assert LastIndexOfKey(j.members[..1], "type") == 0;
    assert LastIndexOfKey(j.members, "type") == 0;
    assert Get(j, "type") == Some(JStr("actions"));
    assert j.members[1] == ("actions", JArr(actions));
    assert LastIndexOfKey(j.members, "actions") == 1;
    assert Get(j, "actions") == Some(JArr(actions));
  }

  /** Delta frames read back in order append their texts. */
  lemma {:induction false} ReadDeltas(ds: seq<Stream.Frame>, rest: seq<Stream.Frame>, s: Shown, run: seq<Json> -> Run)
    requires forall i :: 0 <= i < |ds| ==> ds[i].Delta?
    ensures ReadFrames(ds + rest, s, run) == ReadFrames(rest, Shown(s.text + Stream.DeltaText(ds), s.effects), run)
  {
    if |ds| > 0 {
      var d := ds[0].delta;
      var more := ds[1..];
      assert ReadFrames(ds + rest, s, run) == ReadFrames(more + rest, Shown(s.text + d, s.effects), run) by {
        assert ds + rest == [ds[0]] + (more + rest);
        ReadStep(ds[0], more + rest, s, run);
        ApplyDelta(d, s, run);
      }
      ReadDeltas(more, rest, Shown(s.text + d, s.effects), run);
      assert Shown(s.text + d + Stream.DeltaText(more), s.effects) == Shown(s.text + Stream.DeltaText(ds), s.effects) by {
        assert Stream.DeltaText(ds) == d + Stream.DeltaText(more);
        assert s.text + d + Stream.DeltaText(more) == s.text + (d + Stream.DeltaText(more));
      }
    } else {
      assert ds + rest == rest;
      assert s.text + Stream.DeltaText(ds) == s.text;
    }
  }

  /** The frames after the deltas: the actions (when there are any), then `[DONE]`. */
  lemma ReadTail(actions: seq<Json>, s: Shown, run: seq<Json> -> Run)
    ensures var done := run(actions);
      ReadFrames((if |actions| > 0 then [Stream.ActionsFrame(actions)] else []) + [Stream.Done], s, run)
      == if |actions| > 0
         then (Shown(s.text + ActionsNotice + done.log, s.effects + done.effects), true)
         else (s, true)
  {
    if |actions| > 0 {
      var tail := [Stream.ActionsFrame(actions), Stream.Done];
      assert tail[1..] == [Stream.Done];
      ApplyActions(actions, s, run);
    }
  }

  /** Reading the success frames back appends the text, a newline, then the actions' notice and log. */
  lemma ReadLayout(sanitized: string, actions: seq<Json>, s: Shown, run: seq<Json> -> Run)
    ensures var done := run(actions);
      ReadFrames(Stream.Layout(sanitized, actions), s, run)
      == if |actions| > 0
         then (Shown(s.text + sanitized + "\n" + ActionsNotice + done.log, s.effects + done.effects), true)
         else (Shown(s.text + sanitized + "\n", s.effects), true)
  {
    var lines := Split(sanitized, '\n');
    var tail := (if |actions| > 0 then [Stream.ActionsFrame(actions)] else []) + [Stream.Done];
    var s1 := Shown(s.text + sanitized + "\n", s.effects);
    assert ReadFrames(Stream.Layout(sanitized, actions), s, run) == ReadFrames(tail, s1, run) by {
      assert Stream.Layout(sanitized, actions) == Stream.Deltas(lines) + tail;
      ReadDeltas(Stream.Deltas(lines), tail, s, run);
      assert Stream.DeltaText(Stream.Deltas(lines)) == sanitized + "\n" by {
        Stream.DeltasJoin(lines);
        JoinSplit(sanitized, '\n');
      }
      assert s.text + Stream.DeltaText(Stream.Deltas(lines)) == s.text + sanitized + "\n";
    }
    ReadTail(actions, s1, run);
  }

  /**
   * End to end: what the stream handler writes for a reply, read back by the
   * client, appends the polished text and a newline, then (when there were
   * actions) the notice and the runner's log, and leaves the buffer empty.
   */
  lemma ClientShowsReply(sanitized: string, actions: seq<Json>, r: Reader, run: seq<Json> -> Run,
                         parse: string -> Option<Json>)
    requires r.buffer == ""
    requires ParsesPayloads(Stream.Layout(sanitized, actions), parse)
    ensures var done := run(actions);
      OnChunk(r, Stream.WireAll(Stream.Layout(sanitized, actions)), run, parse)
      == if |actions| > 0
         then Reader("", r.text + sanitized + "\n" + ActionsNotice + done.log, r.effects + done.effects)
         else Reader("", r.text + sanitized + "\n", r.effects)
  {
    ReadWire(Stream.Layout(sanitized, actions), r, run, parse);
    ReadLayout(sanitized, actions, Shown(r.text, r.effects), run);
  }
}

=== FILE: dates.dfy ===
/**
 * Civil dates as JavaScript's `Date` exposes them (`getFullYear`, a 0-based
 * `getMonth`, `getDate`, `getDay`), with local time taken to be UTC.  A day
 * number counts days from 1970-01-01 in the proleptic Gregorian calendar;
 * an instant is a date plus the milliseconds into that day.
 */
module Dates {

  const MsPerDay: int := 86400000

  /** `month` is 0-based, as `getMonth()` returns it. */
  datatype Date = Date(year: int, month: int, day: int)

  predicate IsLeap(y: int) {
    y % 4 == 0 && (y % 100 != 0 || y % 400 == 0)
  }

  function DaysInYear(y: int): int {
    if IsLeap(y) then 366 else 365
  }

  function DaysInMonth(y: int, m: int): (r: int)
    requires 0 <= m < 12
    ensures 28 <= r <= 31
    ensures m != 1 ==> r >= 30
  {
    if m == 1 then (if IsLeap(y) then 29 else 28)
    else if m == 3 || m == 5 || m == 8 || m == 10 then 30
    else 31
  }

  predicate Valid(d: Date) {
    0 <= d.month < 12 && 1 <= d.day <= DaysInMonth(d.year, d.month)
  }

  /** Days in the months before `m` of a common year. */
  function CommonDaysBefore(m: int): int {
    if m <= 0 then 0 else if m == 1 then 31 else if m == 2 then 59 else if m == 3 then 90
    else if m == 4 then 120 else if m == 5 then 151 else if m == 6 then 181
    else if m == 7 then 212 else if m == 8 then 243 else if m == 9 then 273
    else if m == 10 then 304 else if m == 11 then 334 else 365
  }

  function DaysBeforeMonth(y: int, m: int): (r: int)
    requires 0 <= m <= 12
    ensures 0 <= r
  {
    CommonDaysBefore(m) + (if m >= 2 && IsLeap(y) then 1 else 0)
  }

  /** Each month starts where the previous one ends. */
  lemma MonthAdvance(y: int, m: int)
    requires 0 <= m < 12
    ensures DaysBeforeMonth(y, m + 1) == DaysBeforeMonth(y, m) + DaysInMonth(y, m)
  {
  }

  /** The twelve months fill the year exactly. */
  lemma MonthsFillYear(y: int)
    ensures DaysBeforeMonth(y, 11) + 31 == DaysInYear(y)
  {
  }

  /** Leap years before `y`, counted from a fixed origin (floor division). */
  function LeapsBefore(y: int): int {
    (y - 1) / 4 - (y - 1) / 100 + (y - 1) / 400
  }

  /** Day number of January 1st of `y`: the year lengths counted from 1970 in either direction. */
  function YearStart(y: int): int
    decreases if y < 1970 then 1970 - y else y - 1970
  {
    if y == 1970 then 0
    else if y > 1970 then YearStart(y - 1) + DaysInYear(y - 1)
    else YearStart(y + 1) - DaysInYear(y)
  }

  /** Days from 1970-01-01 to the date (negative before it). */
  function DayNumber(d: Date): int
    requires 0 <= d.month < 12
  {
    YearStart(d.year) + DaysBeforeMonth(d.year, d.month) + d.day - 1
  }

  /** Stepping `x` by one changes `x / 4`, `x / 100`, `x / 400` exactly at multiples. */
  lemma FloorStep(x: int)
    ensures x / 4 - (x - 1) / 4 == (if x % 4 == 0 then 1 else 0)
    ensures x / 100 - (x - 1) / 100 == (if x % 100 == 0 then 1 else 0)
    ensures x / 400 - (x - 1) / 400 == (if x % 400 == 0 then 1 else 0)
  {
  }

  /** Multiples of 100 are multiples of 4. */
  lemma HundredsAreQuads(y: int)
    requires y % 100 == 0
    ensures y % 4 == 0
  {
    var q := y / 100;
    assert y == 4 * (25 * q);
  }

  /** Multiples of 400 are multiples of 100. */
  lemma FourHundredsAreHundreds(y: int)
    requires y % 400 == 0
    ensures y % 100 == 0
  {
    var q := y / 400;
    assert y == 100 * (4 * q);
  }

  /** The leap-year count grows by one exactly past a leap year. */
  lemma LeapStep(y: int)
    ensures LeapsBefore(y + 1) == LeapsBefore(y) + (if IsLeap(y) then 1 else 0)
  {
    FloorStep(y);
    if y % 100 == 0 {
      HundredsAreQuads(y);
    }
    if y % 400 == 0 {
      FourHundredsAreHundreds(y);
    }
  }

  /** Consecutive January 1sts are a year length apart. */
  lemma YearLength(y: int)
    ensures YearStart(y + 1) == YearStart(y) + DaysInYear(y)
  {
  }

  /** The year starts agree with the closed form counting leap years by floor division. */
  lemma {:induction false} YearStartClosed(y: int)
    ensures YearStart(y) == 365 * (y - 1970) + LeapsBefore(y) - LeapsBefore(1970)
    decreases if y < 1970 then 1970 - y else y - 1970
  {
    if y > 1970 {
      YearStartClosed(y - 1);
      LeapStep(y - 1);
    } else if y < 1970 {
      YearStartClosed(y + 1);
      LeapStep(y);
    }
  }

  /** Every date of year `y` lies in `[YearStart(y), YearStart(y + 1))`. */
  lemma WithinYear(d: Date)
    requires Valid(d)
    ensures YearStart(d.year) <= DayNumber(d) < YearStart(d.year + 1)
  {
    YearLength(d.year);
    MonthsFillYear(d.year);
    MonthBound(d.year, d.month);
  }

  lemma {:induction false} MonthBound(y: int, m: int)
    requires 0 <= m < 12
    ensures DaysBeforeMonth(y, m) + DaysInMonth(y, m) <= DaysBeforeMonth(y, 11) + 31
    decreases 11 - m
  {
    if m < 11 {
      MonthBound(y, m + 1);
      MonthAdvance(y, m);
    }
  }

  lemma {:induction false} YearStartMonotone(a: int, b: int)
    requires a <= b
    ensures YearStart(a) + 365 * (b - a) <= YearStart(b)
    decreases b - a
  {
    if a < b {
      YearStartMonotone(a, b - 1);
      YearLength(b - 1);
    }
  }

  /** Chronological order: by year, then month, then day. */
  predicate Before(a: Date, b: Date) {
    a.year < b.year
    || (a.year == b.year && a.month < b.month)
    || (a.year == b.year && a.month == b.month && a.day < b.day)
  }

  predicate NotAfter(a: Date, b: Date) {
    a == b || Before(a, b)
  }

  lemma {:induction false} MonthsIncrease(y: int, m1: int, m2: int)
    requires 0 <= m1 < m2 < 12
    ensures DaysBeforeMonth(y, m1) + DaysInMonth(y, m1) <= DaysBeforeMonth(y, m2)
    decreases m2 - m1
  {
    MonthAdvance(y, m2 - 1);
    if m1 + 1 < m2 {
      MonthsIncrease(y, m1, m2 - 1);
      MonthAdvance(y, m1);
    }
  }

  /** A strictly earlier date has a strictly smaller day number. */
  lemma DayNumberIncreases(a: Date, b: Date)
    requires Valid(a) && Valid(b) && Before(a, b)
    ensures DayNumber(a) < DayNumber(b)
  {
    if a.year < b.year {
      WithinYear(a);
      WithinYear(b);
      YearStartMonotone(a.year + 1, b.year);
    } else if a.month < b.month {
      MonthsIncrease(a.year, a.month, b.month);
    }
  }

  /** Day numbers order valid dates exactly as the calendar does. */
  lemma DayNumberOrder(a: Date, b: Date)
    requires Valid(a) && Valid(b)
    ensures Before(a, b) <==> DayNumber(a) < DayNumber(b)
    ensures a == b <==> DayNumber(a) == DayNumber(b)
  {
    if Before(a, b) {
      DayNumberIncreases(a, b);
    } else if Before(b, a) {
      DayNumberIncreases(b, a);
    } else {
      assert a == b;
    }
  }

  /** The calendar day after `d`. */
  function NextDay(d: Date): (r: Date)
    requires Valid(d)
    ensures Valid(r) && DayNumber(r) == DayNumber(d) + 1
  {
    if d.day < DaysInMonth(d.year, d.month) then Date(d.year, d.month, d.day + 1)
    else if d.month < 11 then
      MonthAdvance(d.year, d.month);
      Date(d.year, d.month + 1, 1)
    else
      YearLength(d.year);
      MonthsFillYear(d.year);
      Date(d.year + 1, 0, 1)
  }

  /** The calendar day before `d`. */
  function PrevDay(d: Date): (r: Date)
    requires Valid(d)
    ensures Valid(r) && DayNumber(r) == DayNumber(d) - 1
  {
    if d.day > 1 then Date(d.year, d.month, d.day - 1)
    else if d.month > 0 then
      MonthAdvance(d.year, d.month - 1);
      Date(d.year, d.month - 1, DaysInMonth(d.year, d.month - 1))
    else
      YearLength(d.year - 1);
      MonthsFillYear(d.year - 1);
      Date(d.year - 1, 11, 31)
  }

  /** `new Date(t + k * 86400000)` on the date part: `k` whole days later. */
  function AddDays(d: Date, k: int): (r: Date)
    requires Valid(d)
    ensures Valid(r) && DayNumber(r) == DayNumber(d) + k
    decreases if k < 0 then -k else k
  {
    if k == 0 then d
    else if k > 0 then AddDays(NextDay(d), k - 1)
    else AddDays(PrevDay(d), k + 1)
  }

  /** `getDay()`: 0 is Sunday; 1970-01-01 was a Thursday. */
  function Weekday(d: Date): (r: int)
    requires 0 <= d.month < 12
    ensures 0 <= r < 7
  {
    (DayNumber(d) + 4) % 7
  }

  lemma ModShift(x: int, k: int)
    ensures (x + k + 4) % 7 == ((x + 4) % 7 + k) % 7
  {
  }

  /** Moving `k` days moves the weekday by `k` modulo 7. */
  lemma WeekdayAfter(a: Date, b: Date, k: int)
    requires 0 <= a.month < 12 && 0 <= b.month < 12 && DayNumber(b) == DayNumber(a) + k
    ensures Weekday(b) == (Weekday(a) + k) % 7
  {
    ModShift(DayNumber(a), k);
  }

  /** The first of the month that follows month `m` of year `y`. */
  lemma MonthStep(y: int, m: int)
    requires 0 <= m < 12
    ensures m < 11 ==> DayNumber(Date(y, m + 1, 1)) == DayNumber(Date(y, m, 1)) + DaysInMonth(y, m)
    ensures m == 11 ==> DayNumber(Date(y + 1, 0, 1)) == DayNumber(Date(y, m, 1)) + 31
  {
    if m == 11 {
      YearLength(y);
      MonthsFillYear(y);
    } else {
      MonthAdvance(y, m);
    }
  }

  /** `new Date(y, m, 0)` style year/month carry: month `m` of year `y` for any integer `m`. */
  function MonthOf(y: int, m: int): (r: (int, int))
    ensures 0 <= r.1 < 12 && r.0 * 12 + r.1 == y * 12 + m
  {
    (y + m / 12, m % 12)
  }

  /**
   * The date `new Date(y, m, d)` denotes once the month and day overflow are
   * normalised (the year is taken as given), for the days 0..31 the program
   * passes: day 0 is the last day of the previous month and a day past the
   * month's end runs into the next month.
   */
  function MakeDate(y: int, m: int, d: int): (r: Date)
    requires 0 <= d <= 31
    ensures Valid(r)
  {
    var ym := MonthOf(y, m);
    DayInMonth(ym.0, ym.1, d)
  }

  /** Day `d` (0..31) counted from the first of month `m`, carried into the neighbouring month. */
  function DayInMonth(y: int, m: int, d: int): (r: Date)
    requires 0 <= m < 12 && 0 <= d <= 31
    ensures Valid(r)
  {
    if d == 0 then
      if m == 0 then Date(y - 1, 11, 31) else Date(y, m - 1, DaysInMonth(y, m - 1))
    else if d <= DaysInMonth(y, m) then Date(y, m, d)
    else if m == 11 then Date(y + 1, 0, d - 31)
    else Date(y, m + 1, d - DaysInMonth(y, m))
  }

  /** The normalised date is `d - 1` days after the first of the (carried) month. */
  lemma MakeDateDays(y: int, m: int, d: int)
    requires 0 <= d <= 31
    ensures DayNumber(MakeDate(y, m, d)) == DayNumber(Date(MonthOf(y, m).0, MonthOf(y, m).1, 1)) + d - 1
  {
    var ym := MonthOf(y, m);
    DayInMonthDays(ym.0, ym.1, d);
  }

  lemma DayInMonthDays(y: int, m: int, d: int)
    requires 0 <= m < 12 && 0 <= d <= 31
    ensures DayNumber(DayInMonth(y, m, d)) == DayNumber(Date(y, m, 1)) + d - 1
  {
    if d == 0 {
      if m == 0 {
        MonthStep(y - 1, 11);
      } else {
        MonthStep(y, m - 1);
      }
    } else if d > DaysInMonth(y, m) {
      MonthStep(y, m);
    }
  }

  /** A day 1..31 of month `m` lands in that month or a later one. */
  lemma DayInMonthIndex(y: int, m: int, d: int)
    requires 0 <= m < 12 && 1 <= d <= 31
    ensures var r := DayInMonth(y, m, d); r.year * 12 + r.month >= y * 12 + m
  {
  }

  /** `new Date(y, m, d)` with a day 1..31 is not before the month `m` it names. */
  lemma MakeDateIndex(y: int, m: int, d: int)
    requires 1 <= d <= 31
    ensures var r := MakeDate(y, m, d); r.year * 12 + r.month >= y * 12 + m
  {
    var ym := MonthOf(y, m);
    DayInMonthIndex(ym.0, ym.1, d);
  }

  /** `new Date(y, m, 0)` is in the month before `m`. */
  lemma MakeDateDayZeroIndex(y: int, m: int)
    ensures var r := MakeDate(y, m, 0); r.year * 12 + r.month == y * 12 + m - 1
  {
  }

  /** An earlier (year, month) makes an earlier date, whatever the days. */
  lemma IndexBefore(a: Date, b: Date)
    requires 0 <= a.month < 12 && 0 <= b.month < 12
    requires a.year * 12 + a.month < b.year * 12 + b.month
    ensures Before(a, b)
  {
  }

  /** The last day of month `m` (already normalised) of year `y`. */
  function LastDayOf(y: int, m: int): (r: Date)
    requires 0 <= m < 12
    ensures Valid(r) && r.year == y && r.month == m
  {
    Date(y, m, DaysInMonth(y, m))
  }

  /** `new Date(y, m + 1, 0)` is the last day of month `m`. */
  lemma DayZeroIsLastDay(y: int, m: int)
    ensures MakeDate(y, m + 1, 0) == LastDayOf(MonthOf(y, m).0, MonthOf(y, m).1)
  {
    var ym := MonthOf(y, m);
    var zn := MonthOf(y, m + 1);
    if ym.1 < 11 {
      assert zn.0 == ym.0 && zn.1 == ym.1 + 1;
    } else {
      assert zn.0 == ym.0 + 1 && zn.1 == 0;
    }
  }

  /** An in-range month is its own normal form, so `new Date(y, m, 1)` is the first of it. */
  lemma FirstOfMonth(y: int, m: int)
    requires 0 <= m < 12
    ensures MonthOf(y, m) == (y, m) && MakeDate(y, m, 1) == Date(y, m, 1)
  {
  }

  /** The year `new Date(y, …)` uses: the years 0 to 99 mean 1900 to 1999. */
  function JsYear(y: int): (r: int)
    ensures 0 <= y <= 99 ==> r == 1900 + y
    ensures (y < 0 || y > 99) ==> r == y
  {
    if 0 <= y <= 99 then 1900 + y else y
  }

  /** An instant: a date and the milliseconds elapsed in it. */
  datatype Instant = Instant(date: Date, ms: int)

  predicate ValidInstant(t: Instant) {
    Valid(t.date) && 0 <= t.ms < MsPerDay
  }

  /** An instant `new Date(…)` produced from a valid time value. */
  type Moment = t: Instant | ValidInstant(t) witness Instant(Date(1970, 0, 1), 0)

  /** `getTime()`: milliseconds since the epoch. */
  function Time(t: Instant): int
    requires 0 <= t.date.month < 12
  {
    DayNumber(t.date) * MsPerDay + t.ms
  }

  /** Comparing instants by `getTime()` is comparing dates, then times of day. */
  lemma TimeOrder(a: Instant, b: Instant)
    requires ValidInstant(a) && ValidInstant(b)
    ensures Time(a) < Time(b) <==> Before(a.date, b.date) || (a.date == b.date && a.ms < b.ms)
  {
    DayNumberOrder(a.date, b.date);
    var da := DayNumber(a.date);
    var db := DayNumber(b.date);
    if da < db {
      assert Time(a) < (da + 1) * MsPerDay <= db * MsPerDay <= Time(b);
    } else if db < da {
      assert Time(b) < (db + 1) * MsPerDay <= da * MsPerDay <= Time(a);
    }
  }

  /** `new Date(t.getTime() + k * 86400000)`. */
  function AddDaysInstant(t: Instant, k: int): (r: Instant)
    requires ValidInstant(t)
    ensures ValidInstant(r) && Time(r) == Time(t) + k * MsPerDay
  {
    var d := AddDays(t.date, k);
    assert Time(Instant(d, t.ms)) == (DayNumber(t.date) + k) * MsPerDay + t.ms;
    Instant(d, t.ms)
  }

  /** A smaller or equal day number means a date not after the other. */
  lemma NotAfterByNumber(a: Date, b: Date)
    requires Valid(a) && Valid(b) && DayNumber(a) <= DayNumber(b)
    ensures NotAfter(a, b)
  {
    DayNumberOrder(a, b);
  }

  /** `new Date(y, m, d)` for the days 0..31 the program passes, with its two-digit-year rule. */
  function NewDate(y: int, m: int, d: int): (r: Date)
    requires 0 <= d <= 31
    ensures Valid(r)
  {
    MakeDate(JsYear(y), m, d)
  }

  /** The calendar-month index `getFullYear() * 12 + getMonth()`. */
  function MonthIndex(d: Date): int {
    d.year * 12 + d.month
  }

  /**
   * The day number of the first of month `m` of year `y`, carrying a month
   * outside 0..11 into the neighbouring years one year at a time.
   */
  function MonthStart(y: int, m: int): int
    decreases if m < 0 then -m else if m >= 12 then m else 0
  {
    if m < 0 then MonthStart(y - 1, m + 12)
    else if m >= 12 then MonthStart(y + 1, m - 12)
    else DayNumber(Date(y, m, 1))
  }

  /** `MonthOf` depends only on the month index `y * 12 + m`. */
  lemma MonthOfByIndex(y1: int, m1: int, y2: int, m2: int)
    requires y1 * 12 + m1 == y2 * 12 + m2
    ensures MonthOf(y1, m1) == MonthOf(y2, m2)
  {
    var a, b := MonthOf(y1, m1), MonthOf(y2, m2);
    assert a.0 == b.0 by {
      assert (a.0 - b.0) * 12 == b.1 - a.1;
    }
  }

  /** Carrying year by year lands on the month `MonthOf` normalises to. */
  lemma {:induction false} MonthStartCarries(y: int, m: int)
    ensures MonthStart(y, m) == MonthStart(MonthOf(y, m).0, MonthOf(y, m).1)
    decreases if m < 0 then -m else if m >= 12 then m else 0, 1
  {
    if m < 0 {
      CarryDown(y, m);
    } else if m >= 12 {
      CarryUp(y, m);
    } else {
      FirstOfMonth(y, m);
    }
  }

  lemma {:induction false} CarryDown(y: int, m: int)
    requires m < 0
    ensures MonthStart(y, m) == MonthStart(MonthOf(y, m).0, MonthOf(y, m).1)
    decreases -m, 0
  {
    MonthStartCarries(y - 1, m + 12);
    MonthOfByIndex(y - 1, m + 12, y, m);
  }

  lemma {:induction false} CarryUp(y: int, m: int)
    requires m >= 12
    ensures MonthStart(y, m) == MonthStart(MonthOf(y, m).0, MonthOf(y, m).1)
    decreases m, 0
  {
    MonthStartCarries(y + 1, m - 12);
    MonthOfByIndex(y + 1, m - 12, y, m);
  }

  /** The carried month start is the first of the month `MonthOf` normalises to. */
  lemma MonthStartOf(y: int, m: int)
    ensures MonthStart(y, m) == DayNumber(Date(MonthOf(y, m).0, MonthOf(y, m).1, 1))
  {
    MonthStartCarries(y, m);
  }

  /** Each month starts its own length after the previous one. */
  lemma MonthStartNext(y: int, m: int)
    ensures MonthStart(y, m + 1) == MonthStart(y, m) + DaysInMonth(MonthOf(y, m).0, MonthOf(y, m).1)
  {
    var ym := MonthOf(y, m);
    var zn := MonthOf(y, m + 1);
    MonthStartOf(y, m);
    MonthStartOf(y, m + 1);
    MonthStep(ym.0, ym.1);
    if ym.1 < 11 {
      assert zn == (ym.0, ym.1 + 1);
    } else {
      assert zn == (ym.0 + 1, 0);
    }
  }

  /** A month is 28 to 31 days long. */
  lemma MonthLength(y: int, m: int)
    ensures 28 <= MonthStart(y, m + 1) - MonthStart(y, m) <= 31
  {
    MonthStartNext(y, m);
  }

  /** `n` consecutive months span between 28 and 31 days each. */
  lemma {:induction false} MonthStartsApart(y: int, m: int, n: nat)
    ensures 28 * n <= MonthStart(y, m + n) - MonthStart(y, m) <= 31 * n
  {
    if n > 0 {
      var k := m + n - 1;
      var a, b, c := MonthStart(y, m), MonthStart(y, k), MonthStart(y, k + 1);
      assert 28 * (n - 1) <= b - a <= 31 * (n - 1) by {
        MonthStartsApart(y, m, n - 1);
      }
      assert 28 <= c - b <= 31 by {
        MonthLength(y, k);
      }
      assert k + 1 == m + n;
    }
  }

  /** A month start depends only on the month index `y * 12 + m`. */
  lemma MonthStartByIndex(y1: int, m1: int, y2: int, m2: int)
    requires y1 * 12 + m1 == y2 * 12 + m2
    ensures MonthStart(y1, m1) == MonthStart(y2, m2)
  {
    MonthStartOf(y1, m1);
    MonthStartOf(y2, m2);
    MonthOfByIndex(y1, m1, y2, m2);
  }


  /** Twelve consecutive months are a year, at least 365 days. */
  lemma YearOfMonths(y: int, m: int)
    ensures MonthStart(y, m + 12) - MonthStart(y, m) >= 365
  {
    var ym := MonthOf(y, m);
    MonthStartByIndex(y, m, ym.0, ym.1);
    MonthStartByIndex(y, m + 12, ym.0 + 1, ym.1);
    FirstOfMonth(ym.0, ym.1);
    FirstOfMonth(ym.0 + 1, ym.1);
    YearLength(ym.0);
  }

  /** `new Date(y, m, d)` is `d - 1` days after the start of month `m`. */
  lemma MakeDateFromStart(y: int, m: int, d: int)
    requires 0 <= d <= 31
    ensures DayNumber(MakeDate(y, m, d)) == MonthStart(y, m) + d - 1
  {
    MonthStartOf(y, m);
    MakeDateDays(y, m, d);
  }

  /** `new Date(y, m, d)` is `d - 1` days after the start of month `m` of the year it reads `y` as. */
  lemma NewDateFromStart(y: int, m: int, d: int)
    requires 0 <= d <= 31
    ensures DayNumber(NewDate(y, m, d)) == MonthStart(JsYear(y), m) + d - 1
  {
    MakeDateFromStart(JsYear(y), m, d);
  }

  /** A valid date lies between the start of its month and the start of the next. */
  lemma WithinMonth(d: Date)
    requires Valid(d)
    ensures MonthStart(d.year, d.month) <= DayNumber(d) < MonthStart(d.year, d.month + 1)
  {
    FirstOfMonth(d.year, d.month);
    MonthStartOf(d.year, d.month);
    MonthStartNext(d.year, d.month);
  }

  /** The time between two instants in whole days plus the difference of their times of day. */
  lemma TimeSpan(a: Instant, b: Instant)
    requires 0 <= a.date.month < 12 && 0 <= b.date.month < 12
    ensures Time(b) - Time(a) == (DayNumber(b.date) - DayNumber(a.date)) * MsPerDay + b.ms - a.ms
  {
  }

  /** Month starts never decrease, and `n` months on is at most `31 * n` days later. */
  lemma MonthStartsAtMost(y: int, m: int, n: int)
    ensures MonthStart(y, m + n) - MonthStart(y, m) <= 31 * (if n >= 0 then n else 0)
  {
    if n >= 0 {
      MonthStartsApart(y, m, n);
    } else {
      var k := m + n;
      MonthStartsApart(y, k, -n);
      assert k + -n == m;
    }
  }
}

=== FILE: executor.dfy ===
/**
 * The client-side action runner of src/components/ChatAssistant.tsx
 * (`executeActions`): each action is run in order, inside its own
 * try/catch, against the calendar API; the runner appends one log line per
 * action to the assistant's text and notifies the calendar to refresh.
 * The API is an abstract function from request to outcome.
 */
module Executor {
  import opened Wrappers
  import opened Text
  import opened Json

  /** A request to the calendar API. */
  datatype ApiCall =
    | PostEvent(event: Json)
    | PutEvent(id: string, updates: Json)
    | DeleteEvent(id: string)

  /** What the runner does besides writing text, in order. */
  datatype Effect = Call(call: ApiCall) | Refresh

  /** The outcome of running actions: the text appended, the effects, and whether an exception escaped. */
  datatype Run = Run(log: string, effects: seq<Effect>, escaped: bool)

  const FindMissing: string := "events.find is not a function"

  // ---------------------------------------------------------------------------
  // Target resolution.
  // ---------------------------------------------------------------------------

  /**
   * The `find` callback on a non-null event: a truthy target summary equal to
   * the event's, and, if the target has a truthy start, `start.dateTime ||
   * start.date` equal to it.
   */
  predicate TargetMatches(target: Option<Json>, ev: Json) {
    && Present(GetOpt(target, "summary"))
    && StrictEquals(Get(ev, "summary"), GetOpt(target, "summary"))
    && (Present(GetOpt(target, "start")) ==>
          StrictEquals(OrElse(GetOpt(Get(ev, "start"), "dateTime"), GetOpt(Get(ev, "start"), "date")),
                       GetOpt(target, "start")))
  }

  /** `events.find(callback)`: a null element throws once the callback reads its summary. */
  function FindTarget(events: seq<Json>, target: Option<Json>): (r: Eval<Option<nat>>)
    ensures r.Value? && r.value.Some? ==> r.value.value < |events|
  {
    if |events| == 0 then Value(None)
    else if Present(GetOpt(target, "summary")) && events[0].JNull? then Threw(ReadOfNull("summary"))
    else if TargetMatches(target, events[0]) then Value(Some(0))
    else
      match FindTarget(events[1..], target)
      case Value(Some(k)) => Value(Some(k + 1))
      case other => other
  }

  /** `find` returns the first matching event; it returns nothing exactly when none matches and none is null. */
  lemma {:induction false} FindTargetFirst(events: seq<Json>, target: Option<Json>)
    ensures FindTarget(events, target) == Value(None) <==>
      forall i :: 0 <= i < |events| ==> !TargetMatches(target, events[i]) && !(Present(GetOpt(target, "summary")) && events[i].JNull?)
    ensures forall k :: FindTarget(events, target) == Value(Some(k)) ==>
      && k < |events| && TargetMatches(target, events[k])
      && forall i :: 0 <= i < k ==> !TargetMatches(target, events[i]) && !events[i].JNull?
  {
    if |events| > 0 {
      FindTargetFirst(events[1..], target);
      if FindTarget(events[1..], target).Value? {
        forall i | 1 <= i < |events| ensures events[i] == events[1..][i - 1] {}
      }
    }
  }

  /**
   * `let id = action.target?.id; if (!id) { … if (match) id = match.id; }`
   * over the fetched listing `data`, which the code uses as an array.
   */
  function Resolve(data: Json, target: Option<Json>): (r: Eval<Option<Json>>)
    ensures Present(GetOpt(target, "id")) ==> r == Value(GetOpt(target, "id"))
    ensures !Present(GetOpt(target, "id")) && !data.JArr? ==> r.Threw?
  {
    var id := GetOpt(target, "id");
    if Present(id) then Value(id)
    else if !data.JArr? then Threw(if data.JNull? then ReadOfNull("find") else FindMissing)
    else
      match FindTarget(data.items, target)
      case Threw(m) => Threw(m)
      case Value(None) => Value(id)
      case Value(Some(k)) => Value(Get(data.items[k], "id"))
  }

  /**
   * The event array inside a listing: the `events` member of the object that
   * api/calendar.ts sends, or the listing itself when it is not such an object.
   */
  function Listed(data: Json): (r: Json)
    ensures data.JArr? ==> r == data
  {
    var events := Get(data, "events");
    if IsArray(events) then events.value else data
  }

  /** Resolution against the events of the listing rather than the listing itself. */
  function ResolveListed(data: Json, target: Option<Json>): Eval<Option<Json>> {
    Resolve(Listed(data), target)
  }

  /** The lookup a runner uses: on the listing as written, or on its `events` corrected. */
  function ResolveFor(v: Variant, data: Json, target: Option<Json>): (r: Eval<Option<Json>>)
    ensures Present(GetOpt(target, "id")) ==> r == Value(GetOpt(target, "id"))
    ensures data.JArr? ==> r == Resolve(data, target)
  {
    if v == AsWritten then Resolve(data, target) else ResolveListed(data, target)
  }

  /**
   * As written, the lookup treats the listing `{window, count, events}` as
   * an array: `events.find` is not a function, so it throws whatever the
   * target.
   */
  lemma ListingObjectFailsLookup(window: Json, count: Json, events: Json, target: Option<Json>)
    requires !Present(GetOpt(target, "id"))
    ensures Resolve(JObj([("window", window), ("count", count), ("events", events)]), target) == Threw(FindMissing)
  {
  }

  /** Reading the listing's `events`, the lookup finds the first matching event and yields its id. */
  lemma ListedLookupFinds(window: Json, count: Json, items: seq<Json>, target: Option<Json>, k: nat)
    requires !Present(GetOpt(target, "id"))
    requires FindTarget(items, target) == Value(Some(k))
    ensures k < |items|
    ensures ResolveListed(JObj([("window", window), ("count", count), ("events", JArr(items))]), target)
      == Value(Get(items[k], "id"))
  {
    var data := JObj([("window", window), ("count", count), ("events", JArr(items))]);
    assert Get(data, "events") == Some(JArr(items));
  }

  // ---------------------------------------------------------------------------
  // One action.
  // ---------------------------------------------------------------------------

  /** The members `"0": xs[0], "1": xs[1], …` that spreading an array or a string gives. */
  function Indexed(xs: seq<Json>): (r: seq<(string, Json)>)
    ensures |r| == |xs|
    ensures forall i :: 0 <= i < |xs| ==> r[i] == (NatToString(i), xs[i])
  {
    seq(|xs|, i requires 0 <= i < |xs| => (NatToString(i), xs[i]))
  }

  /** Each index reads back its own item, and only indices are keys. */
  lemma IndexedReadsBack(xs: seq<Json>)
    ensures forall i :: 0 <= i < |xs| ==> Get(JObj(Indexed(xs)), NatToString(i)) == Some(xs[i])
    ensures forall k :: Get(JObj(Indexed(xs)), k).Some? ==> exists i :: 0 <= i < |xs| && k == NatToString(i)
  {
    var ms := Indexed(xs);
    forall i | 0 <= i < |xs|
      ensures Get(JObj(ms), NatToString(i)) == Some(xs[i])
    {
      forall j | i < j < |xs|
        ensures ms[j].0 != NatToString(i)
      {
        assert DigitsValue(NatToString(j)) == j && DigitsValue(NatToString(i)) == i;
      }
      LastIndexOfKeyAt(ms, NatToString(i), i);
    }
  }

  /** A string's characters, one per item. */
  function Chars(s: string): (r: seq<Json>)
    ensures |r| == |s|
    ensures forall i :: 0 <= i < |s| ==> r[i] == JStr([s[i]])
  {
    seq(|s|, i requires 0 <= i < |s| => JStr([s[i]]))
  }

  /**
   * `{ ...v }`: an object's own members; a string's characters and an
   * array's items under their indices "0", "1", …; nothing for numbers,
   * booleans, `null` and `undefined`.
   */
  function Spread(v: Option<Json>): (r: Json)
    ensures r.JObj?
    ensures v.Some? && v.value.JObj? ==> r == v.value
    ensures v.Some? && v.value.JArr? ==>
      && |r.members| == |v.value.items|
      && (forall i :: 0 <= i < |v.value.items| ==> Get(r, NatToString(i)) == Some(v.value.items[i]))
      && (forall k :: Get(r, k).Some? ==> exists i :: 0 <= i < |v.value.items| && k == NatToString(i))
    ensures v.Some? && v.value.JStr? ==>
      && |r.members| == |v.value.s|
      && (forall i :: 0 <= i < |v.value.s| ==> Get(r, NatToString(i)) == Some(JStr([v.value.s[i]])))
      && (forall k :: Get(r, k).Some? ==> exists i :: 0 <= i < |v.value.s| && k == NatToString(i))
    ensures v.None? || v.value.JNull? || v.value.JBool? || v.value.JNum? ==> r == JObj([])
  {
    if v.None? then JObj([])
    else
      match v.value
      case JObj(_) => v.value
      case JArr(items) =>
        IndexedReadsBack(items);
        JObj(Indexed(items))
      case JStr(s) =>
        IndexedReadsBack(Chars(s));
        JObj(Indexed(Chars(s)))
      case _ => JObj([])
  }

  predicate IsKind(action: Json, kind: string) {
    StrictEquals(Get(action, "action"), Some(JStr(kind)))
  }

  function FailLine(action: Json, message: string): string {
    "\n\n❌ Action failed (" + ToJsString(Get(action, "action")) + "): " + message
  }

  /** The text after a successful API call. */
  function DoneLine(call: ApiCall): string {
    match call
    case PostEvent(e) => "\n\n✅ Created event: " + ToJsString(Get(e, "summary"))
    case PutEvent(id, _) => "\n\n\U{1F6E0} Updated event " + id
    case DeleteEvent(id) => "\n\n\U{1F5D1} Deleted event " + id
  }

  const UnresolvedUpdate: string := "\n\n⚠ Could not resolve event to update."
  const UnresolvedDelete: string := "\n\n⚠ Could not resolve event to delete."

  /**
   * The call an action makes once its id is known, or `None` when it makes
   * none: a create carrying an event posts it; an update or delete needs a
   * truthy id, and an update sends the spread of its `updates`.
   */
  function Request(action: Json, id: Option<Json>): (r: Option<ApiCall>)
    ensures r.Some? && r.value.PostEvent? <==> IsKind(action, "create_event") && Present(Get(action, "event"))
    ensures r.Some? && r.value.PostEvent? ==> r.value.event == Get(action, "event").value
    ensures r.Some? && r.value.PutEvent? ==>
      IsKind(action, "update_event") && Present(id) && r.value.id == ToJsString(id)
      && r.value.updates == Spread(Get(action, "updates"))
    ensures r.Some? && r.value.DeleteEvent? ==> IsKind(action, "delete_event") && Present(id) && r.value.id == ToJsString(id)
    ensures r.None? <==>
      !(IsKind(action, "create_event") && Present(Get(action, "event")))
      && (!Present(id) || !(IsKind(action, "update_event") || IsKind(action, "delete_event")))
  {
    if IsKind(action, "create_event") && Present(Get(action, "event")) then Some(PostEvent(Get(action, "event").value))
    else if !Present(id) then None
    else if IsKind(action, "update_event") then Some(PutEvent(ToJsString(id), Spread(Get(action, "updates"))))
    else if IsKind(action, "delete_event") then Some(DeleteEvent(ToJsString(id)))
    else None
  }

  /** Update and delete look their target up; other actions need no id. */
  predicate NeedsTarget(action: Json) {
    !(IsKind(action, "create_event") && Present(Get(action, "event")))
    && (IsKind(action, "update_event") || IsKind(action, "delete_event"))
  }

  /**
   * One iteration of the loop.  `api(call)` is `None` when the request
   * succeeds and the error's message when it throws.  A null action makes
   * the catch block itself throw (it reads `action.action` again), which
   * escapes the runner.
   */
  function RunOne(action: Json, data: Json, api: ApiCall -> Option<string>, v: Variant): (r: Run)
    ensures r.escaped <==> action.JNull?
    ensures r.escaped ==> r == Run("", [], true)
  {
    if action.JNull? then Run("", [], true)
    else Perform(action, if NeedsTarget(action) then ResolveFor(v, data, Get(action, "target")) else Value(None), api)
  }

  /**
   * As written, an update or delete without a target id, run against the
   * listing that api/calendar.ts sends, fails at `events.find`: it logs the
   * failure, sends nothing and does not refresh.  Corrected, it looks the
   * target up among the listing's events.
   */
  lemma TargetlessActionFails(action: Json, window: Json, count: Json, items: seq<Json>, api: ApiCall -> Option<string>)
    requires NeedsTarget(action)
    requires !Present(GetOpt(Get(action, "target"), "id"))
    ensures var data := JObj([("window", window), ("count", count), ("events", JArr(items))]);
      RunOne(action, data, api, AsWritten) == Run(FailLine(action, FindMissing), [], false)
    ensures var data := JObj([("window", window), ("count", count), ("events", JArr(items))]);
      RunOne(action, data, api, Corrected) == Perform(action, Resolve(JArr(items), Get(action, "target")), api)
  {
    var data := JObj([("window", window), ("count", count), ("events", JArr(items))]);
    ListingObjectFailsLookup(window, count, JArr(items), Get(action, "target"));
    assert Get(data, "events") == Some(JArr(items));
  }

  /** The rest of one iteration once the target lookup has answered (or thrown). */
  function Perform(action: Json, resolved: Eval<Option<Json>>, api: ApiCall -> Option<string>): (r: Run)
    ensures !r.escaped
    ensures resolved.Threw? ==> r == Run(FailLine(action, resolved.message), [], false)
    ensures forall c :: Call(c) in r.effects ==> resolved.Value? && Request(action, resolved.value) == Some(c)
    ensures resolved.Value? && Request(action, resolved.value).Some? ==>
      |r.effects| > 0 && r.effects[0] == Call(Request(action, resolved.value).value)
    ensures |r.effects| <= 2
  {
    match resolved
    case Threw(m) => Run(FailLine(action, m), [], false)
    case Value(id) =>
      match Request(action, id)
      case None =>
        var line := if !NeedsTarget(action) then ""
          else if IsKind(action, "update_event") then UnresolvedUpdate else UnresolvedDelete;
        Run(line, [Refresh], false)
      case Some(call) =>
        match api(call)
        case None => Run(DoneLine(call), [Call(call), Refresh], false)
        case Some(m) => Run(FailLine(action, m), [Call(call)], false)
  }

  /** `for (const action of actions) { try { … } catch { … } }`, stopping when an exception escapes. */
  function RunAll(actions: seq<Json>, data: Json, api: ApiCall -> Option<string>, v: Variant): (r: Run)
    ensures r.escaped <==> exists i :: 0 <= i < |actions| && actions[i].JNull?
  {
    if |actions| == 0 then Run("", [], false)
    else
      var first := RunOne(actions[0], data, api, v);
      if first.escaped then first
      else
        var rest := RunAll(actions[1..], data, api, v);
        assert forall i :: 1 <= i < |actions| ==> actions[i] == actions[1..][i - 1];
        Run(first.log + rest.log, first.effects + rest.effects, rest.escaped)
  }

  // ---------------------------------------------------------------------------
  // Properties.
  // ---------------------------------------------------------------------------

  /** Concatenation of the logs and effects of several runs. */
  function Concat(runs: seq<Run>): Run {
    if |runs| == 0 then Run("", [], false)
    else
      var rest := Concat(runs[1..]);
      Run(runs[0].log + rest.log, runs[0].effects + rest.effects, runs[0].escaped || rest.escaped)
  }

  /**
   * Without a null action, the runner is each action run on its own, in
   * array order: a failing action does not stop the ones after it.
   */
  lemma {:induction false} RunAllSequential(actions: seq<Json>, data: Json, api: ApiCall -> Option<string>, v: Variant)
    requires forall i :: 0 <= i < |actions| ==> !actions[i].JNull?
    ensures RunAll(actions, data, api, v) == Concat(seq(|actions|, i requires 0 <= i < |actions| => RunOne(actions[i], data, api, v)))
  {
    var runs := seq(|actions|, i requires 0 <= i < |actions| => RunOne(actions[i], data, api, v));
    if |actions| > 0 {
      RunAllSequential(actions[1..], data, api, v);
      assert runs[1..] == seq(|actions| - 1, i requires 0 <= i < |actions| - 1 => RunOne(actions[1..][i], data, api, v));
    }
  }

  /** A null action ends the loop: the actions after it are not run. */
  lemma NullActionStops(done: seq<Json>, rest: seq<Json>, data: Json, api: ApiCall -> Option<string>, v: Variant)
    requires forall i :: 0 <= i < |done| ==> !done[i].JNull?
    ensures RunAll(done + [JNull] + rest, data, api, v)
      == Run(RunAll(done, data, api, v).log, RunAll(done, data, api, v).effects, true)
  {
    if |done| == 0 {
      assert (done + [JNull] + rest)[0] == JNull;
    } else {
      assert (done + [JNull] + rest)[1..] == done[1..] + [JNull] + rest;
      NullActionStops(done[1..], rest, data, api, v);
    }
  }

  /** A log text that opens with the failure mark. */
  predicate Marked(log: string) {
    |log| >= 3 && log[2] == '❌'
  }

  lemma FailLineMarked(action: Json, message: string)
    ensures Marked(FailLine(action, message))
  {
  }

  lemma DoneLineUnmarked(call: ApiCall)
    ensures !Marked(DoneLine(call))
  {
  }

  lemma PerformRefreshIff(action: Json, resolved: Eval<Option<Json>>, api: ApiCall -> Option<string>)
    ensures var r := Perform(action, resolved, api);
      (|r.effects| > 0 && r.effects[|r.effects| - 1] == Refresh) <==> !Marked(r.log)
  {
    match resolved
    case Threw(m) =>
      FailLineMarked(action, m);
    case Value(id) =>
      match Request(action, id)
      case None =>
      case Some(call) =>
        match api(call)
        case None =>
          DoneLineUnmarked(call);
        case Some(m) =>
          FailLineMarked(action, m);
  }

  /** An action that does not throw is followed by a refresh; one that throws is not. */
  lemma RefreshIffNoThrow(action: Json, data: Json, api: ApiCall -> Option<string>, v: Variant)
    requires !action.JNull?
    ensures var r := RunOne(action, data, api, v);
      (|r.effects| > 0 && r.effects[|r.effects| - 1] == Refresh) <==> !Marked(r.log)
  {
    PerformRefreshIff(action, if NeedsTarget(action) then ResolveFor(v, data, Get(action, "target")) else Value(None), api);
  }

  /** An update or delete whose target resolves to nothing logs a warning and calls nothing. */
  lemma UnresolvedMakesNoCall(action: Json, data: Json, api: ApiCall -> Option<string>, v: Variant)
    requires NeedsTarget(action)
    requires ResolveFor(v, data, Get(action, "target")).Value?
    requires !Present(ResolveFor(v, data, Get(action, "target")).value)
    ensures RunOne(action, data, api, v)
      == Run(if IsKind(action, "update_event") then UnresolvedUpdate else UnresolvedDelete, [Refresh], false)
  {
  }

  /** A create is sent only when the action carries an event, and then it is the event that is posted. */
  lemma CreateNeedsEvent(action: Json, data: Json, api: ApiCall -> Option<string>, v: Variant)
    ensures forall e :: Call(PostEvent(e)) in RunOne(action, data, api, v).effects ==>
      IsKind(action, "create_event") && Present(Get(action, "event")) && e == Get(action, "event").value
  {
  }

  /** Every request the runner sends is one of the actions' own requests, in order. */
  lemma {:induction false} CallsComeFromActions(actions: seq<Json>, data: Json, api: ApiCall -> Option<string>, v: Variant)
    ensures forall c :: Call(c) in RunAll(actions, data, api, v).effects ==>
      exists i :: 0 <= i < |actions| && Call(c) in RunOne(actions[i], data, api, v).effects
  {
    if |actions| > 0 {
      var first := RunOne(actions[0], data, api, v);
      if !first.escaped {
        CallsComeFromActions(actions[1..], data, api, v);
        forall c | Call(c) in RunAll(actions, data, api, v).effects
          ensures exists i :: 0 <= i < |actions| && Call(c) in RunOne(actions[i], data, api, v).effects
        {
          if Call(c) !in first.effects {
            var j :| 0 <= j < |actions| - 1 && Call(c) in RunOne(actions[1..][j], data, api, v).effects;
            assert actions[1..][j] == actions[j + 1];
          }
        }
      }
    }
  }
}

=== FILE: json.dfy ===
/**
 * JSON values as JavaScript sees them after `JSON.parse`, with the few
 * operations the code applies to them: property reads, truthiness, `||`,
 * `===`, `String(v)` and `JSON.stringify`.  Numbers are integers.
 */
module Json {
  import opened Wrappers
  import opened Text

  datatype Json =
    | JNull
    | JBool(b: bool)
    | JNum(n: int)
    | JStr(s: string)
    | JArr(items: seq<Json>)
    | JObj(members: seq<(string, Json)>)

  /** Index of the last member named `key`, or -1 (a parsed object keeps the last duplicate). */
  function LastIndexOfKey(ms: seq<(string, Json)>, key: string): (r: int)
    ensures -1 <= r < |ms|
    ensures r >= 0 ==> ms[r].0 == key
    ensures r < 0 ==> forall i :: 0 <= i < |ms| ==> ms[i].0 != key
  {
    if |ms| == 0 then -1
    else if ms[|ms| - 1].0 == key then |ms| - 1
    else LastIndexOfKey(ms[..|ms| - 1], key)
  }

  /** The member at `i` is the last one named `key`. */
  lemma {:induction false} LastIndexOfKeyAt(ms: seq<(string, Json)>, key: string, i: int)
    requires 0 <= i < |ms| && ms[i].0 == key
    requires forall j :: i < j < |ms| ==> ms[j].0 != key
    ensures LastIndexOfKey(ms, key) == i
  {
    if i < |ms| - 1 {
      LastIndexOfKeyAt(ms[..|ms| - 1], key, i);
    }
  }

  /** `v.key`: `None` is `undefined`; only objects carry the properties the code reads. */
  function Get(j: Json, key: string): (r: Option<Json>)
    ensures r.Some? ==> j.JObj? && r.value < j
    ensures r.Some? <==> j.JObj? && exists i :: 0 <= i < |j.members| && j.members[i].0 == key
  {
    if !j.JObj? then None
    else
      var i := LastIndexOfKey(j.members, key);
      if i < 0 then None else Some(j.members[i].1)
  }

  /** Reading a key of two member lists joined: the later list wins when it has the key. */
  lemma {:induction false} GetAppend(ms: seq<(string, Json)>, ns: seq<(string, Json)>, key: string)
    ensures Get(JObj(ms + ns), key) == if Get(JObj(ns), key).Some? then Get(JObj(ns), key) else Get(JObj(ms), key)
  {
    if |ns| == 0 {
      assert ms + ns == ms;
    } else {
      var all := ms + ns;
      var init := ns[..|ns| - 1];
      assert all[|all| - 1] == ns[|ns| - 1];
      if ns[|ns| - 1].0 != key {
        assert all[..|all| - 1] == ms + init;
        GetAppend(ms, init, key);
      }
    }
  }

  /** `o?.key` on an optional value. */
  function GetOpt(o: Option<Json>, key: string): Option<Json> {
    match o
    case None => None
    case Some(j) => Get(j, key)
  }

  /** `o?.[0]`: the first element of an array, the first character of a string, or an object's member "0". */
  function FirstOpt(o: Option<Json>): (r: Option<Json>)
    ensures r.Some? ==> o.Some? && (o.value.JArr? || o.value.JStr? || o.value.JObj?)
  {
    match o
    case Some(JArr(items)) => if |items| > 0 then Some(items[0]) else None
    case Some(JStr(s)) => if |s| > 0 then Some(JStr(s[..1])) else None
    case Some(JObj(_)) => Get(o.value, "0")
    case _ => None
  }

  /** One step of an optional chain: `?.key` or `?.[0]`. */
  datatype Step = Key(key: string) | First

  /** `o?.s1?.s2…`: the value at the end of the path, `undefined` once a step finds nothing. */
  function Walk(o: Option<Json>, path: seq<Step>): (r: Option<Json>)
    ensures o.None? ==> r.None?
    decreases path
  {
    if |path| == 0 then o
    else
      var next := match path[0] case Key(k) => GetOpt(o, k) case First => FirstOpt(o);
      Walk(next, path[1..])
  }

  /** `xs[0] || xs[1] || …`: the first truthy alternative, else the last. */
  function AnyOf(xs: seq<Option<Json>>): (r: Option<Json>)
    requires |xs| >= 1
    ensures Present(r) <==> exists i :: 0 <= i < |xs| && Present(xs[i])
    ensures Present(r) ==> exists i :: 0 <= i < |xs| && r == xs[i] && forall j :: 0 <= j < i ==> !Present(xs[j])
    ensures !Present(r) ==> r == xs[|xs| - 1]
  {
    if |xs| == 1 || Present(xs[0]) then xs[0]
    else
      var r := AnyOf(xs[1..]);
      assert forall j :: 1 <= j < |xs| ==> xs[1..][j - 1] == xs[j];
      r
  }

  /** A response: status and JSON body. */
  datatype Reply = Reply(status: int, body: Json)

  /** `res.status(status).json({ error: message })`. */
  function ErrorReply(status: int, message: string): Reply {
    Reply(status, JObj([("error", JStr(message))]))
  }

  /** The message of the `TypeError` a property read on `null` throws. */
  function ReadOfNull(key: string): string {
    "Cannot read properties of null (reading '" + key + "')"
  }

  /** The message of the `TypeError` a property read on `undefined` throws. */
  function ReadOfUndefined(key: string): string {
    "Cannot read properties of undefined (reading '" + key + "')"
  }

  /** JavaScript truthiness of a JSON value. */
  predicate Truthy(j: Json) {
    match j
    case JNull => false
    case JBool(b) => b
    case JNum(n) => n != 0
    case JStr(s) => s != ""
    case JArr(_) => true
    case JObj(_) => true
  }

  /** Truthiness of a property read, where `undefined` is falsy. */
  predicate Present(o: Option<Json>) {
    o.Some? && Truthy(o.value)
  }

  /** `a || b`. */
  function OrElse(a: Option<Json>, b: Option<Json>): (r: Option<Json>)
    ensures Present(a) ==> r == a
    ensures !Present(a) ==> r == b
  {
    if Present(a) then a else b
  }

  /** `Array.isArray(o)` on a property read. */
  predicate IsArray(o: Option<Json>) {
    o.Some? && o.value.JArr?
  }

  /**
   * `a === b` on values that came from separate parses: primitives compare by
   * value, while two arrays or objects are never the same reference.
   */
  predicate StrictEquals(a: Option<Json>, b: Option<Json>) {
    match (a, b)
    case (None, None) => true
    case (Some(JNull), Some(JNull)) => true
    case (Some(JBool(x)), Some(JBool(y))) => x == y
    case (Some(JNum(x)), Some(JNum(y))) => x == y
    case (Some(JStr(x)), Some(JStr(y))) => x == y
    case _ => false
  }

  /** `String(v)` (also template-literal interpolation), with `undefined` for a missing value. */
  function ToJsString(o: Option<Json>): string {
    match o
    case None => "undefined"
    case Some(j) => ValueToString(j)
  }

  function ValueToString(j: Json): string {
    match j
    case JNull => "null"
    case JBool(b) => if b then "true" else "false"
    case JNum(n) => IntToString(n)
    case JStr(s) => s
    case JArr(items) => ItemsToString(items)
    case JObj(_) => "[object Object]"
  }

  /** `Array#toString`: elements joined by commas, `null` shown as the empty string. */
  function ItemsToString(items: seq<Json>): string
    decreases items
  {
    if |items| == 0 then ""
    else
      var head := if items[0].JNull? then "" else ValueToString(items[0]);
      if |items| == 1 then head else head + "," + ItemsToString(items[1..])
  }

  function HexDigit(d: nat): char
    requires d < 16
  {
    if d < 10 then DigitChar(d) else ('a' as int + d - 10) as char
  }

  /** The escape `JSON.stringify` writes for one character of a string. */
  function EscapeChar(c: char): (r: string)
    ensures |r| >= 1
    ensures '\n' !in r
  {
    if c == '"' then "\\\""
    else if c == '\\' then "\\\\"
    else if c == '\U{0008}' then "\\b"
    else if c == '\U{000C}' then "\\f"
    else if c == '\n' then "\\n"
    else if c == '\r' then "\\r"
    else if c == '\t' then "\\t"
    else if (c as int) < 0x20 then ['\\', 'u', '0', '0', HexDigit((c as int) / 16), HexDigit((c as int) % 16)]
    else [c]
  }

  function EscapeString(s: string): (r: string)
    ensures '\n' !in r
  {
    if |s| == 0 then "" else EscapeChar(s[0]) + EscapeString(s[1..])
  }

  function Quote(s: string): (r: string)
    ensures '\n' !in r
  {
    "\"" + EscapeString(s) + "\""
  }

  /** `JSON.stringify(v)`: members in order, no whitespace; never contains a raw newline. */
  function Serialize(j: Json): (r: string)
    ensures |r| >= 1
    ensures '\n' !in r
    ensures j.JObj? ==> r[0] == '{' && r[|r| - 1] == '}'
    decreases j, 1
  {
    match j
    case JNull => "null"
    case JBool(b) => if b then "true" else "false"
    case JNum(n) =>
      var r := IntToString(n);
      assert '\n' !in NatToString(if n < 0 then -n else n);
      r
    case JStr(s) => Quote(s)
    case JArr(items) => "[" + SerializeItems(items) + "]"
    case JObj(ms) => "{" + SerializeMembers(j, ms) + "}"
  }

  function SerializeItems(items: seq<Json>): (r: string)
    ensures '\n' !in r
    decreases items
  {
    if |items| == 0 then ""
    else if |items| == 1 then Serialize(items[0])
    else Serialize(items[0]) + "," + SerializeItems(items[1..])
  }

  function SerializeMembers(parent: Json, ms: seq<(string, Json)>): (r: string)
    requires forall i :: 0 <= i < |ms| ==> ms[i].1 < parent
    ensures '\n' !in r
    decreases parent, 0, |ms|
  {
    if |ms| == 0 then ""
    else
      var first := Quote(ms[0].0) + ":" + Serialize(ms[0].1);
      if |ms| == 1 then first else first + "," + SerializeMembers(parent, ms[1..])
  }
}

=== FILE: middleware.dfy ===
/**
 * The token check in front of the calendar routes: a request carries an
 * OAuth access token in its `token` header, and the middleware lets it
 * through when a process-wide cache says the token is still good, or when a
 * token-info lookup says it expires in the future.  The clock and the lookup
 * are parameters; the cache is a value threaded through each request.
 */
module Middleware {
  import opened Wrappers
  import opened Json

  /** A cached entry is trusted until 30 seconds before it expires. */
  const Margin: int := 30_000

  /** The lifetime assumed when the token info states none: five minutes. */
  const DefaultLifetime: int := 5 * 60 * 1000

  /** A JavaScript number of milliseconds: an integer, or `NaN`. */
  datatype Num = Finite(ms: int) | NaN

  /** `{ exp, checkedAt }` as the cache keeps it. */
  datatype Entry = Entry(exp: Num, checkedAt: int)

  /** `tokenInfoCache`: token to entry. */
  type Cache = map<string, Entry>

  /** What the middleware does with the request: call `next()`, or answer 401. */
  datatype Outcome = Next | Deny(reply: Reply)

  /** The outcome and the cache after the request. */
  datatype Step = Step(outcome: Outcome, cache: Cache)

  /**
   * The foreign parts: `oAuth2Client.getTokenInfo(token)`, which resolves
   * with the info object or rejects with an error message, and `Number(v)`
   * on a value that is neither a number nor a boolean.
   */
  datatype Services = Services(lookup: string -> Eval<Json>, number: Json -> Num)

  const MissingToken: string := "Missing token header"
  const Expired: string := "Token expired"
  const Invalid: string := "Invalid or expired token"

  /** The reply of the `catch`: the error and its message as `detail`. */
  function InvalidReply(message: string): (r: Reply)
    ensures r.status == 401 && Get(r.body, "error") == Some(JStr(Invalid))
    ensures Get(r.body, "detail") == Some(JStr(message))
  {
    var ms := [("error", JStr(Invalid)), ("detail", JStr(message))];
    assert LastIndexOfKey(ms, "detail") == 1;
    assert LastIndexOfKey(ms[..1], "error") == 0;
    Reply(401, JObj(ms))
  }

  /** `a < b` on JavaScript numbers: never true when either is `NaN`. */
  predicate Less(a: Num, b: Num) {
    a.Finite? && b.Finite? && a.ms < b.ms
  }

  /** `cached && now < cached.exp - 30_000`. */
  predicate Fresh(cache: Cache, token: string, now: int) {
    token in cache && cache[token].exp.Finite? && now < cache[token].exp.ms - Margin
  }

  /** `Number(v)` for the value behind a truthy `info.exp`. */
  function ToNumber(v: Json, s: Services): (r: Num)
    ensures v.JNum? ==> r == Finite(v.n)
  {
    match v
    case JNum(n) => Finite(n)
    case JBool(b) => Finite(if b then 1 else 0)
    case _ => s.number(v)
  }

  function Times1000(x: Num): Num {
    match x
    case Finite(n) => Finite(n * 1000)
    case NaN => NaN
  }

  /**
   * The expiry the lookup implies: `now + expires_in` seconds when
   * `expires_in` is a number, else `exp` seconds since the epoch when `exp`
   * is truthy, else five minutes from now.  Reading either field of a `null`
   * info throws.
   */
  function ExpiryOf(info: Json, now: int, s: Services): (r: Eval<Num>)
    ensures info == JNull <==> r.Threw?
    ensures info == JNull ==> r == Threw(ReadOfNull("expires_in"))
    ensures (info != JNull && Get(info, "expires_in").Some? && Get(info, "expires_in").value.JNum?) ==>
      r == Value(Finite(now + Get(info, "expires_in").value.n * 1000))
    ensures (info != JNull && !(Get(info, "expires_in").Some? && Get(info, "expires_in").value.JNum?)
      && Present(Get(info, "exp"))) ==> r == Value(Times1000(ToNumber(Get(info, "exp").value, s)))
    ensures (info != JNull && !(Get(info, "expires_in").Some? && Get(info, "expires_in").value.JNum?)
      && !Present(Get(info, "exp"))) ==> r == Value(Finite(now + DefaultLifetime))
  {
    if info == JNull then Threw(ReadOfNull("expires_in"))
    else
      var expiresIn := Get(info, "expires_in");
      var exp := Get(info, "exp");
      if expiresIn.Some? && expiresIn.value.JNum? then Value(Finite(now + expiresIn.value.n * 1000))
      else if Present(exp) then Value(Times1000(ToNumber(exp.value, s)))
      else Value(Finite(now + DefaultLifetime))
  }

  /** After the lookup: refuse an expiry that is not in the future, else remember it and pass. */
  function Admit(cache: Cache, token: string, exp: Num, now: int): (r: Step)
    ensures Less(Finite(now), exp) || exp.NaN? ==> r == Step(Next, cache[token := Entry(exp, now)])
    ensures exp.Finite? && exp.ms <= now ==> r == Step(Deny(ErrorReply(401, Expired)), cache)
  {
    if exp.Finite? && exp.ms <= now then Step(Deny(ErrorReply(401, Expired)), cache)
    else Step(Next, cache[token := Entry(exp, now)])
  }

  /** `requireValidToken` for one request with header `token`, at time `now`. */
  function Check(token: Option<string>, cache: Cache, now: int, s: Services): (r: Step)
    ensures token.None? || token == Some("") ==> r == Step(Deny(ErrorReply(401, MissingToken)), cache)
    ensures token.Some? && token.value != "" && Fresh(cache, token.value, now) ==> r == Step(Next, cache)
    ensures r.outcome.Deny? ==> r.cache == cache && r.outcome.reply.status == 401
    ensures r.outcome.Next? ==> token.Some? && token.value != ""
    ensures r.cache != cache ==> (
      && r.outcome == Next && token.Some? && token.value in r.cache && r.cache[token.value].checkedAt == now
      && r.cache == cache[token.value := r.cache[token.value]])
  {
    if token.None? || token.value == "" then Step(Deny(ErrorReply(401, MissingToken)), cache)
    else if Fresh(cache, token.value, now) then Step(Next, cache)
    else
      match s.lookup(token.value)
      case Threw(m) => Step(Deny(InvalidReply(m)), cache)
      case Value(info) =>
        match ExpiryOf(info, now, s)
        case Threw(m) => Step(Deny(InvalidReply(m)), cache)
        case Value(exp) => Admit(cache, token.value, exp, now)
  }

  /** Everything the cache holds was admitted: its expiry was not at or before its check. */
  predicate CacheSound(cache: Cache) {
    forall t :: t in cache ==> !(cache[t].exp.Finite? && cache[t].exp.ms <= cache[t].checkedAt)
  }

  /** A check keeps the cache sound. */
  lemma CheckKeepsCacheSound(token: Option<string>, cache: Cache, now: int, s: Services)
    requires CacheSound(cache)
    ensures CacheSound(Check(token, cache, now, s).cache)
  {
  }

  /** A fresh entry lets the request through whatever the lookup would have said. */
  lemma FreshSkipsLookup(token: string, cache: Cache, now: int, s: Services, t: Services)
    requires token != "" && Fresh(cache, token, now)
    ensures Check(Some(token), cache, now, s) == Check(Some(token), cache, now, t) == Step(Next, cache)
  {
  }

  /** A failed lookup answers 401 with the error's message and changes nothing. */
  lemma LookupFailureDenies(token: string, cache: Cache, now: int, s: Services)
    requires token != "" && !Fresh(cache, token, now) && s.lookup(token).Threw?
    ensures Check(Some(token), cache, now, s) == Step(Deny(InvalidReply(s.lookup(token).message)), cache)
  {
  }

  /**
   * A lookup that admits the token writes its entry and no other, and the
   * request passes; one that reports an expiry at or before now denies it.
   */
  lemma LookupDecides(token: string, cache: Cache, now: int, s: Services, info: Json, exp: Num)
    requires token != "" && !Fresh(cache, token, now)
    requires s.lookup(token) == Value(info) && ExpiryOf(info, now, s) == Value(exp)
    ensures var r := Check(Some(token), cache, now, s);
      && (exp.Finite? && exp.ms <= now <==> r.outcome.Deny?)
      && (r.outcome.Deny? ==> r == Step(Deny(ErrorReply(401, Expired)), cache))
      && (r.outcome.Next? ==> r.cache.Keys == cache.Keys + {token} && r.cache[token] == Entry(exp, now))
      && (forall u :: u in cache && u != token ==> u in r.cache && r.cache[u] == cache[u])
  {
  }

  /**
   * A token admitted with `expires_in` seconds left is served from the cache
   * by any later request that comes before the margin: no second lookup.
   */
  lemma AdmittedIsCached(token: string, cache: Cache, now: int, later: int, s: Services, t: Services, seconds: int)
    requires token != "" && !Fresh(cache, token, now)
    requires s.lookup(token).Value? && s.lookup(token).value.JObj?
    requires Get(s.lookup(token).value, "expires_in") == Some(JNum(seconds)) && seconds > 0
    requires now <= later < now + seconds * 1000 - Margin
    ensures Check(Some(token), cache, now, s).outcome == Next
    ensures var next := Check(Some(token), cache, now, s).cache;
      Check(Some(token), next, later, t) == Step(Next, next)
  {
    var info := s.lookup(token).value;
    assert ExpiryOf(info, now, s) == Value(Finite(now + seconds * 1000));
    var next := Check(Some(token), cache, now, s).cache;
    assert next[token] == Entry(Finite(now + seconds * 1000), now);
    assert Fresh(next, token, later);
  }

  /**
   * An `exp` that does not convert to a number admits the token, yet the
   * entry it writes is never fresh: every later request looks the token up
   * again.
   */
  lemma NaNExpiryAdmits(token: string, cache: Cache, now: int, later: int, s: Services)
    requires token != "" && !Fresh(cache, token, now)
    requires s.lookup(token) == Value(JObj([("exp", JStr("soon"))])) && s.number(JStr("soon")) == NaN
    ensures Check(Some(token), cache, now, s) == Step(Next, cache[token := Entry(NaN, now)])
    ensures !Fresh(cache[token := Entry(NaN, now)], token, later)
  {
    var info := JObj([("exp", JStr("soon"))]);
    assert LastIndexOfKey(info.members, "expires_in") == -1;
    assert LastIndexOfKey(info.members, "exp") == 0;
  }
}

=== FILE: range_handler.dfy ===
/**
 * The `/assistant/range` handler of api/assistant/range.ts: it asks the
 * model for the date ranges a question needs, keeps at most ten valid ones,
 * orders them by start date, clamps an over-long answer to eighteen months
 * and answers with the ranges and their union, falling back to the keyword
 * heuristic whenever the model's answer is unusable.
 *
 * The model call, `JSON.parse` and `new Date(string)` are parameters; the
 * clock is the `clock` argument.
 */
module RangeHandler {
  import opened Wrappers
  import opened Text
  import opened Json
  import opened Dates
  import opened Ranges
  import Actions

  /** What the model call gave: an exception, or its text (`""` when it had none). */
  datatype LlmOutcome = LlmFailed | LlmText(text: string)

  /** The request body fields the handler reads. */
  datatype RangeRequest = RangeRequest(query: Option<string>, today: Option<string>, context: Option<Json>)

  /**
   * The JSON the handler responds with.  `UseHeuristic(query, now)` stands
   * for the body `buildHeuristicRanges(query, now)`, which `HeuristicBody`
   * builds.
   */
  datatype RangeReply =
    | Failure(status: int, error: string)
    | UseHeuristic(query: string, now: Moment)
    | Answer(ranges: seq<Range>, union: (Date, Date), strategy: Json, source: string)

  const ClampMonths: int := 18
  const MaxRanges: nat := 10
  const ClampNote: string := " | Clamped to 18 months"

  /** The TypeError of `(context || []).slice(-6)` on a value without `slice`. */
  const ContextSliceMissing: string := "(context || []).slice is not a function"

  /**
   * `(context || []).slice(-6)` succeeds: a falsy `context` becomes `[]`,
   * and strings and arrays have `slice`; numbers, `true` and objects do not.
   */
  predicate ContextSlices(context: Option<Json>) {
    !Present(context) || context.value.JArr? || context.value.JStr?
  }

  // ---------------------------------------------------------------------------
  // The object the model's text holds: /\{[\s\S]*\}/.
  // ---------------------------------------------------------------------------

  /** The leftmost `{` at or after `i` with a `}` after it, up to the last `}`. */
  function ObjectMatchFrom(s: string, i: nat): (r: Option<string>)
    ensures r.Some? ==> |r.value| >= 2 && r.value[0] == '{' && r.value[|r.value| - 1] == '}'
    decreases |s| - i
  {
    if i >= |s| then None
    else if s[i] == '{' && Actions.LastIndexOf(s, '}') > i then Some(s[i..Actions.LastIndexOf(s, '}') + 1])
    else ObjectMatchFrom(s, i + 1)
  }

  predicate BracePairFrom(s: string, i: nat) {
    exists a, b :: i <= a < b < |s| && s[a] == '{' && s[b] == '}'
  }

  /** The pattern matches exactly when some `{` has a `}` after it. */
  lemma {:induction false} ObjectMatchIff(s: string, i: nat)
    ensures ObjectMatchFrom(s, i).Some? <==> BracePairFrom(s, i)
    decreases |s| - i
  {
    if i < |s| {
      if s[i] == '{' && Actions.LastIndexOf(s, '}') > i {
        var b := Actions.LastIndexOf(s, '}');
        assert i <= i < b < |s| && s[i] == '{' && s[b] == '}';
      } else {
        ObjectMatchIff(s, i + 1);
        if BracePairFrom(s, i) {
          var a, b :| i <= a < b < |s| && s[a] == '{' && s[b] == '}';
          assert a != i;
          assert BracePairFrom(s, i + 1);
        }
      }
    }
  }

  // ---------------------------------------------------------------------------
  // Validation and ordering of the proposed ranges.
  // ---------------------------------------------------------------------------

  /** `ranges.map(r => normalizeRange(r, now))`. */
  function Proposals(items: seq<Json>, now: Moment, parse: string -> Option<Moment>): (r: seq<Option<Range>>)
    ensures |r| == |items|
    ensures forall k :: 0 <= k < |r| ==> r[k] == NormalizeRange(items[k], now, parse)
  {
    if |items| == 0 then []
    else [NormalizeRange(items[0], now, parse)] + Proposals(items[1..], now, parse)
  }

  /** `.filter(r => r)`: the ranges present, in order. */
  function Somes(opts: seq<Option<Range>>): (r: seq<Range>)
    ensures |r| <= |opts|
  {
    if |opts| == 0 then []
    else
      var rest := Somes(opts[1..]);
      if opts[0].Some? then [opts[0].value] + rest else rest
  }

  /** A range is kept exactly when it was proposed. */
  lemma {:induction false} SomesMembers(opts: seq<Option<Range>>)
    ensures forall x :: x in Somes(opts) <==> Some(x) in opts
  {
    if |opts| > 0 {
      SomesMembers(opts[1..]);
      assert forall o :: o in opts <==> o == opts[0] || o in opts[1..];
    }
  }

  /** Ranges that are valid and ordered end to end, as `normalizeRange` makes them. */
  predicate AllOrdered(rs: seq<Range>) {
    forall k :: 0 <= k < |rs| ==> Valid(rs[k].start) && Valid(rs[k].end) && NotAfter(rs[k].start, rs[k].end)
  }

  /** The ranges kept from the proposals are all ordered. */
  lemma KeptAreOrdered(items: seq<Json>, now: Moment, parse: string -> Option<Moment>)
    ensures AllOrdered(Somes(Proposals(items, now, parse)))
  {
    var p := Proposals(items, now, parse);
    var kept := Somes(p);
    SomesMembers(p);
    forall k | 0 <= k < |kept|
      ensures Valid(kept[k].start) && Valid(kept[k].end) && NotAfter(kept[k].start, kept[k].end)
    {
      assert Some(kept[k]) in p;
      var j :| 0 <= j < |p| && p[j] == Some(kept[k]);
      assert NormalizeRange(items[j], now, parse) == Some(kept[k]);
    }
  }

  /** Nothing is kept exactly when no proposal is valid. */
  lemma KeptEmptyIff(opts: seq<Option<Range>>)
    ensures Somes(opts) == [] <==> forall k :: 0 <= k < |opts| ==> opts[k].None?
  {
    SomesMembers(opts);
    if Somes(opts) != [] {
      assert Some(Somes(opts)[0]) in opts;
    }
    if exists k :: 0 <= k < |opts| && opts[k].Some? {
      var k :| 0 <= k < |opts| && opts[k].Some?;
      assert opts[k].value in Somes(opts);
    }
  }

  /** Ascending by start date (`a.start.localeCompare(b.start)` on ISO dates). */
  predicate SortedByStart(s: seq<Range>) {
    forall i, j :: 0 <= i < j < |s| ==> NotAfter(s[i].start, s[j].start)
  }

  /** The ranges that start on `d`, in order: the order a stable sort keeps. */
  function StartingOn(s: seq<Range>, d: Date): (r: seq<Range>)
    ensures |r| <= |s|
  {
    if |s| == 0 then []
    else StartingOn(s[..|s| - 1], d) + (if s[|s| - 1].start == d then [s[|s| - 1]] else [])
  }

  /** Inserts `x` after every range that starts no later than it. */
  function Insert(t: seq<Range>, x: Range): (r: seq<Range>)
    ensures |r| == |t| + 1
    decreases |t|
  {
    if |t| == 0 || NotAfter(t[|t| - 1].start, x.start) then t + [x]
    else Insert(t[..|t| - 1], x) + [t[|t| - 1]]
  }

  /** `Array.prototype.sort` by start date: a stable insertion sort. */
  function SortByStart(s: seq<Range>): (r: seq<Range>)
    ensures |r| == |s|
  {
    if |s| == 0 then [] else Insert(SortByStart(s[..|s| - 1]), s[|s| - 1])
  }

  /** Inserting adds exactly one range. */
  lemma {:induction false} InsertMultiset(t: seq<Range>, x: Range)
    ensures multiset(Insert(t, x)) == multiset(t) + multiset{x}
    decreases |t|
  {
    if |t| > 0 && !NotAfter(t[|t| - 1].start, x.start) {
      InsertMultiset(t[..|t| - 1], x);
      assert t == t[..|t| - 1] + [t[|t| - 1]];
    }
  }

  /** Appending a range that starts no earlier than all others keeps the order. */
  lemma SortedSnoc(v: seq<Range>, last: Range)
    requires SortedByStart(v)
    requires forall i :: 0 <= i < |v| ==> NotAfter(v[i].start, last.start)
    ensures SortedByStart(v + [last])
  {
  }

  lemma {:induction false} InsertSorted(t: seq<Range>, x: Range)
    requires SortedByStart(t)
    ensures SortedByStart(Insert(t, x))
    decreases |t|
  {
    if |t| > 0 && !NotAfter(t[|t| - 1].start, x.start) {
      var u := t[..|t| - 1];
      var last := t[|t| - 1];
      assert SortedByStart(u);
      InsertSorted(u, x);
      var v := Insert(u, x);
      forall i | 0 <= i < |v| ensures NotAfter(v[i].start, last.start) {
        InsertMultiset(u, x);
        assert v[i] in multiset(u) + multiset{x};
        if v[i] != x {
          var j :| 0 <= j < |u| && u[j] == v[i];
          assert t[j] == v[i];
        }
      }
      SortedSnoc(v, last);
    } else {
      forall i | 0 <= i < |t| ensures NotAfter(t[i].start, x.start) {
        if i < |t| - 1 {
          assert NotAfter(t[i].start, t[|t| - 1].start);
        }
      }
      SortedSnoc(t, x);
    }
  }

  /** Sorting orders by start date and keeps exactly the same ranges. */
  lemma {:induction false} SortByStartSorts(s: seq<Range>)
    ensures SortedByStart(SortByStart(s))
    ensures multiset(SortByStart(s)) == multiset(s)
  {
    if |s| > 0 {
      SortByStartSorts(s[..|s| - 1]);
      InsertSorted(SortByStart(s[..|s| - 1]), s[|s| - 1]);
      InsertMultiset(SortByStart(s[..|s| - 1]), s[|s| - 1]);
      assert s == s[..|s| - 1] + [s[|s| - 1]];
    }
  }

  lemma {:induction false} StartingOnAppend(a: seq<Range>, b: seq<Range>, d: Date)
    ensures StartingOn(a + b, d) == StartingOn(a, d) + StartingOn(b, d)
    decreases |b|
  {
    if |b| == 0 {
      assert a + b == a;
    } else {
      assert (a + b)[..|a + b| - 1] == a + b[..|b| - 1];
      StartingOnAppend(a, b[..|b| - 1], d);
    }
  }

  /** Inserting keeps the order among ranges with the same start. */
  lemma {:induction false} InsertStable(t: seq<Range>, x: Range, d: Date)
    ensures StartingOn(Insert(t, x), d) == StartingOn(t, d) + StartingOn([x], d)
    decreases |t|
  {
    if |t| == 0 || NotAfter(t[|t| - 1].start, x.start) {
      StartingOnAppend(t, [x], d);
    } else {
      var u := t[..|t| - 1];
      var last := t[|t| - 1];
      InsertStable(u, x, d);
      StartingOnAppend(Insert(u, x), [last], d);
      assert t == u + [last];
      StartingOnAppend(u, [last], d);
      assert [last][..0] == [];
      if last.start == d {
        assert x.start != d;
      }
    }
  }

  /** The sort is stable: ranges with the same start keep their input order. */
  lemma {:induction false} SortByStartStable(s: seq<Range>, d: Date)
    ensures StartingOn(SortByStart(s), d) == StartingOn(s, d)
  {
    if |s| > 0 {
      var init := s[..|s| - 1];
      SortByStartStable(init, d);
      InsertStable(SortByStart(init), s[|s| - 1], d);
      assert s == init + [s[|s| - 1]];
      StartingOnAppend(init, [s[|s| - 1]], d);
    }
  }

  // ---------------------------------------------------------------------------
  // The eighteen-month clamp, as written.
  // ---------------------------------------------------------------------------

  /** `getFullYear()*12 + getMonth()` difference between two dates. */
  function SpanMonths(a: Date, b: Date): int {
    MonthIndex(b) - MonthIndex(a)
  }

  /** `d.setMonth(d.getMonth() + 18); d.setDate(d.getDate() - 1)` from the start date. */
  function ClampEnd(start: Date): (r: Date)
    requires Valid(start)
    ensures Valid(r)
  {
    var c := MakeDate(start.year, start.month + ClampMonths, start.day);
    MakeDate(c.year, c.month, c.day - 1)
  }

  /** `(parsed.strategy || '') + ' | Clamped to 18 months'`. */
  function ClampedStrategy(strategy: Option<Json>): (r: Json)
    ensures r.JStr? && |r.s| >= |ClampNote| && r.s[|r.s| - |ClampNote|..] == ClampNote
    ensures !Present(strategy) ==> r == JStr(ClampNote)
  {
    var prefix := ToJsString(OrElse(strategy, Some(JStr(""))));
    assert (prefix + ClampNote)[|prefix|..] == ClampNote;
    JStr(prefix + ClampNote)
  }

  /**
   * The answer built from the sorted ranges: when the months from the first
   * start to the last range's end exceed eighteen, that last range's end is
   * moved to eighteen months after the first start, less a day.
   */
  function FinishAi(sorted: seq<Range>, strategy: Option<Json>): (r: RangeReply)
    requires |sorted| > 0 && forall k :: 0 <= k < |sorted| ==> Valid(sorted[k].start)
    ensures r.Answer? && |r.ranges| == |sorted| && r.source == "ai"
    ensures r.union == (r.ranges[0].start, r.ranges[|r.ranges| - 1].end)
  {
    var first := sorted[0];
    var last := sorted[|sorted| - 1];
    if SpanMonths(first.start, last.end) > ClampMonths then
      var out := sorted[..|sorted| - 1] + [last.(end := ClampEnd(first.start))];
      Answer(out, (out[0].start, out[|out| - 1].end), ClampedStrategy(strategy), "ai")
    else
      Answer(sorted, (sorted[0].start, last.end), OrElse(strategy, Some(JStr("ai"))).value, "ai")
  }

  /**
   * Only the last range can change: within eighteen months nothing does and
   * the strategy defaults to "ai"; beyond, its end becomes the clamp date and
   * the strategy gets the clamp note.
   */
  lemma FinishAiSpec(sorted: seq<Range>, strategy: Option<Json>)
    requires |sorted| > 0 && forall k :: 0 <= k < |sorted| ==> Valid(sorted[k].start)
    ensures var r := FinishAi(sorted, strategy); var n := |sorted|;
      && r.ranges[..n - 1] == sorted[..n - 1]
      && r.ranges[n - 1].start == sorted[n - 1].start
      && r.ranges[n - 1].reason == sorted[n - 1].reason
    ensures var r := FinishAi(sorted, strategy);
      SpanMonths(sorted[0].start, sorted[|sorted| - 1].end) <= ClampMonths ==>
        r.ranges == sorted && r.strategy == OrElse(strategy, Some(JStr("ai"))).value
    ensures var r := FinishAi(sorted, strategy);
      SpanMonths(sorted[0].start, sorted[|sorted| - 1].end) > ClampMonths ==>
        r.ranges[|sorted| - 1].end == ClampEnd(sorted[0].start) && r.strategy == ClampedStrategy(strategy)
  {
    var r := FinishAi(sorted, strategy);
    var n := |sorted|;
    if SpanMonths(sorted[0].start, sorted[n - 1].end) > ClampMonths {
      assert r.ranges[..n - 1] == sorted[..n - 1];
    }
  }

  /** The clamp date lies after the start it is counted from. */
  lemma ClampEndAfterStart(start: Date)
    requires Valid(start)
    ensures Before(start, ClampEnd(start))
  {
    var c := MakeDate(start.year, start.month + ClampMonths, start.day);
    MakeDateIndex(start.year, start.month + ClampMonths, start.day);
    if c.day == 1 {
      MakeDateDayZeroIndex(c.year, c.month);
    } else {
      MakeDateIndex(c.year, c.month, c.day - 1);
    }
    IndexBefore(start, ClampEnd(start));
  }

  /**
   * As written, the clamp can leave the last range ending before it starts:
   * a range from 2027-01-01 gets the end 2026-06-30, eighteen months after
   * the first range's start less a day.
   */
  lemma ClampInvertsLastRange()
    ensures var r := FinishAi([Range(Date(2025, 0, 1), Date(2025, 0, 2), "a"),
                               Range(Date(2027, 0, 1), Date(2027, 0, 5), "b")], None);
      && r.ranges[1].start == Date(2027, 0, 1)
      && r.ranges[1].end == Date(2026, 5, 30)
      && Before(r.ranges[1].end, r.ranges[1].start)
  {
    var s := [Range(Date(2025, 0, 1), Date(2025, 0, 2), "a"), Range(Date(2027, 0, 1), Date(2027, 0, 5), "b")];
    assert SpanMonths(s[0].start, s[1].end) == 24;
    assert MakeDate(2025, 18, 1) == Date(2026, 6, 1) by {
      assert MonthOf(2025, 18) == (2026, 6);
    }
    assert MakeDate(2026, 6, 0) == Date(2026, 5, 30) by {
      FirstOfMonth(2026, 6);
    }
    FinishAiSpec(s, None);
  }

  /** A range of almost two years that starts first, then a two-day range inside its first months. */
  const LongerFirst: seq<Range> := [Range(Date(2025, 0, 1), Date(2026, 11, 1), "a"), Range(Date(2025, 1, 1), Date(2025, 1, 2), "b")]

  /**
   * As written, the span and the union use the end of the range that sorts
   * last by start, so a longer range that starts first is neither clamped
   * nor covered by the union.
   */
  lemma UnionMissesLongerRange()
    ensures var s := LongerFirst;
      var r := FinishAi(s, None);
      && r.ranges == s
      && r.union == (Date(2025, 0, 1), Date(2025, 1, 2))
      && Before(r.union.1, r.ranges[0].end)
      && SpanMonths(s[0].start, s[0].end) > ClampMonths
  {
    var s := LongerFirst;
    assert SpanMonths(s[0].start, s[1].end) == 1;
    FinishAiSpec(s, None);
  }

  // ---------------------------------------------------------------------------
  // The eighteen-month clamp, corrected: span and union use the latest end,
  // and every range is cut to the clamp date.
  // ---------------------------------------------------------------------------

  /** The latest end among the ranges. */
  function LatestEnd(s: seq<Range>): (d: Date)
    requires |s| > 0
    ensures exists k :: 0 <= k < |s| && s[k].end == d
    ensures forall k :: 0 <= k < |s| ==> NotAfter(s[k].end, d)
  {
    if |s| == 1 then s[0].end
    else
      var rest := LatestEnd(s[1..]);
      assert forall k :: 1 <= k < |s| ==> s[k] == s[1..][k - 1];
      if Before(rest, s[0].end) then s[0].end else rest
  }

  /** The ranges starting no later than `c`, each ending no later than `c`. */
  function ClampAll(s: seq<Range>, c: Date): (r: seq<Range>)
    requires Valid(c) && AllOrdered(s) && SortedByStart(s)
    ensures |r| <= |s| && AllOrdered(r)
    ensures forall k :: 0 <= k < |r| ==> NotAfter(r[k].end, c)
    ensures |s| > 0 ==> forall k :: 0 <= k < |r| ==> NotAfter(s[0].start, r[k].start)
    ensures |s| > 0 && NotAfter(s[0].start, c) ==> |r| > 0 && r[0].start == s[0].start
  {
    if |s| == 0 then []
    else
      assert AllOrdered(s[1..]) && SortedByStart(s[1..]);
      var rest := ClampAll(s[1..], c);
      assert forall k :: 1 <= k < |s| ==> s[k] == s[1..][k - 1];
      assert forall k :: 0 <= k < |rest| ==> NotAfter(s[0].start, rest[k].start) by {
        if |s| > 1 {
          assert NotAfter(s[0].start, s[1].start);
        }
      }
      if NotAfter(s[0].start, c) then
        var head := if Before(c, s[0].end) then s[0].(end := c) else s[0];
        [head] + rest
      else rest
  }

  /** A range that already ends by the clamp date is kept unchanged. */
  lemma {:induction false} ClampKeepsInside(s: seq<Range>, c: Date)
    requires Valid(c) && AllOrdered(s) && SortedByStart(s)
    ensures forall k :: 0 <= k < |s| && NotAfter(s[k].end, c) ==> s[k] in ClampAll(s, c)
  {
    if |s| > 0 {
      assert AllOrdered(s[1..]) && SortedByStart(s[1..]);
      ClampKeepsInside(s[1..], c);
      assert forall k :: 1 <= k < |s| ==> s[k] == s[1..][k - 1];
    }
  }

  /** An AI answer whose ranges are all ordered and all inside its union. */
  predicate CoveredAnswer(r: RangeReply) {
    && r.Answer? && |r.ranges| > 0 && AllOrdered(r.ranges)
    && forall k :: 0 <= k < |r.ranges| ==>
         NotAfter(r.union.0, r.ranges[k].start) && NotAfter(r.ranges[k].end, r.union.1)
  }

  /**
   * The evident intent of the clamp: measure the span to the latest end,
   * and when it exceeds eighteen months cut every range to the clamp date,
   * dropping those that would start after it.
   */
  function FinishAiFixed(sorted: seq<Range>, strategy: Option<Json>): (r: RangeReply)
    requires |sorted| > 0 && AllOrdered(sorted) && SortedByStart(sorted)
    ensures CoveredAnswer(r) && r.source == "ai"
    ensures r.union.0 == sorted[0].start
    ensures exists k :: 0 <= k < |r.ranges| && r.ranges[k].end == r.union.1
    ensures SpanMonths(sorted[0].start, LatestEnd(sorted)) <= ClampMonths ==>
      r.ranges == sorted && r.strategy == OrElse(strategy, Some(JStr("ai"))).value
    ensures SpanMonths(sorted[0].start, LatestEnd(sorted)) > ClampMonths ==>
      NotAfter(r.union.1, ClampEnd(sorted[0].start)) && r.strategy == ClampedStrategy(strategy)
  {
    var first := sorted[0];
    if SpanMonths(first.start, LatestEnd(sorted)) > ClampMonths then
      var c := ClampEnd(first.start);
      ClampEndAfterStart(first.start);
      var out := ClampAll(sorted, c);
      Answer(out, (first.start, LatestEnd(out)), ClampedStrategy(strategy), "ai")
    else
      assert forall k :: 0 <= k < |sorted| ==> NotAfter(first.start, sorted[k].start);
      Answer(sorted, (first.start, LatestEnd(sorted)), OrElse(strategy, Some(JStr("ai"))).value, "ai")
  }

  // ---------------------------------------------------------------------------
  // The handler.
  // ---------------------------------------------------------------------------

  /** `today ? new Date(today) : new Date()`; `None` is an invalid date. */
  function Now(today: Option<string>, clock: Moment, parse: string -> Option<Moment>): (r: Option<Moment>)
    ensures today.None? || today.value == "" ==> r == Some(clock)
    ensures today.Some? && today.value != "" ==> r == parse(today.value)
  {
    if today.None? || today.value == "" then Some(clock) else parse(today.value)
  }

  /** The model's ranges, from the parsed object on; `None` means "use the heuristic". */
  function AiRanges(parsed: Json, now: Moment, parse: string -> Option<Moment>): (r: Option<seq<Range>>)
    ensures r.Some? ==> |r.value| > 0 && AllOrdered(r.value) && SortedByStart(r.value)
  {
    var rs := Get(parsed, "ranges");
    if !IsArray(rs) then None
    else
      var valid := Somes(Proposals(FirstItems(rs.value.items), now, parse));
      if |valid| == 0 then None
      else
        SortedKeepsOrdered(FirstItems(rs.value.items), now, parse);
        SortByStartSorts(valid);
        Some(SortByStart(valid))
  }

  /** Sorting the kept ranges leaves each of them ordered. */
  lemma SortedKeepsOrdered(items: seq<Json>, now: Moment, parse: string -> Option<Moment>)
    ensures AllOrdered(SortByStart(Somes(Proposals(items, now, parse))))
  {
    var valid := Somes(Proposals(items, now, parse));
    var sorted := SortByStart(valid);
    SortByStartSorts(valid);
    KeptAreOrdered(items, now, parse);
    forall k | 0 <= k < |sorted|
      ensures Valid(sorted[k].start) && Valid(sorted[k].end) && NotAfter(sorted[k].start, sorted[k].end)
    {
      assert sorted[k] in multiset(valid);
      var j :| 0 <= j < |valid| && valid[j] == sorted[k];
    }
  }

  /**
   * The model's answer is used exactly when `ranges` is an array whose first
   * ten items hold a valid range, and then it is those valid ranges, sorted.
   */
  lemma AiRangesSpec(parsed: Json, now: Moment, parse: string -> Option<Moment>)
    ensures var r := AiRanges(parsed, now, parse);
      r.Some? <==>
        && IsArray(Get(parsed, "ranges"))
        && exists k :: 0 <= k < |FirstItems(Get(parsed, "ranges").value.items)|
             && NormalizeRange(FirstItems(Get(parsed, "ranges").value.items)[k], now, parse).Some?
    ensures var r := AiRanges(parsed, now, parse);
      r.Some? ==>
        && SortedByStart(r.value)
        && multiset(r.value) == multiset(Somes(Proposals(FirstItems(Get(parsed, "ranges").value.items), now, parse)))
  {
    var rs := Get(parsed, "ranges");
    if IsArray(rs) {
      var items := FirstItems(rs.value.items);
      var p := Proposals(items, now, parse);
      KeptEmptyIff(p);
      SortByStartSorts(Somes(p));
    }
  }

  /** `ranges.slice(0, 10)`. */
  function FirstItems(items: seq<Json>): (r: seq<Json>)
    ensures |r| == (if |items| < MaxRanges then |items| else MaxRanges)
    ensures r == items[..|r|]
  {
    if |items| <= MaxRanges then items else items[..MaxRanges]
  }

  /**
   * The reply once the model's object has been parsed: the heuristic when
   * no range survives, otherwise the sorted ranges finished by the clamp and
   * union, as written or corrected.
   */
  function ParsedReply(parsed: Json, query: string, now: Moment, parseDate: string -> Option<Moment>,
                       v: Variant): (r: RangeReply)
    requires !parsed.JNull?
    ensures r.UseHeuristic? || r.Answer?
    ensures r.UseHeuristic? ==> r == UseHeuristic(query, now)
    ensures r.UseHeuristic? <==> AiRanges(parsed, now, parseDate).None?
    ensures r.Answer? ==> r.source == "ai" && |r.ranges| > 0 && r.union.0 == r.ranges[0].start
    ensures v == AsWritten && r.Answer? ==>
      && r == FinishAi(AiRanges(parsed, now, parseDate).value, Get(parsed, "strategy"))
      && |r.ranges| == |AiRanges(parsed, now, parseDate).value|
      && r.union.1 == r.ranges[|r.ranges| - 1].end
    ensures v == Corrected && r.Answer? ==> CoveredAnswer(r)
  {
    match AiRanges(parsed, now, parseDate)
    case None => UseHeuristic(query, now)
    case Some(sorted) => Finish(sorted, Get(parsed, "strategy"), v)
  }

  /** The clamp and union applied to the sorted ranges, as written or corrected. */
  function Finish(sorted: seq<Range>, strategy: Option<Json>, v: Variant): (r: RangeReply)
    requires |sorted| > 0 && AllOrdered(sorted) && SortedByStart(sorted)
    ensures r.Answer? && r.source == "ai" && |r.ranges| > 0 && r.union.0 == r.ranges[0].start
    ensures v == AsWritten ==>
      r == FinishAi(sorted, strategy) && |r.ranges| == |sorted| && r.union.1 == r.ranges[|r.ranges| - 1].end
    ensures v == Corrected ==> CoveredAnswer(r)
  {
    if v == AsWritten then FinishAi(sorted, strategy)
    else
      FixedStartsAtFirst(sorted, strategy);
      FinishAiFixed(sorted, strategy)
  }

  /** Corrected, the first answered range still starts where the sorted ranges do. */
  lemma FixedStartsAtFirst(sorted: seq<Range>, strategy: Option<Json>)
    requires |sorted| > 0 && AllOrdered(sorted) && SortedByStart(sorted)
    ensures var r := FinishAiFixed(sorted, strategy); r.ranges[0].start == sorted[0].start
  {
    var first := sorted[0];
    if SpanMonths(first.start, LatestEnd(sorted)) > ClampMonths {
      ClampEndAfterStart(first.start);
    }
  }

  /**
   * As written, a reply can leave out part of a range it returns: with the
   * model's two ranges 2025-01-01..2026-12-01 and 2025-02-01..2025-02-02,
   * the union ends on 2025-02-02; corrected, it covers both.
   */
  lemma ParsedReplyMissesLongerRange(parsed: Json, query: string, now: Moment, parseDate: string -> Option<Moment>)
    requires !parsed.JNull? && Get(parsed, "strategy").None?
    ensures var r := ParsedReply(parsed, query, now, parseDate, AsWritten);
      AiRanges(parsed, now, parseDate) == Some(LongerFirst) ==>
      r.Answer? && !CoveredAnswer(r) && Before(r.union.1, r.ranges[0].end)
    ensures AiRanges(parsed, now, parseDate) == Some(LongerFirst) ==>
      CoveredAnswer(ParsedReply(parsed, query, now, parseDate, Corrected))
  {
    if AiRanges(parsed, now, parseDate) == Some(LongerFirst) {
      UnionMissesLongerRange();
    }
  }

  /** The reply once the model has answered `text`. */
  function TextReply(text: string, query: string, now: Moment,
                     parseJson: string -> Option<Json>, parseDate: string -> Option<Moment>, v: Variant): (r: RangeReply)
    ensures r.UseHeuristic? ==> r == UseHeuristic(query, now)
    ensures r.Failure? ==> r == Failure(400, "Cannot read properties of null (reading 'ranges')")
    ensures ObjectMatchFrom(Trim(text), 0).None? ==> r.UseHeuristic?
    ensures var m := ObjectMatchFrom(Trim(text), 0);
      m.Some? && parseJson(m.value).None? ==> r == UseHeuristic(query, now)
    ensures var m := ObjectMatchFrom(Trim(text), 0);
      m.Some? && parseJson(m.value) == Some(JNull) ==> r == Failure(400, "Cannot read properties of null (reading 'ranges')")
    ensures var m := ObjectMatchFrom(Trim(text), 0);
      m.Some? && parseJson(m.value).Some? && !parseJson(m.value).value.JNull? ==>
      r == ParsedReply(parseJson(m.value).value, query, now, parseDate, v)
    ensures r.Answer? ==> r.source == "ai" && |r.ranges| > 0 && r.union.0 == r.ranges[0].start
    ensures v == AsWritten && r.Answer? ==> r.union.1 == r.ranges[|r.ranges| - 1].end
    ensures v == Corrected && r.Answer? ==> CoveredAnswer(r)
  {
    match ObjectMatchFrom(Trim(text), 0)
    case None => UseHeuristic(query, now)
    case Some(m) =>
      match parseJson(m)
      case None => UseHeuristic(query, now)
      case Some(parsed) =>
        if parsed.JNull? then Failure(400, "Cannot read properties of null (reading 'ranges')")
        else ParsedReply(parsed, query, now, parseDate, v)
  }

  /** `assistantRangeHandler`: the reply to one request. */
  function HandleRange(hasKey: bool, req: RangeRequest, clock: Moment, llm: LlmOutcome,
                       parseJson: string -> Option<Json>, parseDate: string -> Option<Moment>, v: Variant): (r: RangeReply)
    ensures !hasKey ==> r == Failure(500, "Gemini API key not configured")
    ensures hasKey && (req.query.None? || IsBlank(req.query.value)) ==> r == Failure(400, "Missing query")
    ensures r.UseHeuristic? || r.Answer? ==> ContextSlices(req.context)
  {
    if !hasKey then Failure(500, "Gemini API key not configured")
    else if req.query.None? then Failure(400, "Missing query")
    else if Trim(req.query.value) == "" then
      TrimEmptyIffBlank(req.query.value);
      Failure(400, "Missing query")
    else
      TrimEmptyIffBlank(req.query.value);
      match Now(req.today, clock, parseDate)
      case None => Failure(400, "Invalid time value")
      case Some(now) =>
        if !ContextSlices(req.context) then Failure(400, ContextSliceMissing)
        else match llm
        case LlmFailed => UseHeuristic(req.query.value, now)
        case LlmText(text) => TextReply(text, req.query.value, now, parseJson, parseDate, v)
  }

  /** Past the request checks, an unparseable `today` is a 400 error. */
  lemma HandleRangeBadDate(hasKey: bool, req: RangeRequest, clock: Moment, llm: LlmOutcome,
                           parseJson: string -> Option<Json>, parseDate: string -> Option<Moment>, v: Variant)
    requires hasKey && req.query.Some? && !IsBlank(req.query.value)
    requires Now(req.today, clock, parseDate).None?
    ensures HandleRange(hasKey, req, clock, llm, parseJson, parseDate, v) == Failure(400, "Invalid time value")
  {
    TrimEmptyIffBlank(req.query.value);
  }

  /**
   * Past the request checks, a `context` without `slice` throws while the
   * prompt is built, before the model is called; otherwise a failed model
   * call means the heuristic for this query and time.
   */
  lemma HandleRangeModelFailed(hasKey: bool, req: RangeRequest, clock: Moment,
                               parseJson: string -> Option<Json>, parseDate: string -> Option<Moment>, v: Variant)
    requires hasKey && req.query.Some? && !IsBlank(req.query.value)
    requires Now(req.today, clock, parseDate).Some?
    ensures !ContextSlices(req.context) ==>
      HandleRange(hasKey, req, clock, LlmFailed, parseJson, parseDate, v) == Failure(400, ContextSliceMissing)
    ensures ContextSlices(req.context) ==>
      HandleRange(hasKey, req, clock, LlmFailed, parseJson, parseDate, v)
      == UseHeuristic(req.query.value, Now(req.today, clock, parseDate).value)
  {
    TrimEmptyIffBlank(req.query.value);
  }

  /**
   * Past the request checks, a `context` without `slice` is the TypeError's
   * 400; otherwise a model answer is handled on its text alone: every reply
   * is then the heuristic, the null-object error, or an answer.
   * As written, the answer's union ends where its last range by start does;
   * corrected, its ranges are ordered and inside their union.
   */
  lemma HandleRangeModelText(hasKey: bool, req: RangeRequest, clock: Moment, text: string,
                             parseJson: string -> Option<Json>, parseDate: string -> Option<Moment>, v: Variant)
    requires hasKey && req.query.Some? && !IsBlank(req.query.value)
    requires Now(req.today, clock, parseDate).Some?
    ensures !ContextSlices(req.context) ==>
      HandleRange(hasKey, req, clock, LlmText(text), parseJson, parseDate, v) == Failure(400, ContextSliceMissing)
    ensures var r := HandleRange(hasKey, req, clock, LlmText(text), parseJson, parseDate, v);
      ContextSlices(req.context) ==>
      && r == TextReply(text, req.query.value, Now(req.today, clock, parseDate).value, parseJson, parseDate, v)
      && (r.UseHeuristic? || r.Failure? || (r.Answer? && r.union.0 == r.ranges[0].start))
      && (v == AsWritten && r.Answer? ==> r.union.1 == r.ranges[|r.ranges| - 1].end)
      && (v == Corrected && r.Answer? ==> CoveredAnswer(r))
  {
    if ContextSlices(req.context) {
      ModelTextIsTextReply(hasKey, req, clock, text, parseJson, parseDate, v);
    } else {
      TrimEmptyIffBlank(req.query.value);
    }
  }

  /** Past the request checks and with a sliceable `context`, a model answer is handled by `TextReply`. */
  lemma ModelTextIsTextReply(hasKey: bool, req: RangeRequest, clock: Moment, text: string,
                             parseJson: string -> Option<Json>, parseDate: string -> Option<Moment>, v: Variant)
    requires hasKey && req.query.Some? && !IsBlank(req.query.value)
    requires Now(req.today, clock, parseDate).Some? && ContextSlices(req.context)
    ensures HandleRange(hasKey, req, clock, LlmText(text), parseJson, parseDate, v)
      == TextReply(text, req.query.value, Now(req.today, clock, parseDate).value, parseJson, parseDate, v)
  {
    TrimEmptyIffBlank(req.query.value);
  }

  /** The body of a heuristic reply: one ordered-by-construction range and its union. */
  function HeuristicBody(r: RangeReply): (h: Heuristic)
    requires r.UseHeuristic?
    ensures |h.ranges| == 1 && h.source == "heuristic"
    ensures h.union == (h.ranges[0].start, h.ranges[0].end)
  {
    BuildHeuristicRanges(r.query, r.now)
  }
}

=== FILE: ranges.dfy ===
/**
 * The range helpers of api/assistant/utils/ranges.ts: validation of the
 * ranges a model proposes (`parseDateISO`, `normalizeRange`) and the
 * keyword heuristic used when no model answer is usable
 * (`buildHeuristicRanges`).  `new Date(string)` is an abstract `parse`; a
 * range carries its two ends as the calendar dates `toISOString().slice(0, 10)`
 * names.
 */
module Ranges {
  import opened Wrappers
  import opened Text
  import opened Json
  import opened Dates

  /** Three 366-day years in milliseconds: the farthest a proposed date may lie from now. */
  const MaxDistance: int := 1000 * 60 * 60 * 24 * 366 * 3

  function Distance(a: Moment, b: Moment): nat {
    if Time(a) >= Time(b) then Time(a) - Time(b) else Time(b) - Time(a)
  }

  /**
   * `parseDateISO(v, now)`: a non-empty string that parses to a date no more
   * than three 366-day years away from `now`; anything else is `null`.
   */
  function ParseDateIso(v: Option<Json>, now: Moment, parse: string -> Option<Moment>): (r: Option<Moment>)
    ensures r.Some? ==> Distance(r.value, now) <= MaxDistance
    ensures r.Some? <==> v.Some? && v.value.JStr? && v.value.s != "" && parse(v.value.s).Some?
                         && Distance(parse(v.value.s).value, now) <= MaxDistance
    ensures r.Some? ==> r == parse(v.value.s)
  {
    if !Present(v) || !v.value.JStr? then None
    else
      match parse(v.value.s)
      case None => None
      case Some(d) => if Distance(d, now) > MaxDistance then None else Some(d)
  }

  /** A normalised range: inclusive calendar dates and a short rationale. */
  datatype Range = Range(start: Date, end: Date, reason: string)

  /** `(r.reason || '').toString().slice(0, 160)`. */
  function Reason(r: Json): (s: string)
    ensures |s| <= 160
    ensures !Present(Get(r, "reason")) ==> s == ""
    ensures Present(Get(r, "reason")) ==> s == Take(ValueToString(Get(r, "reason").value), 160)
  {
    Take(ToJsString(OrElse(Get(r, "reason"), Some(JStr("")))), 160)
  }

  /**
   * `normalizeRange(r, now)`: both ends must be valid and the end must not
   * precede the start, so every range it returns is ordered.
   */
  function NormalizeRange(r: Json, now: Moment, parse: string -> Option<Moment>): (res: Option<Range>)
    ensures res.Some? ==> Valid(res.value.start) && Valid(res.value.end)
    ensures res.Some? ==> NotAfter(res.value.start, res.value.end)
    ensures res.Some? ==> |res.value.reason| <= 160
    ensures res.Some? <==>
      && Truthy(r)
      && ParseDateIso(Get(r, "start"), now, parse).Some?
      && ParseDateIso(Get(r, "end"), now, parse).Some?
      && Time(ParseDateIso(Get(r, "start"), now, parse).value) <= Time(ParseDateIso(Get(r, "end"), now, parse).value)
    ensures res.Some? ==>
      && res.value.start == ParseDateIso(Get(r, "start"), now, parse).value.date
      && res.value.end == ParseDateIso(Get(r, "end"), now, parse).value.date
  {
    if !Truthy(r) then None
    else
      var start := ParseDateIso(Get(r, "start"), now, parse);
      var end := ParseDateIso(Get(r, "end"), now, parse);
      if start.None? || end.None? then None
      else if Time(end.value) < Time(start.value) then None
      else
        TimeOrder(end.value, start.value);
        Some(Range(start.value.date, end.value.date, Reason(r)))
  }

  /** `inferYear(monthIdx, now)`: a month more than one month back means next year. */
  function InferYear(monthIdx: int, now: Date): int {
    if monthIdx < now.month - 1 then now.year + 1 else now.year
  }

  /**
   * The inferred month lies between one month before the current one and
   * eleven months after it.
   */
  lemma InferredMonthWindow(monthIdx: int, now: Date)
    requires 0 <= monthIdx < 12 && 0 <= now.month < 12
    ensures var k := InferYear(monthIdx, now) * 12 + monthIdx;
      MonthIndex(now) - 1 <= k <= MonthIndex(now) + 11
    ensures InferYear(monthIdx, now) == now.year + 1 <==> monthIdx < now.month - 1
    ensures InferYear(monthIdx, now) != now.year + 1 ==> InferYear(monthIdx, now) == now.year
  {
  }

  // ---------------------------------------------------------------------------
  // Month mentions: /\b<name>(?:\s+(\d{4}))?/g for each month name in turn.
  // ---------------------------------------------------------------------------

  const MonthNames: seq<string> := [
    "january", "february", "march", "april", "may", "june",
    "july", "august", "september", "october", "november", "december"]

  /** The lower-case English name of month `i` (0 is January). */
  function MonthName(i: int): (r: string)
    requires 0 <= i < 12
    ensures |r| >= 3
  {
    MonthNames[i]
  }

  /** One matched month name: its index and the year it is read in. */
  datatype Mention = Mention(m: int, y: int)

  /** `\b<name>` matches at `k`: the name occurs there after a non-word character or the start. */
  predicate WordAt(s: string, k: nat, name: string) {
    OccursAt(s, k, name) && (k == 0 || !IsWordChar(s[k - 1]))
  }

  /**
   * The month-name pattern at `k`: the end of the match and the four-digit
   * year after the name, if there is one.  Names start with a letter, so
   * `\b` holds when the previous character is not a word character.
   */
  function MonthMatchAt(s: string, k: nat, name: string): (r: Option<(nat, Option<nat>)>)
    requires |name| > 0
    ensures r.Some? ==> k + |name| <= r.value.0 <= |s| && OccursAt(s, k, name)
    ensures r.Some? <==> WordAt(s, k, name)
  {
    if !WordAt(s, k, name) then None
    else
      var e := k + |name|;
      var w := SkipSpace(s, e);
      if w > e && w + 4 <= |s| && AllDigits(s[w..w + 4]) then Some((w + 4, Some(DigitsValue(s[w..w + 4]))))
      else Some((e, None))
  }

  /** The mentions of month `i` at or after `from`, in the order `exec` finds them. */
  function Mentions(s: string, i: int, from: nat, now: Date): (r: seq<Mention>)
    requires 0 <= i < 12
    ensures forall x :: x in r ==> x.m == i
    decreases |s| - from
  {
    if from >= |s| then []
    else
      match MonthMatchAt(s, from, MonthName(i))
      case Some((e, y)) =>
        [Mention(i, match y case Some(v) => v case None => InferYear(i, now))] + Mentions(s, i, e, now)
      case None => Mentions(s, i, from + 1, now)
  }

  predicate NamesMonthFrom(s: string, i: int, from: nat)
    requires 0 <= i < 12
  {
    exists k :: from <= k < |s| && WordAt(s, k, MonthName(i))
  }

  /** A name found at `from` or later yields a mention. */
  lemma {:induction false} NamedIsMentioned(s: string, i: int, from: nat, now: Date)
    requires 0 <= i < 12 && NamesMonthFrom(s, i, from)
    ensures |Mentions(s, i, from, now)| > 0
    decreases |s| - from
  {
    if MonthMatchAt(s, from, MonthName(i)).None? {
      var k :| from <= k < |s| && WordAt(s, k, MonthName(i));
      assert NamesMonthFrom(s, i, from + 1) by {
        assert k != from;
      }
      NamedIsMentioned(s, i, from + 1, now);
    }
  }

  /** A mention comes from a name found at `from` or later. */
  lemma {:induction false} MentionedIsNamed(s: string, i: int, from: nat, now: Date)
    requires 0 <= i < 12 && |Mentions(s, i, from, now)| > 0
    ensures NamesMonthFrom(s, i, from)
    decreases |s| - from
  {
    if MonthMatchAt(s, from, MonthName(i)).None? {
      MentionedIsNamed(s, i, from + 1, now);
    }
  }

  /** Month `i` is mentioned after `from` exactly when its name occurs there at a word start. */
  lemma MentionsIff(s: string, i: int, from: nat, now: Date)
    requires 0 <= i < 12
    ensures |Mentions(s, i, from, now)| > 0 <==> NamesMonthFrom(s, i, from)
  {
    if NamesMonthFrom(s, i, from) {
      NamedIsMentioned(s, i, from, now);
    }
    if |Mentions(s, i, from, now)| > 0 {
      MentionedIsNamed(s, i, from, now);
    }
  }

  /** `found`: the mentions of January, then February, and so on. */
  function AllMentions(s: string, now: Date, i: nat): (r: seq<Mention>)
    requires i <= 12
    ensures forall x :: x in r ==> i <= x.m < 12
    decreases 12 - i
  {
    if i == 12 then [] else Mentions(s, i, 0, now) + AllMentions(s, now, i + 1)
  }

  lemma {:induction false} AllMentionsNonEmpty(s: string, now: Date, i: nat, j: nat)
    requires i <= j < 12 && NamesMonthFrom(s, j, 0)
    ensures |AllMentions(s, now, i)| > 0
    decreases j - i
  {
    if i < j {
      AllMentionsNonEmpty(s, now, i + 1, j);
    } else {
      MentionsIff(s, j, 0, now);
    }
  }

  /** `c` comes strictly before `a` by (year, month). */
  predicate EarlierYM(c: Mention, a: Mention) {
    c.y < a.y || (c.y == a.y && c.m < a.m)
  }

  /** The `reduce` picking the earliest mention; ties keep the first. */
  function EarliestFrom(xs: seq<Mention>, a: Mention): (r: Mention)
    ensures r == a || r in xs
    ensures !EarlierYM(a, r)
    ensures forall c :: c in xs ==> !EarlierYM(c, r)
    decreases |xs|
  {
    if |xs| == 0 then a
    else
      var r := EarliestFrom(xs[1..], if EarlierYM(xs[0], a) then xs[0] else a);
      assert forall c :: c in xs ==> c == xs[0] || c in xs[1..];
      r
  }

  /** The `reduce` picking the latest mention; ties keep the first. */
  function LatestFrom(xs: seq<Mention>, a: Mention): (r: Mention)
    ensures r == a || r in xs
    ensures !EarlierYM(r, a)
    ensures forall c :: c in xs ==> !EarlierYM(r, c)
    decreases |xs|
  {
    if |xs| == 0 then a
    else
      var r := LatestFrom(xs[1..], if EarlierYM(a, xs[0]) then xs[0] else a);
      assert forall c :: c in xs ==> c == xs[0] || c in xs[1..];
      r
  }

  // ---------------------------------------------------------------------------
  // The keyword tests, in the order the heuristic tries them.
  // ---------------------------------------------------------------------------

  /** `a\s+b` at `k`. */
  predicate PairAt(s: string, k: nat, a: string, b: string) {
    OccursAt(s, k, a) && SkipSpace(s, k + |a|) > k + |a| && OccursAt(s, SkipSpace(s, k + |a|), b)
  }

  predicate HasPair(s: string, a: string, b: string) {
    exists k :: 0 <= k < |s| && PairAt(s, k, a, b)
  }

  /** `/next\s+(\d+)\s+month/` at `k`: the captured count. */
  function NextCountAt(s: string, k: nat): (r: Option<nat>) {
    if !OccursAt(s, k, "next") then None
    else
      var w := SkipSpace(s, k + 4);
      var ds := DigitPrefix(s[w..]);
      var v := SkipSpace(s, w + |ds|);
      if w > k + 4 && |ds| > 0 && v > w + |ds| && OccursAt(s, v, "month") then Some(DigitsValue(ds))
      else None
  }

  /** The leftmost `next N month` match at or after `from`. */
  function FirstNextCount(s: string, from: nat): (r: Option<nat>)
    ensures r.Some? ==> exists k :: from <= k < |s| && NextCountAt(s, k) == r
    ensures r.None? ==> forall k :: from <= k < |s| ==> NextCountAt(s, k).None?
    decreases |s| - from
  {
    if from >= |s| then None
    else if NextCountAt(s, from).Some? then NextCountAt(s, from)
    else FirstNextCount(s, from + 1)
  }

  /** `/what.*coming/`: no line terminator between the two words. */
  predicate WhatComing(s: string) {
    exists i, j :: 0 <= i && i + 4 <= j <= |s| && OccursAt(s, i, "what") && OccursAt(s, j, "coming")
      && forall k :: i + 4 <= k < j ==> !IsLineTerminator(s[k])
  }

  predicate UpcomingWords(s: string) {
    Contains(s, "upcoming") || Contains(s, "plan") || Contains(s, "schedule") || WhatComing(s)
  }

  /** The branch of the heuristic a lower-cased query selects. */
  datatype Branch =
    | Months(found: seq<Mention>)
    | NextMonths(n: nat)
    | NextYear
    | ThisWeek
    | Today
    | Tomorrow
    | NextWeek
    | Upcoming
    | Fallback

  function Classify(lower: string, now: Date): (b: Branch)
    ensures b.Months? ==> |b.found| > 0 && forall x :: x in b.found ==> 0 <= x.m < 12
    ensures b.Months? ==> b.found == AllMentions(lower, now, 0)
  {
    var found := AllMentions(lower, now, 0);
    if |found| > 0 then Months(found)
    else if FirstNextCount(lower, 0).Some? then NextMonths(FirstNextCount(lower, 0).value)
    else if HasPair(lower, "next", "year") then NextYear
    else if HasPair(lower, "this", "week") then ThisWeek
    else if Contains(lower, "today") || Contains(lower, "now") then Today
    else if Contains(lower, "tomorrow") then Tomorrow
    else if HasPair(lower, "next", "week") then NextWeek
    else if UpcomingWords(lower) then Upcoming
    else Fallback
  }

  /** The month-branch dates are in order when both ends use the same year rule. */
  lemma MonthSpanOrdered(lo: Mention, hi: Mention)
    requires 0 <= lo.m < 12 && 0 <= hi.m < 12 && !EarlierYM(hi, lo)
    ensures lo.y >= 100 && hi.y >= 100 ==> NotAfter(Date(JsYear(lo.y), lo.m, 1), LastDayOf(JsYear(hi.y), hi.m))
  {
  }

  /** The earliest mention by (year, month): `found.reduce(…)` with the first of equals kept. */
  function Earliest(found: seq<Mention>): (lo: Mention)
    requires |found| > 0
    ensures lo in found && forall c :: c in found ==> !EarlierYM(c, lo)
  {
    assert forall c :: c in found ==> c == found[0] || c in found[1..];
    EarliestFrom(found[1..], found[0])
  }

  /** The latest mention by (year, month), the first of equals kept. */
  function Latest(found: seq<Mention>): (hi: Mention)
    requires |found| > 0
    ensures hi in found && forall c :: c in found ==> !EarlierYM(hi, c)
  {
    assert forall c :: c in found ==> c == found[0] || c in found[1..];
    LatestFrom(found[1..], found[0])
  }

  /**
   * Month names present: from the 1st of the earliest named (year, month) to
   * the last day of the latest one; in order unless a named year is one of
   * the two-digit years 0..99 that `new Date` reads as 1900..1999.
   */
  function MonthsBranch(found: seq<Mention>): (r: Range)
    requires |found| > 0 && forall x :: x in found ==> 0 <= x.m < 12
    ensures Valid(r.start) && Valid(r.end) && r.reason == "Referenced months"
    ensures r.start == Date(JsYear(Earliest(found).y), Earliest(found).m, 1)
    ensures r.end == LastDayOf(JsYear(Latest(found).y), Latest(found).m)
    ensures Earliest(found).y >= 100 && Latest(found).y >= 100 ==> NotAfter(r.start, r.end)
  {
    var lo := Earliest(found);
    var hi := Latest(found);
    var start := NewDate(lo.y, lo.m, 1);
    var end := NewDate(hi.y, hi.m + 1, 0);
    assert start == Date(JsYear(lo.y), lo.m, 1) by { FirstOfMonth(JsYear(lo.y), lo.m); }
    assert end == LastDayOf(JsYear(hi.y), hi.m) by {
      DayZeroIsLastDay(JsYear(hi.y), hi.m);
      FirstOfMonth(JsYear(hi.y), hi.m);
    }
    MonthSpanOrdered(lo, hi);
    Range(start, end, "Referenced months")
  }

  /** A last-day-of-month at least as late, by month index, as `d`'s own month is not before `d`. */
  lemma LastDayNotBefore(d: Date, y: int, k: int)
    requires Valid(d) && y >= d.year && k >= 0
    ensures NotAfter(d, NewDate(y, d.month + k + 1, 0))
  {
    DayZeroIsLastDay(JsYear(y), d.month + k);
  }

  /** "next N months": today to the last day of month now + N, with N capped at 12. */
  function NextMonthsBranch(n: nat, d: Date): (r: Range)
    requires Valid(d)
    ensures Valid(r.start) && Valid(r.end) && NotAfter(r.start, r.end)
    ensures var m := if n < 12 then n else 12;
      && r.start == d
      && r.end == LastDayOf(MonthOf(JsYear(d.year), d.month + m).0, MonthOf(JsYear(d.year), d.month + m).1)
      && r.reason == "Next " + NatToString(m) + " months"
  {
    var m := if n < 12 then n else 12;
    var end := NewDate(d.year, d.month + m + 1, 0);
    assert end == LastDayOf(MonthOf(JsYear(d.year), d.month + m).0, MonthOf(JsYear(d.year), d.month + m).1) by {
      DayZeroIsLastDay(JsYear(d.year), d.month + m);
    }
    LastDayNotBefore(d, d.year, m);
    Range(d, end, "Next " + NatToString(m) + " months")
  }

  /** "next year": today to the last day of this month next year. */
  function NextYearBranch(d: Date): (r: Range)
    requires Valid(d)
    ensures Valid(r.start) && Valid(r.end) && NotAfter(r.start, r.end)
    ensures r.start == d && r.end == LastDayOf(JsYear(d.year + 1), d.month)
  {
    var end := NewDate(d.year + 1, d.month + 1, 0);
    assert end == LastDayOf(JsYear(d.year + 1), d.month) by {
      DayZeroIsLastDay(JsYear(d.year + 1), d.month);
      FirstOfMonth(JsYear(d.year + 1), d.month);
    }
    LastDayNotBefore(d, d.year + 1, 0);
    Range(d, end, "Next year")
  }

  /** Seven days starting `k` days from `d`. */
  function WeekFrom(d: Date, k: int, reason: string): (r: Range)
    requires Valid(d)
    ensures Valid(r.start) && Valid(r.end) && NotAfter(r.start, r.end)
    ensures DayNumber(r.start) == DayNumber(d) + k && DayNumber(r.end) == DayNumber(r.start) + 6
  {
    var start := AddDays(d, k);
    NotAfterByNumber(start, AddDays(start, 6));
    Range(start, AddDays(start, 6), reason)
  }

  /** "this week": the Sunday-to-Saturday week holding today. */
  function ThisWeekBranch(d: Date): (r: Range)
    requires Valid(d)
    ensures Valid(r.start) && Valid(r.end) && NotAfter(r.start, r.end)
    ensures Weekday(r.start) == 0 && NotAfter(r.start, d) && NotAfter(d, r.end)
    ensures DayNumber(r.start) == DayNumber(d) - Weekday(d) && DayNumber(r.end) == DayNumber(r.start) + 6
  {
    var r := WeekFrom(d, -Weekday(d), "This week");
    WeekdayAfter(d, r.start, -Weekday(d));
    NotAfterByNumber(r.start, d);
    NotAfterByNumber(d, r.end);
    r
  }

  /** "next week": the Sunday-to-Saturday week after this one. */
  function NextWeekBranch(d: Date): (r: Range)
    requires Valid(d)
    ensures Valid(r.start) && Valid(r.end) && NotAfter(r.start, r.end)
    ensures Weekday(r.start) == 0 && Before(d, r.start) && DayNumber(r.start) <= DayNumber(d) + 7
    ensures DayNumber(r.start) == DayNumber(d) + 7 - Weekday(d) && DayNumber(r.end) == DayNumber(r.start) + 6
  {
    var r := WeekFrom(d, 7 - Weekday(d), "Next week");
    WeekdayAfter(d, r.start, 7 - Weekday(d));
    DayNumberOrder(d, r.start);
    r
  }

  /** `new Date(y, m + j, day)` for j >= 1 is after the date (y, m, day) it started from. */
  lemma LaterMonthSameDay(d: Date, j: int)
    requires Valid(d) && j >= 1
    ensures Before(d, NewDate(d.year, d.month + j, d.day))
  {
    MakeDateIndex(JsYear(d.year), d.month + j, d.day);
    IndexBefore(d, NewDate(d.year, d.month + j, d.day));
  }

  /** From `back` days ago to the same day of the month `ahead` months on. */
  function AroundBranch(d: Date, back: int, ahead: int, reason: string): (r: Range)
    requires Valid(d) && back >= 0 && ahead >= 1
    ensures Valid(r.start) && Valid(r.end) && NotAfter(r.start, r.end)
    ensures DayNumber(r.start) == DayNumber(d) - back && Before(d, r.end)
    ensures r.end == NewDate(d.year, d.month + ahead, d.day)
  {
    var r := Range(AddDays(d, -back), NewDate(d.year, d.month + ahead, d.day), reason);
    LaterMonthSameDay(d, ahead);
    NotAfterByNumber(r.start, d);
    r
  }

  /** The one range a branch produces. */
  function BranchRange(b: Branch, now: Moment): (r: Range)
    requires b.Months? ==> |b.found| > 0 && forall x :: x in b.found ==> 0 <= x.m < 12
    ensures Valid(r.start) && Valid(r.end)
  {
    var d := now.date;
    match b
    case Months(found) => MonthsBranch(found)
    case NextMonths(n) => NextMonthsBranch(n, d)
    case NextYear => NextYearBranch(d)
    case ThisWeek => ThisWeekBranch(d)
    case Today => Range(d, d, "Today only")
    case Tomorrow => Range(AddDays(d, 1), AddDays(d, 1), "Tomorrow")
    case NextWeek => NextWeekBranch(d)
    case Upcoming => AroundBranch(d, 7, 3, "Recent past + 3 months ahead")
    case Fallback => AroundBranch(d, 3, 1, "Default small window")
  }

  /** The heuristic answer: the ranges, their union, and where they came from. */
  datatype Heuristic = Heuristic(ranges: seq<Range>, union: (Date, Date), strategy: string, source: string)

  /** `buildHeuristicRanges(query, now)`: exactly one range, and the union spanning it. */
  function BuildHeuristicRanges(query: string, now: Moment): (h: Heuristic)
    ensures |h.ranges| == 1
    ensures h.union == (h.ranges[0].start, h.ranges[|h.ranges| - 1].end)
    ensures h.strategy == "heuristic" && h.source == "heuristic"
    ensures Valid(h.ranges[0].start) && Valid(h.ranges[0].end)
  {
    var r := BranchRange(Classify(ToLowerAscii(query), now.date), now);
    Heuristic([r], (r.start, r.end), "heuristic", "heuristic")
  }

  // ---------------------------------------------------------------------------
  // What the heuristic promises.
  // ---------------------------------------------------------------------------

  /** A month named at a word start selects the month branch, whatever else the query says. */
  lemma MonthMentionWins(lower: string, now: Date, i: int, k: nat)
    requires 0 <= i < 12 && k < |lower| && MonthMatchAt(lower, k, MonthName(i)).Some?
    ensures Classify(lower, now).Months?
  {
    assert NamesMonthFrom(lower, i, 0);
    AllMentionsNonEmpty(lower, now, 0, i);
  }

  /** Every branch gives an ordered range, the month branch when its years are 100 or later. */
  lemma BranchOrdered(b: Branch, now: Moment)
    requires b.Months? ==> |b.found| > 0 && forall x :: x in b.found ==> 0 <= x.m < 12 && x.y >= 100
    ensures NotAfter(BranchRange(b, now).start, BranchRange(b, now).end)
  {
    if b.Months? {
      assert Earliest(b.found) in b.found && Latest(b.found) in b.found;
    }
  }

  /**
   * Every heuristic range is ordered, provided no year involved is one of
   * the two-digit years 0..99 that `new Date` reads as 1900..1999.
   */
  lemma HeuristicRangeOrdered(query: string, now: Moment)
    requires forall x :: x in AllMentions(ToLowerAscii(query), now.date, 0) ==> x.y >= 100
    ensures var r := BuildHeuristicRanges(query, now).ranges[0]; NotAfter(r.start, r.end)
  {
    BranchOrdered(Classify(ToLowerAscii(query), now.date), now);
  }
}

=== FILE: sanitizer.dfy ===
/**
 * The reply sanitiser of api/assistant/utils/actions.ts
 * (`stripActionJsonFragments`): five global regular-expression deletions of
 * JSON fragments, a filter that drops lines made only of brackets, commas
 * and whitespace, a collapse of newline runs, and an edge strip.  Each
 * global replace is a left-to-right scan that, at each position, either
 * takes the regular expression's match starting there (its end computed
 * with the expression's own greedy or lazy choices) or keeps one character.
 */
module Sanitizer {
  import opened Wrappers
  import opened Text

  /** The five deletion patterns, in the order applied, and `\n{3,}`. */
  datatype Pattern =
    | JsonFence       // /```json[\s\S]*?```/gi
    | AnyFence        // /```[\s\S]*?```/g
    | ActionObject    // /\{[^{}]*"action"[^{}]*\}/g
    | ActionsWrapper  // /\{[^{}]*"actions"\s*:\s*\[[\s\S]*?]\s*}/g
    | ZonedDateTime   // /\{[^{}]*"dateTime"[^{}]*"timeZone"[^{}]*\}/g
    | NewlineRun      // /\n{3,}/g

  const Fence: string := "```"

  /** The character every match of the pattern starts with. */
  function StartChar(pat: Pattern): char {
    match pat
    case JsonFence => '`'
    case AnyFence => '`'
    case NewlineRun => '\n'
    case _ => '{'
  }

  function Replacement(pat: Pattern): string {
    if pat == NewlineRun then "\n\n" else ""
  }

  predicate IsBrace(c: char) {
    c == '{' || c == '}'
  }

  /** The first brace at or after `from`: where a `[^{}]*` run must stop. */
  function FindBrace(s: string, from: nat): (r: Option<nat>)
    ensures r.Some? ==> from <= r.value < |s| && IsBrace(s[r.value])
    ensures r.Some? ==> forall k :: from <= k < r.value ==> !IsBrace(s[k])
    ensures r.None? ==> forall k :: from <= k < |s| ==> !IsBrace(s[k])
    decreases |s| - from
  {
    if from >= |s| then None
    else if IsBrace(s[from]) then Some(from)
    else FindBrace(s, from + 1)
  }

  /** The end of the run of newlines starting at `i`. */
  function NewlineRunEnd(s: string, i: nat): (r: nat)
    requires i <= |s|
    ensures i <= r <= |s|
    ensures forall k :: i <= k < r ==> s[k] == '\n'
    ensures r == |s| || s[r] != '\n'
    decreases |s| - i
  {
    if i < |s| && s[i] == '\n' then NewlineRunEnd(s, i + 1) else i
  }

  /** Lazy `[\s\S]*?]\s*}` from `q`: the first `]` followed by optional whitespace and `}`. */
  function CloseBracketFrom(s: string, q: nat): (r: Option<nat>)
    ensures r.Some? ==> q < r.value <= |s|
    decreases |s| - q
  {
    if q >= |s| then None
    else if s[q] == ']' && SkipSpace(s, q + 1) < |s| && s[SkipSpace(s, q + 1)] == '}' then
      Some(SkipSpace(s, q + 1) + 1)
    else CloseBracketFrom(s, q + 1)
  }

  /** `\s*:\s*\[` then the lazy close, after the `"actions"` key ending at `j`. */
  function AfterActionsKey(s: string, j: nat): (r: Option<nat>)
    requires j <= |s|
    ensures r.Some? ==> j < r.value <= |s|
  {
    var a := SkipSpace(s, j);
    if a < |s| && s[a] == ':' then
      var b := SkipSpace(s, a + 1);
      if b < |s| && s[b] == '[' then CloseBracketFrom(s, b + 1) else None
    else None
  }

  /**
   * The greedy `[^{}]*` before `"actions"` backtracks from the longest run
   * down, so the key occurrences are tried from position `p` towards `i + 1`.
   */
  function WrapperFrom(s: string, i: nat, p: nat): (r: Option<nat>)
    requires i < p <= |s|
    ensures r.Some? ==> i < r.value <= |s|
    decreases p
  {
    if OccursAt(s, p, "\"actions\"") && AfterActionsKey(s, p + 9).Some? then AfterActionsKey(s, p + 9)
    else if p == i + 1 then None
    else WrapperFrom(s, i, p - 1)
  }

  /** `/```json[\s\S]*?```/i` at `i`: the tag in any letter case, then the first closing fence. */
  function JsonFenceEnd(s: string, i: nat): (r: Option<nat>)
    requires i < |s|
    ensures r.Some? ==> i < r.value <= |s| && s[i] == '`'
  {
    if OccursAt(s, i, Fence) && i + 7 <= |s| && ToLowerAscii(s[i + 3..i + 7]) == "json" then
      match FindFrom(s, i + 7, Fence)
      case Some(e) => Some(e + 3)
      case None => None
    else None
  }

  /** `/```[\s\S]*?```/` at `i`. */
  function AnyFenceEnd(s: string, i: nat): (r: Option<nat>)
    requires i < |s|
    ensures r.Some? ==> i < r.value <= |s| && s[i] == '`'
  {
    if OccursAt(s, i, Fence) then
      match FindFrom(s, i + 3, Fence)
      case Some(e) => Some(e + 3)
      case None => None
    else None
  }

  /**
   * `/\{[^{}]*"action"[^{}]*\}/` at `i`: the first brace after `i` must close,
   * and the quoted key must lie wholly before it.
   */
  function ActionObjectEnd(s: string, i: nat): (r: Option<nat>)
    requires i < |s|
    ensures r.Some? ==> i < r.value <= |s| && s[i] == '{'
  {
    if s[i] == '{' then
      match FindBrace(s, i + 1)
      case Some(k) =>
        if s[k] == '}' && (match FindFrom(s, i + 1, "\"action\"") case Some(q) => q + 8 <= k case None => false)
        then Some(k + 1) else None
      case None => None
    else None
  }

  /** `/\{[^{}]*"actions"\s*:\s*\[[\s\S]*?]\s*}/` at `i`. */
  function ActionsWrapperEnd(s: string, i: nat): (r: Option<nat>)
    requires i < |s|
    ensures r.Some? ==> i < r.value <= |s| && s[i] == '{'
  {
    if s[i] == '{' then
      var limit := match FindBrace(s, i + 1) case Some(k) => k case None => |s|;
      if limit == i then None else WrapperFrom(s, i, limit)
    else None
  }

  /** `/\{[^{}]*"dateTime"[^{}]*"timeZone"[^{}]*\}/` at `i`. */
  function ZonedDateTimeEnd(s: string, i: nat): (r: Option<nat>)
    requires i < |s|
    ensures r.Some? ==> i < r.value <= |s| && s[i] == '{'
  {
    if s[i] == '{' then
      match FindBrace(s, i + 1)
      case Some(k) =>
        if s[k] != '}' then None
        else
          (match FindFrom(s, i + 1, "\"dateTime\"")
           case Some(p1) =>
             (match FindFrom(s, p1 + 10, "\"timeZone\"")
              case Some(p2) => if p2 + 10 <= k then Some(k + 1) else None
              case None => None)
           case None => None)
      case None => None
    else None
  }

  /** `/\n{3,}/` at `i`: the whole run of newlines, when it has at least three. */
  function NewlineRunMatchEnd(s: string, i: nat): (r: Option<nat>)
    requires i < |s|
    ensures r.Some? ==> i < r.value <= |s| && s[i] == '\n'
    ensures r.Some? <==> i + 2 < |s| && s[i] == '\n' && s[i + 1] == '\n' && s[i + 2] == '\n'
  {
    if s[i] == '\n' && NewlineRunEnd(s, i) >= i + 3 then Some(NewlineRunEnd(s, i)) else None
  }

  /** The end of the pattern's match starting at `i`, if there is one. */
  function MatchEnd(pat: Pattern, s: string, i: nat): (r: Option<nat>)
    requires i < |s|
    ensures r.Some? ==> i < r.value <= |s| && s[i] == StartChar(pat)
  {
    match pat
    case JsonFence => JsonFenceEnd(s, i)
    case AnyFence => AnyFenceEnd(s, i)
    case ActionObject => ActionObjectEnd(s, i)
    case ActionsWrapper => ActionsWrapperEnd(s, i)
    case ZonedDateTime => ZonedDateTimeEnd(s, i)
    case NewlineRun => NewlineRunMatchEnd(s, i)
  }

  /** The match end of every start position of one pattern over one text. */
  function Matches(pat: Pattern, s: string): nat -> Option<nat> {
    (k: nat) => if k < |s| then MatchEnd(pat, s, k) else None
  }

  /** Every match ends after it starts, so a global scan always makes progress. */
  ghost predicate Advances(m: nat -> Option<nat>) {
    forall k: nat :: m(k).Some? ==> k < m(k).value
  }

  lemma MatchesAdvance(pat: Pattern, s: string)
    ensures Advances(Matches(pat, s))
  {
  }

  /**
   * A global replace over a table of matches: at each position take the
   * match starting there, if any, else keep one character.
   */
  function Scan(m: nat -> Option<nat>, repl: string, s: string, i: nat): string
    requires Advances(m)
    decreases |s| - i
  {
    if i >= |s| then ""
    else
      match m(i)
      case Some(e) => repl + Scan(m, repl, s, e)
      case None => [s[i]] + Scan(m, repl, s, i + 1)
  }

  /** `s.replace(pattern, replacement)` with the global flag, scanning from `i`. */
  function ReplaceAll(pat: Pattern, s: string, i: nat): string {
    MatchesAdvance(pat, s);
    Scan(Matches(pat, s), Replacement(pat), s, i)
  }

  lemma {:induction false} ScanCopies(m: nat -> Option<nat>, repl: string, s: string, i: nat, j: nat)
    requires Advances(m) && i <= j <= |s|
    requires forall k :: i <= k < j ==> m(k).None?
    ensures Scan(m, repl, s, i) == s[i..j] + Scan(m, repl, s, j)
    decreases j - i
  {
    if i < j {
      var t := Scan(m, repl, s, j);
      ScanCopies(m, repl, s, i + 1, j);
      assert Scan(m, repl, s, i) == [s[i]] + Scan(m, repl, s, i + 1);
      assert [s[i]] + (s[i + 1..j] + t) == ([s[i]] + s[i + 1..j]) + t;
      assert [s[i]] + s[i + 1..j] == s[i..j];
    }
  }

  /** Where no match starts, the scan copies the text unchanged. */
  lemma ReplaceAllCopies(pat: Pattern, s: string, i: nat, j: nat)
    requires i <= j <= |s|
    requires forall k :: i <= k < j ==> MatchEnd(pat, s, k).None?
    ensures ReplaceAll(pat, s, i) == s[i..j] + ReplaceAll(pat, s, j)
  {
    MatchesAdvance(pat, s);
    var m := Matches(pat, s);
    assert forall k :: i <= k < j ==> m(k).None?;
    ScanCopies(m, Replacement(pat), s, i, j);
  }

  /** At a match the scan emits the replacement and resumes after the match. */
  lemma ReplaceAllAtMatch(pat: Pattern, s: string, i: nat, e: nat)
    ensures i < |s| && MatchEnd(pat, s, i) == Some(e) ==>
      ReplaceAll(pat, s, i) == Replacement(pat) + ReplaceAll(pat, s, e)
  {
    if i < |s| && MatchEnd(pat, s, i) == Some(e) {
      MatchesAdvance(pat, s);
      assert Matches(pat, s)(i) == Some(e);
    }
  }

  /** A text without the pattern's start character passes through unchanged. */
  lemma ReplaceAllIdentity(pat: Pattern, s: string)
    requires StartChar(pat) !in s
    ensures ReplaceAll(pat, s, 0) == s
  {
    forall k | 0 <= k < |s| ensures MatchEnd(pat, s, k).None? {
      assert s[k] in s;
    }
    ReplaceAllCopies(pat, s, 0, |s|);
  }

  lemma FindFirst(s: string, from: nat, p: string, e: nat)
    requires |p| > 0 && from <= e && OccursAt(s, e, p)
    requires forall k :: from <= k < e ==> !OccursAt(s, k, p)
    ensures FindFrom(s, from, p) == Some(e)
  {
  }

  lemma FindBraceAt(s: string, from: nat, k: nat)
    requires from <= k < |s| && IsBrace(s[k])
    requires forall j :: from <= j < k ==> !IsBrace(s[j])
    ensures FindBrace(s, from) == Some(k)
  {
  }

  // ---------------------------------------------------------------------------
  // The line filter: drop every line matching /^\s*[\[\]{},]*\s*$/.
  // ---------------------------------------------------------------------------

  predicate IsBracketPunct(c: char) {
    c == '[' || c == ']' || c == '{' || c == '}' || c == ','
  }

  /** The end of the run of bracket punctuation starting at `j`. */
  function PunctEnd(s: string, j: nat): (r: nat)
    requires j <= |s|
    ensures j <= r <= |s|
    ensures forall k :: j <= k < r ==> IsBracketPunct(s[k])
    ensures r == |s| || !IsBracketPunct(s[r])
    decreases |s| - j
  {
    if j < |s| && IsBracketPunct(s[j]) then PunctEnd(s, j + 1) else j
  }

  /**
   * The line is whitespace, then bracket punctuation, then whitespace, read
   * greedily (blank lines included).
   */
  predicate PunctOnly(l: string) {
    SkipSpace(l, PunctEnd(l, SkipSpace(l, 0))) == |l|
  }

  /** The regular expression's own reading: some split into whitespace, punctuation, whitespace. */
  predicate PunctOnlyBySplit(l: string) {
    exists a, b :: 0 <= a <= b <= |l| && IsSplit(l, a, b)
  }

  predicate IsSplit(l: string, a: nat, b: nat)
    requires a <= b <= |l|
  {
    && (forall k :: 0 <= k < a ==> IsJsSpace(l[k]))
    && (forall k :: a <= k < b ==> IsBracketPunct(l[k]))
    && (forall k :: b <= k < |l| ==> IsJsSpace(l[k]))
  }

  lemma SplitIsPunctOnly(l: string, lo: nat, hi: nat)
    requires lo <= hi <= |l| && IsSplit(l, lo, hi)
    ensures PunctOnly(l)
  {
    var a := SkipSpace(l, 0);
    assert a >= lo;
    var b := PunctEnd(l, a);
    assert b >= hi || a >= hi;
    var c := SkipSpace(l, b);
    assert c == |l|;
  }

  /** The filter's test agrees with the regular expression's whitespace–punctuation–whitespace reading. */
  lemma PunctOnlyIff(l: string)
    ensures PunctOnly(l) <==> PunctOnlyBySplit(l)
  {
    if PunctOnly(l) {
      var a := SkipSpace(l, 0);
      assert IsSplit(l, a, PunctEnd(l, a));
    }
    if PunctOnlyBySplit(l) {
      var a, b :| 0 <= a <= b <= |l| && IsSplit(l, a, b);
      SplitIsPunctOnly(l, a, b);
    }
  }

  /** The lines that are not punctuation-only, in order. */
  function FilterLines(lines: seq<string>): (r: seq<string>)
    ensures |r| <= |lines|
    ensures forall i :: 0 <= i < |r| ==> !PunctOnly(r[i])
  {
    if |lines| == 0 then []
    else if PunctOnly(lines[0]) then FilterLines(lines[1..])
    else [lines[0]] + FilterLines(lines[1..])
  }

  /** The filter keeps exactly the lines that are not punctuation-only: each kept line is an input line, and each such input line is kept. */
  lemma {:induction false} FilterLinesKeepsExactly(lines: seq<string>)
    ensures forall l :: l in FilterLines(lines) <==> l in lines && !PunctOnly(l)
  {
    if |lines| > 0 {
      FilterLinesKeepsExactly(lines[1..]);
      assert forall l :: l in lines <==> l == lines[0] || l in lines[1..];
    }
  }

  /** `text.split(/\n/).filter(l => !punctOnly(l)).join('\n')`. */
  function DropPunctLines(s: string): string {
    Join(FilterLines(Split(s, '\n')), "\n")
  }

  /** No two newlines in a row: the text holds no empty line between two others. */
  predicate NoBlankLine(s: string) {
    forall k :: 0 <= k < |s| - 1 ==> !(s[k] == '\n' && s[k + 1] == '\n')
  }

  /** The line starting at `p` holds a non-whitespace character before the next newline. */
  predicate LineHasText(s: string, p: nat)
    requires p <= |s|
  {
    exists k :: p <= k < |s| && !IsJsSpace(s[k]) && forall m :: p <= m < k ==> s[m] != '\n'
  }

  /** Every line of the text, from its start or a newline to the next newline or its end, holds a non-whitespace character. */
  predicate EveryLineHasText(s: string) {
    forall p :: 0 <= p <= |s| && (p == 0 || s[p - 1] == '\n') ==> LineHasText(s, p)
  }

  /** Some character of the line is not whitespace. */
  predicate HasText(l: string) {
    exists k :: 0 <= k < |l| && !IsJsSpace(l[k])
  }

  /** A line the filter keeps is not all whitespace. */
  lemma KeptLineHasText(l: string)
    requires !PunctOnly(l)
    ensures HasText(l)
  {
    var a := SkipSpace(l, 0);
    if a == |l| {
      assert false;
    }
    assert !IsJsSpace(l[a]);
  }

  /** Joining newline-free lines that each hold text gives a text whose every line holds text. */
  lemma {:induction false} JoinHasText(lines: seq<string>)
    requires |lines| > 0
    requires forall i :: 0 <= i < |lines| ==> '\n' !in lines[i] && HasText(lines[i])
    ensures EveryLineHasText(Join(lines, "\n"))
  {
    var h := lines[0];
    var j := Join(lines, "\n");
    var k0 :| 0 <= k0 < |h| && !IsJsSpace(h[k0]);
    assert forall m :: 0 <= m < |h| ==> h[m] != '\n' by {
      forall m | 0 <= m < |h| ensures h[m] != '\n' {
        assert h[m] in h;
      }
    }
    if |lines| == 1 {
      forall p | 0 <= p <= |j| && (p == 0 || j[p - 1] == '\n') ensures LineHasText(j, p) {
        assert p == 0;
        assert !IsJsSpace(j[k0]);
      }
    } else {
      var rest := Join(lines[1..], "\n");
      assert forall i :: 0 <= i < |lines[1..]| ==> lines[1..][i] == lines[i + 1];
      JoinHasText(lines[1..]);
      assert j == h + "\n" + rest;
      forall p | 0 <= p <= |j| && (p == 0 || j[p - 1] == '\n') ensures LineHasText(j, p) {
        if 0 < p <= |h| {
          assert false;
        } else if p == 0 {
          assert j[k0] == h[k0];
          assert forall m :: 0 <= m < k0 ==> j[m] == h[m];
        } else {
          var q := p - |h| - 1;
          assert q == 0 || rest[q - 1] == j[p - 1];
          assert LineHasText(rest, q);
          var k :| q <= k < |rest| && !IsJsSpace(rest[k]) && forall m :: q <= m < k ==> rest[m] != '\n';
          assert j[k + |h| + 1] == rest[k];
          assert forall m :: p <= m < k + |h| + 1 ==> j[m] == rest[m - |h| - 1];
        }
      }
    }
  }

  /** The line filter keeps only lines with text, so the joined result has text on every line, or is empty. */
  lemma DropPunctLinesHasText(s: string)
    ensures DropPunctLines(s) == [] || EveryLineHasText(DropPunctLines(s))
  {
    var parts := Split(s, '\n');
    var lines := FilterLines(parts);
    if |lines| > 0 {
      forall i | 0 <= i < |lines|
        ensures '\n' !in lines[i] && HasText(lines[i])
      {
        assert lines[i] in parts by {
          FilterLinesKeepsExactly(parts);
          assert lines[i] in lines;
        }
        var m :| 0 <= m < |parts| && parts[m] == lines[i];
        KeptLineHasText(lines[i]);
      }
      JoinHasText(lines);
    }
  }

  /** A piece cut from a text whose lines hold text, beginning and ending with a non-whitespace character, keeps that property. */
  lemma SliceHasText(s: string, lo: nat, hi: nat)
    requires lo < hi <= |s| && EveryLineHasText(s)
    requires !IsJsSpace(s[lo]) && !IsJsSpace(s[hi - 1])
    ensures EveryLineHasText(s[lo..hi])
  {
    var t := s[lo..hi];
    forall p | 0 <= p <= |t| && (p == 0 || t[p - 1] == '\n') ensures LineHasText(t, p) {
      if p == 0 {
        assert !IsJsSpace(t[0]);
      } else {
        var q := lo + p;
        assert s[q - 1] == t[p - 1];
        if p == |t| {
          assert false;
        }
        assert LineHasText(s, q);
        var k :| q <= k < |s| && !IsJsSpace(s[k]) && forall m :: q <= m < k ==> s[m] != '\n';
        var k' := if k < hi then k else hi - 1;
        assert t[k' - lo] == s[k'];
        assert forall m :: p <= m < k' - lo ==> t[m] == s[m + lo];
      }
    }
  }

  predicate IsCommaOrSpace(c: char) {
    c == ',' || IsJsSpace(c)
  }

  /** The end of the `^[,\s]+` run from `i`. */
  function LeadingCut(s: string, i: nat): (r: nat)
    requires i <= |s|
    ensures i <= r <= |s|
    ensures forall k :: i <= k < r ==> IsCommaOrSpace(s[k])
    ensures r == |s| || !IsCommaOrSpace(s[r])
    decreases |s| - i
  {
    if i < |s| && IsCommaOrSpace(s[i]) then LeadingCut(s, i + 1) else i
  }

  /** The start of the `[,\s]+$` run ending at `j`, not going below `lo`. */
  function TrailingCut(s: string, lo: nat, j: nat): (r: nat)
    requires lo <= j <= |s|
    ensures lo <= r <= j
    ensures forall k :: r <= k < j ==> IsCommaOrSpace(s[k])
    ensures r == lo || !IsCommaOrSpace(s[r - 1])
    decreases j
  {
    if lo < j && IsCommaOrSpace(s[j - 1]) then TrailingCut(s, lo, j - 1) else j
  }

  /**
   * `.replace(/^[,\s]+/, '').replace(/[,\s]+$/, '').trim()`: the leading and
   * trailing commas and whitespace go; the final `trim` then has nothing left to do.
   */
  function StripEdges(s: string): (r: string)
    ensures r == [] || (!IsCommaOrSpace(r[0]) && !IsCommaOrSpace(r[|r| - 1]))
  {
    var lo := LeadingCut(s, 0);
    var hi := TrailingCut(s, lo, |s|);
    var v := s[lo..hi];
    assert v == [] || (v[0] == s[lo] && v[|v| - 1] == s[hi - 1]);
    TrimNoOp(v);
    Trim(v)
  }

  /** The strip keeps a contiguous piece of its input, so it cannot create an empty line. */
  lemma StripEdgesNoBlank(s: string)
    requires NoBlankLine(s)
    ensures NoBlankLine(StripEdges(s))
  {
    var lo := LeadingCut(s, 0);
    var hi := TrailingCut(s, lo, |s|);
    TrimNoOp(s[lo..hi]);
    NoBlankSlice(s, lo, hi);
  }

  /** The strip keeps a contiguous piece whose ends are not whitespace, so every line still holds text. */
  lemma StripEdgesHasText(s: string)
    requires EveryLineHasText(s)
    ensures StripEdges(s) == [] || EveryLineHasText(StripEdges(s))
  {
    StripEdgesIsSlice(s);
    CutHasText(s);
  }

  /** The strip is the slice between the two cuts. */
  lemma StripEdgesIsSlice(s: string)
    ensures var lo := LeadingCut(s, 0); StripEdges(s) == s[lo..TrailingCut(s, lo, |s|)]
  {
    var lo := LeadingCut(s, 0);
    CutTrimsToItself(s, lo, TrailingCut(s, lo, |s|));
  }

  /** A slice whose ends are not whitespace is its own trim. */
  lemma CutTrimsToItself(s: string, lo: nat, hi: nat)
    requires lo <= hi <= |s|
    requires lo < hi ==> !IsCommaOrSpace(s[lo]) && !IsCommaOrSpace(s[hi - 1])
    ensures Trim(s[lo..hi]) == s[lo..hi]
  {
    var v := s[lo..hi];
    assert v == [] || (v[0] == s[lo] && v[|v| - 1] == s[hi - 1]);
    TrimNoOp(v);
  }

  lemma CutHasText(s: string)
    requires EveryLineHasText(s)
    ensures var lo := LeadingCut(s, 0); var hi := TrailingCut(s, lo, |s|);
      lo == hi || EveryLineHasText(s[lo..hi])
  {
    var lo := LeadingCut(s, 0);
    var hi := TrailingCut(s, lo, |s|);
    if lo < hi {
      SliceHasText(s, lo, hi);
    }
  }


  /** The line filter then the edge strip leaves text on every line, or nothing. */
  lemma FilteredStripHasText(text: string)
    ensures StripEdges(DropPunctLines(text)) == [] || EveryLineHasText(StripEdges(DropPunctLines(text)))
  {
    DropPunctLinesHasText(text);
    if DropPunctLines(text) != [] {
      StripEdgesHasText(DropPunctLines(text));
    }
  }

  lemma NoBlankSlice(s: string, lo: nat, hi: nat)
    requires lo <= hi <= |s| && NoBlankLine(s)
    ensures NoBlankLine(s[lo..hi])
  {
    assert forall k :: 0 <= k < hi - lo ==> s[lo..hi][k] == s[lo + k];
  }

  lemma TrimNoOp(v: string)
    requires v == [] || (!IsCommaOrSpace(v[0]) && !IsCommaOrSpace(v[|v| - 1]))
    ensures Trim(v) == v
  {
  }

  /** The two fence deletions. */
  function StripFences(text: string): string {
    ReplaceAll(AnyFence, ReplaceAll(JsonFence, text, 0), 0)
  }

  /** The three object deletions. */
  function StripObjects(text: string): string {
    ReplaceAll(ZonedDateTime, ReplaceAll(ActionsWrapper, ReplaceAll(ActionObject, text, 0), 0), 0)
  }

  /** The line filter, the newline collapse and the edge strip. */
  function Tidy(text: string): (r: string)
    ensures r == [] || (!IsCommaOrSpace(r[0]) && !IsCommaOrSpace(r[|r| - 1]))
    ensures NoBlankLine(r)
    ensures r == [] || EveryLineHasText(r)
    ensures r == StripEdges(DropPunctLines(text))
  {
    FilteredStripHasText(text);
    NoBlankLineAfterFilter(text);
    NewlineCollapseIsIdentity(DropPunctLines(text));
    StripEdgesNoBlank(DropPunctLines(text));
    StripEdges(ReplaceAll(NewlineRun, DropPunctLines(text), 0))
  }

  /** `stripActionJsonFragments(text)`. */
  function Sanitize(text: string): (r: string)
    ensures r == [] || (!IsCommaOrSpace(r[0]) && !IsCommaOrSpace(r[|r| - 1]))
    ensures NoBlankLine(r)
    ensures r == [] || EveryLineHasText(r)
  {
    Tidy(StripObjects(StripFences(text)))
  }

  // ---------------------------------------------------------------------------
  // Properties.
  // ---------------------------------------------------------------------------

  lemma RestStartsWithFirst(lines: seq<string>)
    requires |lines| >= 1
    ensures |Join(lines, "\n")| >= |lines[0]| && Join(lines, "\n")[..|lines[0]|] == lines[0]
  {
  }

  /** Joining non-empty, newline-free lines never produces an empty line. */
  lemma {:induction false} JoinNonEmptyNoBlank(lines: seq<string>)
    requires forall i :: 0 <= i < |lines| ==> |lines[i]| > 0 && '\n' !in lines[i]
    ensures NoBlankLine(Join(lines, "\n"))
  {
    if |lines| >= 2 {
      JoinNonEmptyNoBlank(lines[1..]);
      var rest := Join(lines[1..], "\n");
      var h := lines[0];
      var j := Join(lines, "\n");
      assert j == h + "\n" + rest;
      RestStartsWithFirst(lines[1..]);
      assert rest[0] == lines[1][0];
      forall k | 0 <= k < |j| - 1 ensures !(j[k] == '\n' && j[k + 1] == '\n') {
        if k < |h| {
          assert j[k] == h[k] && h[k] in h;
        } else if k == |h| {
          assert j[k + 1] == lines[1][0] && lines[1][0] in lines[1];
        } else {
          assert j[k] == rest[k - |h| - 1] && j[k + 1] == rest[k - |h|];
        }
      }
    } else if |lines| == 1 {
      forall k | 0 <= k < |lines[0]| - 1 ensures lines[0][k] != '\n' {
        assert lines[0][k] in lines[0];
      }
    }
  }

  /** The line filter leaves no empty line: empty lines are punctuation-only. */
  lemma NoBlankLineAfterFilter(s: string)
    ensures NoBlankLine(DropPunctLines(s))
  {
    var parts := Split(s, '\n');
    var lines := FilterLines(parts);
    forall i | 0 <= i < |lines| ensures |lines[i]| > 0 && '\n' !in lines[i] {
      assert lines[i] in parts && lines[i] != "" by {
        FilterLinesKeepsExactly(parts);
        EmptyLineDropped();
        assert lines[i] in lines;
      }
      var m :| 0 <= m < |parts| && parts[m] == lines[i];
    }
    JoinNonEmptyNoBlank(lines);
  }

  /** After the line filter the collapse of newline runs never fires. */
  lemma NewlineCollapseIsIdentity(s: string)
    requires NoBlankLine(s)
    ensures ReplaceAll(NewlineRun, s, 0) == s
  {
    forall k | 0 <= k < |s| ensures MatchEnd(NewlineRun, s, k).None? {
    }
    ReplaceAllCopies(NewlineRun, s, 0, |s|);
  }

  /** Prose without backticks or braces is only line-filtered and edge-stripped. */
  lemma PlainProseOnlyFiltered(text: string)
    requires '`' !in text && '{' !in text
    ensures Sanitize(text) == StripEdges(DropPunctLines(text))
  {
    ReplaceAllIdentity(JsonFence, text);
    ReplaceAllIdentity(AnyFence, text);
    ReplaceAllIdentity(ActionObject, text);
    ReplaceAllIdentity(ActionsWrapper, text);
    ReplaceAllIdentity(ZonedDateTime, text);
  }

  lemma LowerJson()
    ensures ToLowerAscii("json") == "json"
  {
    var l := ToLowerAscii("json");
    assert l[0] == 'j' && l[1] == 's' && l[2] == 'o' && l[3] == 'n';
  }

  /** The fence pattern at `n` when a ```json opener, a backtick-free body and a closer fill the rest of `s`. */
  lemma JsonFenceMatchesAt(s: string, n: nat, len: nat)
    requires n + 10 + len == |s|
    requires s[n..n + 3] == Fence && s[n + 3..n + 7] == "json" && s[n + 7 + len..] == Fence
    requires forall k :: n + 7 <= k < n + 7 + len ==> s[k] != '`'
    ensures MatchEnd(JsonFence, s, n) == Some(|s|)
  {
    LowerJson();
    assert OccursAt(s, n, Fence);
    assert OccursAt(s, n + 7 + len, Fence);
    forall k | n + 7 <= k < n + 7 + len ensures !OccursAt(s, k, Fence) {
      assert s[k] != '`';
    }
    FindFirst(s, n + 7, Fence, n + 7 + len);
  }

  lemma FenceLayout(pre: string, body: string)
    ensures var s := pre + ("```json" + body + "```");
      && |s| == |pre| + 10 + |body|
      && s[..|pre|] == pre
      && s[|pre|..|pre| + 3] == Fence && s[|pre| + 3..|pre| + 7] == "json"
      && s[|pre| + 7 + |body|..] == Fence
      && (forall k :: 0 <= k < |body| ==> s[|pre| + 7 + k] == body[k])
  {
    var f := "```json" + body + "```";
    var s := pre + f;
    assert s[|pre|..|pre| + 3] == f[..3];
    assert s[|pre| + 3..|pre| + 7] == f[3..7];
    assert s[|pre| + 7 + |body|..] == f[7 + |body|..];
  }

  lemma ReplaceAllAtEnd(pat: Pattern, s: string)
    ensures ReplaceAll(pat, s, |s|) == ""
  {
  }

  lemma JsonFenceRemoved(prose: string, body: string)
    requires '`' !in prose && '`' !in body
    ensures ReplaceAll(JsonFence, (prose + "\n") + ("```json" + body + "```"), 0) == prose + "\n"
  {
    var pre := prose + "\n";
    var s := pre + ("```json" + body + "```");
    FenceLayout(pre, body);
    assert '`' !in pre;
    PrefixCopied(JsonFence, s, pre);
    forall k | |pre| + 7 <= k < |pre| + 7 + |body| ensures s[k] != '`' {
      assert s[k] == body[k - |pre| - 7] && body[k - |pre| - 7] in body;
    }
    JsonFenceMatchesAt(s, |pre|, |body|);
    ReplaceAllAtMatch(JsonFence, s, |pre|, |s|);
    ReplaceAllAtEnd(JsonFence, s);
    assert pre + ("" + "") == pre;
  }

  lemma SplitProseLine(prose: string)
    requires '\n' !in prose
    ensures Split(prose + "\n", '\n') == [prose, ""]
  {
    SplitAppend(prose, '\n', "");
    assert prose + ['\n'] + "" == prose + "\n";
  }

  lemma EmptyLineDropped()
    ensures PunctOnly("")
    ensures FilterLines([""]) == []
  {
    assert [""][1..] == [];
  }

  lemma ProseLineKept(prose: string)
    requires '\n' !in prose && !PunctOnly(prose)
    ensures DropPunctLines(prose + "\n") == prose
  {
    SplitProseLine(prose);
    EmptyLineDropped();
    assert [prose, ""][1..] == [""];
    assert FilterLines([prose, ""]) == [prose] + FilterLines([""]);
    assert Join([prose], "\n") == prose;
  }

  lemma ObjectsIdentity(text: string)
    requires '{' !in text
    ensures StripObjects(text) == text
  {
    ReplaceAllIdentity(ActionObject, text);
    ReplaceAllIdentity(ActionsWrapper, text);
    ReplaceAllIdentity(ZonedDateTime, text);
  }

  lemma FencesStripped(prose: string, body: string)
    requires '`' !in prose && '\n' !in prose && '`' !in body
    ensures StripFences(prose + "\n```json" + body + "```") == prose + "\n"
  {
    var a := prose + "\n";
    assert prose + "\n```json" + body + "```" == a + ("```json" + body + "```");
    JsonFenceRemoved(prose, body);
    assert '`' !in a;
    ReplaceAllIdentity(AnyFence, a);
  }

  /**
   * A one-line confirmation followed by a ```json fence (whatever its body,
   * short of backticks) comes out as the confirmation alone.
   */
  lemma FencedJsonIsHidden(prose: string, body: string)
    requires '`' !in prose && '{' !in prose && '\n' !in prose && !PunctOnly(prose)
    requires '`' !in body
    ensures Sanitize(prose + "\n```json" + body + "```") == StripEdges(prose)
  {
    var a := prose + "\n";
    FencesStripped(prose, body);
    assert '{' !in a;
    ObjectsIdentity(a);
    ProseLineKept(prose);
  }

  /** The object pattern matches from an opening brace to the first brace after it, when that closes and the key lies between. */
  lemma ActionObjectMatches(s: string, i: nat, k: nat, q: nat)
    requires i < q && q + 8 <= k < |s| && s[i] == '{' && s[k] == '}'
    requires forall j :: i < j < k ==> !IsBrace(s[j])
    requires OccursAt(s, q, "\"action\"")
    ensures MatchEnd(ActionObject, s, i) == Some(k + 1)
  {
    FindBraceAt(s, i + 1, k);
  }

  lemma ObjectLayout(before: string, inner: string, after: string)
    ensures var s := before + "{" + inner + "}" + after;
      && |s| == |before| + |inner| + 2 + |after|
      && s[..|before|] == before
      && s[|before|] == '{' && s[|before| + 1 + |inner|] == '}'
      && (forall j :: 0 <= j < |inner| ==> s[|before| + 1 + j] == inner[j])
      && (forall j :: 0 <= j < |before| ==> s[j] == before[j])
  {
  }

  /** A brace-free object naming `"action"` is cut out with its braces; the text before it is kept. */
  lemma ActionObjectIsCut(before: string, inner: string, after: string)
    requires '{' !in before && '{' !in inner && '}' !in inner
    requires Contains(inner, "\"action\"")
    ensures ReplaceAll(ActionObject, before + "{" + inner + "}" + after, 0)
         == before + ReplaceAll(ActionObject, before + "{" + inner + "}" + after, |before| + |inner| + 2)
  {
    var s := before + "{" + inner + "}" + after;
    var e := |before| + |inner| + 2;
    assert ReplaceAll(ActionObject, s, 0) == before + ReplaceAll(ActionObject, s, |before|) by {
      ObjectLayout(before, inner, after);
      PrefixCopied(ActionObject, s, before);
    }
    assert ReplaceAll(ActionObject, s, |before|) == ReplaceAll(ActionObject, s, e) by {
      var q :| 0 <= q <= |inner| && OccursAt(inner, q, "\"action\"");
      MatchInLayout(before, inner, after, q);
      ReplaceAllAtMatch(ActionObject, s, |before|, e);
    }
  }

  /** A prefix free of the pattern's start character is copied unchanged. */
  lemma PrefixCopied(pat: Pattern, s: string, before: string)
    requires StartChar(pat) !in before && |before| <= |s| && s[..|before|] == before
    ensures ReplaceAll(pat, s, 0) == before + ReplaceAll(pat, s, |before|)
  {
    forall j | 0 <= j < |before| ensures MatchEnd(pat, s, j).None? {
      assert s[j] == before[j] && before[j] in before;
    }
    ReplaceAllCopies(pat, s, 0, |before|);
  }

  lemma MatchInLayout(before: string, inner: string, after: string, q: nat)
    requires '{' !in inner && '}' !in inner && OccursAt(inner, q, "\"action\"")
    ensures MatchEnd(ActionObject, before + "{" + inner + "}" + after, |before|) == Some(|before| + |inner| + 2)
  {
    var s := before + "{" + inner + "}" + after;
    var i := |before|;
    assert s[i] == '{' && s[i + 1 + |inner|] == '}';
    assert s[i + 1..i + 1 + |inner|] == inner;
    MatchInObject(s, i, inner, q);
  }

  lemma MatchInObject(s: string, i: nat, inner: string, q: nat)
    requires '{' !in inner && '}' !in inner && OccursAt(inner, q, "\"action\"")
    requires i + |inner| + 2 <= |s| && s[i] == '{' && s[i + 1 + |inner|] == '}'
    requires s[i + 1..i + 1 + |inner|] == inner
    ensures MatchEnd(ActionObject, s, i) == Some(i + |inner| + 2)
  {
    var k := i + 1 + |inner|;
    forall j | i < j < k ensures !IsBrace(s[j]) {
      assert s[j] == inner[j - i - 1] && inner[j - i - 1] in inner;
    }
    assert OccursAt(s, i + 1 + q, "\"action\"") by {
      forall j | i + 1 + q <= j < i + 1 + q + 8 ensures s[j] == inner[j - i - 1] { }
      assert s[i + 1 + q..i + 1 + q + 8] == inner[q..q + 8];
    }
    ActionObjectMatches(s, i, k, i + 1 + q);
  }

}

=== FILE: speech.dfy ===
/**
 * The text-to-speech endpoints of api/assistant/tts.ts: the plain handler
 * that answers with one base64 audio clip, and the streaming handler that
 * sends an init event, the PCM in chunks and a done event.  The speech model
 * is the parameter `generate` (its response, or the message it threw);
 * `Buffer.from(v, 'base64')` is `decode` and `toString('base64')` is
 * `encode`; whether GEMINI_API_KEY is set is `keyConfigured`.
 */
module Speech {
  import opened Wrappers
  import opened Text
  import opened Json
  import opened Wav

  const NoKey: string := "Gemini API key not configured"
  const MissingText: string := "Missing text"
  const NoAudio: string := "No audio data returned"
  const DefaultVoice: string := "Kore"
  const WavMime: string := "audio/wav"

  /** The request body, with the field types the handlers declare. */
  datatype SpeechRequest = SpeechRequest(text: Option<string>, voiceName: Option<string>)

  /** What a handler calls out to. */
  datatype Services = Services(
    keyConfigured: bool,
    generate: (string, string) -> Eval<Json>,
    decode: Json -> Eval<seq<Byte>>,
    encode: seq<Byte> -> string)

  /** `encode` and `decode` are inverse on byte strings, as base64 is. */
  ghost predicate Base64RoundTrips(s: Services) {
    forall bs: seq<Byte> {:trigger s.encode(bs)} :: s.decode(JStr(s.encode(bs))) == Value(bs)
  }

  // ---------------------------------------------------------------------------
  // The request.

  /** `text && text.trim()`. */
  predicate HasText(text: Option<string>) {
    text.Some? && text.value != "" && Trim(text.value) != ""
  }

  /** The text is accepted exactly when it is there and not all whitespace. */
  lemma HasTextIffNotBlank(text: Option<string>)
    ensures HasText(text) <==> text.Some? && !IsBlank(text.value)
  {
    if text.Some? {
      TrimEmptyIffBlank(text.value);
    }
  }

  /** `(voiceName || 'Kore').trim()`. */
  function Voice(name: Option<string>): (r: string)
    ensures name.None? || name.value == "" ==> r == DefaultVoice
    ensures name.Some? && name.value != "" ==> r == Trim(name.value)
    ensures r == [] || (!IsJsSpace(r[0]) && !IsJsSpace(r[|r| - 1]))
  {
    if name.Some? && name.value != "" then Trim(name.value)
    else
      TrimKeeps(DefaultVoice);
      Trim(DefaultVoice)
  }

  // ---------------------------------------------------------------------------
  // Reading the model's response.

  /** `result?.candidates?.[0]?.content?.parts?.[0]`. */
  function PartOf(result: Json): Option<Json> {
    Walk(Some(result), [Key("candidates"), First, Key("content"), Key("parts"), First])
  }

  /** The audio the plain handler takes from a part, and the MIME type reported with it. */
  datatype Audio = Audio(data: Option<Json>, mime: Option<Json>)

  /** `part?.inlineData || part?.inline_data || {}`. */
  function InlineOf(part: Option<Json>): (r: Option<Json>)
    ensures Present(r)
  {
    AnyOf([Walk(part, [Key("inlineData")]), Walk(part, [Key("inline_data")]), Some(JObj([]))])
  }

  /** `inline.data || part?.data`, and the first truthy of the four MIME fields. */
  function InlineAudio(part: Option<Json>): (r: Audio)
    ensures Present(Walk(part, [Key("data")])) ==> Present(r.data)
    ensures Present(r.data) <==> Present(Walk(InlineOf(part), [Key("data")])) || Present(Walk(part, [Key("data")]))
    ensures Present(Walk(InlineOf(part), [Key("data")])) ==> r.data == Walk(InlineOf(part), [Key("data")])
    ensures Present(r.mime) <==>
      (|| Present(Walk(InlineOf(part), [Key("mimeType")]))
       || Present(Walk(InlineOf(part), [Key("mime_type")]))
       || Present(Walk(part, [Key("mimeType")]))
       || Present(Walk(part, [Key("mime_type")])))
    ensures Present(r.mime) ==> r.mime in [Walk(InlineOf(part), [Key("mimeType")]),
      Walk(InlineOf(part), [Key("mime_type")]), Walk(part, [Key("mimeType")]), Walk(part, [Key("mime_type")])]
  {
    var inline := InlineOf(part);
    var datas := [Walk(inline, [Key("data")]), Walk(part, [Key("data")])];
    var mimes := [Walk(inline, [Key("mimeType")]), Walk(inline, [Key("mime_type")]),
      Walk(part, [Key("mimeType")]), Walk(part, [Key("mime_type")])];
    FirstOfFour(mimes[0], mimes[1], mimes[2], mimes[3]);
    Audio(AnyOf(datas), AnyOf(mimes))
  }

  /** The first truthy of four alternatives is truthy iff one of them is, and is one of them. */
  lemma FirstOfFour(a: Option<Json>, b: Option<Json>, c: Option<Json>, d: Option<Json>)
    ensures Present(AnyOf([a, b, c, d])) <==> Present(a) || Present(b) || Present(c) || Present(d)
    ensures Present(AnyOf([a, b, c, d])) ==> AnyOf([a, b, c, d]) in [a, b, c, d]
  {
    var xs := [a, b, c, d];
    assert xs[0] == a && xs[1] == b && xs[2] == c && xs[3] == d;
    if exists i :: 0 <= i < |xs| && Present(xs[i]) {
      var i :| 0 <= i < |xs| && Present(xs[i]);
      assert i == 0 || i == 1 || i == 2 || i == 3;
    }
  }

  /** `part?.inlineData?.data || part?.inline_data?.data || part?.data`. */
  function StreamData(part: Option<Json>): (r: Option<Json>)
    ensures Present(r) <==> (Present(Walk(part, [Key("inlineData"), Key("data")]))
      || Present(Walk(part, [Key("inline_data"), Key("data")])) || Present(Walk(part, [Key("data")])))
  {
    var xs := [Walk(part, [Key("inlineData"), Key("data")]), Walk(part, [Key("inline_data"), Key("data")]),
      Walk(part, [Key("data")])];
    assert Present(xs[0]) || Present(xs[1]) || Present(xs[2]) <==> exists i :: 0 <= i < 3 && Present(xs[i]);
    AnyOf(xs)
  }

  /**
   * The two handlers look for the data differently: a part whose
   * `inlineData` has only a MIME type and whose `inline_data` has the data
   * gives the plain handler nothing and the stream the data.
   */
  lemma HandlersReadDifferentData()
    ensures var part := Some(JObj([
        ("inlineData", JObj([("mimeType", JStr("audio/L16"))])),
        ("inline_data", JObj([("data", JStr("AAAA"))]))]));
      !Present(InlineAudio(part).data) && StreamData(part) == Some(JStr("AAAA"))
  {
    var inlineData := JObj([("mimeType", JStr("audio/L16"))]);
    var underscore := JObj([("data", JStr("AAAA"))]);
    PlainMissesData(inlineData, underscore);
    StreamFindsData(inlineData, underscore);
  }

  lemma PlainMissesData(inlineData: Json, underscore: Json)
    requires inlineData == JObj([("mimeType", JStr("audio/L16"))])
    requires underscore == JObj([("data", JStr("AAAA"))])
    ensures !Present(InlineAudio(Some(JObj([("inlineData", inlineData), ("inline_data", underscore)]))).data)
  {
    var part := Some(JObj([("inlineData", inlineData), ("inline_data", underscore)]));
    assert LastIndexOfKey(part.value.members, "inlineData") == 0;
    assert LastIndexOfKey(part.value.members, "data") == -1;
    assert LastIndexOfKey(inlineData.members, "data") == -1;
    assert Walk(part, [Key("inlineData")]) == Walk(Some(inlineData), []) == Some(inlineData);
    assert InlineOf(part) == Some(inlineData);
    assert Walk(Some(inlineData), [Key("data")]) == Walk(None, []) == None;
    assert Walk(part, [Key("data")]) == Walk(None, []) == None;
  }

  lemma StreamFindsData(inlineData: Json, underscore: Json)
    requires inlineData == JObj([("mimeType", JStr("audio/L16"))])
    requires underscore == JObj([("data", JStr("AAAA"))])
    ensures StreamData(Some(JObj([("inlineData", inlineData), ("inline_data", underscore)]))) == Some(JStr("AAAA"))
  {
    var part := Some(JObj([("inlineData", inlineData), ("inline_data", underscore)]));
    assert LastIndexOfKey(part.value.members, "inlineData") == 0;
    assert LastIndexOfKey(part.value.members, "inline_data") == 1;
    assert LastIndexOfKey(inlineData.members, "data") == -1;
    assert LastIndexOfKey(underscore.members, "data") == 0;
    var xs := [Walk(part, [Key("inlineData"), Key("data")]), Walk(part, [Key("inline_data"), Key("data")]),
      Walk(part, [Key("data")])];
    assert xs[0] == Walk(Some(inlineData), [Key("data")]) == Walk(None, []);
    assert xs[1] == Walk(Some(underscore), [Key("data")]) == Walk(Some(JStr("AAAA")), []);
  }

  /** `mime && /wav/i.test(mime)`: the pattern folds only the ASCII letters. */
  function IsWavMime(mime: Option<Json>): (b: bool)
    ensures b <==> Present(mime) && HasWavAt(ToJsString(mime))
  {
    WavIgnoringCase(ToJsString(mime));
    Present(mime) && Contains(ToLowerAscii(ToJsString(mime)), "wav")
  }

  /** Some three characters of `t` spell "wav" in either case of each letter. */
  predicate HasWavAt(t: string) {
    exists i :: 0 <= i && i + 3 <= |t| && LowerChar(t[i]) == 'w' && LowerChar(t[i + 1]) == 'a' && LowerChar(t[i + 2]) == 'v'
  }

  lemma WavIgnoringCase(t: string)
    ensures Contains(ToLowerAscii(t), "wav") <==> HasWavAt(t)
  {
    if Contains(ToLowerAscii(t), "wav") {
      WavFound(t);
    }
    if HasWavAt(t) {
      var i :| 0 <= i && i + 3 <= |t| && LowerChar(t[i]) == 'w' && LowerChar(t[i + 1]) == 'a' && LowerChar(t[i + 2]) == 'v';
      WavPlaced(t, i);
    }
  }

  lemma WavFound(t: string)
    requires Contains(ToLowerAscii(t), "wav")
    ensures HasWavAt(t)
  {
    var l := ToLowerAscii(t);
    var i :| 0 <= i <= |l| && OccursAt(l, i, "wav");
    var w := l[i..i + 3];
    assert w[0] == l[i] && w[1] == l[i + 1] && w[2] == l[i + 2];
    assert LowerChar(t[i]) == 'w' && LowerChar(t[i + 1]) == 'a' && LowerChar(t[i + 2]) == 'v';
  }

  lemma WavPlaced(t: string, i: nat)
    requires i + 3 <= |t| && LowerChar(t[i]) == 'w' && LowerChar(t[i + 1]) == 'a' && LowerChar(t[i + 2]) == 'v'
    ensures Contains(ToLowerAscii(t), "wav")
  {
    var l := ToLowerAscii(t);
    assert l[i..i + 3] == "wav";
    assert OccursAt(l, i, "wav");
  }

  // ---------------------------------------------------------------------------
  // The plain handler.

  /** The `RangeError` a 32-bit header field out of range throws, with the received value in plain digits. */
  function OutOfRange(value: nat): string {
    "The value of \"value\" is out of range. It must be >= 0 and <= 4294967295. Received " + NatToString(value)
  }

  /** `pcm16ToWavBase64(data)`: decode, wrap in the default WAV header, encode. */
  function WrapPcm(data: Json, s: Services): (r: Eval<string>)
    ensures s.decode(data).Threw? ==> r == Threw(s.decode(data).message)
    ensures s.decode(data).Value? ==> (r.Value? <==> 36 + |s.decode(data).value| <= MaxU32)
  {
    match s.decode(data)
    case Threw(m) => Threw(m)
    case Value(pcm) =>
      DefaultFitsIff(|pcm|);
      match ToWav(pcm, Default)
      case None => Threw(OutOfRange(36 + |pcm|))
      case Some(wav) => Value(s.encode(wav))
  }

  /** What the wrapped audio decodes to: a default-format header describing the PCM, then the PCM. */
  lemma WrapPcmParses(data: Json, s: Services, pcm: seq<Byte>)
    requires Base64RoundTrips(s) && s.decode(data) == Value(pcm) && 36 + |pcm| <= MaxU32
    ensures WrapPcm(data, s).Value?
    ensures s.decode(JStr(WrapPcm(data, s).value)).Value?
    ensures ParseWav(s.decode(JStr(WrapPcm(data, s).value)).value) == Some((HeaderFor(Default, |pcm|), pcm))
  {
    DefaultFits(|pcm|);
    var wav := ToWav(pcm, Default).value;
    assert s.decode(JStr(s.encode(wav))) == Value(wav);
    ParseToWav(pcm, Default);
  }

  /** `res.json({ audio, mimeType, originalMimeType: mime || null, voice })`. */
  function AudioBody(audio: Json, mimeType: Json, mime: Option<Json>, voice: string): Json {
    var original := if Present(mime) then mime.value else JNull;
    JObj([("audio", audio), ("mimeType", mimeType), ("originalMimeType", original), ("voice", JStr(voice))])
  }

  /** The plain reply for the audio the model returned: wrapped unless reported as WAV. */
  function ReplyFor(audio: Audio, voice: string, s: Services): (r: Reply)
    ensures r.status == 200 || r.status == 400 || r.status == 500
    ensures !Present(audio.data) ==> r == ErrorReply(500, NoAudio)
  {
    if !Present(audio.data) then ErrorReply(500, NoAudio)
    else if IsWavMime(audio.mime) then Reply(200, AudioBody(audio.data.value, audio.mime.value, audio.mime, voice))
    else
      match WrapPcm(audio.data.value, s)
      case Threw(m) => ErrorReply(400, m)
      case Value(b64) => Reply(200, AudioBody(JStr(b64), JStr(WavMime), audio.mime, voice))
  }

  /** The plain handler, `assistantTTSHandler`. */
  function Speak(req: SpeechRequest, s: Services): (r: Reply)
    ensures !s.keyConfigured ==> r == ErrorReply(500, NoKey)
    ensures s.keyConfigured && !HasText(req.text) ==> r == ErrorReply(400, MissingText)
    ensures r.status == 200 || r.status == 400 || r.status == 500
    ensures r.status == 200 ==> s.keyConfigured && HasText(req.text)
  {
    if !s.keyConfigured then ErrorReply(500, NoKey)
    else if !HasText(req.text) then ErrorReply(400, MissingText)
    else
      var voice := Voice(req.voiceName);
      match s.generate(Trim(req.text.value), voice)
      case Threw(m) => ErrorReply(400, m)
      case Value(result) => ReplyFor(InlineAudio(PartOf(result)), voice, s)
  }

  /** The model answered `result` to the trimmed text and the voice. */
  predicate Answered(req: SpeechRequest, s: Services, result: Json) {
    s.keyConfigured && HasText(req.text) && s.generate(Trim(req.text.value), Voice(req.voiceName)) == Value(result)
  }

  /** Once the model has answered, the reply is the one for the audio in its first part, with the voice. */
  lemma SpeakAnswered(req: SpeechRequest, s: Services, result: Json)
    requires Answered(req, s, result)
    ensures Speak(req, s) == ReplyFor(InlineAudio(PartOf(result)), Voice(req.voiceName), s)
  {
  }

  /** Audio reported as WAV is passed on as it came, under its own MIME type. */
  lemma WavPassesThrough(audio: Audio, voice: string, s: Services)
    requires Present(audio.data) && IsWavMime(audio.mime)
    ensures var r := ReplyFor(audio, voice, s);
      && r.status == 200
      && Get(r.body, "audio") == audio.data
      && Get(r.body, "mimeType") == audio.mime
      && Get(r.body, "originalMimeType") == audio.mime
      && Get(r.body, "voice") == Some(JStr(voice))
  {
    BodyFields(AudioBody(audio.data.value, audio.mime.value, audio.mime, voice));
  }

  /** Audio without a WAV MIME type comes back wrapped: it decodes to a WAV of the decoded data, typed `audio/wav`. */
  lemma PcmIsWrapped(audio: Audio, voice: string, s: Services, pcm: seq<Byte>)
    requires Base64RoundTrips(s)
    requires Present(audio.data) && !IsWavMime(audio.mime)
    requires s.decode(audio.data.value) == Value(pcm) && 36 + |pcm| <= MaxU32
    ensures var r := ReplyFor(audio, voice, s);
      && r.status == 200
      && Get(r.body, "mimeType") == Some(JStr(WavMime))
      && Get(r.body, "originalMimeType") == Some(if Present(audio.mime) then audio.mime.value else JNull)
      && Get(r.body, "audio").Some? && s.decode(Get(r.body, "audio").value).Value?
      && ParseWav(s.decode(Get(r.body, "audio").value).value) == Some((HeaderFor(Default, |pcm|), pcm))
      && Get(r.body, "voice") == Some(JStr(voice))
  {
    WrapPcmParses(audio.data.value, s, pcm);
    var b64 := WrapPcm(audio.data.value, s).value;
    assert ReplyFor(audio, voice, s) == Reply(200, AudioBody(JStr(b64), JStr(WavMime), audio.mime, voice));
    BodyFields(AudioBody(JStr(b64), JStr(WavMime), audio.mime, voice));
  }

  /** The members of a reply body, read back by name. */
  lemma BodyFields(body: Json)
    requires body.JObj? && |body.members| == 4
    requires body.members[0].0 == "audio" && body.members[1].0 == "mimeType"
    requires body.members[2].0 == "originalMimeType" && body.members[3].0 == "voice"
    ensures Get(body, "audio") == Some(body.members[0].1)
    ensures Get(body, "mimeType") == Some(body.members[1].1)
    ensures Get(body, "originalMimeType") == Some(body.members[2].1)
    ensures Get(body, "voice") == Some(body.members[3].1)
  {
    var ms := body.members;
    assert LastIndexOfKey(ms, "voice") == 3;
    assert LastIndexOfKey(ms, "originalMimeType") == 2;
    assert LastIndexOfKey(ms, "mimeType") == 1;
    assert LastIndexOfKey(ms, "audio") == 0;
  }

  // ---------------------------------------------------------------------------
  // The streaming handler.

  /** The status and the `data:` events the streaming handler writes, in order. */
  datatype EventStream = EventStream(status: int, events: seq<Json>)

  function ErrorEvent(message: string): Json {
    JObj([("error", JStr(message))])
  }

  const DoneEvent: Json := JObj([("done", JBool(true))])

  function InitEvent(voice: string): Json {
    JObj([("init", JObj([
      ("sampleRate", JNum(Default.sampleRate)), ("channels", JNum(Default.channels)),
      ("bitsPerSample", JNum(Default.bitsPerSample)), ("voice", JStr(voice))]))])
  }

  function ChunkEvent(b64: string): Json {
    JObj([("chunk", JStr(b64))])
  }

  /** The text on the wire: each event as `data: <JSON>` and a blank line. */
  function Wire(events: seq<Json>): string {
    if |events| == 0 then "" else "data: " + Serialize(events[0]) + "\n\n" + Wire(events[1..])
  }

  /** The done event is the literal line the handler writes. */
  lemma DoneOnWire()
    ensures Wire([DoneEvent]) == "data: {\"done\":true}\n\n"
  {
    DoneSerialized();
    assert [DoneEvent][1..] == [];
  }

  lemma DoneSerialized()
    ensures Serialize(DoneEvent) == "{\"done\":true}"
  {
    DoneQuoted();
    assert SerializeMembers(DoneEvent, [("done", JBool(true))]) == "\"done\":true";
  }

  lemma DoneQuoted()
    ensures Quote("done") == "\"done\""
  {
    assert EscapeString("e") == "e";
    assert EscapeString("ne") == "ne" by { assert "ne"[1..] == "e"; }
    assert EscapeString("one") == "one" by { assert "one"[1..] == "ne"; }
    assert EscapeString("done") == "done" by { assert "done"[1..] == "one"; }
  }

  /** One chunk event per chunk of the PCM. */
  function ChunkEvents(chunks: seq<seq<Byte>>, s: Services): (r: seq<Json>)
    ensures |r| == |chunks|
    ensures forall i :: 0 <= i < |chunks| ==> r[i] == ChunkEvent(s.encode(chunks[i]))
  {
    seq(|chunks|, i requires 0 <= i < |chunks| => ChunkEvent(s.encode(chunks[i])))
  }

  /** The stream was closed by the done event, and only there. */
  predicate EndsDone(events: seq<Json>) {
    && |events| >= 2 && events[|events| - 1] == DoneEvent
    && forall i :: 0 <= i < |events| - 1 ==> events[i] != DoneEvent
  }

  /** An error event and the done event, as the handler writes after its headers went out. */
  function ErrorThenDone(message: string): (r: seq<Json>)
    ensures |r| == 2 && EndsDone(r)
  {
    assert "error"[0] != "done"[0];
    [ErrorEvent(message), DoneEvent]
  }

  /** The events once the model has answered with `data`: the audio in chunks between init and done, or an error and done. */
  function EventsFor(data: Option<Json>, voice: string, s: Services): (r: seq<Json>)
    ensures EndsDone(r)
    ensures !Present(data) ==> r == ErrorThenDone(NoAudio)
  {
    if !Present(data) then ErrorThenDone(NoAudio)
    else
      match s.decode(data.value)
      case Threw(m) => ErrorThenDone(m)
      case Value(buf) =>
        var chunks := ChunkEvents(Chunks(StripHeader(buf)), s);
        assert forall i :: 0 <= i < |chunks| ==> chunks[i].members[0].0 == "chunk";
        [InitEvent(voice)] + chunks + [DoneEvent]
  }

  /** The events after the checks: the model's answer streamed, or its error and done. */
  function Generated(text: string, voice: string, s: Services): (r: seq<Json>)
    ensures EndsDone(r)
  {
    match s.generate(text, voice)
    case Threw(m) => ErrorThenDone(m)
    case Value(result) => EventsFor(StreamData(PartOf(result)), voice, s)
  }

  /** The streaming handler, `assistantTTSStreamHandler`. */
  function SpeakStream(req: SpeechRequest, s: Services): (r: EventStream)
    ensures !s.keyConfigured ==> r == EventStream(500, [ErrorEvent(NoKey)])
    ensures s.keyConfigured && !HasText(req.text) ==> r == EventStream(400, [ErrorEvent(MissingText)])
    ensures s.keyConfigured && HasText(req.text) ==> r.status == 200 && EndsDone(r.events)
  {
    if !s.keyConfigured then EventStream(500, [ErrorEvent(NoKey)])
    else if !HasText(req.text) then EventStream(400, [ErrorEvent(MissingText)])
    else EventStream(200, Generated(Trim(req.text.value), Voice(req.voiceName), s))
  }

  /** Once the model has answered, the events are the ones for the data in its first part, with the voice. */
  lemma SpeakStreamAnswered(req: SpeechRequest, s: Services, result: Json)
    requires Answered(req, s, result)
    ensures SpeakStream(req, s) == EventStream(200, EventsFor(StreamData(PartOf(result)), Voice(req.voiceName), s))
  {
  }

  /**
   * A client's reading of the chunk events: each payload decoded and the
   * bytes joined, or `None` if an event is not a chunk or does not decode.
   */
  function Received(events: seq<Json>, s: Services): Option<seq<Byte>> {
    if |events| == 0 then Some([])
    else
      var e := events[0];
      if !(e.JObj? && |e.members| == 1 && e.members[0].0 == "chunk") then None
      else
        match s.decode(e.members[0].1)
        case Threw(_) => None
        case Value(bytes) =>
          match Received(events[1..], s)
          case None => None
          case Some(rest) => Some(bytes + rest)
  }

  /** The chunk events of a cutting carry the bytes the chunks join to. */
  lemma {:induction false} ReceivedChunks(chunks: seq<seq<Byte>>, s: Services)
    requires Base64RoundTrips(s)
    ensures Received(ChunkEvents(chunks, s), s) == Some(Flatten(chunks))
  {
    if |chunks| > 0 {
      var es := ChunkEvents(chunks, s);
      assert s.decode(JStr(s.encode(chunks[0]))) == Value(chunks[0]);
      assert es[1..] == ChunkEvents(chunks[1..], s);
      ReceivedChunks(chunks[1..], s);
    }
  }

  /**
   * Data that decodes streams as the init event with the voice, chunk events
   * and the done event; the chunks carry the decoded bytes, less a leading
   * WAV header, in order and whole.
   */
  lemma StreamCarriesAudio(data: Option<Json>, voice: string, s: Services, buf: seq<Byte>)
    requires Base64RoundTrips(s)
    requires Present(data) && s.decode(data.value) == Value(buf)
    ensures var r := EventsFor(data, voice, s);
      && r[0] == InitEvent(voice)
      && |r| == 2 + (|StripHeader(buf)| + ChunkSize - 1) / ChunkSize
      && Received(r[1..|r| - 1], s) == Some(StripHeader(buf))
  {
    var r := EventsFor(data, voice, s);
    var chunks := Chunks(StripHeader(buf));
    assert r[1..|r| - 1] == ChunkEvents(chunks, s);
    ReceivedChunks(chunks, s);
  }

  /**
   * For the same raw PCM (bytes that do not start with a header tag), the
   * stream delivers exactly the PCM inside the WAV the plain handler returns.
   */
  lemma HandlersAgree(audio: Audio, voice: string, s: Services, pcm: seq<Byte>)
    requires Base64RoundTrips(s)
    requires Present(audio.data) && !IsWavMime(audio.mime)
    requires s.decode(audio.data.value) == Value(pcm) && 36 + |pcm| <= MaxU32
    requires |pcm| < 4 || pcm[0] % 128 != 'R' as int
    ensures var plain := ReplyFor(audio, voice, s);
      var events := EventsFor(audio.data, voice, s);
      && plain.status == 200
      && Get(plain.body, "audio").Some? && s.decode(Get(plain.body, "audio").value).Value?
      && ParseWav(s.decode(Get(plain.body, "audio").value).value).Some?
      && Received(events[1..|events| - 1], s)
        == Some(ParseWav(s.decode(Get(plain.body, "audio").value).value).value.1)
  {
    PcmIsWrapped(audio, voice, s, pcm);
    StreamCarriesAudio(audio.data, voice, s, pcm);
    if |pcm| >= 4 {
      assert pcm[0] % 128 != "RIFF"[0] as int;
    }
    StripKeepsPlainPcm(pcm);
  }
}

=== FILE: stream.dfy ===
/**
 * The streaming reply of api/assistant/stream.ts (`assistantStreamHandler`).
 * The model call is an abstract outcome; what is modelled is what the handler
 * writes for it: the server-sent-event frames, their order and their text.
 */
module Stream {
  import opened Wrappers
  import opened Text
  import opened Json
  import Actions
  import Sanitizer

  // ---------------------------------------------------------------------------
  // /(^|\n)([\-*+])\s{2,}/g  ->  `${p1}${p2} `
  // ---------------------------------------------------------------------------

  predicate IsMarker(c: char) {
    c == '-' || c == '*' || c == '+'
  }

  /** A list marker at `k` followed by at least two whitespace characters. */
  predicate WideAt(s: string, k: int) {
    0 <= k && k + 2 < |s| && IsMarker(s[k]) && IsJsSpace(s[k + 1]) && IsJsSpace(s[k + 2])
  }

  /**
   * The bullet match starting at `i`, as (end, replacement).  `^` is tried
   * first and only matches at the start of the text; otherwise a newline must
   * precede the marker.  The greedy `\s{2,}` runs to the next non-space.
   */
  function BulletMatch(s: string, i: nat): (r: Option<(nat, string)>)
    requires i < |s|
    ensures r.Some? ==> i + 3 <= r.value.0 <= |s|
    ensures r.Some? ==> r.value.0 == |s| || !IsJsSpace(s[r.value.0])
  {
    if i == 0 && WideAt(s, 0) then Some((SkipSpace(s, 1), [s[0], ' ']))
    else if s[i] == '\n' && WideAt(s, i + 1) then Some((SkipSpace(s, i + 2), ['\n', s[i + 1], ' ']))
    else None
  }

  /** The global replace, scanning from `i`. */
  function SpaceBullets(s: string, i: nat): (r: string)
    requires i <= |s|
    ensures |r| <= |s| - i
    ensures i < |s| ==> |r| > 0 && r[0] == s[i]
    ensures i + 1 < |s| ==> |r| >= 2 && (IsJsSpace(r[1]) ==> IsJsSpace(s[i + 1]))
    decreases |s| - i
  {
    if i == |s| then ""
    else
      match BulletMatch(s, i)
      case Some((e, rep)) => rep + SpaceBullets(s, e)
      case None => [s[i]] + SpaceBullets(s, i + 1)
  }

  /** No line starts with a marker followed by two whitespace characters. */
  predicate NoWideBullet(t: string, atLineStart: bool) {
    forall k :: 0 <= k < |t| && ((k == 0 && atLineStart) || (k > 0 && t[k - 1] == '\n')) ==> !WideAt(t, k)
  }

  lemma WideShift(p: string, o: string, k: nat)
    requires |p| <= k
    ensures WideAt(p + o, k) == WideAt(o, k - |p|)
  {
    if WideAt(o, k - |p|) {
      assert (p + o)[k + 1] == o[k - |p| + 1] && (p + o)[k + 2] == o[k - |p| + 2];
    }
  }

  /** After the replace, every marker at a line start is followed by at most one space. */
  lemma {:induction false} SpaceBulletsNarrow(s: string, i: nat, atLineStart: bool)
    requires i <= |s|
    requires atLineStart && i > 0 ==> !WideAt(s, i)
    ensures NoWideBullet(SpaceBullets(s, i), atLineStart)
    decreases |s| - i
  {
    if i < |s| {
      var t := SpaceBullets(s, i);
      match BulletMatch(s, i)
      case Some((e, rep)) =>
        var o := SpaceBullets(s, e);
        SpaceBulletsNarrow(s, e, false);
        assert t == rep + o;
        forall k | 0 <= k < |t| && ((k == 0 && atLineStart) || (k > 0 && t[k - 1] == '\n'))
          ensures !WideAt(t, k)
        {
          if k > |rep| {
            WideShift(rep, o, k);
            assert t[k - 1] == o[k - |rep| - 1];
          } else if |rep| == 2 {
            if k == 0 && k + 2 < |t| {
              assert t[2] == o[0] == s[e];
            }
          } else if k == 1 && k + 2 < |t| {
            assert t[3] == o[0] == s[e];
          }
        }
      case None =>
        var o := SpaceBullets(s, i + 1);
        SpaceBulletsNarrow(s, i + 1, s[i] == '\n');
        assert t == [s[i]] + o;
        forall k | 0 <= k < |t| && ((k == 0 && atLineStart) || (k > 0 && t[k - 1] == '\n'))
          ensures !WideAt(t, k)
        {
          if k > 0 {
            WideShift([s[i]], o, k);
            if k >= 2 {
              assert t[k - 1] == o[k - 2];
            }
          }
        }
    }
  }

  // ---------------------------------------------------------------------------
  // /(:)\s+(\*)\s/g  ->  `${colon}\n${star} `
  // ---------------------------------------------------------------------------

  const ColonStarReplacement: string := ":\n* "

  /**
   * The match at `i`: a colon, the whole whitespace run after it (a shorter
   * run would leave a space where the star must be), a star and one
   * whitespace character.
   */
  function ColonStarEnd(s: string, i: nat): (r: Option<nat>)
    requires i < |s|
    ensures r.Some? ==> i < r.value <= |s| && s[i] == ':'
  {
    if s[i] != ':' then None
    else
      var j := SkipSpace(s, i + 1);
      if j > i + 1 && j + 1 < |s| && s[j] == '*' && IsJsSpace(s[j + 1]) then Some(j + 2) else None
  }

  function ColonStarMatches(s: string): nat -> Option<nat> {
    (k: nat) => if k < |s| then ColonStarEnd(s, k) else None
  }

  lemma ColonStarAdvances(s: string)
    ensures Sanitizer.Advances(ColonStarMatches(s))
  {
  }

  function BreakColonStars(s: string): string {
    ColonStarAdvances(s);
    Sanitizer.Scan(ColonStarMatches(s), ColonStarReplacement, s, 0)
  }

  /** A text without a colon passes through the colon-star replace unchanged. */
  lemma BreakColonStarsIdentity(s: string)
    requires ':' !in s
    ensures BreakColonStars(s) == s
  {
    ColonStarAdvances(s);
    forall k | 0 <= k < |s| ensures ColonStarMatches(s)(k).None? {
      assert s[k] in s;
    }
    Sanitizer.ScanCopies(ColonStarMatches(s), ColonStarReplacement, s, 0, |s|);
  }

  /** A single line that does not open with a wide marker passes through the bullet replace unchanged. */
  lemma {:induction false} SpaceBulletsIdentity(s: string, i: nat)
    requires i <= |s|
    requires forall k :: i <= k < |s| ==> s[k] != '\n'
    requires i == 0 ==> !WideAt(s, 0)
    ensures SpaceBullets(s, i) == s[i..]
    decreases |s| - i
  {
    if i < |s| {
      SpaceBulletsIdentity(s, i + 1);
      assert s[i..] == [s[i]] + s[i + 1..];
    }
  }

  /** A colon-free stretch is copied by the colon-star scan. */
  lemma ColonFreeCopies(s: string, i: nat, j: nat)
    requires i <= j <= |s| && forall k :: i <= k < j ==> s[k] != ':'
    ensures Sanitizer.Scan(ColonStarMatches(s), ColonStarReplacement, s, i)
      == s[i..j] + Sanitizer.Scan(ColonStarMatches(s), ColonStarReplacement, s, j)
  {
    ColonStarAdvances(s);
    Sanitizer.ScanCopies(ColonStarMatches(s), ColonStarReplacement, s, i, j);
  }

  /** The only colon-star match in a text is replaced and the rest is copied. */
  lemma BreakColonStarsAt(s: string, i: nat, e: nat)
    requires i < |s| && ColonStarEnd(s, i) == Some(e)
    requires forall k :: 0 <= k < i ==> s[k] != ':'
    requires forall k :: e <= k < |s| ==> s[k] != ':'
    ensures BreakColonStars(s) == s[..i] + ColonStarReplacement + s[e..]
  {
    ColonStarAdvances(s);
    var m := ColonStarMatches(s);
    var r := ColonStarReplacement;
    ColonFreeCopies(s, 0, i);
    ColonFreeCopies(s, e, |s|);
    assert Sanitizer.Scan(m, r, s, i) == r + Sanitizer.Scan(m, r, s, e) by {
      assert m(i) == Some(e);
    }
    assert s[0..i] == s[..i];
  }

  /** The text the handler splits into lines: both replaces, then `trimEnd`. */
  function Polish(text: string): (r: string)
    ensures r == [] || !IsJsSpace(r[|r| - 1])
  {
    TrimEnd(BreakColonStars(SpaceBullets(text, 0)))
  }

  /** An inline "label: * item" is broken onto its own line. */
  lemma ColonStarBreaksLine()
    ensures Polish("a: * b") == "a:\n* b"
  {
    var s := "a: * b";
    assert SpaceBullets(s, 0) == s by {
      SpaceBulletsIdentity(s, 0);
    }
    BreaksInlineList();
    TrimEndKeeps("a:\n* b");
  }

  lemma BreaksInlineList()
    ensures BreakColonStars("a: * b") == "a:\n* b"
  {
    var s := "a: * b";
    assert s[2] == ' ' && s[3] == '*' && s[4] == ' ';
    assert SkipSpace(s, 3) == 3;
    BreakColonStarsAt(s, 1, 5);
  }

  /**
   * The colon-star replace keeps the whitespace after the one it consumes, so
   * it can put a marker followed by two spaces at a line start: the
   * bullet-spacing property holds after the first replace only.
   */
  lemma ColonStarCanWidenBullet()
    ensures Polish(": *  b") == ":\n*  b"
    ensures WideAt(Polish(": *  b"), 2)
  {
    var s := ": *  b";
    assert SpaceBullets(s, 0) == s by {
      SpaceBulletsIdentity(s, 0);
    }
    KeepsSecondSpace();
    TrimEndKeeps(":\n*  b");
  }

  lemma KeepsSecondSpace()
    ensures BreakColonStars(": *  b") == ":\n*  b"
  {
    var s := ": *  b";
    assert s[1] == ' ' && s[2] == '*' && s[3] == ' ';
    assert SkipSpace(s, 2) == 2;
    BreakColonStarsAt(s, 0, 4);
  }

  // ---------------------------------------------------------------------------
  // Frames.
  // ---------------------------------------------------------------------------

  /** One `data: …` event of the stream. */
  datatype Frame =
    | Delta(delta: string)
    | ActionsFrame(actions: seq<Json>)
    | ErrorFrame(error: string)
    | Done

  /** The model call: it throws (with the error's message) or returns a reply whose `text` may be missing. */
  datatype ModelOutcome = ModelThrew(message: string) | ModelReplied(text: Option<string>)

  /** The response status and the frames written, in order. */
  datatype StreamReply = StreamReply(status: int, frames: seq<Frame>)

  const MissingKeyMessage: string := "Gemini API key not configured"

  /** One delta per line, each with its newline restored. */
  function Deltas(lines: seq<string>): (r: seq<Frame>)
    ensures |r| == |lines|
    ensures forall i :: 0 <= i < |lines| ==> r[i] == Delta(lines[i] + "\n")
  {
    if |lines| == 0 then [] else [Delta(lines[0] + "\n")] + Deltas(lines[1..])
  }

  /** The frames after a successful model call, given its sanitised text and its actions. */
  function Layout(sanitized: string, actions: seq<Json>): (r: seq<Frame>)
    ensures var lines := Split(sanitized, '\n');
      && |r| == |lines| + (if |actions| > 0 then 1 else 0) + 1
      && (forall i :: 0 <= i < |lines| ==> r[i] == Delta(lines[i] + "\n"))
      && (forall i :: |lines| <= i < |r| ==> !r[i].Delta?)
      && (|actions| > 0 ==> r[|lines|] == ActionsFrame(actions))
      && r[|r| - 1] == Done
  {
    Deltas(Split(sanitized, '\n')) + (if |actions| > 0 then [ActionsFrame(actions)] else []) + [Done]
  }

  /** The frames after a successful model call. */
  function SuccessFrames(fullText: string, parse: string -> Option<Json>): seq<Frame> {
    Layout(Polish(Sanitizer.Sanitize(fullText)), Actions.ExtractActionsFromText(fullText, parse))
  }

  /** `assistantStreamHandler`: `parse` is `JSON.parse` as used by the action extractor. */
  function HandleStream(hasKey: bool, outcome: ModelOutcome, parse: string -> Option<Json>): (r: StreamReply)
    ensures !hasKey ==> r == StreamReply(500, [ErrorFrame(MissingKeyMessage)])
    ensures hasKey && outcome.ModelThrew? ==> r == StreamReply(200, [ErrorFrame(outcome.message), Done])
    ensures hasKey ==> r.status == 200 && |r.frames| >= 2 && r.frames[|r.frames| - 1] == Done
  {
    if !hasKey then StreamReply(500, [ErrorFrame(MissingKeyMessage)])
    else
      match outcome
      case ModelThrew(m) => StreamReply(200, [ErrorFrame(m), Done])
      case ModelReplied(text) => StreamReply(200, SuccessFrames(text.GetOr(""), parse))
  }

  /** Concatenation of the delta texts. */
  function DeltaText(frames: seq<Frame>): string {
    if |frames| == 0 then ""
    else (if frames[0].Delta? then frames[0].delta else "") + DeltaText(frames[1..])
  }

  lemma {:induction false} DeltasJoin(lines: seq<string>)
    requires |lines| >= 1
    ensures DeltaText(Deltas(lines)) == Join(lines, "\n") + "\n"
  {
    if |lines| > 1 {
      DeltasJoin(lines[1..]);
      assert Deltas(lines)[1..] == Deltas(lines[1..]);
    }
  }

  /** A delta holding exactly one newline, at its end. */
  predicate OneLineDelta(f: Frame) {
    && f.Delta?
    && |f.delta| >= 1
    && '\n' !in f.delta[..|f.delta| - 1]
    && f.delta[|f.delta| - 1] == '\n'
  }

  /** A frame sequence whose deltas are one per line of `text`, and then no more deltas. */
  predicate DeltasSpell(frames: seq<Frame>, n: nat, text: string)
    requires n <= |frames|
  {
    && (forall i :: 0 <= i < n ==> OneLineDelta(frames[i]))
    && DeltaText(frames[..n]) == text + "\n"
    && (forall i :: n <= i < |frames| ==> !frames[i].Delta?)
  }

  /**
   * The success layout: one delta per line, whose concatenation is the text
   * plus one newline, each holding one newline at its end; then the actions
   * frame exactly when there are actions; then `[DONE]`.
   */
  lemma LayoutShape(sanitized: string, actions: seq<Json>)
    ensures var r := Layout(sanitized, actions);
      var n := |Split(sanitized, '\n')|;
      && n >= 1
      && |r| == n + (if |actions| > 0 then 1 else 0) + 1
      && DeltasSpell(r, n, sanitized)
      && (|actions| > 0 ==> r[n] == ActionsFrame(actions))
      && r[|r| - 1] == Done
  {
    var lines := Split(sanitized, '\n');
    var ds := Deltas(lines);
    var r := Layout(sanitized, actions);
    assert r[..|lines|] == ds;
    forall i | 0 <= i < |lines|
      ensures r[i].delta[..|r[i].delta| - 1] == lines[i]
    {
      assert r[i] == ds[i];
    }
    DeltasJoin(lines);
    JoinSplit(sanitized, '\n');
  }

  /** The success path lays out the polished sanitised text and the actions of the unsanitised text. */
  lemma SuccessFrameOrder(text: Option<string>, parse: string -> Option<Json>)
    ensures var full := text.GetOr("");
      var sanitized := Polish(Sanitizer.Sanitize(full));
      var actions := Actions.ExtractActionsFromText(full, parse);
      var r := HandleStream(true, ModelReplied(text), parse);
      var n := |Split(sanitized, '\n')|;
      && |r.frames| == n + (if |actions| > 0 then 1 else 0) + 1
      && DeltasSpell(r.frames, n, sanitized)
      && (|actions| > 0 ==> r.frames[n] == ActionsFrame(actions))
  {
    var full := text.GetOr("");
    var sanitized := Polish(Sanitizer.Sanitize(full));
    var actions := Actions.ExtractActionsFromText(full, parse);
    assert HandleStream(true, ModelReplied(text), parse).frames == Layout(sanitized, actions);
    LayoutShape(sanitized, actions);
  }

  /** With no newline in the polished text, exactly one delta carries it. */
  lemma SingleLineSingleDelta(sanitized: string, actions: seq<Json>)
    requires '\n' !in sanitized
    ensures Layout(sanitized, actions)[0] == Delta(sanitized + "\n")
    ensures |actions| == 0 ==> Layout(sanitized, actions) == [Delta(sanitized + "\n"), Done]
  {
    SplitNoSep(sanitized, '\n');
  }

  // ---------------------------------------------------------------------------
  // Wire format: `data: ${JSON.stringify(payload)}\n\n`.
  // ---------------------------------------------------------------------------

  /** The object a frame other than `[DONE]` sends. */
  function PayloadJson(f: Frame): Json
    requires !f.Done?
  {
    match f
    case Delta(d) => JObj([("delta", JStr(d))])
    case ActionsFrame(xs) => JObj([("type", JStr("actions")), ("actions", JArr(xs))])
    case ErrorFrame(m) => JObj([("error", JStr(m))])
  }

  /** The text after `data: `: the serialised object, or `[DONE]` literally. */
  function Payload(f: Frame): (r: string)
    ensures '\n' !in r && |r| >= 1
  {
    if f.Done? then "[DONE]" else Serialize(PayloadJson(f))
  }

  /** A payload neither starts nor ends with whitespace, so trimming keeps it whole. */
  lemma PayloadUnpadded(f: Frame)
    ensures !IsJsSpace(Payload(f)[0]) && !IsJsSpace(Payload(f)[|Payload(f)| - 1])
  {
  }

  function Wire(f: Frame): string {
    "data: " + Payload(f) + "\n\n"
  }

  function WireAll(frames: seq<Frame>): string {
    if |frames| == 0 then "" else Wire(frames[0]) + WireAll(frames[1..])
  }
}

=== FILE: text.dfy ===
/**
 * String helpers with the meaning JavaScript gives them: the whitespace class
 * `\s` (which is also what `String.prototype.trim` removes), `split` on one
 * character, `join`, `slice`, `parseInt(_, 10)` and `Number#toString`.
 * Strings are sequences of Dafny `char`, which are Unicode scalar values;
 * JavaScript counts UTF-16 code units, and the two agree on text inside the
 * Basic Multilingual Plane.  Lower-casing is ASCII only.
 */
module Text {
  import opened Wrappers

  /** JavaScript's `\s`: the WhiteSpace and LineTerminator code points. */
  predicate IsJsSpace(c: char) {
    || c == '\t' || c == '\n' || c == '\U{000B}' || c == '\U{000C}' || c == '\r'
    || c == ' ' || c == '\U{00A0}' || c == '\U{1680}'
    || ('\U{2000}' <= c <= '\U{200A}')
    || c == '\U{2028}' || c == '\U{2029}' || c == '\U{202F}' || c == '\U{205F}'
    || c == '\U{3000}' || c == '\U{FEFF}'
  }

  /** The characters a regular-expression `.` does not match. */
  predicate IsLineTerminator(c: char) {
    c == '\n' || c == '\r' || c == '\U{2028}' || c == '\U{2029}'
  }

  predicate IsDigit(c: char) {
    '0' <= c <= '9'
  }

  /** The word characters of `\b`: `[A-Za-z0-9_]`. */
  predicate IsWordChar(c: char) {
    ('a' <= c <= 'z') || ('A' <= c <= 'Z') || IsDigit(c) || c == '_'
  }

  function LowerChar(c: char): char {
    if 'A' <= c <= 'Z' then (c as int + 32) as char else c
  }

  /** `toLowerCase` restricted to the ASCII letters. */
  function ToLowerAscii(s: string): (r: string)
    ensures |r| == |s|
    ensures forall i :: 0 <= i < |s| ==> r[i] == LowerChar(s[i])
  {
    seq(|s|, i requires 0 <= i < |s| => LowerChar(s[i]))
  }

  /** `s.trimStart()`: drops the longest whitespace prefix. */
  function TrimStart(s: string): (r: string)
    ensures |r| <= |s| && r == s[|s| - |r|..]
    ensures forall i :: 0 <= i < |s| - |r| ==> IsJsSpace(s[i])
    ensures r == [] || !IsJsSpace(r[0])
  {
    if |s| > 0 && IsJsSpace(s[0]) then TrimStart(s[1..]) else s
  }

  /** `s.trimEnd()`: drops the longest whitespace suffix. */
  function TrimEnd(s: string): (r: string)
    ensures |r| <= |s| && r == s[..|r|]
    ensures forall i :: |r| <= i < |s| ==> IsJsSpace(s[i])
    ensures r == [] || !IsJsSpace(r[|r| - 1])
  {
    if |s| > 0 && IsJsSpace(s[|s| - 1]) then TrimEnd(s[..|s| - 1]) else s
  }

  /**
   * `String.prototype.trim`: the longest whitespace prefix goes, as in
   * `TrimStart`, and then the longest whitespace suffix of what is left.
   */
  function Trim(s: string): (r: string)
    ensures r == [] || (!IsJsSpace(r[0]) && !IsJsSpace(r[|r| - 1]))
    ensures |r| <= |s|
    ensures forall i :: 0 <= i < |s| - |TrimStart(s)| ==> IsJsSpace(s[i])
    ensures |r| <= |TrimStart(s)| && forall i :: 0 <= i < |r| ==> r[i] == TrimStart(s)[i]
    ensures forall i :: |r| <= i < |TrimStart(s)| ==> IsJsSpace(TrimStart(s)[i])
  {
    var t := TrimStart(s);
    var r := TrimEnd(t);
    assert r == [] || r[0] == t[0];
    r
  }

  /** A string with no whitespace at either end is its own trim. */
  lemma TrimKeeps(s: string)
    requires s == [] || (!IsJsSpace(s[0]) && !IsJsSpace(s[|s| - 1]))
    ensures Trim(s) == s
  {
  }

  lemma TrimEndKeeps(s: string)
    requires s == [] || !IsJsSpace(s[|s| - 1])
    ensures TrimEnd(s) == s
  {
  }

  /** Trimming a text that is the untrimmed text behind one space gives that text. */
  lemma TrimDropsSpace(s: string)
    requires s == [] || (!IsJsSpace(s[0]) && !IsJsSpace(s[|s| - 1]))
    ensures Trim(" " + s) == s
  {
    assert (" " + s)[1..] == s;
    assert TrimStart(" " + s) == TrimStart(s);
    TrimKeeps(s);
  }

  /** The end of the greedy `\s*` run starting at `j`. */
  function SkipSpace(s: string, j: nat): (r: nat)
    requires j <= |s|
    ensures j <= r <= |s|
    ensures forall k :: j <= k < r ==> IsJsSpace(s[k])
    ensures r == |s| || !IsJsSpace(s[r])
    decreases |s| - j
  {
    if j < |s| && IsJsSpace(s[j]) then SkipSpace(s, j + 1) else j
  }

  /** Every character is whitespace (`s.trim()` is the empty string). */
  predicate IsBlank(s: string) {
    forall i :: 0 <= i < |s| ==> IsJsSpace(s[i])
  }

  lemma TrimEmptyIffBlank(s: string)
    ensures Trim(s) == [] <==> IsBlank(s)
  {
    var a := TrimStart(s);
    if a != [] {
      assert a[0] == s[|s| - |a|];
    }
  }

  /** `s.slice(0, n)`. */
  function Take(s: string, n: nat): (r: string)
    ensures |r| <= n && |r| <= |s|
    ensures r == s[..|r|]
    ensures |s| <= n ==> r == s
  {
    if |s| <= n then s else s[..n]
  }

  /** `s.split(c)` for a one-character separator: never empty, separator-free pieces. */
  function Split(s: string, c: char): (r: seq<string>)
    ensures |r| >= 1
    ensures forall i :: 0 <= i < |r| ==> c !in r[i]
  {
    if |s| == 0 then [""]
    else
      var rest := Split(s[1..], c);
      if s[0] == c then [""] + rest
      else [[s[0]] + rest[0]] + rest[1..]
  }

  /** `parts.join(sep)`. */
  function Join(parts: seq<string>, sep: string): string {
    if |parts| == 0 then ""
    else if |parts| == 1 then parts[0]
    else parts[0] + sep + Join(parts[1..], sep)
  }

  lemma JoinCons(p: string, rest: seq<string>, sep: string)
    requires |rest| >= 1
    ensures Join([p] + rest, sep) == p + sep + Join(rest, sep)
  {
    assert ([p] + rest)[1..] == rest;
  }

  lemma JoinHeadExtend(c: char, p: string, rest: seq<string>, sep: string)
    ensures Join([[c] + p] + rest, sep) == [c] + Join([p] + rest, sep)
  {
    if |rest| == 0 {
    } else {
      JoinCons([c] + p, rest, sep);
      JoinCons(p, rest, sep);
    }
  }

  /** Splitting and re-joining with the same separator gives back the string. */
  lemma {:induction false} JoinSplit(s: string, c: char)
    ensures Join(Split(s, c), [c]) == s
  {
    if |s| == 0 {
    } else {
      var rest := Split(s[1..], c);
      JoinSplit(s[1..], c);
      if s[0] == c {
        JoinCons("", rest, [c]);
        assert s == [c] + s[1..];
      } else {
        assert rest == [rest[0]] + rest[1..];
        JoinHeadExtend(s[0], rest[0], rest[1..], [c]);
        assert s == [s[0]] + s[1..];
      }
    }
  }

  /** A separator-free string splits into itself alone. */
  lemma {:induction false} SplitNoSep(s: string, c: char)
    requires c !in s
    ensures Split(s, c) == [s]
  {
    if |s| > 0 {
      assert forall x :: x in s[1..] ==> x in s;
      SplitNoSep(s[1..], c);
      assert [s[0]] + s[1..] == s;
    }
  }

  /** Splitting `a + c + b` splits `a` and `b` separately. */
  lemma {:induction false} SplitAppend(a: string, c: char, b: string)
    requires c !in a
    ensures Split(a + [c] + b, c) == [a] + Split(b, c)
  {
    if |a| == 0 {
      assert a + [c] + b == [c] + b;
      assert ([c] + b)[1..] == b;
    } else {
      assert forall x :: x in a[1..] ==> x in a;
      SplitAppend(a[1..], c, b);
      var s := a + [c] + b;
      assert s[1..] == a[1..] + [c] + b;
      assert s[0] == a[0];
      assert [a[0]] + a[1..] == a;
    }
  }

  predicate OccursAt(s: string, i: int, p: string) {
    0 <= i && i + |p| <= |s| && s[i..i + |p|] == p
  }

  predicate Contains(s: string, p: string) {
    exists i :: 0 <= i <= |s| && OccursAt(s, i, p)
  }

  /** The first index at or after `from` where `p` occurs (`s.indexOf(p, from)`). */
  function FindFrom(s: string, from: nat, p: string): (r: Option<nat>)
    requires |p| > 0
    ensures r.Some? ==> from <= r.value && OccursAt(s, r.value, p)
    ensures r.Some? ==> forall k :: from <= k < r.value ==> !OccursAt(s, k, p)
    ensures r.None? ==> forall k :: from <= k ==> !OccursAt(s, k, p)
    decreases |s| - from
  {
    if from + |p| > |s| then None
    else if OccursAt(s, from, p) then Some(from)
    else FindFrom(s, from + 1, p)
  }

  function DigitValue(c: char): nat
    requires IsDigit(c)
  {
    c as int - '0' as int
  }

  predicate AllDigits(s: string) {
    forall i :: 0 <= i < |s| ==> IsDigit(s[i])
  }

  /** The value of a run of decimal digits. */
  function DigitsValue(ds: string): nat
    requires AllDigits(ds)
  {
    if |ds| == 0 then 0
    else DigitsValue(ds[..|ds| - 1]) * 10 + DigitValue(ds[|ds| - 1])
  }

  /** The longest prefix of decimal digits. */
  function DigitPrefix(s: string): (r: string)
    ensures |r| <= |s| && r == s[..|r|] && AllDigits(r)
    ensures |r| == |s| || !IsDigit(s[|r|])
  {
    if |s| > 0 && IsDigit(s[0]) then [s[0]] + DigitPrefix(s[1..]) else ""
  }

  /**
   * `parseInt(s, 10)`: leading whitespace, an optional sign, then the longest
   * run of digits; `None` is `NaN`.
   */
  function ParseIntJs(s: string): (r: Option<int>)
    ensures r.Some? <==> |DigitPrefix(SignFree(TrimStart(s)))| > 0
  {
    var t := TrimStart(s);
    var negative := |t| > 0 && t[0] == '-';
    var ds := DigitPrefix(SignFree(t));
    if |ds| == 0 then None
    else if negative then Some(-(DigitsValue(ds) as int))
    else Some(DigitsValue(ds))
  }

  /** `parseInt('0', 10)` is zero. */
  lemma ParsesZero()
    ensures ParseIntJs("0") == Some(0)
  {
    assert !IsJsSpace('0');
    assert TrimStart("0") == "0";
    assert DigitPrefix("0"[1..]) == "";
    assert DigitPrefix("0") == "0";
    assert DigitsValue("0"[..0]) == 0;
  }

  function SignFree(t: string): string {
    if |t| > 0 && (t[0] == '-' || t[0] == '+') then t[1..] else t
  }

  function DigitChar(d: nat): char
    requires d < 10
  {
    ('0' as int + d) as char
  }

  /** `Number#toString()` on a non-negative integer. */
  function NatToString(n: nat): (r: string)
    ensures |r| >= 1 && AllDigits(r)
    ensures DigitsValue(r) == n
  {
    if n < 10 then [DigitChar(n)]
    else
      var r := NatToString(n / 10) + [DigitChar(n % 10)];
      assert r[..|r| - 1] == NatToString(n / 10);
      r
  }

  function IntToString(n: int): string {
    if n < 0 then "-" + NatToString(-n) else NatToString(n)
  }
}

=== FILE: wav.dfy ===
/**
 * The audio bytes of api/assistant/tts.ts: the 44-byte RIFF/WAVE header that
 * wraps raw 16-bit PCM, the check that drops such a header again before
 * streaming, and the cutting of the PCM into stream chunks.
 */
module Wav {
  import opened Wrappers

  /** One byte of a Node `Buffer`. */
  type Byte = x: int | 0 <= x < 256

  const MaxU16: nat := 0xFFFF
  const MaxU32: nat := 0xFFFF_FFFF
  const HeaderSize: nat := 44

  function Pow256(width: nat): (r: nat)
    ensures r >= 1
  {
    if width == 0 then 1 else 256 * Pow256(width - 1)
  }

  lemma Pow256Values()
    ensures Pow256(2) == MaxU16 + 1
    ensures Pow256(4) == MaxU32 + 1
  {
    assert Pow256(1) == 256;
    assert Pow256(2) == 65536;
    assert Pow256(3) == 16777216;
  }

  /** `writeUIntLE`: `n` in `width` bytes, least significant first. */
  function LittleEndian(n: nat, width: nat): (r: seq<Byte>)
    requires n < Pow256(width)
    ensures |r| == width
  {
    if width == 0 then [] else [n % 256] + LittleEndian(n / 256, width - 1)
  }

  /** `readUIntLE`: the number little-endian bytes spell. */
  function ReadLittleEndian(bs: seq<Byte>): (r: nat)
    ensures r < Pow256(|bs|)
  {
    if |bs| == 0 then 0 else bs[0] + 256 * ReadLittleEndian(bs[1..])
  }

  /** Reading back what was written gives the number. */
  lemma {:induction false} ReadWritten(n: nat, width: nat)
    requires n < Pow256(width)
    ensures ReadLittleEndian(LittleEndian(n, width)) == n
  {
    if width > 0 {
      var bs := LittleEndian(n, width);
      assert bs[1..] == LittleEndian(n / 256, width - 1);
      ReadWritten(n / 256, width - 1);
    }
  }

  /** Writing back what was read gives the bytes. */
  lemma {:induction false} WriteRead(bs: seq<Byte>)
    ensures LittleEndian(ReadLittleEndian(bs), |bs|) == bs
  {
    if |bs| > 0 {
      var n := ReadLittleEndian(bs);
      assert n % 256 == bs[0] && n / 256 == ReadLittleEndian(bs[1..]);
      WriteRead(bs[1..]);
    }
  }

  function U16(n: nat): (r: seq<Byte>)
    requires n <= MaxU16
    ensures |r| == 2
  {
    Pow256Values();
    LittleEndian(n, 2)
  }

  function U32(n: nat): (r: seq<Byte>)
    requires n <= MaxU32
    ensures |r| == 4
  {
    Pow256Values();
    LittleEndian(n, 4)
  }

  predicate IsAscii(s: string) {
    forall i :: 0 <= i < |s| ==> s[i] as int < 128
  }

  /** `buf.write(s)` of a seven-bit string: one byte per character, its code. */
  function Ascii(s: string): (r: seq<Byte>)
    requires IsAscii(s)
    ensures |r| == |s|
    ensures forall i :: 0 <= i < |s| ==> r[i] == s[i] as int
  {
    seq(|s|, i requires 0 <= i < |s| => s[i] as int)
  }

  /** The format fields `pcm16ToWavBase64` takes, with their defaults. */
  datatype Format = Format(sampleRate: nat, channels: nat, bitsPerSample: nat)

  const Default: Format := Format(24000, 1, 16)

  /**
   * Bytes per second and per sample frame.  The source divides by 8 in
   * floating point and the byte writer drops the fraction, which is the
   * floor.
   */
  function ByteRate(f: Format): nat {
    f.sampleRate * f.channels * f.bitsPerSample / 8
  }

  function BlockAlign(f: Format): nat {
    f.channels * f.bitsPerSample / 8
  }

  /**
   * Every header field is in the range its writer accepts; the writers throw
   * a `RangeError` otherwise.  The range test sees the unrounded quotients.
   */
  predicate Fits(f: Format, dataSize: nat) {
    && 36 + dataSize <= MaxU32
    && f.channels <= MaxU16
    && f.sampleRate <= MaxU32
    && f.sampleRate * f.channels * f.bitsPerSample <= 8 * MaxU32
    && f.channels * f.bitsPerSample <= 8 * MaxU16
    && f.bitsPerSample <= MaxU16
  }

  /** The default format fits any PCM of up to `MaxU32 - 36` bytes. */
  lemma DefaultFits(dataSize: nat)
    requires 36 + dataSize <= MaxU32
    ensures Fits(Default, dataSize)
    ensures ByteRate(Default) == 48000 && BlockAlign(Default) == 2
  {
  }

  /** For the default format only the data size can overflow a field. */
  lemma DefaultFitsIff(dataSize: nat)
    ensures Fits(Default, dataSize) <==> 36 + dataSize <= MaxU32
  {
  }

  /** The header fields as a reader sees them. */
  datatype Header = Header(
    riffSize: nat, fmtSize: nat, audioFormat: nat, format: Format,
    byteRate: nat, blockAlign: nat, dataSize: nat)

  /** The fields `pcm16ToWavBase64` writes for `dataSize` bytes of PCM. */
  function HeaderFor(f: Format, dataSize: nat): Header {
    Header(36 + dataSize, 16, 1, f, ByteRate(f), BlockAlign(f), dataSize)
  }

  function RiffPart(riffSize: nat): (r: seq<Byte>)
    requires riffSize <= MaxU32
    ensures |r| == 12
    ensures r[0..4] == Ascii("RIFF") && r[8..12] == Ascii("WAVE")
    ensures ReadLittleEndian(r[4..8]) == riffSize
  {
    var size := U32(riffSize);
    var r := Ascii("RIFF") + size + Ascii("WAVE");
    assert r[4..8] == size;
    Pow256Values();
    ReadWritten(riffSize, 4);
    r
  }

  /** `(a + b + c + d)` cut at the lengths of its parts. */
  lemma Quarters(a: seq<Byte>, b: seq<Byte>, c: seq<Byte>, d: seq<Byte>)
    ensures (a + b + c + d)[..|a|] == a
    ensures (a + b + c + d)[|a|..|a| + |b|] == b
    ensures (a + b + c + d)[|a| + |b|..|a| + |b| + |c|] == c
    ensures (a + b + c + d)[|a| + |b| + |c|..] == d
  {
  }

  /** The start of the fmt chunk: its tag, its size, the audio format and the channel count. */
  function FmtHead(fmtSize: nat, audioFormat: nat, channels: nat): (r: seq<Byte>)
    requires fmtSize <= MaxU32 && audioFormat <= MaxU16 && channels <= MaxU16
    ensures |r| == 12
    ensures r[0..4] == Ascii("fmt ")
    ensures ReadLittleEndian(r[4..8]) == fmtSize && ReadLittleEndian(r[8..10]) == audioFormat
    ensures ReadLittleEndian(r[10..12]) == channels
  {
    var a, b, c := U32(fmtSize), U16(audioFormat), U16(channels);
    Quarters(Ascii("fmt "), a, b, c);
    Pow256Values();
    ReadWritten(fmtSize, 4);
    ReadWritten(audioFormat, 2);
    ReadWritten(channels, 2);
    Ascii("fmt ") + a + b + c
  }

  /** The rest of the fmt chunk: sample rate, byte rate, block align and sample width. */
  function FmtRates(sampleRate: nat, byteRate: nat, blockAlign: nat, bits: nat): (r: seq<Byte>)
    requires sampleRate <= MaxU32 && byteRate <= MaxU32 && blockAlign <= MaxU16 && bits <= MaxU16
    ensures |r| == 12
    ensures ReadLittleEndian(r[0..4]) == sampleRate && ReadLittleEndian(r[4..8]) == byteRate
    ensures ReadLittleEndian(r[8..10]) == blockAlign && ReadLittleEndian(r[10..12]) == bits
  {
    var a, b, c, d := U32(sampleRate), U32(byteRate), U16(blockAlign), U16(bits);
    Quarters(a, b, c, d);
    Pow256Values();
    ReadWritten(sampleRate, 4);
    ReadWritten(byteRate, 4);
    ReadWritten(blockAlign, 2);
    ReadWritten(bits, 2);
    a + b + c + d
  }

  function DataPart(dataSize: nat): (r: seq<Byte>)
    requires dataSize <= MaxU32
    ensures |r| == 8
    ensures r[0..4] == Ascii("data")
    ensures ReadLittleEndian(r[4..8]) == dataSize
  {
    var size := U32(dataSize);
    var r := Ascii("data") + size;
    assert r[4..8] == size;
    Pow256Values();
    ReadWritten(dataSize, 4);
    r
  }

  /** A slice of a slice is a slice of the whole. */
  lemma SubSlice(s: seq<Byte>, i: nat, j: nat, k: nat, l: nat)
    requires i <= j <= |s| && k <= l <= j - i
    ensures s[i..j][k..l] == s[i + k..i + l]
  {
    forall n | 0 <= n < l - k ensures s[i..j][k..l][n] == s[i + k..i + l][n] {
      assert s[i..j][k..l][n] == s[i..j][k + n] == s[i + k + n];
    }
  }

  /** The tags are where a RIFF/WAVE reader looks for them. */
  predicate HasTags(hd: seq<Byte>)
    requires |hd| == HeaderSize
  {
    && hd[0..4] == Ascii("RIFF")
    && hd[8..12] == Ascii("WAVE")
    && hd[12..16] == Ascii("fmt ")
    && hd[36..40] == Ascii("data")
  }

  /** The header's numbers are the fields of `h`, each at its offset. */
  predicate Describes(hd: seq<Byte>, h: Header)
    requires |hd| == HeaderSize
  {
    && ReadLittleEndian(hd[4..8]) == h.riffSize
    && ReadLittleEndian(hd[16..20]) == h.fmtSize
    && ReadLittleEndian(hd[20..22]) == h.audioFormat
    && ReadLittleEndian(hd[22..24]) == h.format.channels
    && ReadLittleEndian(hd[24..28]) == h.format.sampleRate
    && ReadLittleEndian(hd[28..32]) == h.byteRate
    && ReadLittleEndian(hd[32..34]) == h.blockAlign
    && ReadLittleEndian(hd[34..36]) == h.format.bitsPerSample
    && ReadLittleEndian(hd[40..44]) == h.dataSize
  }

  /** Where each field of the 44-byte header lies within the chunk parts it is built from. */
  lemma Layout(a: seq<Byte>, b: seq<Byte>, c: seq<Byte>, d: seq<Byte>)
    requires |a| == 12 && |b| == 12 && |c| == 12 && |d| == 8
    ensures var r := a + b + c + d;
      && r[0..4] == a[0..4] && r[4..8] == a[4..8] && r[8..12] == a[8..12]
      && r[12..16] == b[0..4] && r[16..20] == b[4..8] && r[20..22] == b[8..10] && r[22..24] == b[10..12]
      && r[24..28] == c[0..4] && r[28..32] == c[4..8] && r[32..34] == c[8..10] && r[34..36] == c[10..12]
      && r[36..40] == d[0..4] && r[40..44] == d[4..8]
  {
    var r := a + b + c + d;
    Quarters(a, b, c, d);
    SubSlice(r, 0, 12, 0, 4);
    SubSlice(r, 0, 12, 4, 8);
    SubSlice(r, 0, 12, 8, 12);
    SubSlice(r, 12, 24, 0, 4);
    SubSlice(r, 12, 24, 4, 8);
    SubSlice(r, 12, 24, 8, 10);
    SubSlice(r, 12, 24, 10, 12);
    SubSlice(r, 24, 36, 0, 4);
    SubSlice(r, 24, 36, 4, 8);
    SubSlice(r, 24, 36, 8, 10);
    SubSlice(r, 24, 36, 10, 12);
    SubSlice(r, 36, 44, 0, 4);
    SubSlice(r, 36, 44, 4, 8);
  }

  /** Every field is in the range of the writer that stores it. */
  predicate InRange(h: Header) {
    && h.riffSize <= MaxU32 && h.fmtSize <= MaxU32 && h.audioFormat <= MaxU16
    && h.format.channels <= MaxU16 && h.format.sampleRate <= MaxU32 && h.byteRate <= MaxU32
    && h.blockAlign <= MaxU16 && h.format.bitsPerSample <= MaxU16 && h.dataSize <= MaxU32
  }

  /** Where no writer throws, every field the source writes is in range. */
  lemma FitsInRange(f: Format, dataSize: nat)
    requires Fits(f, dataSize)
    ensures InRange(HeaderFor(f, dataSize))
  {
  }

  /** `wavHeader` after its thirteen writes of the fields of `h`. */
  function WavHeader(h: Header): (r: seq<Byte>)
    requires InRange(h)
    ensures |r| == HeaderSize
    ensures HasTags(r) && Describes(r, h)
  {
    var riff := RiffPart(h.riffSize);
    var head := FmtHead(h.fmtSize, h.audioFormat, h.format.channels);
    var rates := FmtRates(h.format.sampleRate, h.byteRate, h.blockAlign, h.format.bitsPerSample);
    var data := DataPart(h.dataSize);
    Layout(riff, head, rates, data);
    riff + head + rates + data
  }

  /** `Buffer.concat([wavHeader, pcm])`, or `None` where a header write throws. */
  function ToWav(pcm: seq<Byte>, f: Format): (r: Option<seq<Byte>>)
    ensures r.Some? <==> Fits(f, |pcm|)
    ensures r.Some? ==> |r.value| == HeaderSize + |pcm| && r.value[HeaderSize..] == pcm
    ensures r.Some? ==> HasTags(r.value[..HeaderSize]) && Describes(r.value[..HeaderSize], HeaderFor(f, |pcm|))
  {
    if Fits(f, |pcm|) then
      FitsInRange(f, |pcm|);
      var hd := WavHeader(HeaderFor(f, |pcm|));
      assert (hd + pcm)[..HeaderSize] == hd;
      Some(hd + pcm)
    else None
  }

  /** The fields a reader takes from a header; each is in range. */
  function ReadHeader(hd: seq<Byte>): (h: Header)
    requires |hd| == HeaderSize
    ensures Describes(hd, h) && InRange(h)
  {
    Pow256Values();
    Header(
      ReadLittleEndian(hd[4..8]), ReadLittleEndian(hd[16..20]), ReadLittleEndian(hd[20..22]),
      Format(ReadLittleEndian(hd[24..28]), ReadLittleEndian(hd[22..24]), ReadLittleEndian(hd[34..36])),
      ReadLittleEndian(hd[28..32]), ReadLittleEndian(hd[32..34]), ReadLittleEndian(hd[40..44]))
  }

  /** The reader recovers every header the writer writes. */
  lemma ReadWavHeader(h: Header)
    requires InRange(h)
    ensures ReadHeader(WavHeader(h)) == h
  {
  }

  /** The writer recovers every tagged 44-byte block the reader reads. */
  lemma WriteReadHeader(hd: seq<Byte>)
    requires |hd| == HeaderSize && HasTags(hd)
    ensures WavHeader(ReadHeader(hd)) == hd
  {
    var w := WavHeader(ReadHeader(hd));
    SameField(hd, w, 0, 4);
    SameField(hd, w, 4, 8);
    SameField(hd, w, 8, 12);
    SameField(hd, w, 12, 16);
    SameField(hd, w, 16, 20);
    SameField(hd, w, 20, 22);
    SameField(hd, w, 22, 24);
    SameField(hd, w, 24, 28);
    SameField(hd, w, 28, 32);
    SameField(hd, w, 32, 34);
    SameField(hd, w, 34, 36);
    SameField(hd, w, 36, 40);
    SameField(hd, w, 40, 44);
  }

  /** A reader of the canonical 44-byte header: its fields and the bytes after it. */
  function ParseWav(bs: seq<Byte>): (r: Option<(Header, seq<Byte>)>)
    ensures r.Some? <==> |bs| >= HeaderSize && HasTags(bs[..HeaderSize])
    ensures r.Some? ==> Describes(bs[..HeaderSize], r.value.0) && r.value.1 == bs[HeaderSize..]
  {
    if |bs| < HeaderSize || !HasTags(bs[..HeaderSize]) then None
    else Some((ReadHeader(bs[..HeaderSize]), bs[HeaderSize..]))
  }

  /** The header of `ToWav` reads back as the fields it was given, and the PCM follows it unchanged. */
  lemma ParseToWav(pcm: seq<Byte>, f: Format)
    requires Fits(f, |pcm|)
    ensures ParseWav(ToWav(pcm, f).value) == Some((HeaderFor(f, |pcm|), pcm))
  {
    FitsInRange(f, |pcm|);
    ReadWavHeader(HeaderFor(f, |pcm|));
  }

  /** Conversely, bytes whose header carries exactly the fields `ToWav` writes are what `ToWav` builds. */
  lemma ToWavOfParsed(bs: seq<Byte>, f: Format)
    requires ParseWav(bs).Some?
    requires ParseWav(bs).value.0 == HeaderFor(f, |bs| - HeaderSize)
    requires Fits(f, |bs| - HeaderSize)
    ensures ToWav(bs[HeaderSize..], f) == Some(bs)
  {
    var hd := bs[..HeaderSize];
    WriteReadHeader(hd);
    assert bs == hd + bs[HeaderSize..];
  }

  /** Two buffers agree on `lo..hi` when the slices are equal or spell the same little-endian number. */
  lemma SameField(a: seq<Byte>, b: seq<Byte>, lo: nat, hi: nat)
    requires lo <= hi <= |a| == |b|
    requires a[lo..hi] == b[lo..hi] || ReadLittleEndian(a[lo..hi]) == ReadLittleEndian(b[lo..hi])
    ensures forall i :: lo <= i < hi ==> a[i] == b[i]
  {
    WriteRead(a[lo..hi]);
    WriteRead(b[lo..hi]);
    assert a[lo..hi] == b[lo..hi];
    forall i | lo <= i < hi ensures a[i] == b[i] {
      assert a[i] == a[lo..hi][i - lo];
    }
  }

  // ---------------------------------------------------------------------------
  // The stream handler's header check.

  /**
   * `buf.toString('ascii')`: Node's ASCII decoding clears the high bit of
   * each byte before reading it as a Latin-1 character.
   */
  function AsciiDecode(bs: seq<Byte>): (r: string)
    ensures |r| == |bs|
    ensures forall i :: 0 <= i < |bs| ==> r[i] as int == bs[i] % 128
  {
    seq(|bs|, i requires 0 <= i < |bs| => (bs[i] % 128) as char)
  }

  /** `buf.slice(0, 4).toString('ascii') === 'RIFF'`. */
  predicate DecodesRiff(buf: seq<Byte>) {
    AsciiDecode(buf[..if |buf| < 4 then |buf| else 4]) == "RIFF"
  }

  /** The test reads the low seven bits of the first four bytes. */
  lemma DecodesRiffBytes(buf: seq<Byte>)
    ensures DecodesRiff(buf) <==> |buf| >= 4 && forall i :: 0 <= i < 4 ==> buf[i] % 128 == "RIFF"[i] as int
  {
    var head := buf[..if |buf| < 4 then |buf| else 4];
    if |buf| >= 4 && forall i :: 0 <= i < 4 ==> buf[i] % 128 == "RIFF"[i] as int {
      assert forall i :: 0 <= i < 4 ==> AsciiDecode(head)[i] == "RIFF"[i];
    }
  }

  /** The stream drops a leading 44-byte header when the buffer decodes as `RIFF…` and has bytes after the header. */
  function StripHeader(buf: seq<Byte>): (r: seq<Byte>)
    ensures r == buf || (|buf| > HeaderSize && r == buf[HeaderSize..])
    ensures |r| < |buf| <==> DecodesRiff(buf) && |buf| > HeaderSize
  {
    if DecodesRiff(buf) && |buf| > HeaderSize then buf[HeaderSize..] else buf
  }

  /** The stream recovers the PCM from what `ToWav` builds, as long as there is any PCM. */
  lemma StripToWav(pcm: seq<Byte>, f: Format)
    requires Fits(f, |pcm|)
    ensures |pcm| > 0 ==> StripHeader(ToWav(pcm, f).value) == pcm
    ensures |pcm| == 0 ==> StripHeader(ToWav(pcm, f).value) == ToWav(pcm, f).value
  {
    var w := ToWav(pcm, f).value;
    TaggedDecodesRiff(w[..HeaderSize]);
    assert w[..HeaderSize][..4] == w[..4];
  }

  /** A tagged header passes the stream's test. */
  lemma TaggedDecodesRiff(hd: seq<Byte>)
    requires |hd| == HeaderSize && HasTags(hd)
    ensures DecodesRiff(hd)
  {
    var d := AsciiDecode(hd[..4]);
    assert hd[..4] == hd[0..4];
    assert forall i :: 0 <= i < 4 ==> d[i] == "RIFF"[i];
  }

  /** Bytes that do not start with the tag, in any of its high-bit variants, stream unchanged. */
  lemma StripKeepsPlainPcm(buf: seq<Byte>)
    requires |buf| < 4 || exists i :: 0 <= i < 4 && buf[i] % 128 != "RIFF"[i] as int
    ensures StripHeader(buf) == buf
  {
    DecodesRiffBytes(buf);
  }

  /** A buffer whose first bytes are `RIFF` with the high bits set loses its first 44 bytes too. */
  lemma HighBitTagStripped(buf: seq<Byte>)
    requires |buf| > HeaderSize && buf[..4] == [0xD2, 0xC9, 0xC6, 0xC6]
    ensures StripHeader(buf) == buf[HeaderSize..]
  {
    assert buf[0] == 0xD2 && buf[1] == 0xC9 && buf[2] == 0xC6 && buf[3] == 0xC6;
    DecodesRiffBytes(buf);
  }

  // ---------------------------------------------------------------------------
  // Chunking.

  /** Bytes per stream chunk: a tenth of a second at the default format. */
  const ChunkSize: nat := 4800

  lemma ChunkSizeIsTenthSecond()
    ensures ChunkSize == Default.sampleRate * Default.channels * (Default.bitsPerSample / 8) / 10
  {
  }

  function Min(a: int, b: int): int {
    if a <= b then a else b
  }

  /** The chunks of the loop `for (offset = from; offset < buf.length; offset += chunkSize)`. */
  function ChunksFrom(buf: seq<Byte>, from: nat): (r: seq<seq<Byte>>)
    decreases |buf| - from
  {
    if from >= |buf| then []
    else [buf[from..Min(from + ChunkSize, |buf|)]] + ChunksFrom(buf, from + ChunkSize)
  }

  function Flatten(cs: seq<seq<Byte>>): seq<Byte> {
    if |cs| == 0 then [] else cs[0] + Flatten(cs[1..])
  }

  /** Every chunk is non-empty and at most `ChunkSize` bytes, all but the last exactly `ChunkSize`. */
  predicate WellCut(cs: seq<seq<Byte>>) {
    && (forall i :: 0 <= i < |cs| ==> 0 < |cs[i]| <= ChunkSize)
    && (forall i :: 0 <= i < |cs| - 1 ==> |cs[i]| == ChunkSize)
  }

  /** The chunks from `from` on join back to the rest of the buffer. */
  lemma {:induction false} ChunksFromJoin(buf: seq<Byte>, from: nat)
    requires from <= |buf|
    ensures Flatten(ChunksFrom(buf, from)) == buf[from..]
    decreases |buf| - from
  {
    if from < |buf| {
      var cs := ChunksFrom(buf, from);
      assert cs[1..] == ChunksFrom(buf, from + ChunkSize);
      if from + ChunkSize <= |buf| {
        ChunksFromJoin(buf, from + ChunkSize);
        assert buf[from..] == buf[from..from + ChunkSize] + buf[from + ChunkSize..];
      } else {
        assert cs[1..] == [];
      }
    }
  }

  /** The chunks from `from` on are cut evenly. */
  lemma {:induction false} ChunksFromCut(buf: seq<Byte>, from: nat)
    ensures WellCut(ChunksFrom(buf, from))
    decreases |buf| - from
  {
    if from < |buf| {
      var cs := ChunksFrom(buf, from);
      var rest := ChunksFrom(buf, from + ChunkSize);
      ChunksFromCut(buf, from + ChunkSize);
      assert cs[1..] == rest;
      assert forall i :: 1 <= i < |cs| ==> cs[i] == rest[i - 1];
      if from + ChunkSize > |buf| {
        assert rest == [];
      }
    }
  }

  /** There are as many chunks from `from` on as `ChunkSize`-byte pieces cover the rest. */
  lemma {:induction false} ChunksFromCount(buf: seq<Byte>, from: nat)
    ensures |ChunksFrom(buf, from)| == if from >= |buf| then 0 else (|buf| - from + ChunkSize - 1) / ChunkSize
    decreases |buf| - from
  {
    if from < |buf| {
      ChunksFromCount(buf, from + ChunkSize);
    }
  }

  /** The stream's chunks: they join back to the buffer, each is non-empty and at most `ChunkSize` bytes, and all but the last are full. */
  function Chunks(buf: seq<Byte>): (r: seq<seq<Byte>>)
    ensures Flatten(r) == buf
    ensures WellCut(r)
    ensures |r| == (|buf| + ChunkSize - 1) / ChunkSize
  {
    ChunksFromJoin(buf, 0);
    ChunksFromCut(buf, 0);
    ChunksFromCount(buf, 0);
    ChunksFrom(buf, 0)
  }

  /** The cutting is the only even one: any well-cut chunks that join to the buffer are its chunks. */
  lemma {:induction false} ChunksUnique(buf: seq<Byte>, cs: seq<seq<Byte>>)
    requires Flatten(cs) == buf && WellCut(cs)
    ensures cs == Chunks(buf)
    decreases |cs|
  {
    if |cs| > 0 {
      var rest := Flatten(cs[1..]);
      assert buf == cs[0] + rest;
      if |cs| == 1 {
        assert cs[1..] == [];
        assert buf == cs[0] && buf[0..|buf|] == buf;
      } else {
        assert |cs[0]| == ChunkSize;
        assert forall i :: 0 <= i < |cs| - 1 ==> cs[1..][i] == cs[i + 1];
        ChunksUnique(rest, cs[1..]);
        assert buf[ChunkSize..] == rest && buf[0..ChunkSize] == cs[0];
        ChunksShift(buf, rest, ChunkSize, 0);
      }
    }
  }

  /** Cutting a buffer from `start + from` on is cutting its tail from `from` on. */
  lemma {:induction false} ChunksShift(buf: seq<Byte>, tail: seq<Byte>, start: nat, from: nat)
    requires start <= |buf| && buf[start..] == tail
    ensures ChunksFrom(buf, start + from) == ChunksFrom(tail, from)
    decreases |tail| - from
  {
    if from < |tail| {
      var hi := Min(from + ChunkSize, |tail|);
      assert Min(start + from + ChunkSize, |buf|) == start + hi;
      assert buf[start..|buf|] == tail;
      SubSlice(buf, start, |buf|, from, hi);
      assert buf[start + from..start + hi] == tail[from..hi];
      ChunksShift(buf, tail, start, from + ChunkSize);
    }
  }
}

=== FILE: wrappers.dfy ===
/** Failure-compatible wrappers shared by every module of the model. */
module Wrappers {

  /** A value that may be missing: JavaScript's `undefined` / `null` results. */
  datatype Option<+T> = None | Some(value: T) {

    predicate IsFailure() {
      None?
    }

    function PropagateFailure<U>(): Option<U>
      requires None?
    {
      None
    }

    function Extract(): T
      requires Some?
    {
      value
    }

    function GetOr(default: T): T {
      match this
      case Some(v) => v
      case None => default
    }
  }

  /** An HTTP-style outcome: a value, or the status and message the handler would send. */
  datatype Result<+R> = Ok(value: R) | Err(status: int, message: string) {

    predicate IsFailure() {
      Err?
    }

    function PropagateFailure<U>(): Result<U>
      requires Err?
    {
      Err(status, message)
    }

    function Extract(): R
      requires Ok?
    {
      value
    }
  }

  /** An evaluation that returns a value or throws an error with a message. */
  datatype Eval<+T> = Value(value: T) | Threw(message: string)

  /** Which definition a handler runs: the code as written, or the code corrected for a finding. */
  datatype Variant = AsWritten | Corrected
}
